=== FILE: README.md ===
# ArCsent core in Dafny

ArCsent is a host-security daemon written in Go: scanner plugins read `/proc`,
the auth log and the file system on a schedule; their results pass through a
threshold rule engine, a multi-scanner correlator and per-metric baselines;
alerts go out through log, syslog, e-mail and webhook channels; results,
baselines and signature-update status live in a Badger key-value store; an HTTP
API, a web UI proxy and an `arcsent ctl` command-line client expose it all, and
a React dashboard reads the API.

This project models the deterministic core of that system as pure Dafny
functions over immutable datatypes, with the file system, the network, the
clock, Go's map iteration order and library parsers passed in as parameters.
One module per source file or component:

- `ScannerTypes`, `PluginConfig`: the shared result, finding and severity
  types, Go's dynamic configuration values and how plugins read them.
- `KvStore`, `ResultsStore`: the Badger store as a finite map keyed by
  `bucket + "/" + key`, and the scan-result store built on it.
- `SigRegistry`, `SigStore`, `SigUpdater`: the known signature sources, the
  persisted update status and the updater's status assembly, file naming and
  archive-path safety check.
- `Scheduler`, `PluginManager`, `ResultCache`: schedule parsing, the job table,
  the retry loop and job state; the plugin registry; the bounded result cache.
- `Rules`, `Correlation`, `BaselineManager`: threshold rules, the windowed
  correlator with its cooldown, and Welford baselines with the anomaly test.
- `Alerting`: channel factory, severity filters, e-mail and syslog channels,
  and the engine's de-duplication, bounded queue and delivery retries.
- `Configuration`: defaults, validation, redaction, duration accessors and
  environment overrides.
- `Daemon`, `Privileges`: signal handling, rule conversion, the boot and
  reload transitions, and uid/gid resolution with the privilege drop.
- `AuthGate`, `ApiServer`, `Exposition`, `WebUi`, `Cli`: the token check, the
  API's routing and handlers, the metrics exposition text, the web UI's
  proxy/SPA decision, and the command-line client.
- `WebClient`, `Dashboard`: the dashboard's API client and its page state,
  including the parser of the metrics text, which round-trips with the
  server's serialiser.
- `CpuMemory`, `LoadAvg`, `Uptime`, `NetworkListeners`, `DiskUsage`,
  `ProcessMonitor`, `AuthLog`, `FileIntegrity`: the system plugins' settings,
  parsers and finding rules.
- `Wrappers`, `Text`, `Decimal`, `Seqs`: `Option`/`Result`, and the parts of
  Go's `strings` and `strconv` the code relies on (`Fields`, `Split`, `Join`,
  `TrimSpace`, `Atoi`, `ParseUint`, ...), with their own round-trip lemmas.

Where the code and its design notes disagree, the model follows the code:

- The dashboard's `formatTime` shows the placeholder only for a missing or
  empty value; a zero instant is rendered like any other.
- `parseLoadAvg` reads the last PID with `strconv.Atoi` and ignores the error,
  so an out-of-range number gives Atoi's clamped bound rather than 0. That
  includes a field whose leading digits exceed 64 bits even when other
  characters follow, because `strconv` reads digit by digit and reports the
  overflow before it reaches them.

## Model

| member | source | states |
|---|---|---|
| ScannerTypes.ToFloat | internal/detection/rules.go:83-100 | exactly the six numeric kinds convert to a float (float64 and float32 as they are, the integer kinds by value); anything else is not a number |
| KvStore.MakeKeyInjectiveOnKey | internal/storage/badger.go:113-115 | within one bucket, distinct keys are stored under distinct store keys |
| KvStore.Open | internal/storage/badger.go:19-39 | an empty path is the "storage path is required" error; a key that does not decode is "decode encryption key: " followed by the decoder's error, one of another length is "encryption key must be 32 bytes", and Badger's own failure comes back as "open badger: " followed by its error; the store opens exactly when the path is set, Badger opens, and any encryption key decodes to exactly 32 bytes |
| KvStore.Put | internal/storage/badger.go:41-49 | an empty bucket or key is the "bucket and key are required" error; otherwise the key holds the value and every other entry is unchanged |
| KvStore.Get | internal/storage/badger.go:51-73 | an empty bucket or key is refused; otherwise a missing key is not-found and a present one returns its stored bytes |
| KvStore.Delete | internal/storage/badger.go:97-104 | an empty bucket or key is refused; otherwise exactly that entry is removed |
| KvStore.BucketKeys | internal/storage/badger.go:79-86 | a name is in the set exactly when the bucket prefix followed by it is a stored key: the bucket's keys with the prefix removed |
| KvStore.ForEach | internal/storage/badger.go:75-95 | with the iteration started at the bucket prefix: an empty bucket is refused; otherwise the callback runs on the bucket's entries in order, success means it accepted all of them, and a failure is the first entry it rejected, after all earlier ones were accepted |
| KvStore.Visit | internal/storage/badger.go:83-93 | the iteration from a position on stops exactly at the first entry the callback rejects and returns that error |
| KvStore.KeyBeforeFirst | internal/storage/badger.go:81-83 | in Badger's byte-wise key order, a key before another never has a larger first character |
| KvStore.LeadRun | internal/storage/badger.go:83 | the loop condition `ValidForPrefix` holds for exactly the leading keys of the store that carry the prefix, and fails at the first one that does not |
| KvStore.Visited | internal/storage/badger.go:79-86 | the keys the iteration from the first store key reaches are the leading run of prefixed keys, each with the prefix removed |
| KvStore.ForEachAsWritten | internal/storage/badger.go:75-95 | the iteration as written, started at the first key of the whole store: an empty bucket is refused; otherwise the callback runs, in order, only on the leading run of the bucket's keys, and a failure is the first of them it rejected |
| KvStore.ResultsHiddenByBaseline | internal/storage/badger.go:81-83 | once any "baselines/" key is stored, the iteration over "results" visits nothing and passes |
| KvStore.AsWrittenAgreesWhenFirst | internal/storage/badger.go:81-83 | when the bucket's keys come first in the store, the iteration as written reaches exactly the bucket's keys and does what the corrected iteration does |
| KvStore.GetAfterPut | internal/storage/badger.go:41-73 | a value written is read back, and writing one key does not change what another key reads |
| KvStore.GetAfterDelete | internal/storage/badger.go:51-104 | a deleted key reads as not found, and deleting twice is the same as deleting once |
| ResultsStore.RandSuffix | internal/storage/results.go:64-70 | four random bytes as eight lower-case hex digits, or "0000" when the random source fails; never empty and never holding the key's '-' separator |
| ResultsStore.Save | internal/storage/results.go:23-30 | an unencodable result is "encode result: " followed by the encoder's error; otherwise the store gains the encoded result under the key built from the time, the scanner name and the suffix |
| ResultsStore.DecodeAll | internal/storage/results.go:34-41 | one decoded result per visited key, in iteration order |
| ResultsStore.List | internal/storage/results.go:32-49 | with the corrected iteration: the listing succeeds exactly when every stored entry decodes, and then holds one result per entry in iteration order; otherwise it is "decode result: " followed by the decoder's error for the first entry in iteration order that does not decode |
| ResultsStore.PruneOlderThan | internal/storage/results.go:51-62 | with the corrected iteration: the store loses exactly the decodable results with a finish time before the cutoff; undecodable entries and unfinished results stay |
| ResultsStore.PruneGuarded | internal/storage/results.go:52-61 | the walk over a snapshot deletes from the live store exactly the expired entries of the keys it visits |
| ResultsStore.ListAsWritten | internal/storage/results.go:32-49 | over the iteration as written: the listing succeeds exactly when every visited entry decodes, and then holds one result per visited key in store order; otherwise it is "decode result: " followed by the first visited entry's decode error |
| ResultsStore.PruneOlderThanAsWritten | internal/storage/results.go:51-62 | over the iteration as written: only the expired results among the visited keys are deleted |
| ResultsStore.ListHiddenByBaseline | internal/storage/results.go:32-49 | in a store that holds a baseline, the listing as written is empty |
| ResultsStore.PruneHiddenByBaseline | internal/storage/results.go:51-62 | in a store that holds a baseline, the prune as written deletes nothing |
| ResultsStore.SavedResultUnlistedAsWritten | internal/storage/results.go:23-49 | in a store that holds a baseline, a result just saved is not listed by the listing as written |
| ResultsStore.ListAfterSave | internal/storage/results.go:23-49 | with the corrected iteration and a codec that decodes what it encodes, a saved result is among those listed afterwards, whatever the iteration order |
| SigStore.Normalize | internal/signatures/store.go:62-64 | a status with a nil source map gets an empty one and nothing else changes |
| SigStore.SaveStatus | internal/signatures/store.go:42-48 | an unencodable status is "encode signatures status: " followed by the encoder's error; otherwise the status document is stored under its fixed key |
| SigStore.LoadStatusFrom | internal/signatures/store.go:50-66 | a missing document loads as the empty status, a store error is passed on, an undecodable document is "decode signatures status: " followed by the decoder's error, and a decoded one always has a source map |
| SigStore.LoadAfterSave | internal/signatures/store.go:42-66 | a saved status loads back unchanged, except that a nil source map comes back empty |
| SigStore.LoadFresh | internal/signatures/store.go:50-55 | a store that never held a status loads as the empty status |
| SigRegistry.DefaultsKnownAndDistinct | internal/signatures/registry.go:16-37 | the five default sources are all known sources, and none is listed twice |
| SigRegistry.NineKnownSources | internal/signatures/registry.go:4-26 | exactly nine distinct source ids are known |
| SigRegistry.CustomNeverKnown | internal/signatures/registry.go:40-43 | no "custom:" id is a known source |
| SigUpdater.DefaultSourceUrls | internal/signatures/updater.go:270-283 | every known source has a default URL entry (the optional ones empty), and no other id does |
| SigUpdater.BuiltInSources | internal/signatures/updater.go:257-268 | one source per known or overridden id, named by its id; an override's URL wins, other ids keep the default URL |
| SigUpdater.BeforeQuery | internal/signatures/updater.go:286 | the first piece of the URL split at '?': a prefix of it holding no '?', followed in the URL by a '?' if shorter |
| SigUpdater.PathBase | internal/signatures/updater.go:287 | as `path.Base`: "." for the empty path, otherwise a non-empty last element holding no '/' (or "/" itself), and no '?' appears that was not in the input |
| SigUpdater.FilenameForUrl | internal/signatures/updater.go:285-293 | a non-empty file name is a trimmed single path element with no query, and never "." |
| SigUpdater.FilenameOfBase | internal/signatures/updater.go:285-293 | a URL whose query-less base is a plain trimmed name yields exactly that name |
| SigUpdater.DownloadName | internal/signatures/updater.go:57-60 | the download is saved under the URL's file name, or "latest.data" when it has none; never under an empty name |
| SigUpdater.FilenameOfPlainUrl | internal/signatures/updater.go:285-293 | a URL ending in "/name", with or without a query string, yields "name" |
| SigUpdater.SourceUpdate | internal/signatures/updater.go:45-97 | the status always names the source and its URL; no URL fails before any download with "no URL configured for source"; a failed download is the error with no path; a finished one records the joined destination path and the byte count |
| SigUpdater.Entry | internal/signatures/updater.go:208-226 | the entry for a configured id names that id, and an id without a registered source gets the "source not registered" entry |
| SigUpdater.Record | internal/signatures/updater.go:208-226 | the map the loop builds holds exactly the ids it was given, each with the value recorded at one of its positions |
| SigUpdater.RecordKeepsLast | internal/signatures/updater.go:211-225 | an id ends with the value of its last position |
| SigUpdater.Entries | internal/signatures/updater.go:208-226 | the per-source map has exactly the configured ids, each entry names its id, and unregistered ids carry "source not registered" |
| SigUpdater.EntriesKeepLast | internal/signatures/updater.go:208-226 | an id listed twice ends with the entry of its last listing |
| SigUpdater.RunOnce | internal/signatures/updater.go:171-233 | the run is stamped now, the next run is an interval later when the interval is positive, the air-gap flag follows the import path; an air-gap run records only the "airgap" entry (its error, or the cache directory on success); otherwise the map has exactly the configured ids |
| SigUpdater.RunOnceRecordsFailures | internal/signatures/updater.go:217-225 | a configured source whose download failed has that failure recorded as its error |
| SigUpdater.Trigger | internal/signatures/updater.go:157-162 | refused with "signatures updates are disabled" exactly when updates are off; otherwise it is one run |
| SigUpdater.SaveRun | internal/signatures/updater.go:228-230 | the status is saved when there is a store, and a failed save is ignored and leaves the store as it was |
| SigUpdater.StatusAfterRun | internal/signatures/updater.go:164-233 | with a codec that decodes what it encodes, the status a run saved is what `Status` loads afterwards |
| SigUpdater.CurrentStatus | internal/signatures/updater.go:164-169 | without a store the empty status (no source map); otherwise whatever the store loads |
| SigUpdater.SafeExtractPath | internal/signatures/updater.go:456-468 | an entry whose cleaned name starts with ".." or contains "../" is refused as a traversal; otherwise the target is the destination joined with the name, accepted exactly when it is the destination or lies under it |
| AuthGate.PresentedToken | internal/api/server.go:117-120 | the `Authorization` header when it is set, otherwise the `token` query parameter |
| AuthGate.WithAuth | internal/api/server.go:115-127 | a request is answered 401 exactly when a token is configured and the presented one differs; otherwise the wrapped handler's reply is passed through |
| AuthGate.AdmitsCases | internal/api/server.go:115-127 | a request passes exactly when no token is configured, or its header carries the token, or it has no header and its query carries the token |
| AuthGate.HeaderTakesPrecedence | internal/api/server.go:117-121 | a wrong header is refused even when the query parameter holds the right token |
| ApiServer.Aliased | internal/api/server.go:87-90 | each route is registered a second time under "/api", for the same endpoint |
| ApiServer.Resolve | internal/api/server.go:86 | the mux serves the longest registered pattern that matches the path, and nothing when none matches |
| ApiServer.AliasMatches | internal/api/server.go:89 | a pattern under "/api" matches a path under "/api" exactly when the plain pattern matches the plain path |
| ApiServer.ResolveAliased | internal/api/server.go:87-90 | among the aliased routes, "/api" + x resolves to the alias of whatever x resolved to among the plain ones |
| ApiServer.ApiAliasRoutesAlike | internal/api/server.go:85-105 | every path under "/api" reaches the same endpoint as the path without the prefix |
| ApiServer.ResolveUnique | internal/api/server.go:86 | when exactly one pattern matches a path, the mux picks that pattern |
| ApiServer.RouteUnique | internal/api/server.go:85-105 | a plain path matched by exactly one route is served by that route's endpoint, plain and under "/api" alike |
| ApiServer.RoutePathFor | internal/api/server.go:91-103 | each of the thirteen endpoints is reached by its own path, plain or under "/api", and by no other endpoint |
| ApiServer.TriggerNameAsWritten | internal/api/server.go:160 | `TrimPrefix` of "/scanners/trigger/": the rest of the path when it has that prefix, otherwise the whole path |
| ApiServer.TriggerName | internal/api/server.go:159-171 | the corrected name: what follows the trigger prefix on either registration |
| ApiServer.TriggerNameAsWrittenKeepsAlias | internal/api/server.go:160 | a concrete path on the alias whose name, as written, is the whole path |
| ApiServer.AsWrittenKeepsWholeAliasPath | internal/api/server.go:160 | on the alias, the as-written name is never the scanner's name |
| ApiServer.TriggerOnAlias | internal/api/server.go:94-160 | a trigger sent on the alias reaches the trigger handler; the corrected name is the scanner's name, the as-written one is not |
| ApiServer.TriggerNameOnBothRoutes | internal/api/server.go:89-94 | the corrected name is the scanner's name on the plain and the aliased trigger path |
| ApiServer.HandleTrigger | internal/api/server.go:159-171 | an empty name is a 400 "scanner name required"; a run error is a 400 with that error; the reply is a 200 exactly when the one-off run returns no error, and then carries its result, or `null` when it returned none |
| ApiServer.HandleSignaturesUpdate | internal/api/server.go:247-262 | any method but POST is a 405; no updater is a 400; the reply is a 200 exactly when the triggered update succeeds, and then carries its status |
| ApiServer.HandleSignaturesStatus | internal/api/server.go:234-245 | without a store a 200 with the body `{}`; a load error is a 500 with that error; otherwise a 200 with the loaded status |
| ApiServer.ResultsToRows | internal/api/server.go:336-349 | one six-column row per result, in order: name, status, findings count, both times as RFC 3339 and the duration |
| ApiServer.FindingsColumnReadsBack | internal/api/server.go:342 | the findings column parses back as the number of findings |
| ApiServer.BaselinesToRows | internal/api/server.go:351-365 | one seven-column row per baseline, in order: scanner, metric, count, mean, min, max with `%f`, and the update time as RFC 3339 |
| ApiServer.CountColumnReadsBack | internal/api/server.go:357 | the count column parses back as the count |
| Exposition.OkSources | internal/api/server.go:306-311 | the count of sources whose last update reported no error is at most the number of sources |
| Exposition.Select | internal/api/server.go:292-318 | only gauges whose component is present are written, in the order they are listed |
| Exposition.Render | internal/api/server.go:276-283 | the document is empty exactly when no gauge is written |
| Exposition.NameTextValid | internal/api/server.go:285-317 | every gauge name matches the Prometheus metric-name grammar `[a-zA-Z_:][a-zA-Z0-9_:]*`, starts with "arcsent_" and so holds no blank |
| Exposition.MetricNameConcat | internal/api/server.go:285-317 | two names that follow the metric-name grammar, written one after the other, follow it too |
| Exposition.NameTextInNamespace | internal/api/server.go:285-317 | every gauge name starts with "arcsent_" |
| Exposition.NameTextInjective | internal/api/server.go:285-317 | distinct gauges are written under distinct names |
| Exposition.SelectDistinct | internal/api/server.go:292-318 | keeping some gauges of a list without repetitions writes none of them twice |
| Exposition.SelectValue | internal/api/server.go:292-318 | a listed gauge is written exactly when present, with the observed value |
| Exposition.GaugesDistinct | internal/api/server.go:276-323 | no gauge is written twice in the document |
| Exposition.GaugesReport | internal/api/server.go:276-323 | each gauge is written exactly when its component is attached (the status loaded, the time set), with the observed count, flag or Unix time |
| WebUi.ApiTarget | internal/webui/server.go:28-34 | the proxy has a target exactly when an API address is set and "http://" + address parses |
| WebUi.Proxy | internal/webui/server.go:135-143 | without a target every request is a 503; with one the request is forwarded with its path as it is |
| WebUi.Spa | internal/webui/server.go:96-116 | a path naming a file of the bundle serves that file; anything else serves the index, or "Web UI not built" with a 500 when there is none |
| WebUi.Handle | internal/webui/server.go:90-118 | the "/api/" subtree goes through the token gate to the proxy, bare "/api" is redirected to "/api/", and every other path goes to the SPA handler |
| WebUi.OnlyApiGuarded | internal/webui/server.go:90-118 | no path outside "/api/" is ever refused with a 401 |
| WebUi.LandingNeedsNoToken | internal/webui/server.go:97-116 | the landing page is served without a token once the bundle is built |
| WebUi.ProxyGateRule | internal/webui/server.go:121-133 | an "/api/" request is refused by the proxy exactly when it does not carry the web UI's own token (`web_ui.auth_token`) |
| WebUi.ProxiedRequestReachesApi | internal/webui/server.go:121-133 | a proxied request reaches an API handler exactly when it carries both the web UI's token and the API's token (`api.auth_token`) |
| WebUi.SeparateTokensDisagree | internal/webui/server.go:121-133 | with different tokens configured, a request the proxy forwards can be refused by the API, and one the API would admit can be refused by the proxy |
| WebUi.NoCredentialRefused | internal/webui/server.go:121-133 | with a token configured, a request with no credential at all is a 401 |
| WebUi.SpaFallback | internal/webui/server.go:97-116 | a client-side route reloads as the index, while a file of the bundle is served as it is |
| WebUi.ForwardedUnchanged | internal/webui/server.go:93 | with a target and the right token, an "/api/" request is forwarded with its path unchanged |
| WebUi.DashboardTriggerPath | internal/webui/server.go:93 | the dashboard's trigger request is forwarded unchanged to the API's trigger endpoint; the corrected handler reads the plugin's name from it and the handler as written does not |
| WebClient.GetToken | web/src/lib/api.ts:43 | a token is read exactly when one is stored |
| WebClient.SetToken | web/src/lib/api.ts:44 | storage gains the token key and every other key keeps its value |
| WebClient.TokenRoundTrip | web/src/lib/api.ts:43-44 | a stored token is the one read back, and no other key appears or disappears |
| WebClient.RequestHeaders | web/src/lib/api.ts:47-52 | the headers carry the caller's own headers over the defaults: the token (or "" when none is stored) and the content type |
| WebClient.FailureMessage | web/src/lib/api.ts:55-60 | a 401 throws "Unauthorized", any other failure "Request failed: " with the status text |
| WebClient.FetchRequest | web/src/lib/api.ts:46-54 | the request goes to "/api" + path, with the caller's method (GET otherwise) and the merged headers |
| WebClient.Receive | web/src/lib/api.ts:54-61 | a network error passes through, a failed status becomes its message, and a successful body is decoded |
| WebClient.MetricsRequest | web/src/lib/api.ts:74-80 | the metrics request is a GET of "/api/metrics" carrying only the token and the plain-text content type |
| WebClient.GetMetricsText | web/src/lib/api.ts:74-88 | a successful answer yields its raw body, a failed status its message, a network error that error |
| WebClient.UnauthorizedIsDistinct | web/src/lib/api.ts:55-60 | the message "Unauthorized" comes from a 401 and from no other failure |
| WebClient.CallsReachServer | web/src/lib/api.ts:64-73 | every call of the client reaches, through the "/api" alias, the server endpoint it is meant for |
| WebClient.CallPathIsPathFor | web/src/lib/api.ts:64-73 | each call's path is the server's registered path for its endpoint |
| WebClient.UpdateUsesPost | web/src/lib/api.ts:72-73 | the signature update is sent with POST, so its handler never answers 405 |
| WebClient.PluginList | web/src/pages/Scanners.tsx:12-17 | the list shown is `data.plugins`, or empty when absent |
| WebClient.Apply | web/src/pages/Scanners.tsx:19-29 | one state update sets the spinner of its plugin and leaves the others alone |
| WebClient.SpinningAfter | web/src/pages/Scanners.tsx:19-29 | however triggers of several plugins interleave, a plugin spins exactly when its latest event started a request |
| WebClient.HandleTrigger | web/src/pages/Scanners.tsx:19-29 | the plugin's spinner is on while the request runs and off afterwards, and other plugins' spinners are unchanged |
| WebClient.TriggerFailureSwallowed | web/src/pages/Scanners.tsx:24-28 | a failed trigger leaves the page exactly as a successful one does |
| Dashboard.ParseLine | web/src/pages/Dashboard.tsx:49-62 | a kept line has at least two fields, its name is the first field, carries the "arcsent_" prefix and no blank, and its value is the finite number the second field reads as; a blank line and a "#" comment are skipped |
| Dashboard.ParseLineKeeps | web/src/pages/Dashboard.tsx:50-62 | a line is kept exactly when its trimmed text is non-empty, does not start with "#", has at least two fields, a finite second field and an "arcsent_" first field, and then gives that name and number |
| Dashboard.ParseLines | web/src/pages/Dashboard.tsx:48-63 | every key of the parsed map is an "arcsent_" name without blanks |
| Dashboard.ParseLinesKeys | web/src/pages/Dashboard.tsx:48-63 | for any lines, a name is in the parsed map exactly when some kept line carries it |
| Dashboard.ParseLinesLastWins | web/src/pages/Dashboard.tsx:61 | for any lines, a parsed name holds the value of the last kept line carrying it, later lines overwriting earlier ones |
| Dashboard.ParseMetrics | web/src/pages/Dashboard.tsx:47-64 | the metrics parsed from the fetched text are keyed by "arcsent_" names only |
| Dashboard.Lines | internal/api/server.go:278-283 | one document line per gauge written, in order |
| Dashboard.LineShape | internal/api/server.go:278-283 | a gauge line is its name and integer value separated by one blank, with no line break and no surrounding blanks |
| Dashboard.ParseLineOfLine | web/src/pages/Dashboard.tsx:49-62 | the dashboard reads a line the server wrote back as that gauge's name and value |
| Dashboard.ParseLinesOfLines | web/src/pages/Dashboard.tsx:48-63 | reading the server's lines in order gives the map of each gauge's last value |
| Dashboard.ParseRendered | web/src/pages/Dashboard.tsx:44-69 | the dashboard recovers exactly the gauges the server's document holds, with their values |
| Dashboard.GaugeMapValue | web/src/pages/Dashboard.tsx:61 | a name is in the parsed map exactly when some gauge carried it, with the last value written |
| Dashboard.DashboardReadsExposition | web/src/pages/Dashboard.tsx:44-69 | end to end, the metrics card holds a gauge exactly when the server writes it, with the value the server observed |
| Dashboard.FailedSources | web/src/pages/Dashboard.tsx:74 | the count of sources with a non-empty error is at most the number of sources |
| Dashboard.SourceCountsAgree | web/src/pages/Dashboard.tsx:71-75 | the dashboard's healthy-source count equals the server's `arcsent_signatures_sources_ok_total` count, and healthy plus failed is the total |
| Dashboard.SourcesLine | web/src/pages/Dashboard.tsx:169-172 | the sources line is the placeholder exactly when the status has no sources |
| Dashboard.AirgapLine | web/src/pages/Dashboard.tsx:173-177 | the air-gap line shows exactly in air-gap mode, naming the import path or "enabled" when it is empty |
| Dashboard.FormatTime | web/src/pages/Dashboard.tsx:77-82 | a missing or empty time shows the placeholder, an unreadable one is shown as it is, a readable one in local form |
| Dashboard.FormatTimeNeverBlank | web/src/pages/Dashboard.tsx:77-82 | a time shown is never blank when the local rendering is not |
| Dashboard.Begin | web/src/pages/Dashboard.tsx:23 | starting a request turns the spinner on and keeps the data and the error |
| Dashboard.Settle | web/src/pages/Dashboard.tsx:24-30 | on success the data is replaced and the error cleared; on failure the data stays and the error shows the message or the fallback text; the spinner turns off either way |
| Dashboard.RefreshSettles | web/src/pages/Dashboard.tsx:22-42 | after any request the panel is idle and shows an error exactly when the request failed |
| Dashboard.RefreshMetrics | web/src/pages/Dashboard.tsx:44-69 | a fetched document replaces the metrics with its parse and clears the error; a failure keeps the metrics and shows a non-empty error |
| Dashboard.MetricsCardAfterRefresh | web/src/pages/Dashboard.tsx:126-142 | after a successful refresh the card holds a counter exactly for the gauges the server writes, each with the value it observed, and no error |
| Configuration.Messages | internal/config/config.go:403-404 | one message per problem, in the same order |
| Configuration.EachProblems | internal/config/config.go:319-346 | a loop over a list reports nothing exactly when every item checked so far is fine |
| Configuration.DaemonProblems | internal/config/config.go:219-242 | no daemon problem exactly when the log level and format are known, a set shutdown timeout parses, and a root daemon dropping privileges names its user and group |
| Configuration.StorageProblems | internal/config/config.go:244-259 | no storage problem exactly when the database path is set and absolute, retention is not negative, and a set encryption key decodes to 32 bytes |
| Configuration.SourceListProblems | internal/config/config.go:272-280 | no problem exactly when every listed source is known or a "custom:" id |
| Configuration.UrlEntryProblems | internal/config/config.go:281-288 | an override entry is fine exactly when its id is known or custom and its URL is not blank |
| Configuration.UrlProblems | internal/config/config.go:281-288 | visiting the override keys in some order finds nothing exactly when every visited entry is fine |
| Configuration.UrlOrderIrrelevant | internal/config/config.go:281-288 | whatever order Go visits the override map in, no problem is found exactly when every entry is fine |
| Configuration.UrlMapProblems | internal/config/config.go:281-288 | the override checks report nothing exactly when the whole map is fine |
| Configuration.IntervalProblems | internal/config/config.go:262-266 | no problem exactly when the update interval is set and parses |
| Configuration.SourcesProblems | internal/config/config.go:268-280 | no problem exactly when at least one source is listed and each is accepted |
| Configuration.CacheDirProblems | internal/config/config.go:290-294 | no problem exactly when the cache directory is an absolute path |
| Configuration.UpdatesProblems | internal/config/config.go:261-295 | with updates enabled, no problem exactly when interval, sources, overrides and cache directory are all fine |
| Configuration.SignaturesProblems | internal/config/config.go:261-299 | no signatures problem exactly when the enabled-only checks pass (or updates are off) and a set air-gap path is absolute |
| Configuration.ServerProblems | internal/config/config.go:301-317 | an enabled server has no problem exactly when its bind address and token are set |
| Configuration.ScannerProblems | internal/config/config.go:320-345 | a scanner entry has no problem exactly when it has a name and a plugin, an enabled one has a schedule, and its set durations parse |
| Configuration.ScannersProblems | internal/config/config.go:319-346 | no scanner problem exactly when every scanner entry is fine |
| Configuration.RuleProblems | internal/config/config.go:365-378 | a rule has no problem exactly when name, scanner and metric are set and the operator is one of the five, ignoring case |
| Configuration.RulesProblems | internal/config/config.go:364-379 | no rule problem exactly when every rule is fine |
| Configuration.DetectionProblems | internal/config/config.go:348-379 | no detection problem exactly when the set durations parse, both minimums are at least 1 and every rule is fine |
| Configuration.ChannelsProblems | internal/config/config.go:394-398 | no channel problem exactly when every channel names its type |
| Configuration.AlertingProblems | internal/config/config.go:381-398 | no alerting problem exactly when the set durations parse, the retry count is not negative and every channel names its type |
| Configuration.HostProblems | internal/config/config.go:219-299 | no problem in the daemon, storage and signatures sections exactly when all three are valid |
| Configuration.ServicesProblems | internal/config/config.go:301-346 | no problem in the servers and scanners exactly when they are valid |
| Configuration.AnalysisProblems | internal/config/config.go:348-401 | no problem in detection, alerting and security exactly when they are valid |
| Configuration.Problems | internal/config/config.go:216-402 | the validator finds no problem exactly when every requirement holds |
| Configuration.Validate | internal/config/config.go:216-408 | no error exactly when the configuration is valid; otherwise one error holding every failed check's message, in order, joined by "; " |
| Configuration.DefaultValidates | internal/config/config.go:139-189 | the default configuration passes validation |
| Configuration.MissingTokenReported | internal/config/config.go:310-317 | an enabled API without a token is reported after any missing bind address, and validation fails |
| Configuration.MissingScheduleReported | internal/config/config.go:326-330 | an enabled scanner without a schedule is reported under its index |
| Configuration.EachReports | internal/config/config.go:319-346 | a problem of one list item is among the problems of the list |
| Configuration.ScheduleInScanner | internal/config/config.go:326-330 | a scanner entry that is enabled without a schedule reports the missing schedule |
| Configuration.DurationOr | internal/config/config.go:410-503 | a duration field reads as its parsed value when set and parsable, and as its fallback otherwise |
| Configuration.ValidDurationsRead | internal/config/config.go:410-503 | on a valid configuration the accessors never fall back for a set field |
| Configuration.RedactToken | internal/config/config.go:423-428 | a set token becomes "REDACTED" and an empty one stays empty |
| Configuration.Redacted | internal/config/config.go:421-437 | both tokens are masked when set, every source URL is masked under the same keys, a nil URL map stays nil, and nothing else differs |
| Configuration.RedactedIdempotent | internal/config/config.go:421-437 | redacting twice is redacting once |
| Configuration.SourceUrlOverrides | internal/config/config.go:505-511 | a copy of the override map, empty for a nil one |
| Configuration.EnvBool | internal/config/config.go:514-518 | a flag variable applies only when it is set and parses as a boolean |
| Configuration.EnvToken | internal/config/config.go:519-521 | a token variable applies only when it is set and non-empty |
| Configuration.ApplyEnvOverrides | internal/config/config.go:513-535 | the five variables change only the web UI and API flags and tokens and the signatures flag, nothing else |
| Configuration.EnvOverridesSettle | internal/config/config.go:513-535 | applying the overrides twice changes nothing more, and an environment without the variables changes nothing at all |
| Configuration.UnparsableFlagIgnored | internal/config/config.go:527-531 | a value such as "yes", which `ParseBool` rejects, leaves the API flag alone |
| Configuration.Checked | internal/config/config.go:209-213 | the configuration is returned exactly when it is valid; otherwise the error is the validation's own error |
| Configuration.Load | internal/config/config.go:191-214 | an unreadable file is the "read config: " error; a file that does not decode is "parse config: " followed by the decoder's error; a decoded file gives the defaults overlaid with the file and the environment, returned exactly when it is valid |
| Cli.NewClient | internal/cli/client.go:20-27 | the base URL loses exactly its trailing slashes and keeps everything before them; the token is kept |
| Cli.NewClientIdempotent | internal/cli/client.go:21 | trimming the base URL a second time changes nothing |
| Cli.Do | internal/cli/client.go:56-70 | a transport error is passed on; a status of 300 or more is "request failed: " with the status and the trimmed body; otherwise the body |
| Cli.JsonRequest | internal/cli/client.go:38-43 | the JSON request goes to base URL + path with the token verbatim, a JSON content type, and the body only when one is given |
| Cli.DoJson | internal/cli/client.go:29-45 | a payload that does not encode fails with "encode json: " before anything is sent; with the payload encoded (or absent), an unbuildable request is its error, and otherwise the JSON request carrying the encoded body is sent and its reply judged as `do` judges it |
| Cli.TextRequest | internal/cli/client.go:48-53 | the text request carries only the token header and no body |
| Cli.DoText | internal/cli/client.go:47-54 | an unbuildable request is its error; otherwise the reply is judged as `do` judges it |
| Cli.ErrorBodyTrimmed | internal/cli/client.go:66-67 | a reply with a status of 300 or more is an error, and its body is trimmed once and for all |
| Cli.Dispatch | cmd/arcsent/main.go:75-165 | without a token the exit code is 1; without a command 2; an unknown command or subcommand is the usage text with exit 2; every other command sends to its endpoint's registered path, `trigger` posting to the plugin named by `-plugin`, else the subcommand, and exiting with 2 when neither names one; POST is used exactly for `trigger` and `signatures update`; text mode exactly for `export` and `metrics`; only `export` adds a query, "format=" and the lower-cased format |
| Cli.CommandsReachServer | cmd/arcsent/main.go:110-165 | every request the CLI sends is for a known command, and the server routes its path to the endpoint that command and subcommand are meant for |
| Cli.PathServed | cmd/arcsent/main.go:110-165 | every fixed path the CLI uses, and every path under the trigger prefix, is routed by the server to the endpoint that path is registered for |
| Cli.PathIsPathFor | cmd/arcsent/main.go:110-165 | the CLI's path for a command is the server's registered path for its endpoint |
| Cli.FixedPathIsPathFor | cmd/arcsent/main.go:110-161 | each fixed CLI path is its endpoint's registered pattern |
| Cli.TriggerNameChoice | cmd/arcsent/main.go:130-139 | `trigger` takes `-plugin` first, then the subcommand, and exits with 2 when neither names a plugin |
| Cli.MaybePrettyJson | cmd/arcsent/main.go:204-221 | the input is changed only when pretty printing is asked for, the trimmed input opens an object or array and indents; then it is the indented text and a newline |
| Cli.Printed | cmd/arcsent/main.go:171-175 | standard output receives the text plus a newline when it is non-empty and does not already end in one |
| Cli.PrintedIdempotent | cmd/arcsent/main.go:172-175 | output already ending in a newline is left alone |
| Cli.Complete | cmd/arcsent/main.go:167-175 | a request error exits with 1 and "ctl error: " on standard error; a reply exits with 0 and prints the reply, pretty-printed when asked |
| Cli.ReloadPid | cmd/arcsent/main.go:32-45 | the process id comes from `-pid`, else `ARCSENT_PID`; none is refused as required; an accepted id is a positive integer that parses from the given text |
| Cli.ReloadPidAccepts | cmd/arcsent/main.go:41-45 | every positive id written in decimal is accepted as itself, and zero and negative ids are refused |
| Daemon.HandleSignals | internal/daemon/runner.go:360-374 | each SIGHUP before the first SIGINT or SIGTERM reloads once; cancel is called exactly when a stop signal arrives, which ends the loop; other signals are ignored |
| Daemon.SignalsAfterStopIgnored | internal/daemon/runner.go:366-369 | once a stop signal has been taken, later signals change nothing |
| Daemon.HangupReloadsOnce | internal/daemon/runner.go:361-365 | one SIGHUP followed by the channel closing reloads once and does not cancel |
| Daemon.TwoReloadsThenStop | internal/daemon/runner.go:360-374 | two SIGHUPs, an unknown signal, SIGTERM and one more SIGHUP reload twice and cancel after four signals |
| Daemon.BuildRules | internal/daemon/runner.go:329-343 | one rule per configured rule, in order, with every field copied and the severity name parsed |
| Daemon.BuildRulesSeverity | internal/daemon/runner.go:345-358 | a severity name is parsed back as its severity, and a misspelt one becomes info |
| Daemon.EnabledScanners | internal/daemon/runner.go:176-179 | the scanners kept are exactly the enabled ones, in order |
| Daemon.Jobs | internal/daemon/runner.go:276-292 | one job per enabled scanner, in order, built from its settings |
| Daemon.JobsAreEnabledScanners | internal/daemon/runner.go:176-193 | every job comes from an enabled scanner and every enabled scanner has its job |
| Daemon.RegisterAll | internal/daemon/runner.go:73-75 | the engine gains the channels in order after those it had |
| Daemon.AlertEngine | internal/daemon/runner.go:67-75 | the engine has the built channels, or a single log channel when building fails, so never none |
| Daemon.Boot | internal/daemon/runner.go:67-193 | the runtime holds the configuration, its rules, a fresh correlator, a fresh alert engine with at least one channel, and one job per enabled scanner |
| Daemon.Reload | internal/daemon/runner.go:213-298 | no configuration path or a failed load leaves everything as it was; otherwise the configuration, rules, correlator, alert engine and jobs are rebuilt from the new file |
| Daemon.ReloadForgets | internal/daemon/runner.go:237-249 | a successful reload forgets the correlator's events and cooldown and the alert engine's de-duplication memory and queue |
| Daemon.RestartNeeded | internal/daemon/runner.go:227-235 | a reload warns about exactly the changed API address, web UI address and database path |
| Daemon.NoWarningsForSameConfig | internal/daemon/runner.go:227-235 | reloading the configuration already running warns about nothing |
| Daemon.FailedReloadsKeepRuntime | internal/daemon/runner.go:213-222 | with no path or a failing load, any number of SIGHUPs leaves the runtime untouched |
| Daemon.ShutdownTimeout | internal/daemon/runner.go:376-384 | the timeout is the given one when positive and ten seconds otherwise |
| Daemon.ShutdownTimeoutOfConfig | internal/config/config.go:410-419 | whatever the configuration says the shutdown timeout is positive, and it is ten seconds for an empty setting or "0s" |
| Privileges.IdOfLine | internal/daemon/privileges.go:95-99 | the ID is the line's third field when that is a non-negative integer; otherwise the "invalid ... id" error |
| Privileges.Scan | internal/daemon/privileges.go:83-100 | nothing is found exactly when no line names the entry; otherwise the first line naming it decides |
| Privileges.LookupName | internal/daemon/privileges.go:75-107 | a file that does not open is the "open" error; the first line naming the entry decides; failing that, a read error or "unknown <kind> <quoted name>" |
| Privileges.ResolveId | internal/daemon/privileges.go:64-73 | unset is -1, a non-negative integer is itself, anything else is looked up by name; a resolved ID is -1 only for an unset value |
| Privileges.NumericIdsSkipLookup | internal/daemon/privileges.go:68-72 | every non-negative ID written in decimal resolves to itself without reading the file |
| Privileges.OneLineLookup | internal/daemon/privileges.go:83-99 | a one-line file whose line names the entry with ID "1234" resolves the name to 1234 |
| Privileges.DaemonLine | internal/daemon/privileges.go:83-99 | a line starting "daemon:x:1234:" resolves "daemon" to 1234 |
| Privileges.ResolvesByName | internal/daemon/privileges.go:56-99 | a passwd entry and a group entry for "daemon" resolve to 1234 |
| Privileges.UnknownName | internal/daemon/privileges.go:102-106 | a name no line carries, with no read error, is an unknown user |
| Privileges.DropPrivileges | internal/daemon/privileges.go:12-38 | nothing happens when neither is set; both settings are resolved before any change; the group is changed before the user, each only when set, with a non-negative ID |
| Privileges.NoSetUidAfterFailedSetGid | internal/daemon/privileges.go:26-35 | a failed group change fails the drop and the user is never changed |
| Privileges.RequirePrivilegeDrop | internal/daemon/privileges.go:40-51 | only root must name both a user and a group, and a missing user is reported before a missing group |
| Privileges.RootDropChangesUser | internal/daemon/privileges.go:12-51 | when root passes the requirement and the drop succeeds, the user is changed |
| Scheduler.ParseSchedule | internal/scheduler/scheduler.go:300-321 | a blank schedule is the "schedule is required" error; what remains after trimming and an "@every " prefix is an interval when it is a positive duration, is refused when it is a non-positive duration, and is otherwise a cron expression or the "unsupported schedule" error |
| Scheduler.EveryPrefixIrrelevant | internal/scheduler/scheduler.go:305-307 | "@every " in front of a trimmed schedule parses exactly as the schedule alone |
| Scheduler.WithDefaults | internal/scheduler/scheduler.go:97-108 | every non-positive timeout, backoff and cap becomes its default, negative retries become zero, and nothing else changes |
| Scheduler.DefaultsIdempotent | internal/scheduler/scheduler.go:97-108 | filling in the defaults a second time changes nothing |
| Scheduler.ComputeNextRun | internal/scheduler/scheduler.go:427-435 | an interval job that ran before is due one interval after its last run unless that has passed, and never earlier than that; otherwise the schedule's next instant after now |
| Scheduler.NextRunRespectsInterval | internal/scheduler/scheduler.go:428-432 | a job that last ran 30 seconds ago on a two-minute interval is not due for at least a minute |
| Scheduler.AddJob | internal/scheduler/scheduler.go:86-126 | a job is added exactly when its name, plugin and schedule are acceptable and its name is new, each refusal with its own message; the other jobs are untouched and the new one carries the defaults, the parsed schedule and its stored state |
| Scheduler.StartAll | internal/scheduler/scheduler.go:128-138 | every job is started and the table keeps its names |
| Scheduler.StopAll | internal/scheduler/scheduler.go:140-149 | every job is stopped and the table keeps its names |
| Scheduler.AddFromSpec | internal/scheduler/scheduler.go:162-166 | the adding loop adds only the names it is given, and passes exactly when every configuration is acceptable against the table built so far, in which case all names are in it |
| Scheduler.AcceptableStep | internal/scheduler/scheduler.go:162-166 | acceptability of the rest of the list splits into the first configuration and the others checked against the table with it added |
| Scheduler.AddFromUnstarted | internal/scheduler/scheduler.go:162-166 | the adding loop leaves the jobs it starts from as they were, and every job it adds is not started |
| Scheduler.AddFromStops | internal/scheduler/scheduler.go:162-166 | when the adding loop fails, it stopped at a configuration that `AddJob` refused, with that refusal's error, after adding all earlier ones |
| Scheduler.ReplaceJobs | internal/scheduler/scheduler.go:151-170 | the old jobs are gone; the call succeeds exactly when every configuration is acceptable and the names are distinct, and then the table holds exactly those names, all started; on failure no job is started, and the error is the one `AddJob` gives for the first configuration it refuses, after all earlier ones were added |
| Scheduler.RunTimeout | internal/scheduler/scheduler.go:236-238 | the timeout is the given one when positive and is always positive |
| Scheduler.RunOnce | internal/scheduler/scheduler.go:231-267 | an unknown plugin is the manager's error; the plugin's error is passed on; a result comes back exactly when the plugin's run returns one, stamped with the start and finish; a nil result is "plugin returned nil result"; a panic in the plugin is recovered and the call returns neither a result nor an error |
| Scheduler.BackoffBounds | internal/scheduler/scheduler.go:344-350 | with positive settings each wait is positive, at most the cap, and no shorter than the one before |
| Scheduler.TriesFrom | internal/scheduler/scheduler.go:325-351 | the loop stops after the first completed attempt or after attempt maxRetries, every earlier attempt having failed |
| Scheduler.ExecuteWithRetry | internal/scheduler/scheduler.go:323-356 | the sleeps between attempts are the capped doubling backoffs; the first completed attempt's result is returned stamped; after maxRetries + 1 failures the last error is returned, or "job failed" when it had none |
| Scheduler.Wrap64 | internal/scheduler/scheduler.go:345 | the int64 two's-complement wrap lands in range and leaves an in-range value alone |
| Scheduler.BackoffAsWrittenAgrees | internal/scheduler/scheduler.go:345-348 | while the product fits in int64 the loop's wait is the intended capped one |
| Scheduler.BackoffAsWrittenWraps | internal/scheduler/scheduler.go:345-349 | with a two-second backoff and thirty-second cap the wait after attempt 33 is negative, where the intended wait is the cap |
| Scheduler.UpdateState | internal/scheduler/scheduler.go:411-425 | a run is recorded at now with its status; a failure extends the failure streak and keeps its message and time, a success clears both and records the success time |
| Scheduler.StreakCountsTrailingFailures | internal/scheduler/scheduler.go:415-423 | after a series of runs the failure streak is the number of failures since the last success, added to the old streak when none succeeded |
| Scheduler.ExecuteJob | internal/scheduler/scheduler.go:202-229 | a running job that forbids overlap is skipped untouched; otherwise the run is recorded, a failure as failed with its message and no result handed on, a success with its status and its result handed on |
| ResultCache.New | internal/state/results.go:27-35 | the cache starts empty, with the given limit when positive and 50 otherwise |
| ResultCache.Add | internal/state/results.go:37-45 | the result becomes its scanner's latest, the other scanners' latest stay, and the history is the most recent `limit` results including this one |
| ResultCache.HistoryKeepsMostRecent | internal/state/results.go:41-44 | after any number of additions the history is the most recent `limit` of all results ever added, oldest first |
| ResultCache.Summarize | internal/state/results.go:101-119 | a summary keeps the scanner, status and times, counts the findings and keeps exactly the string-valued metadata |
| ResultCache.Latest | internal/state/results.go:47-55 | one summary per scanner, each of that scanner's latest result, with no scanner twice |
| ResultCache.History | internal/state/results.go:57-65 | one summary per retained result, in history order |
| ResultCache.FindingRows | internal/state/results.go:81-95 | one row per finding of a result, in order, each stamped with the result's scanner and finish time |
| ResultCache.FindingsHistory | internal/state/results.go:76-99 | as many rows as the retained results have findings |
| ResultCache.FindingPosition | internal/state/results.go:80-96 | finding j of result i comes after every finding of the earlier results, so the list keeps both orders |
| Rules.Compare | internal/detection/rules.go:66-81 | each of the five operators, in any case, holds exactly when its comparison does; any other operator never holds |
| Rules.CompareIgnoresCase | internal/detection/rules.go:67 | an operator compares as its lower-case form |
| Rules.OperatorsRelate | internal/detection/rules.go:68-77 | "gte" is "gt" or "eq", "lt" is not "gte", "lte" is not "gt" |
| Rules.MetricValue | internal/detection/rules.go:34-41 | a rule has a value exactly when its metric is in the metadata with a numeric value |
| Rules.DescriptionOf | internal/detection/rules.go:45-48 | the rule's own description, or "Rule <name> triggered for <metric>" when it has none |
| Rules.RuleFinding | internal/detection/rules.go:49-61 | the finding's ID is "rule_" and the lower-cased name, with the rule's severity, category "rule" and the four evidence keys |
| Rules.Contribution | internal/detection/rules.go:30-61 | a rule contributes one finding exactly when it applies to the scanner, its metric is numeric and the comparison holds |
| Rules.Evaluate | internal/detection/rules.go:28-64 | every firing rule has its finding and every finding comes from a firing rule |
| Rules.EvaluateSplit | internal/detection/rules.go:30-62 | evaluating a list in two parts gives the two parts' findings one after the other |
| Rules.DiskRuleFires | internal/detection/rules.go:28-64 | a "used_pct gte 90" rule for the disk scanner fires once on a result reporting 95 |
| Correlation.New | internal/detection/correlation.go:25-40 | non-positive windows become five minutes, fewer than one scanner becomes two, a non-positive cooldown becomes the window; nothing has been seen |
| Correlation.Prune | internal/detection/correlation.go:81-90 | exactly the events after the cutoff are kept |
| Correlation.Add | internal/detection/correlation.go:42-79 | a result without findings changes nothing; otherwise the new event is appended and the list is pruned, so the events kept are exactly the earlier ones and the new one that lie inside the window, in order, and one finding is emitted exactly when enough distinct scanners remain and the cooldown has passed, which then restarts the cooldown |
| Correlation.SpacedAppend | internal/detection/correlation.go:61-65 | an emission the cooldown allows keeps all emissions a cooldown apart |
| Correlation.EmissionsSpaced | internal/detection/correlation.go:61-65 | over any arrivals, emissions are at least a cooldown apart and the correlator remembers the last one |
| PluginManager.Register | internal/scanner/manager.go:19-34 | a nil plugin, an empty name and a name already taken are refused with their messages; otherwise the plugin is added and the others kept |
| PluginManager.Get | internal/scanner/manager.go:36-44 | the plugin under the name, or "plugin <quoted name> not found" |
| PluginManager.GetAfterRegister | internal/scanner/manager.go:19-44 | a registered plugin is found under its name and every other lookup is unchanged |
| PluginManager.List | internal/scanner/manager.go:46-54 | every registered name exactly once |
| Alerting.ParseSeverity | internal/alerting/factory.go:61-74 | each of the four severity names in any case parses to its severity, and every other text to info |
| Alerting.ParseSeverityOfName | internal/alerting/factory.go:61-74 | every severity's own name parses back to it |
| Alerting.ParseSeverityIgnoresCase | internal/alerting/factory.go:62 | a text parses as its lower-case form |
| Alerting.Mentions | internal/alerting/factory.go:53-58 | the loop finds a match exactly when some entry parses to the severity |
| Alerting.SeverityAllowed | internal/alerting/factory.go:49-59 | an empty list allows everything; otherwise a severity is allowed exactly when some entry parses to it |
| Alerting.AllowListExamples | internal/alerting/factory.go:49-74 | an unrecognised entry allows info, and a list naming all five severities in mixed case allows every severity |
| Alerting.Carry | internal/alerting/email_channel.go:29-55 | a skipped send succeeds, a refused one fails with its message, and a delivery's outcome is the transport's |
| Alerting.AuthHost | internal/alerting/email_channel.go:51 | the host is a prefix of the server text and holds no ':' |
| Alerting.AuthHostOfHostPort | internal/alerting/email_channel.go:51 | for "host:port" the host is what authenticates |
| Alerting.EmailAuth | internal/alerting/email_channel.go:49-53 | plain authentication against the server's host is used exactly when both user and password are set |
| Alerting.EmailPlan | internal/alerting/email_channel.go:29-55 | a disallowed severity is skipped; an allowed one is refused exactly when the server, sender or recipients are missing, and otherwise sent to them with the composed message and the authentication |
| Alerting.EmailMessageLines | internal/alerting/email_channel.go:36-47 | split at carriage returns the message reads back as the From, To and Subject headers, the blank line and the body |
| Alerting.NewSyslogChannel | internal/alerting/syslog_channel.go:15-27 | empty network, address and tag become "unixgram", "/dev/log" and "arcsent"; a failed dial leaves the channel without a writer rather than failing |
| Alerting.LevelOf | internal/alerting/syslog_channel.go:39-46 | critical and high are written as errors, medium as a warning, low and info as info |
| Alerting.LevelMonotone | internal/alerting/syslog_channel.go:39-46 | a more severe alert is never written at a lower priority |
| Alerting.SyslogTextSeverity | internal/alerting/syslog_channel.go:38 | the bracketed head of the syslog line reads back as the alert's severity |
| Alerting.SyslogPlan | internal/alerting/syslog_channel.go:31-47 | a disallowed severity is skipped, a channel without writer fails with "syslog writer not available", and otherwise the line is written at the severity's level |
| Alerting.MakeChannel | internal/alerting/factory.go:20-41 | log, syslog and email always build and webhook needs a URL; any other kind is "unknown alert channel type"; the channel built has that kind and its severity list |
| Alerting.Enabled | internal/alerting/factory.go:16-19 | exactly the enabled configurations are considered |
| Alerting.BuildAll | internal/alerting/factory.go:16-42 | either every configuration builds and the channels are theirs in order, or the error is that of the first one that does not |
| Alerting.BuildChannels | internal/alerting/factory.go:14-47 | it succeeds exactly when every enabled configuration builds, then with at least one channel, a lone log channel when none was enabled |
| Alerting.BuildChannelsErrors | internal/alerting/factory.go:17-44 | a disabled webhook without URL leaves only the log channel, an enabled one is "webhook url required", and an unknown enabled kind is named in the error |
| Alerting.New | internal/alerting/engine.go:42-72 | the de-duplication window and backoff are the parsed settings or five minutes and two seconds; negative retries become zero; no channels, nothing seen, nothing queued |
| Alerting.Register | internal/alerting/engine.go:74-76 | the channel is appended after those already there and nothing else changes |
| Alerting.FingerprintSeparates | internal/alerting/engine.go:142-146 | when scanner names and finding IDs hold no '|', equal fingerprint texts mean the same scanner, severity, finding ID and description |
| Alerting.FingerprintCollides | internal/alerting/engine.go:144 | a '|' inside a finding ID lets two different alerts share a fingerprint text |
| Alerting.Throttled | internal/alerting/engine.go:101-110 | an identity is throttled exactly when it was admitted less than a window ago; otherwise it is admitted now |
| Alerting.Send | internal/alerting/engine.go:78-99 | a disabled engine ignores the alert; otherwise it is suppressed exactly when throttled, queued with its identity and timestamp when the 256-slot queue has room, and dropped otherwise; the queue never exceeds its capacity |
| Alerting.DuplicateSuppressed | internal/alerting/engine.go:82-92 | the same alert sent twice within the window is suppressed the second time |
| Alerting.AdmittedAfterWindow | internal/alerting/engine.go:104-109 | once a full window has passed an identity is admitted again and its time renewed |
| Alerting.SendAll | internal/alerting/engine.go:94-98 | a series of sends only appends to the queue and never takes it past its capacity |
| Alerting.CallsFrom | internal/alerting/engine.go:126-132 | the retry loop stops at the first success or after attempt retryMax, every earlier attempt having failed |
| Alerting.DeliverTo | internal/alerting/engine.go:125-138 | a channel is called between once and retryMax + 1 times, delivers exactly when its last call succeeds, and sleeps the doubling backoff after every failed call |
| Alerting.DeliverAll | internal/alerting/engine.go:123-140 | every channel is tried in order, a failing one not keeping later ones from being tried |
| Alerting.FlakyChannelDelivers | internal/alerting/engine.go:126-132 | a channel that fails once is called twice and delivers with two retries, after one wait of the backoff |
| Alerting.WaitsDouble | internal/alerting/engine.go:131 | while it fits in int64 each wait is the backoff times a power of two, twice the one before |
| BaselineManager.Key | internal/detection/baseline.go:151-153 | the key is the scanner name, "::" and the metric, each recoverable at its position |
| BaselineManager.KeySeparates | internal/detection/baseline.go:151-153 | scanner names without ':' never share a key with a different scanner/metric pair |
| BaselineManager.KeyCollides | internal/detection/baseline.go:151-153 | with a ':' in the names two different pairs share a key |
| BaselineManager.Fresh | internal/detection/baseline.go:48-55 | a missing record starts with no observations and the value as both minimum and maximum |
| BaselineManager.Observe | internal/detection/baseline.go:57-74 | one more observation: the count grows by one, minimum and maximum take the value in, mean and M2 follow Welford's step, M2 never shrinks, and the samples are the last 200 |
| BaselineManager.SquaredStep | internal/detection/baseline.go:58-61 | Welford's increment to M2 is never negative |
| BaselineManager.WelfordStep | internal/detection/baseline.go:57-61 | one Welford step keeps mean times count equal to the sum and M2 times count equal to count times the sum of squares minus the squared sum |
| BaselineManager.ObserveSummarises | internal/detection/baseline.go:57-74 | one observation keeps a record an exact summary of the values seen |
| BaselineManager.SeriesSummarises | internal/detection/baseline.go:39-80 | after any series of updates the record holds the count, the exact mean and sum of squared deviations, the minimum, the maximum and the last 200 values in arrival order |
| BaselineManager.FirstSummarises | internal/detection/baseline.go:48-74 | the first update of a fresh record summarises its one value |
| BaselineManager.Fetch | internal/detection/baseline.go:130-141 | a missing key is reported as missing, a stored record is decoded, and a record that does not decode is "decode baseline: ..." |
| BaselineManager.Get | internal/detection/baseline.go:107-109 | a record is returned exactly when it is stored and decodes; a missing one is the store's not-found error |
| BaselineManager.Put | internal/detection/baseline.go:143-149 | the encoded record is stored under its own scanner and metric, or the encoding error is returned |
| BaselineManager.Update | internal/detection/baseline.go:39-80 | an empty scanner or metric is refused, an unreadable record is the error, and otherwise the stored or fresh record with one more observation is stored and returned |
| BaselineManager.GetAfterUpdate | internal/detection/baseline.go:39-149 | with a faithful codec a later Get reads back what Update returned, and records of other colon-free scanners are untouched |
| BaselineManager.List | internal/detection/baseline.go:111-128 | every record of the bucket decoded in key order, or the first decoding error |
| BaselineManager.Insert | internal/detection/baseline.go:174-175 | inserting into a sorted list keeps it sorted and adds exactly the value |
| BaselineManager.Sort | internal/detection/baseline.go:174-175 | the sorted copy is sorted and a permutation of the samples |
| BaselineManager.RankOf | internal/detection/baseline.go:185-191 | the rank read for a percentage lies between the first and last index |
| BaselineManager.Percentile | internal/detection/baseline.go:181-199 | no samples give 0, a percentage at or below 0 the first and at or above 100 the last sample, anything else the interpolation at its rank |
| BaselineManager.InterpolateBetween | internal/detection/baseline.go:192-198 | an interpolated value lies between the samples at the rank's floor and ceiling |
| BaselineManager.InterpolateMonotone | internal/detection/baseline.go:191-198 | interpolation grows with the rank |
| BaselineManager.PercentileMonotone | internal/detection/baseline.go:181-199 | a percentile of sorted samples grows with the percentage and stays within their range |
| BaselineManager.Quartiles | internal/detection/baseline.go:170-179 | no samples give (0, 0), and the first quartile is never above the third |
| BaselineManager.Fences | internal/detection/baseline.go:96-99 | the fences lie outside the quartiles |
| BaselineManager.IsAnomaly | internal/detection/baseline.go:82-105 | an unreadable record is the error; fewer than 10 observations say "insufficient_samples"; otherwise a value is anomalous exactly when it is three standard deviations from the mean or outside the fences; the z-score test comes first and gives the reason "zscore=" with the score, a value only outside the fences gives "iqr_outlier (low..high)" with both fences, and a normal value gives "within_baseline" |
| BaselineManager.BetweenQuartilesIsNormal | internal/detection/baseline.go:91-104 | a value between the quartiles and within three standard deviations is never anomalous |
| PluginConfig.PositiveFloat | internal/plugins/system/disk_usage.go:28-33 | a setting is read exactly when it is a float64 above zero, and then it is that value |
| PluginConfig.NonEmptyString | internal/plugins/system/disk_usage.go:25-27 | a setting is read exactly when it is a non-empty string, and then it is that string |
| PluginConfig.Truncate | internal/plugins/system/auth_log.go:42-44 | `int(v)` of a positive float is the whole number at or below it |
| PluginConfig.NonEmptyStrings | internal/plugins/system/process_monitor.go:23-29 | the strings kept are exactly the non-empty strings of the list, none of them empty |
| PluginConfig.NonEmptyStringsOfStrings | internal/plugins/system/process_monitor.go:24-28 | a list of non-empty strings reads back as those strings in order |
| CpuMemory.Init | internal/plugins/system/cpu_memory.go:21-35 | 200 ms and swap included by default; a positive sample_ms is truncated, and refused with "sample_ms must be > 0" exactly when it truncates to zero; swap is excluded exactly by a boolean false |
| CpuMemory.StatOf | internal/plugins/system/cpu_memory.go:123-131 | total and idle are uint64 values, wrapped as Go's additions wrap |
| CpuMemory.ParseCounters | internal/plugins/system/cpu_memory.go:115-122 | every counter parses as a uint64 and is kept in order, or the first that does not is the "parse cpu stat" error carrying `ParseUint`'s own message ("value out of range" exactly when its leading digits overflow 64 bits, else "invalid syntax") |
| CpuMemory.ParseCpuLine | internal/plugins/system/cpu_memory.go:111-131 | fewer than five fields is "invalid cpu stat line"; otherwise the line parses exactly when every counter does, to the sum and the idle time of the counters |
| CpuMemory.ParseCpuLines | internal/plugins/system/cpu_memory.go:107-135 | the first aggregate line decides the result, and without one the stat line is not found |
| CpuMemory.ParseCountersOfRendered | internal/plugins/system/cpu_memory.go:116-122 | counters written in decimal read back as themselves |
| CpuMemory.ParseCpuStatOfRendered | internal/plugins/system/cpu_memory.go:107-131 | a /proc/stat whose first line is "cpu" and decimal counters parses to their sum and idle time |
| CpuMemory.CpuLineOfRendered | internal/plugins/system/cpu_memory.go:111-131 | the aggregate line of decimal counters is one line and reads back to their sum and idle time |
| CpuMemory.IdleWithinTotal | internal/plugins/system/cpu_memory.go:123-130 | without wrap-around the idle time never exceeds the total |
| CpuMemory.Bytes | internal/plugins/system/cpu_memory.go:165 | a kB value times 1024 wraps into uint64 |
| CpuMemory.LastValue | internal/plugins/system/cpu_memory.go:155-176 | a value found for a key comes from a line that reads as that key |
| CpuMemory.StepField | internal/plugins/system/cpu_memory.go:160-175 | a line sets exactly the field its key names, to its value in bytes |
| CpuMemory.ScanKeepsLast | internal/plugins/system/cpu_memory.go:155-176 | each of the four fields ends at the last value read for it |
| CpuMemory.ParseMeminfo | internal/plugins/system/cpu_memory.go:152-181 | the four fields are the last values read in bytes, and the parse is refused exactly when MemTotal or MemAvailable ends at zero |
| CpuMemory.MissingAvailableRefused | internal/plugins/system/cpu_memory.go:177-179 | a file without a MemAvailable line is refused |
| LoadAvg.ParseLoadAvg | internal/plugins/system/load_avg.go:60-104 | the parse succeeds exactly when there are four fields, three averages that parse and a "runnable/total" pair of integers; each failure has its own message in that order, the runnable and total errors carrying `Atoi`'s message; the last PID is `Atoi`'s value with its error ignored |
| LoadAvg.RunningOfRendered | internal/plugins/system/load_avg.go:78-89 | a rendered "runnable/total" field splits back into its two numbers |
| LoadAvg.ParseLoadAvgOfRendered | internal/plugins/system/load_avg.go:60-104 | a line in the kernel's layout parses back to the values it shows |
| LoadAvg.BadLastPidIsZero | internal/plugins/system/load_avg.go:91-94 | a last-PID field that is not a number, and whose leading digits do not overflow 64 bits, reads as 0 instead of failing |
| LoadAvg.OverflowingLastPidIsBound | internal/plugins/system/load_avg.go:91-94 | a last-PID field that `Atoi` finds out of range, including leading digits beyond 64 bits followed by other characters, reads as the int64 bound of its sign instead of failing |
| Decimal.ParseUintGoAgrees | internal/plugins/system/cpu_memory.go:117 | `ParseUint(s, 10, 64)` read digit by digit fails with "out of range" exactly when the leading digits exceed 2^64 - 1, returning 2^64 - 1; it succeeds exactly on digit strings within range, with their value; otherwise it is bad syntax with 0 |
| Decimal.ParseIntGoAgrees | internal/plugins/system/load_avg.go:82-94 | `Atoi` (through `ParseInt`) succeeds exactly on a signed in-range number; it is out of range exactly when the digits after the sign overflow 64 bits or the whole number exceeds int64, returning the bound of the sign; otherwise bad syntax with 0 |
| Decimal.AtoiValue | internal/plugins/system/load_avg.go:91-94 | the value `Atoi` returns beside its error: the number, the bound of the sign when out of range, 0 on bad syntax |
| Decimal.AtoiError | internal/plugins/system/load_avg.go:82-89 | `Atoi`'s error text quotes the input and says "value out of range" exactly in the out-of-range case, "invalid syntax" otherwise |
| Decimal.ParseUintError | internal/plugins/system/cpu_memory.go:117-120 | `ParseUint`'s error text quotes the input and says "value out of range" exactly when the leading digits overflow, "invalid syntax" otherwise |
| Decimal.OverflowBeforeJunk | internal/plugins/system/load_avg.go:93 | twenty nines followed by a letter are out of range and read as the int64 maximum, not as bad syntax |
| Uptime.ParseUptime | internal/plugins/system/uptime.go:52-66 | the parse succeeds exactly when there are two fields that both parse, each failure with its own message in that order |
| Uptime.ParseUptimeOfRendered | internal/plugins/system/uptime.go:52-66 | two numbers followed by any further fields read back as the two numbers |
| NetworkListeners.Init | internal/plugins/system/network_listeners.go:20-30 | each table path is procfs unless a non-empty string replaces it |
| NetworkListeners.Count | internal/plugins/system/network_listeners.go:59-69 | the count is zero exactly when no row is listening and all rows exactly when every row is |
| NetworkListeners.CountListeners | internal/plugins/system/network_listeners.go:56-71 | at most one per line after the header |
| NetworkListeners.CountAppend | internal/plugins/system/network_listeners.go:59-69 | counting two tables together adds their counts |
| NetworkListeners.HeaderIgnored | internal/plugins/system/network_listeners.go:59 | whatever the header line says it is not counted |
| NetworkListeners.Run | internal/plugins/system/network_listeners.go:32-52 | both tables must be read, the TCP table's error first; the result has no findings and the two counts |
| DiskUsage.Init | internal/plugins/system/disk_usage.go:20-38 | "/" with 85 and 95 unless set; the thresholds are accepted exactly when warning is below critical |
| DiskUsage.UsedPercent | internal/plugins/system/disk_usage.go:46-52 | the used share in percent of the total bytes, and 0 for an empty file system |
| DiskUsage.UsedPercentBounded | internal/plugins/system/disk_usage.go:46-52 | with no more available blocks than blocks the percentage is between 0 and 100 |
| DiskUsage.Findings | internal/plugins/system/disk_usage.go:68-92 | a critical finding exactly at or above the critical threshold, a medium one exactly between the thresholds, none below both |
| DiskUsage.FindingsMonotone | internal/plugins/system/disk_usage.go:68-92 | a fuller disk never raises a less serious finding |
| DiskUsage.Run | internal/plugins/system/disk_usage.go:40-95 | a statfs failure is the error naming the path; otherwise the percentage and its findings |
| ProcessMonitor.Init | internal/plugins/system/process_monitor.go:21-34 | no whitelist by default; a generic list gives its non-empty strings and a string list is taken as it is |
| ProcessMonitor.HasPrefix | internal/plugins/system/process_monitor.go:92-99 | some whitelist entry starts the path exactly when the loop finds one |
| ProcessMonitor.ProcessCount | internal/plugins/system/process_monitor.go:50-59 | the count is zero exactly when no entry is a process directory |
| ProcessMonitor.Findings | internal/plugins/system/process_monitor.go:51-83 | no whitelist means no findings; each finding names an executable no entry starts, and there are no more findings than processes |
| ProcessMonitor.FindingsComplete | internal/plugins/system/process_monitor.go:61-82 | with a whitelist every process whose readable executable is outside it is reported |
| ProcessMonitor.FindingsSound | internal/plugins/system/process_monitor.go:61-82 | every finding is of such a process |
| ProcessMonitor.Run | internal/plugins/system/process_monitor.go:36-88 | a /proc listing failure is the error; otherwise the findings and the process count |
| AuthLog.Init | internal/plugins/system/auth_log.go:22-46 | the default path, three patterns and 500 lines unless set; a non-empty generic list replaces the patterns with its non-empty strings; max_lines is truncated |
| AuthLog.ScanLines | internal/plugins/system/auth_log.go:90-93 | no scanned line holds a line feed |
| AuthLog.ScanLinesOfLines | internal/plugins/system/auth_log.go:90-93 | lines each ended by a line feed scan back as themselves |
| AuthLog.ReadLastLines | internal/plugins/system/auth_log.go:89-99 | the loop keeps exactly the last maxLines lines in order |
| AuthLog.Matches | internal/plugins/system/auth_log.go:66-80 | a line matches exactly when some pattern occurs in it |
| AuthLog.Findings | internal/plugins/system/auth_log.go:65-81 | at most one medium "auth_failed" finding per line |
| AuthLog.FindingsComplete | internal/plugins/system/auth_log.go:65-81 | every line holding a pattern is reported |
| AuthLog.FindingsSound | internal/plugins/system/auth_log.go:65-81 | every report is of a line holding a pattern |
| AuthLog.OneFindingPerLine | internal/plugins/system/auth_log.go:66-79 | a line matching two default patterns is reported once |
| AuthLog.Run | internal/plugins/system/auth_log.go:48-85 | an unopenable log is "open auth log: ..."; otherwise the findings of the kept tail and the number of lines kept |
| FileIntegrity.Init | internal/plugins/system/file_integrity.go:22-39 | /etc and /bin by default; a generic list gives its non-empty strings and a non-empty string list is taken as it is; no roots is "paths must not be empty" |
| FileIntegrity.Findings | internal/plugins/system/file_integrity.go:52-84 | at most one low-severity file_integrity finding per visit |
| FileIntegrity.FindingsComplete | internal/plugins/system/file_integrity.go:53-83 | every access or hashing failure is reported |
| FileIntegrity.Hashes | internal/plugins/system/file_integrity.go:70-85 | a path is in the map exactly when some visit hashed it |
| FileIntegrity.HashesKeepLast | internal/plugins/system/file_integrity.go:85 | a path keeps the hash of its last successful visit |
| FileIntegrity.Run | internal/plugins/system/file_integrity.go:41-95 | the run always succeeds, with the findings and hashes of all the roots' walks |
| FileIntegrity.ErrorsDoNotAbort | internal/plugins/system/file_integrity.go:53-66 | a failure earlier in the walk does not keep a later file from being hashed |

## Left out

- Network I/O: HTTP serving and the reverse proxy, browser `fetch`, downloads, SMTP, syslog dialling and webhook POSTs. Their outcomes are parameters (`transport`, `dial`, `runOnce`, response records).
- Concurrency and timers: goroutines, channels, mutexes, `signal.Notify`, the scheduler's `runJob` loop, the updater's `Start` loop and the alert `worker`. Each is a sequential state transition, and sleeps appear only as the list of waits a loop would make.
- Go map iteration order: where the code ranges over a map, an `order` parameter that enumerates the keys, or a method that picks any remaining key, stands for the order Go leaves open.
- Floating point: float64 values are Dafny reals. Rounding, NaN, infinities, `math.Sqrt` (the z-score compares squares instead) and `%.2f` rendering (a `format` parameter) are not modelled.
- Library internals: `time.ParseDuration`, the cron parser and its `Next`, base64, encoding/json, `filepath.Clean`/`Join`, sha256, `strconv.ParseFloat` and JS `Number` are uninterpreted parameters. Only the facts the code relies on are assumed through `requires`.
- File-system work: `importAirgap`, `copyDir`/`copyFile`, zip/tar/gzip extraction, the file-integrity walk and hashing, and reads of `/proc` and the auth log. Their results are inputs: file text, directory listings, or the sequence of walk visits.
- `VerifySelfIntegrity` (internal/daemon/integrity.go) is not part of this model: it hashes the running executable.
- Process environment: `os.Geteuid`, `os.LookupEnv`, `setuid`/`setgid`, and the exit codes of `os.Exit`. These are parameters or result values.
- The Badger engine is a finite map. Transactions, encryption at rest and on-disk layout are not modelled.
- `bufio.Scanner`'s 64 KiB token limit is not modelled: every line of the auth log is scanned.
- The Run functions of the CPU/memory, load-average and uptime plugins are not modelled. They read `/proc` twice around a sleep and do float arithmetic; their parsers are modelled.
- Runner wiring: `Runner.Run` is modelled only as the `Boot` and `Reload` transitions. Left out are the `SetOnResult` pipeline (internal/daemon/runner.go:135-174, which feeds rules, correlation, baselines and alerts), and the retention prune at start-up. The baseline manager's `PruneOlderThan` and `DetectDrift`, which these call, are defined outside internal/detection/baseline.go and are not modelled. Also left out are the HTTP servers' start and shutdown.
- On a reload, the model's runtime forgets the correlator and the alert queue. The old alert worker is not stopped, and plugins are initialised again. These are consequences of the code that the model only records.
- API handlers outside the modelled ones: health, status, scanners, the latest and history results, findings, baselines and the export handlers' JSON encoding, along with `writeJSON`/`writeCSV`. Their row builders `ResultsToRows`/`BaselinesToRows` are modelled.
- CLI flag parsing and the usage text are not modelled. The command-to-request table, token handling, reply handling and the reload PID check are.
- Presentation-only UI (Layout, App, Settings, Findings, Button, Badge, and JSX markup), the logger, the log channel and the webhook channel's JSON body.
- `int(v)` on floats beyond the int64 range is not modelled: a huge `sample_ms` or `max_lines` truncates as an unbounded integer.
- The `ErrNotFound` branch of the results store's `List` (internal/storage/results.go:43-45) is not modelled: the store's `ForEach` never returns that error, so the branch cannot be taken.
- KvStore.ForEach: models the iteration started at the bucket prefix (a seek to `bucket + "/"`). The code as written starts at the first key of the whole store, so it reaches a bucket only when that bucket's keys sort first; that behaviour is `KvStore.ForEachAsWritten`, listed under Findings.
- KvStore.BucketKeys: is the set of keys the corrected iteration reaches; the iteration as written reaches only `KvStore.Visited`.
- ResultsStore.List: is stated over the corrected iteration. As written it lists nothing once any baseline is stored (`ResultsStore.ListAsWritten`, `ResultsStore.ListHiddenByBaseline`), and `/export/results` is then empty.
- ResultsStore.PruneOlderThan: is stated over the corrected iteration. As written, including the start-up prune, it deletes nothing once any baseline is stored (`ResultsStore.PruneOlderThanAsWritten`, `ResultsStore.PruneHiddenByBaseline`).
- ResultsStore.ListAfterSave: holds for the corrected iteration. As written, a saved result is not listed in a store that holds a baseline (`ResultsStore.SavedResultUnlistedAsWritten`).
- ApiServer.HandleTrigger: models the handler with the corrected name extraction, `ApiServer.TriggerName`, which reads the plugin name after the trigger prefix on both routes. The handler as written answers the `/api/scanners/trigger/` alias with an unknown-plugin 400; that behaviour is `ApiServer.TriggerNameAsWritten` and `ApiServer.TriggerOnAlias`, listed under Findings.
- Scheduler.ExecuteWithRetry: its waits are the corrected `Scheduler.Backoff`, which doubles up to the cap. The code as written wraps to a negative wait, and so retries at once, after attempt 33; that behaviour is `Scheduler.BackoffAsWritten`, listed under Findings.
- ApiServer.Resolve: takes the request path as already clean. `http.ServeMux` first answers a path holding "." or ".." elements, or a doubled '/', with a 301 redirect to its cleaned form, and a bare subtree root such as "/scanners/trigger" with a 301 to "/scanners/trigger/"; neither redirect is modelled.
- ApiServer.Route: inherits the clean-path assumption of `ApiServer.Resolve`; the mux's 301 redirects are not among its outcomes.
- WebUi.Handle: models only the "/api" to "/api/" redirect. The mux's other 301 redirects, to the cleaned form of a path such as "/api/../index.html", are not modelled.
- FileIntegrity.Run: the walk's own error path ("walk <root>") cannot fire, because the callback always returns nil. The run is therefore modelled as always succeeding.
- FileIntegrity.Findings: states the severity and category of each finding. Completeness is `FileIntegrity.FindingsComplete`; soundness (every finding comes from a failed visit) is not stated separately.
- CpuMemory.LastValue: states only that a value found for a key comes from a line read as that key. The exact value is stated by `CpuMemory.ScanKeepsLast` through `Final`.
- NetworkListeners.CountListeners: states a bound. What is counted is `NetworkListeners.Count` over the lines after the header, related by `NetworkListeners.HeaderIgnored` and `NetworkListeners.CountAppend`.
- AuthLog.ScanLines: states only that no line holds a line feed. Its partner is `AuthLog.ScanLinesOfLines`, which reads lines back.
- Alerting.FingerprintSeparates: only texts whose scanner name and finding ID contain no '|' are shown to be told apart. `Alerting.FingerprintCollides` shows that the restriction is needed.
- BaselineManager.KeySeparates: holds only for scanner names without ':'. `BaselineManager.KeyCollides` gives the collision otherwise.
- White space and case: `strings.Fields`, `TrimSpace` and `ToLower` are modelled on ASCII only; Unicode white space and non-ASCII case folding are not.
- Text.Quote: Go's `%q` is modelled as the text between double quotes, which is exact only for names without quotes, backslashes or control characters.

## Findings

| source | as written | input that shows it | evidently intended | confidence | as-written member | corrected member |
|---|---|---|---|---|---|---|
| internal/api/server.go:160 | `handleTrigger` takes the plugin name with `strings.TrimPrefix(r.URL.Path, "/scanners/trigger/")`, but the handler is also registered at `/api/scanners/trigger/`, where that prefix does not start the path | a POST to `/api/scanners/trigger/system.cpu` (the path the dashboard uses through the web UI proxy) asks for the plugin named `/api/scanners/trigger/system.cpu`, which is never found | the name is what follows the trigger prefix on either route, here `system.cpu` | high; not executed | `ApiServer.TriggerNameAsWritten`, shown by `ApiServer.TriggerNameAsWrittenKeepsAlias`, `ApiServer.TriggerOnAlias` and `WebUi.DashboardTriggerPath` | `ApiServer.TriggerName`, used by `ApiServer.HandleTrigger` and proved by `ApiServer.TriggerNameOnBothRoutes` |
| internal/scheduler/scheduler.go:345-349 | the retry wait is `RetryBackoff * time.Duration(1<<attempt)` in int64 and is capped afterwards | with the default 2 s backoff and 30 s cap, `MaxRetries` of 34 or more: after attempt 33 the product wraps to a negative duration, so the cap does not apply and the retry follows at once | the wait doubles up to the cap and stays at the cap | medium; not executed | `Scheduler.BackoffAsWritten`, shown by `Scheduler.BackoffAsWrittenWraps` | `Scheduler.Backoff`, proved by `Scheduler.BackoffBounds` and `Scheduler.BackoffAsWrittenAgrees`, used by `Scheduler.ExecuteWithRetry` |
| internal/storage/badger.go:81-83 | `ForEach` makes its iterator with `badger.DefaultIteratorOptions`, which sets no prefix, and loops `for it.Rewind(); it.ValidForPrefix(prefix); it.Next()`, so it starts at the first key of the whole store and stops at the first key outside the bucket | the daemon keeps baselines and results in one store; with "baselines/cpu::load1" and "results/1-cpu-0000" stored, `ForEach("results")` stops at once, so `List` is empty, `/export/results` is empty and `PruneOlderThan`, including the start-up prune, deletes nothing | the loop starts at the bucket prefix (`it.Seek(prefix)`) and visits every key of the bucket | high; not executed | `KvStore.ForEachAsWritten`, shown by `KvStore.ResultsHiddenByBaseline`, `ResultsStore.ListHiddenByBaseline`, `ResultsStore.PruneHiddenByBaseline` and `ResultsStore.SavedResultUnlistedAsWritten` | `KvStore.ForEach`, related by `KvStore.AsWrittenAgreesWhenFirst`, used by `ResultsStore.List`, `ResultsStore.PruneOlderThan` and proved by `ResultsStore.ListAfterSave` |

=== FILE: alerting.dfy ===
/** The alert engine and its channels (internal/alerting): alerts are
    de-duplicated by identity within a throttle window, queued in a bounded
    buffer and handed to every registered channel with retries. The clock,
    the hash behind an alert's identity, duration parsing and every
    transport (SMTP, syslog, HTTP) are parameters. */
module Alerting {
  import opened Wrappers
  import opened ScannerTypes
  import Text
  import Scheduler
  import Configuration

  datatype Alert = Alert(
    id: string,
    timestamp: Time,
    severity: Severity,
    scannerName: string,
    finding: Finding,
    reason: string)

  // ---------------------------------------------------------------------------
  // Severity filters shared by the channels

  /** `parseSeverity`: a severity name in any case; anything else is info. */
  function ParseSeverity(value: string): (s: Severity)
    ensures s == Low <==> Text.ToLower(value) == "low"
    ensures s == Medium <==> Text.ToLower(value) == "medium"
    ensures s == High <==> Text.ToLower(value) == "high"
    ensures s == Critical <==> Text.ToLower(value) == "critical"
    ensures s == Info <==> Text.ToLower(value) !in {"low", "medium", "high", "critical"}
  {
    var v := Text.ToLower(value);
    if v == "low" then Low
    else if v == "medium" then Medium
    else if v == "high" then High
    else if v == "critical" then Critical
    else Info
  }

  /** Lower-casing leaves a text without capitals as it is. */
  lemma LowerFixed(s: string)
    requires forall i :: 0 <= i < |s| ==> !('A' <= s[i] <= 'Z')
    ensures Text.ToLower(s) == s
  {
  }

  /** Every severity's own name parses back to it. */
  lemma ParseSeverityOfName(s: Severity)
    ensures ParseSeverity(SeverityName(s)) == s
  {
    match s
    case Info => LowerFixed("info");
    case Low => LowerFixed("low");
    case Medium => LowerFixed("medium");
    case High => LowerFixed("high");
    case Critical => LowerFixed("critical");
  }

  /** Case is ignored. */
  lemma ParseSeverityIgnoresCase(value: string)
    ensures ParseSeverity(Text.ToLower(value)) == ParseSeverity(value)
  {
    Text.ToLowerIdempotent(value);
  }

  /** Some entry of `allow` names the severity. */
  function Mentions(allow: seq<string>, sev: Severity): (b: bool)
    ensures b <==> exists i :: 0 <= i < |allow| && ParseSeverity(allow[i]) == sev
  {
    if allow == [] then false
    else if ParseSeverity(allow[0]) == sev then true
    else
      var b := Mentions(allow[1..], sev);
      assert b ==> exists i :: 0 <= i < |allow| && ParseSeverity(allow[i]) == sev by {
        if b {
          var j :| 0 <= j < |allow| - 1 && ParseSeverity(allow[1..][j]) == sev;
          assert allow[j + 1] == allow[1..][j];
        }
      }
      assert (exists i :: 0 <= i < |allow| && ParseSeverity(allow[i]) == sev) ==> b by {
        if exists i :: 0 <= i < |allow| && ParseSeverity(allow[i]) == sev {
          var i :| 0 <= i < |allow| && ParseSeverity(allow[i]) == sev;
          assert i > 0 && allow[1..][i - 1] == allow[i];
        }
      }
      b
  }

  /** `severityAllowed`: an empty list lets everything through; otherwise
      some entry must parse to the severity. */
  function SeverityAllowed(allow: seq<string>, sev: Severity): (b: bool)
    ensures b <==> allow == [] || exists i :: 0 <= i < |allow| && ParseSeverity(allow[i]) == sev
  {
    |allow| == 0 || Mentions(allow, sev)
  }

  /** An unrecognised entry lets info alerts through, and a list naming
      every severity lets everything through. */
  lemma AllowListExamples(sev: Severity)
    ensures SeverityAllowed(["bogus"], Info)
    ensures SeverityAllowed(["LOW", "medium", "High", "critical", "info"], sev)
  {
    LowerFixed("bogus");
    assert ParseSeverity(["bogus"][0]) == Info;
    var all := ["LOW", "medium", "High", "critical", "info"];
    match sev
    case Info =>
      ParseSeverityOfName(Info);
      assert ParseSeverity(all[4]) == sev;
    case Low =>
      assert Text.ToLower("LOW") == "low";
      assert ParseSeverity(all[0]) == sev;
    case Medium =>
      ParseSeverityOfName(Medium);
      assert ParseSeverity(all[1]) == sev;
    case High =>
      assert Text.ToLower("High") == "high";
      assert ParseSeverity(all[2]) == sev;
    case Critical =>
      ParseSeverityOfName(Critical);
      assert ParseSeverity(all[3]) == sev;
  }

  // ---------------------------------------------------------------------------
  // Channels

  /** What a channel's `Send` decides before any transport is used: nothing
      to do (a nil error), a refusal with an error, or a delivery. */
  datatype Plan<T> = Skip | Refuse(error: string) | Deliver(what: T)

  /** The outcome of a plan once `transport` carries out a delivery. */
  function Carry<T>(p: Plan<T>, transport: T -> Outcome): (o: Outcome)
    ensures p.Skip? ==> o == Pass
    ensures p.Refuse? ==> o == Fail(p.error)
    ensures p.Deliver? ==> o == transport(p.what)
  {
    match p
    case Skip => Pass
    case Refuse(e) => Fail(e)
    case Deliver(x) => transport(x)
  }

  datatype EmailConfig = EmailConfig(
    smtpServer: string,
    smtpUser: string,
    smtpPass: string,
    from: string,
    to: seq<string>,
    subject: string)

  /** `smtp.PlainAuth("", user, pass, host)`. */
  datatype PlainAuth = PlainAuth(identity: string, user: string, pass: string, host: string)

  /** The arguments of one `smtp.SendMail` call. */
  datatype Mail = Mail(server: string, auth: Option<PlainAuth>, from: string, to: seq<string>, msg: string)

  /** The syslog priority a message is written at. */
  datatype Level = ErrLevel | WarningLevel | InfoLevel

  /** A configured channel. `connected` records whether the syslog dial
      produced a writer. */
  datatype Channel =
    | LogChannel
    | WebhookChannel(url: string, severity: seq<string>)
    | SyslogChannel(network: string, address: string, tag: string, severity: seq<string>, connected: bool)
    | EmailChannel(cfg: EmailConfig, severity: seq<string>)

  function ChannelName(c: Channel): string {
    match c
    case LogChannel => "log"
    case WebhookChannel(_, _) => "webhook"
    case SyslogChannel(_, _, _, _, _) => "syslog"
    case EmailChannel(_, _) => "email"
  }

  const DefaultSubject: string := "ArCsent Alert"
  const NotConfigured: string := "email channel not configured"

  /** The text of an email: severity, scanner and description on their own
      lines. */
  function EmailBody(a: Alert): string {
    "Severity: " + SeverityName(a.severity) + "\nScanner: " + a.scannerName +
    "\nDescription: " + a.finding.description + "\n"
  }

  /** The header lines, the blank line and the body. */
  function EmailLines(cfg: EmailConfig, a: Alert): seq<string> {
    var subject := if cfg.subject == "" then DefaultSubject else cfg.subject;
    ["From: " + cfg.from, "To: " + Text.Join(cfg.to, ","), "Subject: " + subject, "", EmailBody(a)]
  }

  /** The message: its lines joined by CRLF. */
  function EmailMessage(cfg: EmailConfig, a: Alert): string {
    Text.Join(EmailLines(cfg, a), "\r\n")
  }

  /** The SMTP host: the server text before its first ':'. */
  function AuthHost(server: string): (h: string)
    ensures ':' !in h && h <= server
  {
    var parts := Text.Split(server, ':');
    assert parts[0] <= server by { SplitHead(server, ':'); }
    parts[0]
  }

  lemma SplitHead(s: string, c: char)
    ensures Text.Split(s, c)[0] <= s
  {
    if c in s {
      Text.SplitAt(s, c);
    }
  }

  /** Given `host:port`, the host is what authenticates. */
  lemma AuthHostOfHostPort(host: string, port: string)
    requires ':' !in host
    ensures AuthHost(host + ":" + port) == host
  {
    var s := host + ":" + port;
    assert s[|host|] == ':' && s[..|host|] == host;
    Text.IndexOfFirst(s, ':', |host|);
    Text.SplitAt(s, ':');
  }

  /** Authentication is used only when both user and password are set. */
  function EmailAuth(cfg: EmailConfig): (auth: Option<PlainAuth>)
    ensures auth.Some? <==> cfg.smtpUser != "" && cfg.smtpPass != ""
    ensures auth.Some? ==>
      auth.value == PlainAuth("", cfg.smtpUser, cfg.smtpPass, AuthHost(cfg.smtpServer))
  {
    if cfg.smtpUser != "" && cfg.smtpPass != "" then
      Some(PlainAuth("", cfg.smtpUser, cfg.smtpPass, AuthHost(cfg.smtpServer)))
    else None
  }

  /** `EmailChannel.Send` up to the `smtp.SendMail` call. */
  function EmailPlan(cfg: EmailConfig, severity: seq<string>, a: Alert): (p: Plan<Mail>)
    ensures !SeverityAllowed(severity, a.severity) ==> p == Skip
    ensures SeverityAllowed(severity, a.severity) ==>
      (p == Refuse(NotConfigured) <==> cfg.smtpServer == "" || cfg.from == "" || cfg.to == [])
    ensures p.Deliver? ==>
      p.what.server == cfg.smtpServer && p.what.from == cfg.from && p.what.to == cfg.to &&
      p.what.auth == EmailAuth(cfg) && p.what.msg == EmailMessage(cfg, a)
    ensures p.Deliver? <==>
      SeverityAllowed(severity, a.severity) && cfg.smtpServer != "" && cfg.from != "" && cfg.to != []
  {
    if !SeverityAllowed(severity, a.severity) then Skip
    else if cfg.smtpServer == "" || cfg.from == "" || |cfg.to| == 0 then Refuse(NotConfigured)
    else Deliver(Mail(cfg.smtpServer, EmailAuth(cfg), cfg.from, cfg.to, EmailMessage(cfg, a)))
  }

  /** Joining with CRLF is joining with CR the lines after the first each
      prefixed by LF. */
  lemma {:induction false} JoinCrlf(lines: seq<string>)
    requires |lines| >= 1
    ensures Text.Join(lines, "\r\n") ==
            Text.Join([lines[0]] + seq(|lines| - 1, k requires 0 <= k < |lines| - 1 => "\n" + lines[k + 1]), "\r")
  {
    var tail := seq(|lines| - 1, k requires 0 <= k < |lines| - 1 => "\n" + lines[k + 1]);
    if |lines| > 1 {
      var rest := lines[1..];
      JoinCrlf(rest);
      var restTail := seq(|rest| - 1, k requires 0 <= k < |rest| - 1 => "\n" + rest[k + 1]);
      assert tail == ["\n" + rest[0]] + restTail;
      Text.JoinCons(lines[0], tail, "\r");
      Text.JoinCons(lines[0], rest, "\r\n");
      assert [lines[0]] + rest == lines;
      // Both sides now continue with `rest`, LF-prefixed on the right.
      if |restTail| == 0 {
        assert Text.Join(rest, "\r\n") == rest[0];
        assert Text.Join(tail, "\r") == "\n" + rest[0];
      } else {
        Text.JoinCons("\n" + rest[0], restTail, "\r");
        Text.JoinCons(rest[0], restTail, "\r");
        assert Text.Join([rest[0]] + restTail, "\r") == rest[0] + "\r" + Text.Join(restTail, "\r");
        assert Text.Join(rest, "\r\n") == rest[0] + "\r" + Text.Join(restTail, "\r");
      }
    } else {
      assert [lines[0]] + tail == [lines[0]];
    }
  }

  /** Reading the message back line by line (splitting at CR and dropping
      each line's LF) gives the From, To and Subject headers, the blank line
      and the body, when no header value or body text holds a CR. */
  lemma EmailMessageLines(cfg: EmailConfig, a: Alert)
    requires '\r' !in cfg.from && '\r' !in Text.Join(cfg.to, ",") && '\r' !in cfg.subject
    requires '\r' !in a.scannerName && '\r' !in a.finding.description
    ensures Text.Split(EmailMessage(cfg, a), '\r') ==
            [EmailLines(cfg, a)[0]] + seq(4, k requires 0 <= k < 4 => "\n" + EmailLines(cfg, a)[k + 1])
  {
    var lines := EmailLines(cfg, a);
    var parts := [lines[0]] + seq(4, k requires 0 <= k < 4 => "\n" + lines[k + 1]);
    JoinCrlf(lines);
    assert '\r' !in SeverityName(a.severity);
    assert '\r' !in EmailBody(a);
    forall k | 0 <= k < |parts|
      ensures '\r' !in parts[k]
    {
      if k > 0 {
        assert parts[k] == "\n" + lines[k];
      }
    }
    Text.SplitJoin(parts, '\r');
  }

  const DefaultSyslogNetwork: string := "unixgram"
  const DefaultSyslogAddress: string := "/dev/log"
  const DefaultSyslogTag: string := "arcsent"
  const NoWriter: string := "syslog writer not available"

  /** `NewSyslogChannel`: empty settings take their defaults; `dial` says
      whether `syslog.Dial` gave a writer, and a failed dial is not an
      error here. */
  function NewSyslogChannel(network: string, address: string, tag: string, severity: seq<string>,
                            dial: (string, string, string) -> bool): (c: Channel)
    ensures c.SyslogChannel? && c.severity == severity
    ensures c.network == (if network == "" then DefaultSyslogNetwork else network)
    ensures c.address == (if address == "" then DefaultSyslogAddress else address)
    ensures c.tag == (if tag == "" then DefaultSyslogTag else tag)
    ensures c.network != "" && c.address != "" && c.tag != ""
    ensures c.connected == dial(c.network, c.address, c.tag)
  {
    var n := if network == "" then DefaultSyslogNetwork else network;
    var ad := if address == "" then DefaultSyslogAddress else address;
    var t := if tag == "" then DefaultSyslogTag else tag;
    SyslogChannel(n, ad, t, severity, dial(n, ad, t))
  }

  /** Critical and high are errors, medium a warning, the rest info. */
  function LevelOf(s: Severity): (l: Level)
    ensures l == ErrLevel <==> s == Critical || s == High
    ensures l == WarningLevel <==> s == Medium
    ensures l == InfoLevel <==> s == Info || s == Low
  {
    match s
    case Critical => ErrLevel
    case High => ErrLevel
    case Medium => WarningLevel
    case _ => InfoLevel
  }

  function SeverityRank(s: Severity): nat {
    match s
    case Info => 0
    case Low => 1
    case Medium => 2
    case High => 3
    case Critical => 4
  }

  function LevelRank(l: Level): nat {
    match l
    case InfoLevel => 0
    case WarningLevel => 1
    case ErrLevel => 2
  }

  /** A more severe alert is never written at a lower priority. */
  lemma LevelMonotone(s: Severity, t: Severity)
    requires SeverityRank(s) <= SeverityRank(t)
    ensures LevelRank(LevelOf(s)) <= LevelRank(LevelOf(t))
  {
  }

  /** The syslog text: "[severity] scanner - description". */
  function SyslogText(a: Alert): string {
    "[" + SeverityName(a.severity) + "] " + a.scannerName + " - " + a.finding.description
  }

  /** The bracketed tag of a syslog line reads back as the alert's severity. */
  lemma SyslogTextSeverity(a: Alert)
    ensures var first := Text.Split(SyslogText(a), ']')[0];
            |first| >= 1 && ParseSeverity(first[1..]) == a.severity
  {
    var name := SeverityName(a.severity);
    var head := "[" + name;
    assert ']' !in head;
    assert SyslogText(a) == head + [']'] + (" " + a.scannerName + " - " + a.finding.description);
    Text.SplitFirst(head, ']', " " + a.scannerName + " - " + a.finding.description);
    assert head[1..] == name;
    ParseSeverityOfName(a.severity);
  }

  /** `SyslogChannel.Send` up to the writer call. */
  function SyslogPlan(c: Channel, a: Alert): (p: Plan<(Level, string)>)
    requires c.SyslogChannel?
    ensures !SeverityAllowed(c.severity, a.severity) ==> p == Skip
    ensures SeverityAllowed(c.severity, a.severity) && !c.connected ==> p == Refuse(NoWriter)
    ensures SeverityAllowed(c.severity, a.severity) && c.connected ==>
      p == Deliver((LevelOf(a.severity), SyslogText(a)))
  {
    if !SeverityAllowed(c.severity, a.severity) then Skip
    else if !c.connected then Refuse(NoWriter)
    else Deliver((LevelOf(a.severity), SyslogText(a)))
  }

  // ---------------------------------------------------------------------------
  // BuildChannels

  const WebhookUrlRequired: string := "webhook url required"

  /** The channel one enabled configuration builds, or why it cannot. */
  function MakeChannel(cc: Configuration.ChannelConfig, dial: (string, string, string) -> bool): (r: Result<Channel>)
    ensures r.Ok? <==> cc.kind in {"log", "syslog", "email"} || (cc.kind == "webhook" && cc.url != "")
    ensures cc.kind == "webhook" && cc.url == "" ==> r == Err(WebhookUrlRequired)
    ensures cc.kind !in {"log", "webhook", "syslog", "email"} ==>
      r == Err("unknown alert channel type: " + cc.kind)
    ensures r.Ok? ==> ChannelName(r.value) == cc.kind
    ensures r.Ok? && !r.value.LogChannel? ==> r.value.severity == cc.severity
  {
    if cc.kind == "log" then Ok(LogChannel)
    else if cc.kind == "webhook" then
      if cc.url == "" then Err(WebhookUrlRequired) else Ok(WebhookChannel(cc.url, cc.severity))
    else if cc.kind == "syslog" then
      Ok(NewSyslogChannel(cc.syslogNetwork, cc.syslogAddress, cc.syslogTag, cc.severity, dial))
    else if cc.kind == "email" then
      Ok(EmailChannel(EmailConfig(cc.smtpServer, cc.smtpUser, cc.smtpPass, cc.from, cc.to, cc.subject),
                      cc.severity))
    else Err("unknown alert channel type: " + cc.kind)
  }

  /** The enabled configurations, in order. */
  function Enabled(cfgs: seq<Configuration.ChannelConfig>): (r: seq<Configuration.ChannelConfig>)
    ensures |r| <= |cfgs|
    ensures forall c :: c in r <==> c in cfgs && c.enabled
  {
    if cfgs == [] then []
    else if cfgs[0].enabled then [cfgs[0]] + Enabled(cfgs[1..])
    else Enabled(cfgs[1..])
  }

  /** The channels of the given configurations in order, stopping at the
      first one that cannot be built. */
  function BuildAll(cfgs: seq<Configuration.ChannelConfig>, dial: (string, string, string) -> bool): (r: Result<seq<Channel>>)
    ensures r.Ok? <==> forall k :: 0 <= k < |cfgs| ==> MakeChannel(cfgs[k], dial).Ok?
    ensures r.Ok? ==> (|r.value| == |cfgs| &&
      forall k :: 0 <= k < |cfgs| ==> MakeChannel(cfgs[k], dial) == Ok(r.value[k]))
    ensures r.Err? ==> FirstFailure(cfgs, dial, r.error)
  {
    if cfgs == [] then Ok([])
    else
      var head := MakeChannel(cfgs[0], dial);
      if head.Err? then
        Err(head.error)
      else
        var rest := BuildAll(cfgs[1..], dial);
        if rest.Err? then
          FirstFailureCons(cfgs, dial, rest.error);
          Err(rest.error)
        else
          var r := [head.value] + rest.value;
          assert forall k :: 0 < k < |cfgs| ==> cfgs[k] == cfgs[1..][k - 1] && r[k] == rest.value[k - 1];
          Ok(r)
  }

  /** Configuration `k` is the first that cannot be built, and `error` is
      why. */
  ghost predicate FirstFailure(cfgs: seq<Configuration.ChannelConfig>, dial: (string, string, string) -> bool, error: string) {
    exists k :: 0 <= k < |cfgs| &&
      (forall j :: 0 <= j < k ==> MakeChannel(cfgs[j], dial).Ok?) &&
      MakeChannel(cfgs[k], dial) == Err(error)
  }

  lemma FirstFailureCons(cfgs: seq<Configuration.ChannelConfig>, dial: (string, string, string) -> bool, error: string)
    requires |cfgs| >= 1 && MakeChannel(cfgs[0], dial).Ok? && FirstFailure(cfgs[1..], dial, error)
    ensures FirstFailure(cfgs, dial, error)
  {
    var k :| 0 <= k < |cfgs| - 1 &&
      (forall j :: 0 <= j < k ==> MakeChannel(cfgs[1..][j], dial).Ok?) &&
      MakeChannel(cfgs[1..][k], dial) == Err(error);
    forall j | 0 <= j < k + 1
      ensures MakeChannel(cfgs[j], dial).Ok?
    {
      if j > 0 {
        assert cfgs[j] == cfgs[1..][j - 1];
      }
    }
    assert cfgs[k + 1] == cfgs[1..][k];
  }

  /** `BuildChannels`: the built channels, or a single log channel when
      nothing was enabled; the first bad enabled configuration is the error
      and no channel is returned. */
  function BuildChannels(cfgs: seq<Configuration.ChannelConfig>, dial: (string, string, string) -> bool): (r: Result<seq<Channel>>)
    ensures r.Ok? <==> forall c :: c in cfgs && c.enabled ==> MakeChannel(c, dial).Ok?
    ensures r.Ok? ==> |r.value| >= 1
    ensures r.Ok? && Enabled(cfgs) == [] ==> r.value == [LogChannel]
    ensures r.Ok? && Enabled(cfgs) != [] ==> r == BuildAll(Enabled(cfgs), dial)
    ensures r.Err? ==> r == BuildAll(Enabled(cfgs), dial) && FirstFailure(Enabled(cfgs), dial, r.error)
  {
    var b := BuildAll(Enabled(cfgs), dial);
    if b.Err? then b
    else if |b.value| == 0 then Ok([LogChannel])
    else b
  }

  /** A disabled webhook without a URL is no error; an enabled one is, and
      so is an enabled channel of unknown kind. */
  lemma BuildChannelsErrors(good: Configuration.ChannelConfig, dial: (string, string, string) -> bool)
    requires good.kind == "log" && good.enabled
    ensures BuildChannels([good.(kind := "webhook", enabled := false)], dial) == Ok([LogChannel])
    ensures BuildChannels([good, good.(kind := "webhook", url := "")], dial) == Err(WebhookUrlRequired)
    ensures BuildChannels([good.(kind := "pager")], dial) == Err("unknown alert channel type: pager")
  {
    var off := good.(kind := "webhook", enabled := false);
    assert Enabled([off]) == [];
    var bad := good.(kind := "webhook", url := "");
    assert Enabled([good, bad]) == [good, bad];
    assert Enabled([good.(kind := "pager")]) == [good.(kind := "pager")];
  }

  // ---------------------------------------------------------------------------
  // The engine

  const DefaultThrottle: int := 5 * Minute
  const DefaultRetryBackoff: int := 2 * Second
  /** The capacity of the alert queue. */
  const QueueCapacity: nat := 256

  /** The engine's state: `lastSeen` maps an alert identity to the instant
      it was last admitted; `queue` holds admitted alerts awaiting
      delivery. */
  datatype Engine = Engine(
    channels: seq<Channel>,
    throttle: int,
    retryMax: nat,
    retryBackoff: int,
    enabled: bool,
    lastSeen: map<string, int>,
    queue: seq<Alert>)

  /** `New`: five minutes of de-duplication and a two-second backoff unless
      configured, a negative retry count read as zero, no channels yet and
      nothing seen or queued. */
  function New(cfg: Configuration.AlertingConfig, env: Configuration.Env): (e: Engine)
    ensures cfg.dedupWindow == "" || env.parseDuration(cfg.dedupWindow).None? ==> e.throttle == DefaultThrottle
    ensures cfg.dedupWindow != "" && env.parseDuration(cfg.dedupWindow).Some? ==>
      e.throttle == env.parseDuration(cfg.dedupWindow).value
    ensures cfg.retryBackoff == "" || env.parseDuration(cfg.retryBackoff).None? ==> e.retryBackoff == DefaultRetryBackoff
    ensures cfg.retryBackoff != "" && env.parseDuration(cfg.retryBackoff).Some? ==>
      e.retryBackoff == env.parseDuration(cfg.retryBackoff).value
    ensures e.retryMax == (if cfg.retryMax < 0 then 0 else cfg.retryMax)
    ensures e.enabled == cfg.enabled
    ensures e.channels == [] && e.lastSeen == map[] && e.queue == []
  {
    Engine([], Configuration.DurationOr(env, cfg.dedupWindow, DefaultThrottle),
           if cfg.retryMax < 0 then 0 else cfg.retryMax,
           Configuration.DurationOr(env, cfg.retryBackoff, DefaultRetryBackoff),
           cfg.enabled, map[], [])
  }

  /** `Register`: the channel is delivered to after those before it. */
  function Register(e: Engine, c: Channel): (r: Engine)
    ensures |r.channels| == |e.channels| + 1
    ensures r.channels[..|e.channels|] == e.channels && r.channels[|e.channels|] == c
    ensures r.(channels := e.channels) == e
  {
    e.(channels := e.channels + [c])
  }

  /** The text `fingerprint` hashes: scanner, severity, finding ID and
      description separated by '|'. */
  function FingerprintText(a: Alert): string {
    a.scannerName + "|" + SeverityName(a.severity) + "|" + a.finding.id + "|" + a.finding.description
  }

  /** Alerts about the same thing: equal scanner, severity, finding ID and
      description. */
  predicate SameSubject(a: Alert, b: Alert) {
    a.scannerName == b.scannerName && a.severity == b.severity &&
    a.finding.id == b.finding.id && a.finding.description == b.finding.description
  }

  /** The identity of an alert: its own ID, or the hash of its fingerprint
      text when it has none. */
  function Identity(a: Alert, hash: string -> string): string {
    if a.id == "" then hash(FingerprintText(a)) else a.id
  }

  /** Two texts cut at their first '|' agree on both sides of the cut. */
  lemma CutAtBar(x: string, r: string, y: string, q: string)
    requires '|' !in x && '|' !in y && x + "|" + r == y + "|" + q
    ensures x == y && r == q
  {
    var s := x + "|" + r;
    assert s[|x|] == '|' && s[..|x|] == x;
    assert s == y + "|" + q && s[|y|] == '|' && s[..|y|] == y;
    Text.IndexOfFirst(s, '|', |x|);
    Text.IndexOfFirst(s, '|', |y|);
    assert x == s[..|x|] == y;
    assert r == s[|x| + 1..] == q;
  }

  lemma SeverityNameInjective(s: Severity, t: Severity)
    requires SeverityName(s) == SeverityName(t)
    ensures s == t
  {
    ParseSeverityOfName(s);
    ParseSeverityOfName(t);
  }

  /** The fingerprint text tells subjects apart when the scanner name and
      the finding ID hold no '|': equal texts mean the same subject. */
  lemma FingerprintSeparates(a: Alert, b: Alert)
    requires '|' !in a.scannerName && '|' !in b.scannerName
    requires '|' !in a.finding.id && '|' !in b.finding.id
    requires FingerprintText(a) == FingerprintText(b)
    ensures SameSubject(a, b)
  {
    var sa, sb := SeverityName(a.severity), SeverityName(b.severity);
    assert '|' !in sa && '|' !in sb;
    assert FingerprintText(a) == a.scannerName + "|" + (sa + "|" + a.finding.id + "|" + a.finding.description);
    assert FingerprintText(b) == b.scannerName + "|" + (sb + "|" + b.finding.id + "|" + b.finding.description);
    CutAtBar(a.scannerName, sa + "|" + a.finding.id + "|" + a.finding.description,
             b.scannerName, sb + "|" + b.finding.id + "|" + b.finding.description);
    assert sa + "|" + a.finding.id + "|" + a.finding.description == sa + "|" + (a.finding.id + "|" + a.finding.description);
    assert sb + "|" + b.finding.id + "|" + b.finding.description == sb + "|" + (b.finding.id + "|" + b.finding.description);
    CutAtBar(sa, a.finding.id + "|" + a.finding.description, sb, b.finding.id + "|" + b.finding.description);
    SeverityNameInjective(a.severity, b.severity);
    CutAtBar(a.finding.id, a.finding.description, b.finding.id, b.finding.description);
  }

  /** With a '|' inside a finding ID two different subjects share a
      fingerprint, and so one throttles the other. */
  lemma FingerprintCollides(a: Alert)
    requires a.scannerName == "s" && a.severity == High && a.finding.id == "x|y" && a.finding.description == "z"
    ensures var b := a.(finding := a.finding.(id := "x", description := "y|z"));
            !SameSubject(a, b) && FingerprintText(a) == FingerprintText(b)
  {
    var b := a.(finding := a.finding.(id := "x", description := "y|z"));
    assert FingerprintText(a) == "s|high|x|y|z";
    assert FingerprintText(b) == "s|high|x|y|z";
  }

  /** `isThrottled`: true when the identity was admitted less than a window
      ago; otherwise it is admitted now. A throttled call leaves the record
      as it was. */
  function Throttled(lastSeen: map<string, int>, throttle: int, id: string, now: int): (r: (bool, map<string, int>))
    ensures r.0 <==> id in lastSeen && now - lastSeen[id] < throttle
    ensures r.0 ==> r.1 == lastSeen
    ensures !r.0 ==> r.1 == lastSeen[id := now]
  {
    if id in lastSeen && now - lastSeen[id] < throttle then (true, lastSeen)
    else (false, lastSeen[id := now])
  }

  datatype SendOutcome = Disabled | Suppressed | Queued | Dropped

  /** `Send`: a disabled engine ignores the alert; otherwise the alert gets
      an identity and a timestamp, is suppressed when throttled, and is
      queued unless the queue is full, in which case it is dropped. */
  function Send(e: Engine, a: Alert, now: int, hash: string -> string): (r: (Engine, SendOutcome))
    ensures !e.enabled ==> r == (e, Disabled)
    ensures r.0.channels == e.channels && r.0.throttle == e.throttle && r.0.retryMax == e.retryMax &&
            r.0.retryBackoff == e.retryBackoff && r.0.enabled == e.enabled
    ensures |e.queue| <= QueueCapacity ==> |r.0.queue| <= QueueCapacity
    ensures e.enabled ==>
      (r.1 == Suppressed <==> Identity(a, hash) in e.lastSeen && now - e.lastSeen[Identity(a, hash)] < e.throttle)
    ensures r.1 == Suppressed ==> r.0 == e
    ensures r.1 == Queued || r.1 == Dropped ==> r.0.lastSeen == e.lastSeen[Identity(a, hash) := now]
    ensures e.enabled && r.1 != Suppressed ==> (r.1 == Queued <==> |e.queue| < QueueCapacity)
    ensures r.1 == Queued ==>
      r.0.queue == e.queue + [a.(id := Identity(a, hash), timestamp := if a.timestamp.Zero? then At(now) else a.timestamp)]
    ensures r.1 != Queued ==> r.0.queue == e.queue
  {
    if !e.enabled then (e, Disabled)
    else
      var id := Identity(a, hash);
      var stamped := a.(id := id, timestamp := if a.timestamp.Zero? then At(now) else a.timestamp);
      var t := Throttled(e.lastSeen, e.throttle, id, now);
      if t.0 then (e, Suppressed)
      else if |e.queue| < QueueCapacity then (e.(lastSeen := t.1, queue := e.queue + [stamped]), Queued)
      else (e.(lastSeen := t.1), Dropped)
  }

  /** Sending the same alert twice within the window delivers it once: the
      second send is suppressed, whatever the first one's queue did. */
  lemma DuplicateSuppressed(e: Engine, a: Alert, b: Alert, t1: int, t2: int, hash: string -> string)
    requires e.enabled && a.id == "" && b.id == "" && FingerprintText(a) == FingerprintText(b)
    requires Send(e, a, t1, hash).1 != Suppressed
    requires 0 <= t2 - t1 < e.throttle
    ensures Send(Send(e, a, t1, hash).0, b, t2, hash) == (Send(e, a, t1, hash).0, Suppressed)
  {
    assert Identity(b, hash) == Identity(a, hash);
  }

  /** Once a full window has passed since an identity was admitted, it is
      admitted again. */
  lemma AdmittedAfterWindow(e: Engine, a: Alert, now: int, hash: string -> string)
    requires e.enabled && Identity(a, hash) in e.lastSeen
    requires now - e.lastSeen[Identity(a, hash)] >= e.throttle
    ensures Send(e, a, now, hash).1 in {Queued, Dropped}
    ensures Send(e, a, now, hash).0.lastSeen[Identity(a, hash)] == now
  {
  }

  /** Sending never lets the queue grow past its capacity, from an empty
      engine through any series of sends. */
  function SendAll(e: Engine, alerts: seq<(Alert, int)>, hash: string -> string): (r: Engine)
    ensures |e.queue| <= QueueCapacity ==> |r.queue| <= QueueCapacity
    ensures |r.queue| >= |e.queue| && r.queue[..|e.queue|] == e.queue
    decreases |alerts|
  {
    if alerts == [] then e
    else
      var next := Send(e, alerts[0].0, alerts[0].1, hash).0;
      var r := SendAll(next, alerts[1..], hash);
      assert r.queue[..|e.queue|] == r.queue[..|next.queue|][..|e.queue|];
      r
  }

  // ---------------------------------------------------------------------------
  // Delivery

  /** How many times `deliver` calls channel `i`, counting from attempt `k`:
      it stops at the first success or after attempt `retryMax`. */
  function CallsFrom(ok: (nat, nat) -> bool, i: nat, retryMax: nat, k: nat): (n: nat)
    requires k <= retryMax
    ensures k < n <= retryMax + 1
    ensures forall j :: k <= j < n - 1 ==> !ok(i, j)
    ensures n <= retryMax ==> ok(i, n - 1)
    decreases retryMax - k
  {
    if ok(i, k) || k == retryMax then k + 1 else CallsFrom(ok, i, retryMax, k + 1)
  }

  /** One channel's share of a delivery: how often it was called, whether
      the last call succeeded, and the waits after each failed call. */
  datatype Delivery = Delivery(calls: nat, delivered: bool, waits: seq<int>)

  /** The wait after failed attempt `k`: `retryBackoff * Duration(1<<k)`
      in `int64` arithmetic. */
  function WaitAfter(backoff: int, k: nat): int {
    Scheduler.Wrap64(backoff * Scheduler.Shift64(k))
  }

  function DeliverTo(ok: (nat, nat) -> bool, i: nat, retryMax: nat, backoff: int): (d: Delivery)
    ensures 1 <= d.calls <= retryMax + 1
    ensures forall j :: 0 <= j < d.calls - 1 ==> !ok(i, j)
    ensures d.delivered <==> ok(i, d.calls - 1)
    ensures !d.delivered ==> d.calls == retryMax + 1
    ensures |d.waits| == (if d.delivered then d.calls - 1 else d.calls)
    ensures forall k :: 0 <= k < |d.waits| ==> d.waits[k] == WaitAfter(backoff, k)
  {
    var n := CallsFrom(ok, i, retryMax, 0);
    var delivered := ok(i, n - 1);
    var sleeps := if delivered then n - 1 else n;
    Delivery(n, delivered, seq(sleeps, k requires 0 <= k < sleeps => WaitAfter(backoff, k)))
  }

  /** `deliver`: `ok(i, k)` is whether attempt `k` on channel `i` succeeds.
      Every channel is tried in order, each until its first success or
      `retryMax + 1` calls; a channel that keeps failing does not keep the
      later ones from being tried. */
  function DeliverAll(e: Engine, ok: (nat, nat) -> bool): (r: seq<Delivery>)
    ensures |r| == |e.channels|
    ensures forall i :: 0 <= i < |r| ==> r[i] == DeliverTo(ok, i, e.retryMax, e.retryBackoff)
  {
    seq(|e.channels|, i requires 0 <= i < |e.channels| => DeliverTo(ok, i, e.retryMax, e.retryBackoff))
  }

  /** A channel that fails once is called twice and delivers when two
      retries are allowed (the engine's own test), and the first wait is
      the configured backoff. */
  lemma FlakyChannelDelivers(backoff: int)
    requires 0 <= backoff <= 1_000_000_000_000
    ensures var d := DeliverTo((i: nat, k: nat) => k >= 1, 0, 2, backoff);
            d.calls == 2 && d.delivered && d.waits == [backoff]
  {
    var ok := (i: nat, k: nat) => k >= 1;
    var d := DeliverTo(ok, 0, 2, backoff);
    assert CallsFrom(ok, 0, 2, 0) == 2 by {
      assert !ok(0, 0) && ok(0, 1);
    }
    assert Scheduler.Shift64(0) == 1;
  }

  /** While the doubled backoff fits in `int64` each wait is the backoff
      times a power of two, so the waits grow. */
  lemma WaitsDouble(backoff: int, k: nat)
    requires 0 < backoff && k + 1 < 63 && backoff * Scheduler.Pow2(k + 1) <= 0x7fff_ffff_ffff_ffff
    ensures WaitAfter(backoff, k) == backoff * Scheduler.Pow2(k)
    ensures WaitAfter(backoff, k + 1) == 2 * WaitAfter(backoff, k)
  {
    var p, q := Scheduler.Pow2(k), Scheduler.Pow2(k + 1);
    Scheduler.Pow2Below(k);
    Scheduler.Pow2Below(k + 1);
    assert q == 2 * p;
    assert Scheduler.Shift64(k) == p && Scheduler.Shift64(k + 1) == q;
    assert backoff * q == 2 * (backoff * p);
    assert 0 < backoff * p <= backoff * q;
  }
}

=== FILE: api_server.dfy ===
/** The HTTP API (internal/api/server.go): every route is registered twice,
    as `/x` and as `/api/x`, behind the token gate; Go's `ServeMux` sends a
    request to the longest registered pattern that matches its path. */
module ApiServer {
  import opened Wrappers
  import opened Text
  import opened ScannerTypes
  import Decimal
  import SigStore
  import AuthGate
  import BaselineManager

  datatype Endpoint =
    | Health | SystemStatus | Scanners | Trigger | ResultsLatest | ResultsHistory
    | Findings | Baselines | ExportResults | ExportBaselines
    | SignaturesStatus | SignaturesUpdate | Metrics

  /** The routes `buildHandler` registers, in registration order. */
  const Routes: seq<(string, Endpoint)> := [
    ("/health", Health), ("/status", SystemStatus), ("/scanners", Scanners),
    ("/scanners/trigger/", Trigger), ("/results/latest", ResultsLatest),
    ("/results/history", ResultsHistory), ("/findings", Findings), ("/baselines", Baselines),
    ("/export/results", ExportResults), ("/export/baselines", ExportBaselines),
    ("/signatures/status", SignaturesStatus), ("/signatures/update", SignaturesUpdate),
    ("/metrics", Metrics)]

  const ApiPrefix: string := "/api"

  /** The `/api` copy of each route. */
  function Aliased(rs: seq<(string, Endpoint)>): (r: seq<(string, Endpoint)>)
    ensures |r| == |rs|
    ensures forall i :: 0 <= i < |rs| ==> r[i] == (ApiPrefix + rs[i].0, rs[i].1)
  {
    if rs == [] then [] else [(ApiPrefix + rs[0].0, rs[0].1)] + Aliased(rs[1..])
  }

  /** Every pattern the mux knows: `register` adds a route and its alias. */
  function Patterns(): seq<(string, Endpoint)> {
    Routes + Aliased(Routes)
  }

  /** `ServeMux` matching: a pattern ending in "/" names a subtree and
      matches every path below it; any other pattern matches only itself. */
  predicate Matches(pattern: string, path: string) {
    if pattern != [] && pattern[|pattern| - 1] == '/' then pattern <= path else pattern == path
  }

  /** The longest matching pattern of `ps`, with its endpoint. */
  function Resolve(ps: seq<(string, Endpoint)>, path: string): (r: Option<(string, Endpoint)>)
    ensures r.Some? ==> r.value in ps && Matches(r.value.0, path)
    ensures r.None? <==> forall i :: 0 <= i < |ps| ==> !Matches(ps[i].0, path)
    ensures r.Some? ==> forall i :: 0 <= i < |ps| && Matches(ps[i].0, path) ==> |ps[i].0| <= |r.value.0|
  {
    if ps == [] then None
    else
      var rest := Resolve(ps[1..], path);
      assert forall i :: 1 <= i < |ps| ==> ps[i] == ps[1..][i - 1];
      if Matches(ps[0].0, path) && (rest.None? || |ps[0].0| >= |rest.value.0|) then Some(ps[0]) else rest
  }

  /** The endpoint serving `path`, if any. */
  function Route(path: string): Option<Endpoint> {
    match Resolve(Patterns(), path)
    case None => None
    case Some((_, e)) => Some(e)
  }

  lemma AliasMatches(p: string, x: string)
    requires p != []
    ensures Matches(ApiPrefix + p, ApiPrefix + x) <==> Matches(p, x)
  {
    var ap := ApiPrefix + p;
    assert ap[|ap| - 1] == p[|p| - 1];
    assert ApiPrefix + p <= ApiPrefix + x <==> p <= x by {
      if p <= x {
        assert ApiPrefix + x == (ApiPrefix + p) + x[|p|..];
      }
      if ApiPrefix + p <= ApiPrefix + x {
        assert p == (ApiPrefix + p)[4..] && x[..|p|] == (ApiPrefix + x)[4..4 + |p|];
      }
    }
    assert ApiPrefix + p == ApiPrefix + x <==> p == x by {
      if ApiPrefix + p == ApiPrefix + x {
        assert p == (ApiPrefix + p)[4..];
      }
    }
  }

  function Unalias(r: Option<(string, Endpoint)>): Option<(string, Endpoint)> {
    match r
    case None => None
    case Some((p, e)) => Some((ApiPrefix + p, e))
  }

  /** Under the alias, `/api` + x resolves as x did among the plain routes. */
  lemma {:induction false} ResolveAliased(rs: seq<(string, Endpoint)>, x: string)
    requires forall i :: 0 <= i < |rs| ==> rs[i].0 != []
    ensures Resolve(Aliased(rs), ApiPrefix + x) == Unalias(Resolve(rs, x))
  {
    if rs != [] {
      var al := Aliased(rs);
      assert al[1..] == Aliased(rs[1..]);
      ResolveAliased(rs[1..], x);
      AliasMatches(rs[0].0, x);
      var restA := Resolve(al[1..], ApiPrefix + x);
      var rest := Resolve(rs[1..], x);
      assert restA == Unalias(rest);
      assert restA.Some? ==> |restA.value.0| == |rest.value.0| + 4;
      assert al[0] == (ApiPrefix + rs[0].0, rs[0].1);
    }
  }

  /** Patterns none of which match the path can be dropped from the front. */
  lemma {:induction false} ResolveSkipFront(a: seq<(string, Endpoint)>, b: seq<(string, Endpoint)>, path: string)
    requires forall i :: 0 <= i < |a| ==> !Matches(a[i].0, path)
    ensures Resolve(a + b, path) == Resolve(b, path)
  {
    if a == [] {
      assert a + b == b;
    } else {
      assert (a + b)[1..] == a[1..] + b;
      ResolveSkipFront(a[1..], b, path);
    }
  }

  /** Patterns none of which match the path can be dropped from the back. */
  lemma {:induction false} ResolveSkipBack(a: seq<(string, Endpoint)>, b: seq<(string, Endpoint)>, path: string)
    requires forall i :: 0 <= i < |b| ==> !Matches(b[i].0, path)
    ensures Resolve(a + b, path) == Resolve(a, path)
  {
    if a == [] {
      assert a + b == b;
    } else {
      assert (a + b)[1..] == a[1..] + b;
      ResolveSkipBack(a[1..], b, path);
    }
  }

  /** No plain route lies under `/api`. */
  predicate OutsideApi(rs: seq<(string, Endpoint)>) {
    forall i :: 0 <= i < |rs| ==> |rs[i].0| >= 2 && rs[i].0[1] != 'a'
  }

  lemma {:induction false} AliasRoutesAlike(rs: seq<(string, Endpoint)>, x: string)
    requires OutsideApi(rs)
    requires !(ApiPrefix <= x)
    ensures Resolve(rs + Aliased(rs), ApiPrefix + x) == Unalias(Resolve(rs + Aliased(rs), x))
  {
    var al := Aliased(rs);
    forall i | 0 <= i < |rs| ensures !Matches(rs[i].0, ApiPrefix + x) {
      assert (ApiPrefix + x)[1] == 'a';
    }
    ResolveSkipFront(rs, al, ApiPrefix + x);
    ResolveAliased(rs, x);
    forall i | 0 <= i < |al| ensures !Matches(al[i].0, x) {
      var p := al[i].0;
      assert ApiPrefix <= p;
    }
    ResolveSkipBack(rs, al, x);
  }

  /** Every route answers on its `/api` alias exactly as on its plain path:
      `/api` + x reaches the endpoint that x reaches, for every path x that is
      not itself under `/api`. */
  lemma ApiAliasRoutesAlike(x: string)
    requires !(ApiPrefix <= x)
    ensures Route(ApiPrefix + x) == Route(x)
  {
    assert OutsideApi(Routes);
    AliasRoutesAlike(Routes, x);
  }

  /** When exactly one pattern matches a path, the mux picks it. */
  lemma {:induction false} ResolveUnique(ps: seq<(string, Endpoint)>, path: string, i: nat)
    requires i < |ps| && Matches(ps[i].0, path)
    requires forall j :: 0 <= j < |ps| && j != i ==> !Matches(ps[j].0, path)
    ensures Resolve(ps, path) == Some(ps[i])
  {
    if i > 0 {
      ResolveUnique(ps[1..], path, i - 1);
    } else {
      forall j | 0 <= j < |ps[1..]| ensures !Matches(ps[1..][j].0, path) {
        assert ps[1..][j] == ps[j + 1];
      }
    }
  }

  /** A request path that reaches endpoint `e`: its registered pattern, or for
      the trigger subtree the pattern followed by a scanner name. */
  function PathFor(e: Endpoint, name: string): string {
    match e
    case Trigger => TriggerPrefix + name
    case _ => Routes[IndexOf(e)].0
  }

  /** The position of `e` in the route table. */
  function IndexOf(e: Endpoint): (i: nat)
    ensures i < |Routes| && Routes[i].1 == e
  {
    match e
    case Health => 0
    case SystemStatus => 1
    case Scanners => 2
    case Trigger => 3
    case ResultsLatest => 4
    case ResultsHistory => 5
    case Findings => 6
    case Baselines => 7
    case ExportResults => 8
    case ExportBaselines => 9
    case SignaturesStatus => 10
    case SignaturesUpdate => 11
    case Metrics => 12
  }

  lemma ResolveUniquePlain(rs: seq<(string, Endpoint)>, path: string, i: nat)
    requires !(ApiPrefix <= path)
    requires i < |rs| && Matches(rs[i].0, path)
    requires forall j :: 0 <= j < |rs| && j != i ==> !Matches(rs[j].0, path)
    ensures Resolve(rs + Aliased(rs), path) == Some(rs[i])
  {
    var al := Aliased(rs);
    forall j | 0 <= j < |al| ensures !Matches(al[j].0, path) {
      assert ApiPrefix <= al[j].0;
    }
    ResolveSkipBack(rs, al, path);
    ResolveUnique(rs, path, i);
  }

  /** A plain path that only one plain route matches is served by that route,
      on the plain path and on its `/api` alias alike. */
  lemma RouteUnique(path: string, i: nat)
    requires !(ApiPrefix <= path)
    requires i < |Routes| && Matches(Routes[i].0, path)
    requires forall j :: 0 <= j < |Routes| && j != i ==> !Matches(Routes[j].0, path)
    ensures Route(path) == Some(Routes[i].1)
    ensures Route(ApiPrefix + path) == Some(Routes[i].1)
  {
    ResolveUniquePlain(Routes, path, i);
    ApiAliasRoutesAlike(path);
  }

  /** Every endpoint is reachable: its path, plain or under `/api`, is served
      by that endpoint and no other. */
  lemma RoutePathFor(e: Endpoint, name: string)
    ensures Route(PathFor(e, name)) == Some(e)
    ensures Route(ApiPrefix + PathFor(e, name)) == Some(e)
  {
    var path := PathFor(e, name);
    var i := IndexOf(e);
    assert path[1] != 'a';
    forall j | 0 <= j < |Routes| && j != i ensures !Matches(Routes[j].0, path) {
      if e == Trigger {
        assert path[..|TriggerPrefix|] == TriggerPrefix;
      }
    }
    RouteUnique(path, i);
  }

  // ---------------------------------------------------------------------------
  // Handlers

  /** What a handler writes: a status code and a JSON body. */
  datatype Body =
    | ErrorBody(error: string)
    | ResultBody(result: ScanResult)
    | SignaturesBody(status: SigStore.Status)
    | TextBody(text: string)
    | NullBody  // the JSON `null` a nil result encodes to

  datatype Reply = Reply(code: nat, body: Body)

  const TriggerPrefix: string := "/scanners/trigger/"

  /** The scanner name `handleTrigger` takes from the path, as written: only
      the plain prefix is removed, so on the `/api` alias the whole path is
      taken as the name. */
  function TriggerNameAsWritten(path: string): (name: string)
    ensures TriggerPrefix <= path ==> TriggerPrefix + name == path
    ensures !(TriggerPrefix <= path) ==> name == path
  {
    TrimPrefix(path, TriggerPrefix)
  }

  /** The name as evidently intended: the same on both registrations. */
  function TriggerName(path: string): (name: string)
    ensures TriggerPrefix <= path ==> TriggerPrefix + name == path
    ensures ApiPrefix + TriggerPrefix <= path ==> ApiPrefix + TriggerPrefix + name == path
  {
    if ApiPrefix + TriggerPrefix <= path then
      assert path == ApiPrefix + TriggerPrefix + path[|ApiPrefix + TriggerPrefix|..];
      assert path[1] == 'a' && TriggerPrefix[1] == 's';
      path[|ApiPrefix + TriggerPrefix|..]
    else
      TrimPrefix(path, TriggerPrefix)
  }

  /** On the `/api` alias the as-written name is not the scanner's name: a
      trigger for "system.cpu" sent to `/api/scanners/trigger/system.cpu` asks
      the scheduler for a plugin named "/api/scanners/trigger/system.cpu". */
  lemma TriggerNameAsWrittenKeepsAlias()
    ensures TriggerNameAsWritten("/api/scanners/trigger/system.cpu") == "/api/scanners/trigger/system.cpu"
    ensures TriggerNameAsWritten("/api/scanners/trigger/system.cpu") != "system.cpu"
  {
    var path := "/api/scanners/trigger/system.cpu";
    assert !(TriggerPrefix <= path) by {
      assert path[1] != TriggerPrefix[1];
    }
    assert |path| != |"system.cpu"|;
  }

  /** On the alias, the handler as written never reads the plugin's name:
      it keeps the whole path, which is longer than any name it ends in. */
  lemma AsWrittenKeepsWholeAliasPath(name: string)
    ensures TriggerNameAsWritten(ApiPrefix + TriggerPrefix + name) == ApiPrefix + TriggerPrefix + name
    ensures TriggerNameAsWritten(ApiPrefix + TriggerPrefix + name) != name
  {
    var path := ApiPrefix + TriggerPrefix + name;
    assert path[1] == 'a';
  }

  /** A trigger sent on the alias reaches the trigger endpoint; the
      corrected handler reads the name from it, the handler as written
      does not. */
  lemma TriggerOnAlias(name: string)
    ensures Route(ApiPrefix + TriggerPrefix + name) == Some(Trigger)
    ensures TriggerName(ApiPrefix + TriggerPrefix + name) == name
    ensures TriggerNameAsWritten(ApiPrefix + TriggerPrefix + name) != name
  {
    assert ApiPrefix + TriggerPrefix + name == ApiPrefix + PathFor(Trigger, name);
    RoutePathFor(Trigger, name);
    TriggerNameOnBothRoutes(name);
    AsWrittenKeepsWholeAliasPath(name);
  }

  /** Both registrations of the trigger route extract the same name. */
  lemma TriggerNameOnBothRoutes(name: string)
    ensures TriggerName(TriggerPrefix + name) == name
    ensures TriggerName(ApiPrefix + TriggerPrefix + name) == name
  {
    var plain := TriggerPrefix + name;
    assert !(ApiPrefix + TriggerPrefix <= plain) by {
      assert plain[1] == 's';
    }
  }

  /** `handleTrigger`: an empty name is a 400; otherwise the scheduler runs
      the scanner once (`runOnce`) and its error is a 400, its result a 200.
      A run that returned neither (a recovered panic) is a 200 with `null`. */
  function HandleTrigger(path: string, runOnce: string -> Result<Option<ScanResult>>): (r: Reply)
    ensures TriggerName(path) == "" ==> r == Reply(400, ErrorBody("scanner name required"))
    ensures TriggerName(path) != "" && runOnce(TriggerName(path)).Err? ==>
      r == Reply(400, ErrorBody(runOnce(TriggerName(path)).error))
    ensures r.code == 200 <==> TriggerName(path) != "" && runOnce(TriggerName(path)).Ok?
    ensures r.code == 200 && runOnce(TriggerName(path)).value.Some? ==>
      r.body == ResultBody(runOnce(TriggerName(path)).value.value)
    ensures r.code == 200 && runOnce(TriggerName(path)).value.None? ==> r.body == NullBody
  {
    var name := TriggerName(path);
    if name == "" then Reply(400, ErrorBody("scanner name required"))
    else
      match runOnce(name)
      case Err(e) => Reply(400, ErrorBody(e))
      case Ok(None) => Reply(200, NullBody)
      case Ok(Some(res)) => Reply(200, ResultBody(res))
  }

  /** `handleSignaturesUpdate`: only POST; an absent updater is a 400; the
      updater's error is a 400 and its status a 200. `updater` is `None` when
      no updater is attached, otherwise the outcome of `Trigger`. */
  function HandleSignaturesUpdate(httpMethod: string, updater: Option<Result<SigStore.Status>>): (r: Reply)
    ensures httpMethod != "POST" ==> r == Reply(405, ErrorBody("POST required"))
    ensures httpMethod == "POST" && updater.None? ==> r == Reply(400, ErrorBody("signatures updater not configured"))
    ensures r.code == 200 <==> httpMethod == "POST" && updater.Some? && updater.value.Ok?
    ensures r.code == 200 ==> r.body == SignaturesBody(updater.value.value)
  {
    if httpMethod != "POST" then Reply(405, ErrorBody("POST required"))
    else
      match updater
      case None => Reply(400, ErrorBody("signatures updater not configured"))
      case Some(Err(e)) => Reply(400, ErrorBody(e))
      case Some(Ok(status)) => Reply(200, SignaturesBody(status))
  }

  /** `handleSignaturesStatus`: an empty object without a store, the loaded
      status, or a 500 with the load error. */
  function HandleSignaturesStatus(loaded: Option<Result<SigStore.Status>>): (r: Reply)
    ensures loaded.None? ==> r == Reply(200, TextBody("{}"))
    ensures loaded.Some? && loaded.value.Err? ==> r == Reply(500, ErrorBody(loaded.value.error))
    ensures loaded.Some? && loaded.value.Ok? ==> r == Reply(200, SignaturesBody(loaded.value.value))
  {
    match loaded
    case None => Reply(200, TextBody("{}"))
    case Some(Err(e)) => Reply(500, ErrorBody(e))
    case Some(Ok(status)) => Reply(200, SignaturesBody(status))
  }

  // ---------------------------------------------------------------------------
  // CSV export

  const ResultsHeader: seq<string> := ["scanner", "status", "findings", "started_at", "finished_at", "duration"]

  /** `resultsToRows`: one row per result under `ResultsHeader`; times are
      rendered by `rfc3339` and durations by `durationText`. */
  function ResultsToRows(results: seq<ScanResult>, rfc3339: Time -> string, durationText: int -> string): (rows: seq<seq<string>>)
    ensures |rows| == |results|
    ensures forall i :: 0 <= i < |rows| ==> |rows[i]| == |ResultsHeader|
    ensures forall i :: 0 <= i < |rows| ==>
      rows[i][0] == results[i].scannerName && rows[i][1] == StatusName(results[i].status) &&
      rows[i][3] == rfc3339(results[i].startedAt) && rows[i][4] == rfc3339(results[i].finishedAt) &&
      rows[i][5] == durationText(results[i].duration)
    ensures forall i :: 0 <= i < |rows| ==> rows[i][2] == Decimal.IntToString(|results[i].findings|)
  {
    if results == [] then []
    else
      var res := results[0];
      [[res.scannerName, StatusName(res.status), Decimal.IntToString(|res.findings|),
        rfc3339(res.startedAt), rfc3339(res.finishedAt), durationText(res.duration)]] +
      ResultsToRows(results[1..], rfc3339, durationText)
  }

  /** The findings column reads back as the number of findings. */
  lemma FindingsColumnReadsBack(results: seq<ScanResult>, rfc3339: Time -> string, durationText: int -> string, i: nat)
    requires i < |results| && |results[i].findings| <= Decimal.MaxInt64
    ensures Decimal.Atoi(ResultsToRows(results, rfc3339, durationText)[i][2]) == Some(|results[i].findings|)
  {
    Decimal.AtoiOfIntToString(|results[i].findings|);
  }

  const BaselinesHeader: seq<string> := ["scanner", "metric", "count", "mean", "min", "max", "updated_at"]

  /** `baselinesToRows`: one row per baseline under `BaselinesHeader`; reals
      are rendered by `fixed6` (Go's `%f`) and the update time by `rfc3339`. */
  function BaselinesToRows(baselines: seq<BaselineManager.Baseline>, fixed6: real -> string, rfc3339: Time -> string)
    : (rows: seq<seq<string>>)
    ensures |rows| == |baselines|
    ensures forall i :: 0 <= i < |rows| ==> |rows[i]| == |BaselinesHeader|
    ensures forall i :: 0 <= i < |rows| ==>
      rows[i][0] == baselines[i].scannerName && rows[i][1] == baselines[i].metric &&
      rows[i][3] == fixed6(baselines[i].mean) && rows[i][4] == fixed6(baselines[i].min) &&
      rows[i][5] == fixed6(baselines[i].max) && rows[i][6] == rfc3339(baselines[i].updatedAt)
    ensures forall i :: 0 <= i < |rows| ==> rows[i][2] == Decimal.IntToString(baselines[i].count)
  {
    if baselines == [] then []
    else
      var b := baselines[0];
      [[b.scannerName, b.metric, Decimal.IntToString(b.count), fixed6(b.mean), fixed6(b.min), fixed6(b.max),
        rfc3339(b.updatedAt)]] +
      BaselinesToRows(baselines[1..], fixed6, rfc3339)
  }

  /** The count column reads back as the count. */
  lemma CountColumnReadsBack(baselines: seq<BaselineManager.Baseline>, fixed6: real -> string, rfc3339: Time -> string, i: nat)
    requires i < |baselines| && Decimal.MinInt64 <= baselines[i].count <= Decimal.MaxInt64
    ensures Decimal.Atoi(BaselinesToRows(baselines, fixed6, rfc3339)[i][2]) == Some(baselines[i].count)
  {
    Decimal.AtoiOfIntToString(baselines[i].count);
  }
}

=== FILE: auth_gate.dfy ===
/** The bearer-token check in front of every API route and of the web
    interface's `/api/` proxy (internal/api/server.go `withAuth`,
    internal/webui/server.go `withAuthHandler`): both apply the same rule,
    each with its own configured token (`api.auth_token` and
    `web_ui.auth_token`). */
module AuthGate {

  /** The token a request presents: its `Authorization` header, or, when that
      header is empty, its `token` query parameter. */
  function PresentedToken(header: string, query: string): (t: string)
    ensures header != "" ==> t == header
    ensures header == "" ==> t == query
  {
    if header == "" then query else header
  }

  /** Whether a request gets through: always when no token is configured,
      otherwise only when the presented token equals the configured one. */
  predicate Admits(configured: string, header: string, query: string) {
    configured == "" || PresentedToken(header, query) == configured
  }

  /** What the gate does with a request: 401 without calling the handler, or
      the handler's own reply. */
  datatype Gated<T> = Unauthorized | Passed(reply: T)

  function WithAuth<T>(configured: string, header: string, query: string, next: T): (r: Gated<T>)
    ensures r.Unauthorized? <==> configured != "" && PresentedToken(header, query) != configured
    ensures r.Passed? ==> r.reply == next
  {
    if Admits(configured, header, query) then Passed(next) else Unauthorized
  }

  /** An independent statement of the rule: a request passes exactly when no
      token is configured, when its header carries the token, or when it has
      no header and its query carries the token. */
  lemma AdmitsCases(configured: string, header: string, query: string)
    ensures Admits(configured, header, query) <==>
      (configured == "" || header == configured || (header == "" && query == configured))
  {
  }

  /** A wrong header is not rescued by a right query parameter. */
  lemma HeaderTakesPrecedence(configured: string, header: string, query: string)
    requires configured != "" && header != "" && header != configured
    ensures !Admits(configured, header, query)
  {
  }
}

=== FILE: auth_log.dfy ===
/** The authentication-log scanner (internal/plugins/system/auth_log.go):
    its settings, the tail of the log it keeps, and the one finding per
    line that reports a failed login. Opening and reading the log is an
    input; `bufio.Scanner`'s line splitting is `ScanLines`. */
module AuthLog {
  import opened Wrappers
  import opened ScannerTypes
  import Text
  import Seqs
  import PluginConfig

  const Name: string := "system.auth_log"
  const DefaultPath: string := "/var/log/auth.log"
  const DefaultPatterns: seq<string> := ["Failed password", "authentication failure", "Invalid user"]
  const DefaultMaxLines: nat := 500

  datatype Settings = Settings(path: string, failedPatterns: seq<string>, maxLines: nat)

  /** `Init`: the system auth log, three failure patterns and a 500-line
      tail unless configured. A non-empty generic pattern list replaces the
      defaults with its non-empty strings (possibly none at all); a
      positive `max_lines` is truncated to a whole number. It never fails. */
  function Init(config: map<string, Value>): (r: Settings)
    ensures PluginConfig.NonEmptyString(config, "path").None? ==> r.path == DefaultPath
    ensures PluginConfig.NonEmptyString(config, "path").Some? ==> config["path"] == VString(r.path)
    ensures "failed_patterns" in config && config["failed_patterns"].VList? && |config["failed_patterns"].elems| > 0 ==>
      r.failedPatterns == PluginConfig.NonEmptyStrings(config["failed_patterns"].elems)
    ensures !("failed_patterns" in config && config["failed_patterns"].VList? && |config["failed_patterns"].elems| > 0) ==>
      r.failedPatterns == DefaultPatterns
    ensures forall k :: 0 <= k < |r.failedPatterns| ==> r.failedPatterns[k] != ""
    ensures PluginConfig.PositiveFloat(config, "max_lines").None? ==> r.maxLines == DefaultMaxLines
    ensures PluginConfig.PositiveFloat(config, "max_lines").Some? ==>
      r.maxLines as real <= config["max_lines"].f < r.maxLines as real + 1.0
  {
    var path := match PluginConfig.NonEmptyString(config, "path") case Some(p) => p case None => DefaultPath;
    var patterns :=
      if "failed_patterns" in config && config["failed_patterns"].VList? && |config["failed_patterns"].elems| > 0
      then PluginConfig.NonEmptyStrings(config["failed_patterns"].elems)
      else DefaultPatterns;
    var maxLines := match PluginConfig.PositiveFloat(config, "max_lines") case Some(v) => PluginConfig.Truncate(v) case None => DefaultMaxLines;
    Settings(path, patterns, maxLines)
  }

  // ---------------------------------------------------------------------------
  // Reading the log

  /** A line without the carriage return that ends it, if any. */
  function DropCr(line: string): string {
    if |line| > 0 && line[|line| - 1] == '\r' then line[..|line| - 1] else line
  }

  /** `bufio.ScanLines` over the whole file: the lines between line feeds,
      each without a trailing carriage return; a final empty piece (the
      file ends with a line feed, or is empty) is no line. */
  function ScanLines(data: string): (r: seq<string>)
    ensures forall k :: 0 <= k < |r| ==> '\n' !in r[k]
  {
    var pieces := Text.Split(data, '\n');
    var body := if pieces[|pieces| - 1] == "" then pieces[..|pieces| - 1] else pieces;
    seq(|body|, i requires 0 <= i < |body| => DropCr(body[i]))
  }

  /** Lines each ended by a line feed are scanned back as themselves. */
  lemma ScanLinesOfLines(lines: seq<string>)
    requires forall k :: 0 <= k < |lines| ==> '\n' !in lines[k] && DropCr(lines[k]) == lines[k]
    ensures ScanLines(Text.Join(lines + [""], "\n")) == lines
  {
    var parts := lines + [""];
    forall k | 0 <= k < |parts|
      ensures '\n' !in parts[k]
    {
      if k < |lines| {
        assert parts[k] == lines[k];
      }
    }
    Text.SplitJoin(parts, '\n');
    var pieces := Text.Split(Text.Join(parts, "\n"), '\n');
    assert pieces == parts;
    assert pieces[..|pieces| - 1] == lines;
  }

  /** `readLastLines`: the scanner's lines, dropping the oldest whenever
      more than `maxLines` are held. */
  method ReadLastLines(lines: seq<string>, maxLines: nat) returns (kept: seq<string>)
    ensures kept == Seqs.Last(lines, maxLines)
  {
    kept := [];
    var i := 0;
    while i < |lines|
      invariant 0 <= i <= |lines|
      invariant kept == Seqs.Last(lines[..i], maxLines)
    {
      KeepStep(lines[..i], lines[i], maxLines);
      kept := kept + [lines[i]];
      if |kept| > maxLines {
        kept := kept[1..];
      }
      assert lines[..i + 1] == lines[..i] + [lines[i]];
      i := i + 1;
    }
    assert lines[..i] == lines;
  }

  /** One turn of the loop keeps the tail it should. */
  lemma KeepStep(xs: seq<string>, x: string, n: nat)
    ensures var k := Seqs.Last(xs, n) + [x];
      (if |k| > n then k[1..] else k) == Seqs.Last(xs + [x], n)
  {
    var k := Seqs.Last(xs, n) + [x];
    if n == 0 {
      assert Seqs.Last(xs + [x], n) == [];
    } else {
      Seqs.LastAppend(xs, x, n);
      assert |k| <= n + 1;
      if |k| > n {
        assert Seqs.Last(k, n) == k[1..];
      } else {
        assert Seqs.Last(k, n) == k;
      }
    }
  }

  // ---------------------------------------------------------------------------
  // Findings

  /** Some failure pattern occurs in the line. */
  function Matches(line: string, patterns: seq<string>): (b: bool)
    ensures b <==> exists k :: 0 <= k < |patterns| && Text.Contains(line, patterns[k])
  {
    if patterns == [] then false
    else if Text.Contains(line, patterns[0]) then true
    else
      assert forall k :: 1 <= k < |patterns| ==> patterns[1..][k - 1] == patterns[k];
      Matches(line, patterns[1..])
  }

  function AuthFailed(line: string): Finding {
    Finding("auth_failed", Medium, "auth", "Authentication failure detected",
      map["line" := VString(line)], "Review auth logs and block suspicious sources.")
  }

  /** The scan of the kept lines: the first matching pattern ends the
      pattern loop, so each line gives at most one finding. */
  function Findings(lines: seq<string>, patterns: seq<string>): (r: seq<Finding>)
    ensures |r| <= |lines|
    ensures forall f :: f in r ==> f.id == "auth_failed" && f.severity == Medium
  {
    if lines == [] then []
    else
      var rest := Findings(lines[1..], patterns);
      if Matches(lines[0], patterns) then [AuthFailed(lines[0])] + rest else rest
  }

  /** Every line holding a failure pattern is reported. */
  lemma {:induction false} FindingsComplete(lines: seq<string>, patterns: seq<string>)
    ensures forall i :: 0 <= i < |lines| && Matches(lines[i], patterns) ==> AuthFailed(lines[i]) in Findings(lines, patterns)
  {
    if lines != [] {
      FindingsComplete(lines[1..], patterns);
      forall i | 1 <= i < |lines| && Matches(lines[i], patterns)
        ensures AuthFailed(lines[i]) in Findings(lines, patterns)
      {
        assert lines[1..][i - 1] == lines[i];
      }
    }
  }

  /** Every report is of a line holding a failure pattern. */
  lemma {:induction false} FindingsSound(lines: seq<string>, patterns: seq<string>)
    ensures forall f :: f in Findings(lines, patterns) ==>
      exists i :: 0 <= i < |lines| && Matches(lines[i], patterns) && f == AuthFailed(lines[i])
  {
    if lines != [] {
      FindingsSound(lines[1..], patterns);
      forall f | f in Findings(lines[1..], patterns)
        ensures exists i :: 0 <= i < |lines| && Matches(lines[i], patterns) && f == AuthFailed(lines[i])
      {
        var j :| 0 <= j < |lines| - 1 && Matches(lines[1..][j], patterns) && f == AuthFailed(lines[1..][j]);
        assert lines[1..][j] == lines[j + 1];
      }
    }
  }

  /** A line matching two of the default patterns is reported once. */
  lemma OneFindingPerLine()
    ensures Findings(["Failed password for invalid user"], DefaultPatterns) == [AuthFailed("Failed password for invalid user")]
  {
    var line := "Failed password for invalid user";
    assert DefaultPatterns[0] <= line;
    assert Text.Contains(line, DefaultPatterns[0]);
    assert Matches(line, DefaultPatterns);
    assert ["Failed password for invalid user"][1..] == [];
  }

  /** `Run`: an unopenable log is the error; otherwise the findings of the
      kept tail and the number of lines scanned. */
  function Run(settings: Settings, open: Result<string>, stamp: string): (r: Result<ScanResult>)
    ensures r.Err? <==> open.Err?
    ensures r.Err? ==> r.error == "open auth log: " + open.error
    ensures r.Ok? ==> (var kept := Seqs.Last(ScanLines(open.value), settings.maxLines);
      r.value.findings == Findings(kept, settings.failedPatterns)
      && "lines_scanned" in r.value.metadata
      && r.value.metadata["lines_scanned"] == VInt(Seqs.Min(|ScanLines(open.value)|, settings.maxLines)))
  {
    match open
    case Err(e) => Err("open auth log: " + e)
    case Ok(data) =>
      var kept := Seqs.Last(ScanLines(data), settings.maxLines);
      Ok(ScanResult(Name, Success, Findings(kept, settings.failedPatterns), Zero, Zero, 0, map[
        "path" := VString(settings.path),
        "timestamp" := VString(stamp),
        "lines_scanned" := VInt(|kept|)]))
  }
}

=== FILE: baseline.dfy ===
/** Per-metric baselines (internal/detection/baseline.go): a running count,
    mean, sum of squared deviations, minimum and maximum of a metric, with
    the most recent samples, kept in bucket "baselines" of the key-value
    store under `scanner + "::" + metric`. Values are reals: floating-point
    rounding is not modelled, and neither is the JSON encoding, which is a
    codec parameter. */
module BaselineManager {
  import opened Wrappers
  import opened ScannerTypes
  import opened Seqs
  import KvStore

  const Bucket: string := "baselines"
  const MaxSamples: nat := 200
  const MinSamples: int := 10

  datatype Baseline = Baseline(
    scannerName: string,
    metric: string,
    count: int,
    mean: real,
    m2: real,
    min: real,
    max: real,
    samples: seq<real>,
    updatedAt: Time)

  /** The JSON encoding; both directions can fail with a message. */
  datatype Codec = Codec(encode: Baseline -> Result<KvStore.Bytes>, decode: KvStore.Bytes -> Result<Baseline>)

  /** Decoding what was encoded gives it back. */
  ghost predicate Faithful(c: Codec) {
    forall b :: c.encode(b).Ok? ==> c.decode(c.encode(b).value) == Ok(b)
  }

  /** `baselineKey`. */
  function Key(scannerName: string, metric: string): (k: string)
    ensures |k| == |scannerName| + 2 + |metric|
    ensures k[..|scannerName|] == scannerName && k[|scannerName| + 2..] == metric
    ensures k[|scannerName|] == ':' && k[|scannerName| + 1] == ':'
  {
    scannerName + "::" + metric
  }

  predicate NoColon(s: string) {
    forall i :: 0 <= i < |s| ==> s[i] != ':'
  }

  /** Keys of scanners without ':' in their names never collide; with a ':'
      they can ("a:" and ":b" against "a" and "::b"). */
  lemma KeySeparates(s1: string, m1: string, s2: string, m2: string)
    requires NoColon(s1) && NoColon(s2)
    requires Key(s1, m1) == Key(s2, m2)
    ensures s1 == s2 && m1 == m2
  {
  }

  /** Two distinct scanner/metric pairs sharing a key. */
  lemma KeyCollides()
    ensures Key("a:", ":b") == Key("a", "::b")
  {
    assert Key("a:", ":b") == ['a', ':', ':', ':', ':', 'b'];
  }

  /** The record `Update` starts from when there is none for the metric. */
  function Fresh(scannerName: string, metric: string, value: real): (b: Baseline)
    ensures b.count == 0 && b.mean == 0.0 && b.m2 == 0.0 && b.samples == []
    ensures b.min == value && b.max == value
    ensures b.scannerName == scannerName && b.metric == metric
  {
    Baseline(scannerName, metric, 0, 0.0, 0.0, value, value, [], Zero)
  }

  /** The in-memory part of `Update`: one more observation, folded in by
      Welford's method, with the sample window capped at `MaxSamples`. */
  function Observe(b: Baseline, value: real, now: int): (r: Baseline)
    ensures r.scannerName == b.scannerName && r.metric == b.metric
    ensures r.count == b.count + 1
    ensures r.min == (if value < b.min then value else b.min)
    ensures r.max == (if value > b.max then value else b.max)
    ensures r.samples == Last(b.samples + [value], MaxSamples)
    ensures |r.samples| <= MaxSamples
    ensures r.updatedAt == At(now)
    ensures b.count >= 0 ==> r.m2 >= b.m2
    ensures b.count >= 0 ==>
      r.mean == NextMean(b.mean, r.count as real, value) && r.m2 == NextM2(b.m2, b.mean, r.count as real, value)
  {
    var count := b.count + 1;
    var all := b.samples + [value];
    var samples := if |all| > MaxSamples then all[|all| - MaxSamples..] else all;
    assert b.count >= 0 ==> b.m2 <= NextM2(b.m2, b.mean, count as real, value) by {
      if b.count >= 0 { SquaredStep(b.m2, b.mean, count as real, value); }
    }
    Baseline(b.scannerName, b.metric, count,
             if count == 0 then b.mean else NextMean(b.mean, count as real, value),
             if count == 0 then b.m2 else NextM2(b.m2, b.mean, count as real, value),
             if value < b.min then value else b.min,
             if value > b.max then value else b.max,
             samples, At(now))
  }

  /** Welford's mean after the `n`-th observation `x`. */
  function NextMean(mean: real, n: real, x: real): real
    requires n != 0.0
  {
    mean + (x - mean) / n
  }

  /** Welford's M2 after the `n`-th observation `x`. */
  function NextM2(m2: real, mean: real, n: real, x: real): real
    requires n != 0.0
  {
    m2 + (x - mean) * (x - NextMean(mean, n, x))
  }

  /** Welford's increment `delta * (delta - delta/n)` is never negative. */
  lemma SquaredStep(m2: real, mean: real, n: real, x: real)
    requires n >= 1.0
    ensures NextM2(m2, mean, n, x) >= m2
  {
    var delta := x - mean;
    assert x - NextMean(mean, n, x) == delta - delta / n;
    var f := 1.0 - 1.0 / n;
    assert 1.0 / n <= 1.0;
    assert delta - delta / n == delta * f;
    assert delta * (delta * f) == (delta * delta) * f;
  }

  function Sum(xs: seq<real>): real {
    if xs == [] then 0.0 else Sum(xs[..|xs| - 1]) + xs[|xs| - 1]
  }

  function SumSq(xs: seq<real>): real {
    if xs == [] then 0.0 else SumSq(xs[..|xs| - 1]) + xs[|xs| - 1] * xs[|xs| - 1]
  }

  function Least(xs: seq<real>): real
    requires xs != []
  {
    if |xs| == 1 then xs[0]
    else var m := Least(xs[..|xs| - 1]); if xs[|xs| - 1] < m then xs[|xs| - 1] else m
  }

  function Greatest(xs: seq<real>): real
    requires xs != []
  {
    if |xs| == 1 then xs[0]
    else var m := Greatest(xs[..|xs| - 1]); if xs[|xs| - 1] > m then xs[|xs| - 1] else m
  }

  /** `b` holds the number of the observations `xs`, their mean and n
      times their population variance (Welford's M2), all exactly. */
  ghost predicate Moments(b: Baseline, xs: seq<real>) {
    var n := |xs| as real;
    b.count == |xs| && (xs == [] ==> b.m2 == 0.0) &&
    b.mean * n == Sum(xs) &&
    b.m2 * n == n * SumSq(xs) - Sum(xs) * Sum(xs)
  }

  /** `b` holds the least and greatest of the observations. */
  ghost predicate Extremes(b: Baseline, xs: seq<real>) {
    xs != [] ==> b.min == Least(xs) && b.max == Greatest(xs)
  }

  /** `b` summarises the observations `xs` of its metric: their moments,
      their extremes and the most recent of them in arrival order. */
  ghost predicate Summarises(b: Baseline, xs: seq<real>) {
    Moments(b, xs) && Extremes(b, xs) && b.samples == Last(xs, MaxSamples)
  }

  /** The Welford step on the sums: with `mean * k == s` and
      `m2 * k == k * q - s * s` before, the same holds for k + 1 after. */
  lemma WelfordStep(k: real, s: real, q: real, mean: real, m2: real, x: real)
    requires k >= 0.0 && (k == 0.0 ==> m2 == 0.0 && q == 0.0)
    requires mean * k == s && m2 * k == k * q - s * s
    ensures NextMean(mean, k + 1.0, x) * (k + 1.0) == s + x
    ensures NextM2(m2, mean, k + 1.0, x) * (k + 1.0) == (k + 1.0) * (q + x * x) - (s + x) * (s + x)
  {
    var n := k + 1.0;
    var d := x - mean;
    var mean' := mean + d / n;
    assert mean' * n == mean * n + d;
    var m2' := m2 + d * (x - mean');
    assert x - mean' == d * k / n by {
      assert (x - mean') * n == d * n - d;
    }
    assert m2' * n == m2 * n + d * d * k by {
      assert d * (d * k / n) * n == d * d * k;
    }
    if k == 0.0 {
      assert s == 0.0;
      assert m2' * n == m2;
    } else {
      assert m2' * n * k == m2 * k * n + d * d * k * k;
      assert (d * k) * (d * k) == (x * k - s) * (x * k - s);
      assert m2' * n * k == (n * (q + x * x) - (s + x) * (s + x)) * k;
    }
  }

  lemma SumsAppend(xs: seq<real>, x: real)
    ensures Sum(xs + [x]) == Sum(xs) + x
    ensures SumSq(xs + [x]) == SumSq(xs) + x * x
  {
    assert (xs + [x])[..|xs|] == xs;
  }

  /** Moments from the values they must take. */
  lemma MomentsOf(r: Baseline, ys: seq<real>, n: real, s: real, q: real)
    requires ys != [] && r.count == |ys| && n == |ys| as real
    requires s == Sum(ys) && q == SumSq(ys)
    requires r.mean * n == s && r.m2 * n == n * q - s * s
    ensures Moments(r, ys)
  {
  }

  lemma ObserveMoments(b: Baseline, xs: seq<real>, x: real, now: int)
    requires Moments(b, xs)
    ensures Moments(Observe(b, x, now), xs + [x])
  {
    var k := |xs| as real;
    SumsAppend(xs, x);
    WelfordStep(k, Sum(xs), SumSq(xs), b.mean, b.m2, x);
    var r := Observe(b, x, now);
    var n := k + 1.0;
    assert r.count as real == n;
    assert r.mean == NextMean(b.mean, n, x) && r.m2 == NextM2(b.m2, b.mean, n, x);
    MomentsOf(r, xs + [x], n, Sum(xs) + x, SumSq(xs) + x * x);
  }

  lemma {:induction false} ObserveExtremes(b: Baseline, xs: seq<real>, x: real, now: int)
    requires Extremes(b, xs)
    requires xs == [] ==> b.min == x && b.max == x
    ensures Extremes(Observe(b, x, now), xs + [x])
  {
    var ys := xs + [x];
    assert ys[..|ys| - 1] == xs;
  }

  /** One observation keeps the summary exact. */
  lemma ObserveSummarises(b: Baseline, xs: seq<real>, x: real, now: int)
    requires Summarises(b, xs)
    requires xs == [] ==> b.min == x && b.max == x
    ensures Summarises(Observe(b, x, now), xs + [x])
  {
    ObserveMoments(b, xs, x, now);
    ObserveExtremes(b, xs, x, now);
    LastAppend(xs, x, MaxSamples);
  }

  /** The baseline `Update` builds from nothing over the values `xs`. */
  function Series(scannerName: string, metric: string, xs: seq<real>, now: int): Baseline
    requires xs != []
  {
    if |xs| == 1 then Observe(Fresh(scannerName, metric, xs[0]), xs[0], now)
    else Observe(Series(scannerName, metric, xs[..|xs| - 1], now), xs[|xs| - 1], now)
  }

  /** Whatever the values, a baseline built by updates holds their count,
      exact mean and sum of squared deviations, minimum, maximum and the
      last 200 of them in arrival order. */
  lemma {:induction false} SeriesSummarises(scannerName: string, metric: string, xs: seq<real>, now: int)
    requires xs != []
    ensures Summarises(Series(scannerName, metric, xs, now), xs)
  {
    if |xs| == 1 {
      assert xs == [xs[0]];
      FirstSummarises(scannerName, metric, xs[0], now);
    } else {
      var front := xs[..|xs| - 1];
      var x := xs[|xs| - 1];
      assert front + [x] == xs;
      SeriesSummarises(scannerName, metric, front, now);
      ObserveSummarises(Series(scannerName, metric, front, now), front, x, now);
    }
  }

  /** The first update of a fresh record summarises its one value. */
  lemma FirstSummarises(scannerName: string, metric: string, x: real, now: int)
    ensures Summarises(Series(scannerName, metric, [x], now), [x])
  {
    var f := Fresh(scannerName, metric, x);
    assert Summarises(f, []);
    ObserveSummarises(f, [], x, now);
    assert [] + [x] == [x];
  }

  /** What the private `get` found under the key. */
  datatype Lookup = Loaded(baseline: Baseline) | Missing | Broken(msg: string)

  /** `get`: read and decode the record of a scanner's metric. The key is
      never empty, so the store's own argument check never fires. */
  function Fetch(st: KvStore.Store, c: Codec, scannerName: string, metric: string): (r: Lookup)
    ensures KvStore.MakeKey(Bucket, Key(scannerName, metric)) !in st <==> r.Missing?
    ensures r.Loaded? ==> c.decode(st[KvStore.MakeKey(Bucket, Key(scannerName, metric))]) == Ok(r.baseline)
    ensures r.Broken? ==>
      c.decode(st[KvStore.MakeKey(Bucket, Key(scannerName, metric))]).Err? &&
      r.msg == "decode baseline: " + c.decode(st[KvStore.MakeKey(Bucket, Key(scannerName, metric))]).error
  {
    match KvStore.Get(st, Bucket, Key(scannerName, metric))
    case Found(raw) =>
      (match c.decode(raw)
       case Ok(b) => Loaded(b)
       case Err(e) => Broken("decode baseline: " + e))
    case NotFound => Missing
    case Failed(msg) => assert false; Broken(msg)
  }

  /** `Get`: a missing record is the store's `ErrNotFound`. */
  function Get(st: KvStore.Store, c: Codec, scannerName: string, metric: string): (r: Result<Baseline>)
    ensures r.Ok? <==> Fetch(st, c, scannerName, metric).Loaded?
    ensures r.Ok? ==> r.value == Fetch(st, c, scannerName, metric).baseline
    ensures Fetch(st, c, scannerName, metric).Missing? ==> r == Err(KvStore.NotFoundMsg)
  {
    match Fetch(st, c, scannerName, metric)
    case Loaded(b) => Ok(b)
    case Missing => Err(KvStore.NotFoundMsg)
    case Broken(msg) => Err(msg)
  }

  /** `put`: the record is filed under its own names. */
  function Put(st: KvStore.Store, c: Codec, b: Baseline): (r: Result<KvStore.Store>)
    ensures c.encode(b).Err? <==> r.Err?
    ensures r.Err? ==> r.error == "encode baseline: " + c.encode(b).error
    ensures r.Ok? ==> r.value == st[KvStore.MakeKey(Bucket, Key(b.scannerName, b.metric)) := c.encode(b).value]
  {
    match c.encode(b)
    case Err(e) => Err("encode baseline: " + e)
    case Ok(raw) => KvStore.Put(st, Bucket, Key(b.scannerName, b.metric), raw)
  }

  /** `Update`: fold one value into the metric's record, creating it when
      missing, and store it. The clock reading is `now`. */
  function Update(st: KvStore.Store, c: Codec, scannerName: string, metric: string, value: real, now: int)
    : (r: Result<(Baseline, KvStore.Store)>)
    ensures scannerName == "" || metric == "" ==> r == Err("scannerName and metric are required")
    ensures scannerName != "" && metric != "" && Fetch(st, c, scannerName, metric).Broken? ==>
      r == Err(Fetch(st, c, scannerName, metric).msg)
    ensures r.Ok? ==> scannerName != "" && metric != "" && !Fetch(st, c, scannerName, metric).Broken?
    ensures r.Ok? ==> r.value.0 == Observe(
      match Fetch(st, c, scannerName, metric)
      case Loaded(b) => b
      case _ => Fresh(scannerName, metric, value), value, now)
    ensures r.Ok? ==> Put(st, c, r.value.0) == Ok(r.value.1)
  {
    if scannerName == "" || metric == "" then Err("scannerName and metric are required")
    else
      match Fetch(st, c, scannerName, metric)
      case Broken(msg) => Err(msg)
      case Loaded(prev) =>
        var b := Observe(prev, value, now);
        (match Put(st, c, b)
         case Err(e) => Err(e)
         case Ok(stored) => Ok((b, stored)))
      case Missing =>
        var b := Observe(Fresh(scannerName, metric, value), value, now);
        match Put(st, c, b)
        case Err(e) => Err(e)
        case Ok(stored) => Ok((b, stored))
  }

  /** With a faithful codec, the record an update returns is what a later
      `Get` reads back, provided the stored record was filed under its own
      names; the records of scanners and metrics without ':' in their names
      are untouched. */
  lemma GetAfterUpdate(st: KvStore.Store, c: Codec, scannerName: string, metric: string, value: real, now: int,
                       otherScanner: string, otherMetric: string)
    requires Faithful(c)
    requires Fetch(st, c, scannerName, metric).Loaded? ==>
      Fetch(st, c, scannerName, metric).baseline.scannerName == scannerName &&
      Fetch(st, c, scannerName, metric).baseline.metric == metric
    requires Update(st, c, scannerName, metric, value, now).Ok?
    ensures var (b, st') := Update(st, c, scannerName, metric, value, now).value;
      Get(st', c, scannerName, metric) == Ok(b)
    ensures NoColon(scannerName) && NoColon(otherScanner) && (otherScanner, otherMetric) != (scannerName, metric) ==>
      Get(Update(st, c, scannerName, metric, value, now).value.1, c, otherScanner, otherMetric) ==
      Get(st, c, otherScanner, otherMetric)
  {
    var (b, st') := Update(st, c, scannerName, metric, value, now).value;
    var key := Key(scannerName, metric);
    assert b.scannerName == scannerName && b.metric == metric;
    assert st' == st[KvStore.MakeKey(Bucket, key) := c.encode(b).value];
    if NoColon(scannerName) && NoColon(otherScanner) && (otherScanner, otherMetric) != (scannerName, metric) {
      var other := Key(otherScanner, otherMetric);
      if other == key {
        KeySeparates(scannerName, metric, otherScanner, otherMetric);
      }
      KvStore.MakeKeyInjectiveOnKey(Bucket, other, key);
    }
  }

  /** `List`: every record of the bucket decoded, in the store's key order
      `order`; the first record that does not decode aborts the listing. */
  function List(st: KvStore.Store, c: Codec, order: seq<string>): (r: Result<seq<Baseline>>)
    requires Enumerates(order, KvStore.BucketKeys(st, Bucket))
    ensures r.Ok? <==> forall i :: 0 <= i < |order| ==> c.decode(st[KvStore.MakeKey(Bucket, order[i])]).Ok?
    ensures r.Ok? ==> (
      |r.value| == |order| &&
      forall i :: 0 <= i < |order| ==> r.value[i] == c.decode(st[KvStore.MakeKey(Bucket, order[i])]).value)
    ensures r.Err? ==> exists i :: (
      0 <= i < |order| && c.decode(st[KvStore.MakeKey(Bucket, order[i])]).Err? &&
      r.error == "decode baseline: " + c.decode(st[KvStore.MakeKey(Bucket, order[i])]).error)
  {
    var visit := (k: string, raw: KvStore.Bytes) =>
      if c.decode(raw).Err? then Fail("decode baseline: " + c.decode(raw).error) else Pass;
    var (out, n) := KvStore.ForEach(st, Bucket, order, visit);
    if out.Fail? then
      assert visit(order[n - 1], st[KvStore.MakeKey(Bucket, order[n - 1])]).Fail?;
      Err(out.error)
    else
      assert forall i :: 0 <= i < |order| ==> visit(order[i], st[KvStore.MakeKey(Bucket, order[i])]).Pass?;
      Ok(seq(|order|, i requires 0 <= i < |order| => c.decode(st[KvStore.MakeKey(Bucket, order[i])]).value))
  }

  // ---------------------------------------------------------------------
  // Anomaly test

  predicate Sorted(xs: seq<real>) {
    forall i, j :: 0 <= i < j < |xs| ==> xs[i] <= xs[j]
  }

  lemma SortedCons(h: real, t: seq<real>)
    requires Sorted(t)
    requires forall y :: y in t ==> h <= y
    ensures Sorted([h] + t)
  {
    var s := [h] + t;
    forall i, j | 0 <= i < j < |s|
      ensures s[i] <= s[j]
    {
      if i > 0 {
        assert s[i] == t[i - 1] && s[j] == t[j - 1];
      } else {
        assert s[j] == t[j - 1];
        assert t[j - 1] in t;
      }
    }
  }

  /** One step of an insertion sort, standing in for `sort.Float64s`. */
  function Insert(x: real, xs: seq<real>): (r: seq<real>)
    requires Sorted(xs)
    ensures Sorted(r)
    ensures multiset(r) == multiset(xs) + multiset{x}
  {
    if xs == [] then [x]
    else if x <= xs[0] then
      assert forall y :: y in xs ==> x <= y by {
        forall y | y in xs ensures x <= y {
          var i :| 0 <= i < |xs| && xs[i] == y;
          assert xs[0] <= xs[i];
        }
      }
      SortedCons(x, xs);
      [x] + xs
    else
      var rest := Insert(x, xs[1..]);
      assert xs == [xs[0]] + xs[1..];
      assert forall y :: y in rest ==> xs[0] <= y by {
        forall y | y in rest ensures xs[0] <= y {
          assert y in multiset(rest);
          if y != x {
            assert y in multiset(xs[1..]);
            var i :| 0 <= i < |xs[1..]| && xs[1..][i] == y;
            assert xs[0] <= xs[i + 1];
          }
        }
      }
      SortedCons(xs[0], rest);
      [xs[0]] + rest
  }

  function Sort(xs: seq<real>): (r: seq<real>)
    ensures Sorted(r)
    ensures multiset(r) == multiset(xs)
  {
    if xs == [] then []
    else
      assert xs == xs[..|xs| - 1] + [xs[|xs| - 1]];
      Insert(xs[|xs| - 1], Sort(xs[..|xs| - 1]))
  }

  lemma MulNonneg(x: real, y: real)
    requires x >= 0.0 && y >= 0.0
    ensures x * y >= 0.0
  {
  }

  /** A fraction of a non-negative quantity stays between 0 and it. */
  lemma ScaleWithin(f: real, n: real)
    requires 0.0 <= f <= 1.0 && n >= 0.0
    ensures 0.0 <= f * n <= n
  {
    MulNonneg(f, n);
    MulNonneg(1.0 - f, n);
    assert n - f * n == (1.0 - f) * n;
  }

  lemma MulMonotone(f: real, g: real, n: real)
    requires f <= g && n >= 0.0
    ensures f * n <= g * n
  {
    MulNonneg(g - f, n);
    assert g * n - f * n == (g - f) * n;
  }

  /** Go's `int(math.Ceil(x))` for a non-negative real. */
  function Ceil(x: real): int {
    if x.Floor as real == x then x.Floor else x.Floor + 1
  }

  /** Linear interpolation at fractional position `rank` of a sorted list. */
  function Interpolate(sorted: seq<real>, rank: real): real
    requires 0.0 <= rank <= (|sorted| - 1) as real
  {
    var lower := rank.Floor;
    var upper := Ceil(rank);
    if lower == upper then sorted[lower]
    else
      var weight := rank - lower as real;
      sorted[lower] * (1.0 - weight) + sorted[upper] * weight
  }

  /** The fractional position `percentile` reads for `p`: 0 at or below
      0, the last index at or above 100, proportional in between. */
  function RankOf(n: nat, p: real): (rank: real)
    requires n > 0
    ensures 0.0 <= rank <= (n - 1) as real
  {
    if p <= 0.0 then 0.0
    else if p >= 100.0 then (n - 1) as real
    else
      ScaleWithin(p / 100.0, (n - 1) as real);
      (p / 100.0) * (n - 1) as real
  }

  lemma RankMonotone(n: nat, p1: real, p2: real)
    requires n > 0 && p1 <= p2
    ensures RankOf(n, p1) <= RankOf(n, p2)
  {
    if 0.0 < p1 && p2 < 100.0 {
      var f1, f2 := p1 / 100.0, p2 / 100.0;
      assert f1 <= f2;
      assert RankOf(n, p1) == f1 * (n - 1) as real;
      assert RankOf(n, p2) == f2 * (n - 1) as real;
      MulMonotone(f1, f2, (n - 1) as real);
    }
  }

  /** `percentile`: 0 for no samples, the first sample at or below 0 and the
      last at or above 100, otherwise interpolated between the two closest
      ranks. */
  function Percentile(sorted: seq<real>, p: real): (r: real)
    ensures sorted == [] ==> r == 0.0
    ensures sorted != [] && p <= 0.0 ==> r == sorted[0]
    ensures sorted != [] && p >= 100.0 ==> r == sorted[|sorted| - 1]
    ensures sorted != [] ==> r == Interpolate(sorted, RankOf(|sorted|, p))
  {
    if sorted == [] then 0.0
    else if p <= 0.0 then sorted[0]
    else if p >= 100.0 then sorted[|sorted| - 1]
    else Interpolate(sorted, RankOf(|sorted|, p))
  }

  /** An interpolated value lies between its two neighbouring samples. */
  lemma InterpolateBetween(sorted: seq<real>, rank: real)
    requires Sorted(sorted) && 0.0 <= rank <= (|sorted| - 1) as real
    ensures sorted[rank.Floor] <= Interpolate(sorted, rank) <= sorted[Ceil(rank)]
  {
    var lower := rank.Floor;
    var upper := Ceil(rank);
    if lower != upper {
      var w := rank - lower as real;
      assert upper == lower + 1 && 0.0 < w < 1.0;
      var a, b := sorted[lower], sorted[upper];
      assert a <= b;
      MulNonneg(b - a, w);
      MulNonneg(b - a, 1.0 - w);
      assert a * (1.0 - w) + b * w - a == (b - a) * w;
      assert b - (a * (1.0 - w) + b * w) == (b - a) * (1.0 - w);
    }
  }

  /** Interpolation is monotone in the rank. */
  lemma InterpolateMonotone(sorted: seq<real>, r1: real, r2: real)
    requires Sorted(sorted) && 0.0 <= r1 <= r2 <= (|sorted| - 1) as real
    ensures Interpolate(sorted, r1) <= Interpolate(sorted, r2)
  {
    InterpolateBetween(sorted, r1);
    InterpolateBetween(sorted, r2);
    if r1.Floor == r2.Floor && Ceil(r1) != r1.Floor && Ceil(r2) != r2.Floor {
      var lower := r1.Floor;
      var a, b := sorted[lower], sorted[lower + 1];
      var w1, w2 := r1 - lower as real, r2 - lower as real;
      assert a <= b;
      MulNonneg(b - a, w2 - w1);
      assert (a * (1.0 - w2) + b * w2) - (a * (1.0 - w1) + b * w1) == (b - a) * (w2 - w1);
    } else if r1.Floor < r2.Floor {
      assert Ceil(r1) <= r2.Floor;
    }
  }

  /** The percentile of sorted samples grows with `p` and stays within the
      samples' range. */
  lemma PercentileMonotone(sorted: seq<real>, p1: real, p2: real)
    requires Sorted(sorted) && sorted != [] && p1 <= p2
    ensures sorted[0] <= Percentile(sorted, p1) <= Percentile(sorted, p2) <= sorted[|sorted| - 1]
  {
    var n := |sorted|;
    RankMonotone(n, p1, p2);
    InterpolateMonotone(sorted, 0.0, RankOf(n, p1));
    InterpolateMonotone(sorted, RankOf(n, p1), RankOf(n, p2));
    InterpolateMonotone(sorted, RankOf(n, p2), (n - 1) as real);
    assert Interpolate(sorted, 0.0) == sorted[0];
    assert Interpolate(sorted, (n - 1) as real) == sorted[n - 1];
  }

  /** `quartiles`: the 25th and 75th percentiles of the sorted samples. */
  function Quartiles(samples: seq<real>): (q: (real, real))
    ensures samples == [] ==> q == (0.0, 0.0)
    ensures q.0 <= q.1
  {
    if samples == [] then (0.0, 0.0)
    else
      var sorted := Sort(samples);
      assert |sorted| == |multiset(samples)| == |samples|;
      PercentileMonotone(sorted, 25.0, 75.0);
      (Percentile(sorted, 25.0), Percentile(sorted, 75.0))
  }

  /** The Tukey fences 1.5 interquartile ranges beyond the quartiles. */
  function Fences(samples: seq<real>): (f: (real, real))
    ensures f.0 <= Quartiles(samples).0 && Quartiles(samples).1 <= f.1
  {
    var (q1, q3) := Quartiles(samples);
    var iqr := q3 - q1;
    (q1 - 1.5 * iqr, q3 + 1.5 * iqr)
  }

  /** `|zScore| >= 3`, decided without the square root: with a positive
      sample variance v, |value - mean| / sqrt(v) >= 3 exactly when
      (value - mean)^2 >= 9 v. A count below 2 or a variance that is not
      positive gives a z-score of 0. */
  predicate FarFromMean(b: Baseline, value: real) {
    b.count >= 2 &&
    var variance := b.m2 / (b.count - 1) as real;
    variance > 0.0 && (value - b.mean) * (value - b.mean) >= 9.0 * variance
  }

  /** How the reasons render numbers: the z-score (which needs the square
      root) and a `%.2f` rendering of a real. */
  datatype Formats = Formats(zScore: (Baseline, real) -> string, fixed2: real -> string)

  /** `IsAnomaly`: a missing or unreadable record is an error; fewer than 10
      samples say nothing; otherwise a value three standard deviations from
      the mean, or outside the Tukey fences, is anomalous. */
  function IsAnomaly(st: KvStore.Store, c: Codec, scannerName: string, metric: string, value: real, fmt: Formats)
    : (r: Result<(bool, string)>)
    ensures r.Err? <==> Get(st, c, scannerName, metric).Err?
    ensures r.Err? ==> r.error == Get(st, c, scannerName, metric).error
    ensures r.Ok? && Get(st, c, scannerName, metric).value.count < MinSamples ==>
      r.value == (false, "insufficient_samples")
    ensures r.Ok? && Get(st, c, scannerName, metric).value.count >= MinSamples ==>
      var b := Get(st, c, scannerName, metric).value;
      (r.value.0 <==> FarFromMean(b, value) || value < Fences(b.samples).0 || value > Fences(b.samples).1) &&
      (r.value.0 == false ==> r.value.1 == "within_baseline")
    ensures r.Ok? && Get(st, c, scannerName, metric).value.count >= MinSamples ==>
      var b := Get(st, c, scannerName, metric).value;
      FarFromMean(b, value) ==> r.value.1 == "zscore=" + fmt.zScore(b, value)
    ensures r.Ok? && Get(st, c, scannerName, metric).value.count >= MinSamples ==>
      var b := Get(st, c, scannerName, metric).value;
      var (low, high) := Fences(b.samples);
      !FarFromMean(b, value) && (value < low || value > high) ==>
        r.value.1 == "iqr_outlier (" + fmt.fixed2(low) + ".." + fmt.fixed2(high) + ")"
  {
    match Get(st, c, scannerName, metric)
    case Err(e) => Err(e)
    case Ok(b) =>
      if b.count < MinSamples then Ok((false, "insufficient_samples"))
      else if FarFromMean(b, value) then Ok((true, "zscore=" + fmt.zScore(b, value)))
      else
        var (low, high) := Fences(b.samples);
        if value < low || value > high then
          Ok((true, "iqr_outlier (" + fmt.fixed2(low) + ".." + fmt.fixed2(high) + ")"))
        else Ok((false, "within_baseline"))
  }

  /** A value between the quartiles of the samples, within three standard
      deviations, is never anomalous. */
  lemma BetweenQuartilesIsNormal(st: KvStore.Store, c: Codec, scannerName: string, metric: string, value: real, fmt: Formats)
    requires Get(st, c, scannerName, metric).Ok?
    requires var b := Get(st, c, scannerName, metric).value;
      Quartiles(b.samples).0 <= value <= Quartiles(b.samples).1 && !FarFromMean(b, value)
    ensures IsAnomaly(st, c, scannerName, metric, value, fmt).Ok?
    ensures IsAnomaly(st, c, scannerName, metric, value, fmt).value.0 == false
  {
  }
}

=== FILE: cli.dfy ===
/** The command-line front end: the HTTP client of internal/cli/client.go
    and the `arcsent ctl` and `-reload` paths of cmd/arcsent/main.go. The
    network, the JSON encoder and indenter, and the process table are
    parameters; flag parsing is taken as done. */
module Cli {
  import opened Wrappers
  import opened Text
  import opened Decimal
  import ApiServer

  // ---------------------------------------------------------------------------
  // The client

  datatype Client = Client(baseUrl: string, token: string)

  /** `NewClient`: the base URL loses every trailing "/". */
  function NewClient(baseUrl: string, token: string): (c: Client)
    ensures c.token == token
    ensures |c.baseUrl| <= |baseUrl| && baseUrl[..|c.baseUrl|] == c.baseUrl
    ensures c.baseUrl == [] || c.baseUrl[|c.baseUrl| - 1] != '/'
    ensures forall i :: |c.baseUrl| <= i < |baseUrl| ==> baseUrl[i] == '/'
  {
    Client(TrimRightChar(baseUrl, '/'), token)
  }

  /** Trailing slashes are all gone after one pass: a second changes nothing. */
  lemma {:induction false} NewClientIdempotent(baseUrl: string, token: string)
    ensures NewClient(NewClient(baseUrl, token).baseUrl, token) == NewClient(baseUrl, token)
  {
    var b := NewClient(baseUrl, token).baseUrl;
    assert TrimRightChar(b, '/') == b;
  }

  datatype HttpRequest = HttpRequest(httpMethod: string, url: string, headers: map<string, string>, body: Option<seq<bv8>>)

  /** What the transport returns: the numeric code, the status line
      ("404 Not Found") and the body it read. */
  datatype HttpResponse = HttpResponse(code: int, status: string, body: string)

  /** `do`: a transport error is passed on; a code of 300 or more is an
      error naming the status and the trimmed body; otherwise the body. */
  function Do(answer: Result<HttpResponse>): (r: Result<string>)
    ensures answer.Err? ==> r == Err(answer.error)
    ensures answer.Ok? && answer.value.code >= 300 ==>
      r == Err("request failed: " + answer.value.status + ": " + Trim(answer.value.body))
    ensures answer.Ok? && answer.value.code < 300 ==> r == Ok(answer.value.body)
  {
    match answer
    case Err(e) => Err(e)
    case Ok(resp) =>
      if resp.code >= 300 then Err("request failed: " + resp.status + ": " + Trim(resp.body))
      else Ok(resp.body)
  }

  /** The request `DoJSON` builds: the token verbatim, a JSON content type,
      and a body only when one is given. */
  function JsonRequest(c: Client, httpMethod: string, path: string, body: Option<seq<bv8>>): (req: HttpRequest)
    ensures req.url == c.baseUrl + path && req.httpMethod == httpMethod
    ensures req.headers == map["Authorization" := c.token, "Content-Type" := "application/json"]
    ensures req.body == body
  {
    HttpRequest(httpMethod, c.baseUrl + path, map["Authorization" := c.token, "Content-Type" := "application/json"], body)
  }

  /** `DoJSON`: a payload that does not encode fails before anything is
      sent; `buildable` stands for `http.NewRequest` accepting the method
      and URL. */
  function DoJson<T>(c: Client, httpMethod: string, path: string, payload: Option<T>,
                     marshal: T -> Result<seq<bv8>>, buildable: (string, string) -> Result<()>,
                     send: HttpRequest -> Result<HttpResponse>): (r: Result<string>)
    ensures payload.Some? && marshal(payload.value).Err? ==> r == Err("encode json: " + marshal(payload.value).error)
    ensures r.Ok? ==> buildable(httpMethod, c.baseUrl + path).Ok?
    ensures (payload.None? || marshal(payload.value).Ok?) && buildable(httpMethod, c.baseUrl + path).Err? ==>
      r == Err(buildable(httpMethod, c.baseUrl + path).error)
    ensures (payload.None? || marshal(payload.value).Ok?) && buildable(httpMethod, c.baseUrl + path).Ok? ==>
      r == Do(send(JsonRequest(c, httpMethod, path,
                               if payload.None? then None else Some(marshal(payload.value).value))))
  {
    var encoded: Result<Option<seq<bv8>>> :=
      if payload.None? then Ok(None)
      else match marshal(payload.value)
        case Err(e) => Err("encode json: " + e)
        case Ok(raw) => Ok(Some(raw));
    match encoded
    case Err(e) => Err(e)
    case Ok(body) =>
      match buildable(httpMethod, c.baseUrl + path)
      case Err(e) => Err(e)
      case Ok(_) => Do(send(JsonRequest(c, httpMethod, path, body)))
  }

  /** The request `DoText` builds: the token and no content type, no body. */
  function TextRequest(c: Client, httpMethod: string, path: string): (req: HttpRequest)
    ensures req.url == c.baseUrl + path && req.httpMethod == httpMethod
    ensures req.headers == map["Authorization" := c.token]
    ensures req.body.None?
  {
    HttpRequest(httpMethod, c.baseUrl + path, map["Authorization" := c.token], None)
  }

  function DoText(c: Client, httpMethod: string, path: string, buildable: (string, string) -> Result<()>,
                  send: HttpRequest -> Result<HttpResponse>): (r: Result<string>)
    ensures buildable(httpMethod, c.baseUrl + path).Ok? ==> r == Do(send(TextRequest(c, httpMethod, path)))
    ensures buildable(httpMethod, c.baseUrl + path).Err? ==> r == Err(buildable(httpMethod, c.baseUrl + path).error)
  {
    match buildable(httpMethod, c.baseUrl + path)
    case Err(e) => Err(e)
    case Ok(_) => Do(send(TextRequest(c, httpMethod, path)))
  }

  /** An error reply's message ends in the reply's body with the surrounding
      white space removed, and trimming it again changes nothing. */
  lemma ErrorBodyTrimmed(resp: HttpResponse)
    requires resp.code >= 300
    ensures Do(Ok(resp)).Err?
    ensures Trim(Trim(resp.body)) == Trim(resp.body)
  {
  }

  // ---------------------------------------------------------------------------
  // `arcsent ctl`

  /** What `runCLI` does after reading its flags: exit early with a code and
      message, or send one request (in JSON or text mode). */
  datatype Step =
    | Exit(code: nat, message: string)
    | Send(httpMethod: string, path: string, query: string, text: bool)

  const TokenRequired: string := "ctl error: token is required (use -token or ARCSENT_TOKEN)"
  const PluginRequired: string := "ctl error: plugin name is required"
  /** The usage text written to standard error. */
  const UsageLines: seq<string> := [
    "Usage: arcsent ctl [flags] <command>", "", "Commands:",
    "  status", "  health", "  scanners", "  findings", "  baselines",
    "  results [latest|history]", "  trigger <plugin>", "  signatures status|update",
    "  export results|baselines", "  metrics", "", "Flags:",
    "  -addr http://127.0.0.1:8788", "  -token <token> (or ARCSENT_TOKEN)",
    "  -plugin <plugin> (for trigger)", "  -format json|csv (for export)",
    "  -pretty (pretty-print JSON)"]

  const Usage: string := Join(UsageLines, "\n") + "\n"

  /** The flag value, or the environment's when the flag is empty. */
  function FlagOrEnv(flag: string, env: string): string {
    if flag == "" then env else flag
  }

  /** The subcommand: the second argument, "" when there is none. */
  function SubOf(args: seq<string>): string {
    if |args| > 1 then args[1] else ""
  }

  /** The plugin `trigger` asks for: `-plugin`, else the subcommand. */
  function TriggerPlugin(pluginFlag: string, sub: string): string {
    if pluginFlag != "" then pluginFlag else sub
  }

  /** The server endpoint a command and subcommand are meant for, as the
      usage text lists them; None for a pair `runCLI` does not know. */
  function CommandEndpoint(cmd: string, sub: string): Option<ApiServer.Endpoint> {
    match cmd
    case "status" => Some(ApiServer.SystemStatus)
    case "health" => Some(ApiServer.Health)
    case "scanners" => Some(ApiServer.Scanners)
    case "findings" => Some(ApiServer.Findings)
    case "baselines" => Some(ApiServer.Baselines)
    case "results" =>
      if sub == "latest" then Some(ApiServer.ResultsLatest)
      else if sub == "history" || sub == "" then Some(ApiServer.ResultsHistory)
      else None
    case "trigger" => Some(ApiServer.Trigger)
    case "signatures" =>
      if sub == "status" then Some(ApiServer.SignaturesStatus)
      else if sub == "update" then Some(ApiServer.SignaturesUpdate)
      else None
    case "export" =>
      if sub == "results" then Some(ApiServer.ExportResults)
      else if sub == "baselines" then Some(ApiServer.ExportBaselines)
      else None
    case "metrics" => Some(ApiServer.Metrics)
    case _ => None
  }

  /** The routing of `runCLI` over the positional arguments. */
  function Dispatch(tokenFlag: string, envToken: string, pluginFlag: string, format: string, args: seq<string>): (s: Step)
    ensures FlagOrEnv(tokenFlag, envToken) == "" ==> s == Exit(1, TokenRequired)
    ensures FlagOrEnv(tokenFlag, envToken) != "" && args == [] ==> s == Exit(2, Usage)
    ensures s.Exit? ==> s.code in {1, 2}
    ensures s.Send? ==> s.httpMethod in {"GET", "POST"}
    ensures s.Send? ==> s.path in FixedPaths || (ApiServer.TriggerPrefix <= s.path && s.httpMethod == "POST")
    ensures FlagOrEnv(tokenFlag, envToken) != "" && args != [] && CommandEndpoint(args[0], SubOf(args)).None? ==>
      s == Exit(2, Usage)
    ensures FlagOrEnv(tokenFlag, envToken) != "" && args != [] && args[0] != "trigger" &&
            CommandEndpoint(args[0], SubOf(args)).Some? ==>
      s.Send? && s.path == ApiServer.PathFor(CommandEndpoint(args[0], SubOf(args)).value, "")
    ensures FlagOrEnv(tokenFlag, envToken) != "" && args != [] && args[0] == "trigger" ==>
      s == if TriggerPlugin(pluginFlag, SubOf(args)) == "" then Exit(2, PluginRequired)
           else Send("POST", ApiServer.TriggerPrefix + TriggerPlugin(pluginFlag, SubOf(args)), "", false)
    ensures s.Send? ==>
      args != [] &&
      (s.httpMethod == "POST" <==> args[0] == "trigger" || (args[0] == "signatures" && SubOf(args) == "update"))
    ensures s.Send? ==> args != [] && (s.text <==> args[0] == "export" || args[0] == "metrics")
    ensures s.Send? ==> args != [] && s.query == (if args[0] == "export" then "format=" + ToLower(format) else "")
  {
    var token := FlagOrEnv(tokenFlag, envToken);
    if token == "" then Exit(1, TokenRequired)
    else if |args| < 1 then Exit(2, Usage)
    else
      var cmd := args[0];
      var sub := if |args| > 1 then args[1] else "";
      match cmd
      case "status" => Send("GET", "/status", "", false)
      case "health" => Send("GET", "/health", "", false)
      case "scanners" => Send("GET", "/scanners", "", false)
      case "findings" => Send("GET", "/findings", "", false)
      case "baselines" => Send("GET", "/baselines", "", false)
      case "results" =>
        if sub == "latest" then Send("GET", "/results/latest", "", false)
        else if sub == "history" || sub == "" then Send("GET", "/results/history", "", false)
        else Exit(2, Usage)
      case "trigger" =>
        var name := if pluginFlag == "" && sub != "" then sub else pluginFlag;
        if name == "" then Exit(2, PluginRequired)
        else Send("POST", "/scanners/trigger/" + name, "", false)
      case "signatures" =>
        if sub == "status" then Send("GET", "/signatures/status", "", false)
        else if sub == "update" then Send("POST", "/signatures/update", "", false)
        else Exit(2, Usage)
      case "export" =>
        if sub == "results" then Send("GET", "/export/results", "format=" + ToLower(format), true)
        else if sub == "baselines" then Send("GET", "/export/baselines", "format=" + ToLower(format), true)
        else Exit(2, Usage)
      case "metrics" => Send("GET", "/metrics", "", true)
      case _ => Exit(2, Usage)
  }

  /** The paths of every command but `trigger`. */
  const FixedPaths: set<string> := {
    "/status", "/health", "/scanners", "/findings", "/baselines", "/results/latest",
    "/results/history", "/signatures/status", "/signatures/update", "/export/results",
    "/export/baselines", "/metrics"}

  /** The URL path and query of a request, as `runCLI` writes them. */
  function RequestPath(s: Step): string
    requires s.Send?
  {
    if s.query == "" then s.path else s.path + "?" + s.query
  }

  /** The server endpoint each command is meant for. */
  function Endpoint(s: Step): ApiServer.Endpoint
    requires s.Send?
  {
    if ApiServer.TriggerPrefix <= s.path then ApiServer.Trigger
    else match s.path
    case "/status" => ApiServer.SystemStatus
    case "/health" => ApiServer.Health
    case "/scanners" => ApiServer.Scanners
    case "/findings" => ApiServer.Findings
    case "/baselines" => ApiServer.Baselines
    case "/results/latest" => ApiServer.ResultsLatest
    case "/results/history" => ApiServer.ResultsHistory
    case "/signatures/status" => ApiServer.SignaturesStatus
    case "/signatures/update" => ApiServer.SignaturesUpdate
    case "/export/results" => ApiServer.ExportResults
    case "/export/baselines" => ApiServer.ExportBaselines
    case "/metrics" => ApiServer.Metrics
    case _ => ApiServer.Trigger
  }

  /** Every request the CLI sends names a path the daemon's API serves, and
      the server routes it to the endpoint its command is meant for (the
      query string is not part of the path the mux matches). */
  lemma CommandsReachServer(tokenFlag: string, envToken: string, pluginFlag: string, format: string, args: seq<string>)
    requires Dispatch(tokenFlag, envToken, pluginFlag, format, args).Send?
    ensures args != [] && CommandEndpoint(args[0], SubOf(args)).Some?
    ensures var s := Dispatch(tokenFlag, envToken, pluginFlag, format, args);
      ApiServer.Route(s.path) == CommandEndpoint(args[0], SubOf(args))
  {
    var s := Dispatch(tokenFlag, envToken, pluginFlag, format, args);
    var e := CommandEndpoint(args[0], SubOf(args)).value;
    if args[0] == "trigger" {
      var name := TriggerPlugin(pluginFlag, SubOf(args));
      assert s == Send("POST", ApiServer.TriggerPrefix + name, "", false);
      assert e == ApiServer.Trigger;
      assert s.path == ApiServer.PathFor(e, name);
      ApiServer.RoutePathFor(e, name);
    } else {
      assert s.path == ApiServer.PathFor(e, "");
      ApiServer.RoutePathFor(e, "");
    }
  }

  lemma PathServed(s: Step)
    requires s.Send? && (s.path in FixedPaths || ApiServer.TriggerPrefix <= s.path)
    ensures ApiServer.Route(s.path) == Some(Endpoint(s))
  {
    PathIsPathFor(s);
    ApiServer.RoutePathFor(Endpoint(s), PathName(s));
  }

  /** The plugin a trigger path names, "" for the other paths. */
  function PathName(s: Step): string
    requires s.Send?
  {
    if ApiServer.TriggerPrefix <= s.path then s.path[|ApiServer.TriggerPrefix|..] else ""
  }

  /** The CLI's path for a command is the server's path for its endpoint. */
  lemma PathIsPathFor(s: Step)
    requires s.Send? && (s.path in FixedPaths || ApiServer.TriggerPrefix <= s.path)
    ensures s.path == ApiServer.PathFor(Endpoint(s), PathName(s))
  {
    if !(ApiServer.TriggerPrefix <= s.path) {
      FixedPathIsPathFor(s);
    }
  }

  lemma FixedPathIsPathFor(s: Step)
    requires s.Send? && s.path in FixedPaths && !(ApiServer.TriggerPrefix <= s.path)
    ensures s.path == ApiServer.PathFor(Endpoint(s), "")
  {
  }

  /** `trigger` takes `-plugin` first, then the subcommand. */
  lemma TriggerNameChoice(token: string, pluginFlag: string, sub: string)
    requires token != ""
    ensures pluginFlag != "" ==> Dispatch(token, "", pluginFlag, "", ["trigger", sub]) == Send("POST", "/scanners/trigger/" + pluginFlag, "", false)
    ensures pluginFlag == "" && sub != "" ==> Dispatch(token, "", pluginFlag, "", ["trigger", sub]) == Send("POST", "/scanners/trigger/" + sub, "", false)
    ensures pluginFlag == "" && sub == "" ==> Dispatch(token, "", pluginFlag, "", ["trigger", sub]) == Exit(2, PluginRequired)
  {
  }

  // ---------------------------------------------------------------------------
  // Output

  /** `maybePrettyJSON`: the input unchanged unless pretty printing is asked
      for, the trimmed input opens an object or array, and indenting it
      succeeds (`indent` stands for `json.Indent`); then the indented text
      and a newline. */
  function MaybePrettyJson(raw: string, pretty: bool, indent: string -> Option<string>): (out: string)
    ensures !pretty ==> out == raw
    ensures Trim(raw) == "" ==> out == raw
    ensures Trim(raw) != "" && Trim(raw)[0] != '{' && Trim(raw)[0] != '[' ==> out == raw
    ensures out != raw ==> pretty && indent(Trim(raw)).Some? && out == indent(Trim(raw)).value + "\n"
  {
    if !pretty then raw
    else
      var trimmed := Trim(raw);
      if trimmed == "" then raw
      else if trimmed[0] != '{' && trimmed[0] != '[' then raw
      else
        match indent(trimmed)
        case None => raw
        case Some(out) => out + "\n"
  }

  /** What reaches standard output: the text, plus a newline when it is
      non-empty and does not end in one. */
  function Printed(raw: string): (out: string)
    ensures raw <= out && |out| <= |raw| + 1
    ensures raw != [] ==> out[|out| - 1] == '\n'
    ensures raw == [] ==> out == []
  {
    if |raw| > 0 && raw[|raw| - 1] != '\n' then raw + "\n" else raw
  }

  /** Printing is stable: output already ending in a newline is left alone. */
  lemma PrintedIdempotent(raw: string)
    ensures Printed(Printed(raw)) == Printed(raw)
  {
  }

  /** How `runCLI` ends once the request was made. */
  datatype Finished = Finished(code: nat, stdout: string, stderr: string)

  function Complete(answer: Result<string>, pretty: bool, indent: string -> Option<string>): (f: Finished)
    ensures answer.Err? ==> f == Finished(1, "", "ctl error: " + answer.error + "\n")
    ensures answer.Ok? ==> f.code == 0 && f.stderr == ""
    ensures answer.Ok? && !pretty ==> f.stdout == Printed(answer.value)
    ensures answer.Ok? ==> f.stdout == Printed(MaybePrettyJson(answer.value, pretty, indent))
  {
    match answer
    case Err(e) => Finished(1, "", "ctl error: " + e + "\n")
    case Ok(raw) => Finished(0, Printed(MaybePrettyJson(raw, pretty, indent)), "")
  }

  // ---------------------------------------------------------------------------
  // `arcsent -reload`

  const PidRequired: string := "reload error: pid is required (use -pid or ARCSENT_PID)"
  const PidInvalid: string := "reload error: pid must be a positive integer"

  /** The process to signal: from `-pid`, else `ARCSENT_PID`; it must be a
      positive integer. */
  function ReloadPid(pidFlag: string, envPid: string): (r: Result<int>)
    ensures FlagOrEnv(pidFlag, envPid) == "" ==> r == Err(PidRequired)
    ensures r.Ok? ==> 0 < r.value <= MaxInt64 && Atoi(FlagOrEnv(pidFlag, envPid)) == Some(r.value)
    ensures r.Err? ==> r.error in {PidRequired, PidInvalid}
  {
    var pid := FlagOrEnv(pidFlag, envPid);
    if pid == "" then Err(PidRequired)
    else match Atoi(pid)
      case None => Err(PidInvalid)
      case Some(n) => if n <= 0 then Err(PidInvalid) else Ok(n)
  }

  /** Every positive process id written in decimal is accepted as itself;
      zero and negative ones are refused. */
  lemma ReloadPidAccepts(n: int)
    requires MinInt64 <= n <= MaxInt64
    ensures n > 0 ==> ReloadPid(IntToString(n), "") == Ok(n)
    ensures n <= 0 ==> ReloadPid(IntToString(n), "") == Err(PidInvalid)
  {
    AtoiOfIntToString(n);
  }
}

=== FILE: config.dfy ===
/** The daemon's configuration (internal/config/config.go): its defaults,
    the validator that collects every problem in a fixed order, the redacted
    copy that is logged, the duration accessors and the environment
    overrides. `time.ParseDuration`, base64 decoding, the process's
    effective uid and the environment are parameters. */
module Configuration {
  import opened Wrappers
  import opened Text
  import opened Decimal
  import opened ScannerTypes
  import SigRegistry

  const DefaultConfigPath: string := "configs/config.json"

  datatype DaemonConfig = DaemonConfig(
    logLevel: string, logFormat: string, user: string, group: string,
    shutdownTimeout: string, dropPrivileges: bool)

  datatype StorageConfig = StorageConfig(dbPath: string, retentionDays: int, encryptionKeyBase64: string)

  /** `sourceUrls` is `None` for a nil map. */
  datatype SignaturesConfig = SignaturesConfig(
    enabled: bool, updateInterval: string, sources: seq<string>, cacheDir: string,
    airgapImportPath: string, sourceUrls: Option<map<string, string>>)

  /** The `api` and `web_ui` sections have the same shape. */
  datatype ServerConfig = ServerConfig(enabled: bool, bindAddr: string, readOnly: bool, authToken: string)

  datatype ScannerConfig = ScannerConfig(
    name: string, plugin: string, enabled: bool, schedule: string, timeout: string,
    maxRetries: int, retryBackoff: string, retryMax: string, allowOverlap: bool,
    runOnStart: bool, settings: map<string, Value>)

  datatype RuleConfig = RuleConfig(
    name: string, scanner: string, metric: string, operator: string,
    threshold: real, severity: string, description: string)

  datatype DetectionConfig = DetectionConfig(
    correlationWindow: string, correlationMinScanners: int, correlationCooldown: string,
    driftConsecutive: int, rules: seq<RuleConfig>)

  datatype ChannelConfig = ChannelConfig(
    kind: string, enabled: bool, severity: seq<string>, url: string,
    syslogNetwork: string, syslogAddress: string, syslogTag: string,
    smtpServer: string, smtpUser: string, smtpPass: string, from: string,
    to: seq<string>, subject: string)

  datatype AlertingConfig = AlertingConfig(
    enabled: bool, dedupWindow: string, retryMax: int, retryBackoff: string,
    channels: seq<ChannelConfig>)

  datatype SecurityConfig = SecurityConfig(selfIntegrity: bool, expectedSha256: string)

  datatype Config = Config(
    daemon: DaemonConfig, storage: StorageConfig, signatures: SignaturesConfig,
    api: ServerConfig, webUi: ServerConfig, scanners: seq<ScannerConfig>,
    detection: DetectionConfig, alerting: AlertingConfig, security: SecurityConfig)

  /** A channel of the given type with every other field empty. */
  function Channel(kind: string, enabled: bool): ChannelConfig {
    ChannelConfig(kind, enabled, [], "", "", "", "", "", "", "", "", [], "")
  }

  /** `Default()`. */
  const Default: Config := Config(
    DaemonConfig("info", "json", "", "", "10s", false),
    StorageConfig("/var/lib/arcsent/badger", 30, ""),
    SignaturesConfig(false, "24h", SigRegistry.DefaultSources, "/var/lib/arcsent/signatures", "", Some(map[])),
    ServerConfig(false, "127.0.0.1:8788", true, ""),
    ServerConfig(false, "127.0.0.1:8787", true, ""),
    [],
    DetectionConfig("5m", 2, "5m", 3, []),
    AlertingConfig(false, "5m", 3, "2s", [Channel("log", true)]),
    SecurityConfig(false, ""))

  /** What validation takes from outside the configuration: Go's duration
      parser, the decoded length of a standard base64 string (`None` when it
      is not valid base64), and the effective uid. */
  datatype Env = Env(parseDuration: string -> Option<int>, decodedLen: string -> Option<nat>, euid: int)

  /** `filepath.IsAbs` on Unix. */
  predicate IsAbs(path: string) {
    "/" <= path
  }

  /** An optional duration field is fine when empty or parseable. */
  predicate DurationOk(env: Env, s: string) {
    s == "" || env.parseDuration(s).Some?
  }

  // ---------------------------------------------------------------------------
  // The requirements, stated positively

  const LogLevels: set<string> := {"debug", "info", "warn", "error"}
  const LogFormats: set<string> := {"json", "text"}
  const Operators: set<string> := {"gt", "gte", "lt", "lte", "eq"}

  predicate DaemonValid(d: DaemonConfig, env: Env) {
    && ToLower(d.logLevel) in LogLevels
    && ToLower(d.logFormat) in LogFormats
    && DurationOk(env, d.shutdownTimeout)
    && (d.dropPrivileges && env.euid == 0 ==> d.user != "" && d.group != "")
  }

  predicate StorageValid(s: StorageConfig, env: Env) {
    && IsAbs(s.dbPath)
    && s.retentionDays >= 0
    && (s.encryptionKeyBase64 != "" ==> env.decodedLen(s.encryptionKeyBase64) == Some(32))
  }

  /** A source id configuration accepts: built in, or `custom:`. */
  predicate SourceAccepted(id: string) {
    SigRegistry.IsKnownSource(id) || SigRegistry.CustomPrefix <= id
  }

  predicate IntervalValid(s: SignaturesConfig, env: Env) {
    s.updateInterval != "" && env.parseDuration(s.updateInterval).Some?
  }

  predicate SourcesValid(sources: seq<string>) {
    |sources| > 0 && forall i :: 0 <= i < |sources| ==> SourceAccepted(sources[i])
  }

  predicate UrlsValid(urls: map<string, string>) {
    forall k :: k in urls ==> UrlEntryValid(k, urls[k])
  }

  /** What an enabled signatures section needs. */
  predicate UpdatesValid(s: SignaturesConfig, env: Env) {
    && IntervalValid(s, env)
    && SourcesValid(s.sources)
    && UrlsValid(s.sourceUrls.GetOr(map[]))
    && IsAbs(s.cacheDir)
  }

  predicate SignaturesValid(s: SignaturesConfig, env: Env) {
    && (s.enabled ==> UpdatesValid(s, env))
    && (s.airgapImportPath != "" ==> IsAbs(s.airgapImportPath))
  }

  predicate ServerValid(s: ServerConfig) {
    s.enabled ==> s.bindAddr != "" && s.authToken != ""
  }

  predicate ScannerValid(sc: ScannerConfig, env: Env) {
    && sc.name != "" && sc.plugin != ""
    && (sc.enabled ==> sc.schedule != "")
    && DurationOk(env, sc.timeout) && DurationOk(env, sc.retryBackoff) && DurationOk(env, sc.retryMax)
  }

  predicate RuleValid(r: RuleConfig) {
    r.name != "" && r.scanner != "" && r.metric != "" && ToLower(r.operator) in Operators
  }

  predicate DetectionValid(d: DetectionConfig, env: Env) {
    && DurationOk(env, d.correlationWindow) && DurationOk(env, d.correlationCooldown)
    && d.correlationMinScanners >= 1 && d.driftConsecutive >= 1
    && forall i :: 0 <= i < |d.rules| ==> RuleValid(d.rules[i])
  }

  predicate AlertingValid(a: AlertingConfig, env: Env) {
    && DurationOk(env, a.dedupWindow) && DurationOk(env, a.retryBackoff)
    && a.retryMax >= 0
    && forall i :: 0 <= i < |a.channels| ==> a.channels[i].kind != ""
  }

  predicate SecurityValid(s: SecurityConfig) {
    s.selfIntegrity ==> s.expectedSha256 != ""
  }

  /** The daemon, storage and signatures sections. */
  predicate HostValid(c: Config, env: Env) {
    DaemonValid(c.daemon, env) && StorageValid(c.storage, env) && SignaturesValid(c.signatures, env)
  }

  /** The two servers and the scanners. */
  predicate ServicesValid(c: Config, env: Env) {
    && ServerValid(c.webUi) && ServerValid(c.api)
    && forall i :: 0 <= i < |c.scanners| ==> ScannerValid(c.scanners[i], env)
  }

  /** Detection, alerting and security. */
  predicate AnalysisValid(c: Config, env: Env) {
    DetectionValid(c.detection, env) && AlertingValid(c.alerting, env) && SecurityValid(c.security)
  }

  /** Everything `Validate` demands. */
  predicate Valid(c: Config, env: Env) {
    HostValid(c, env) && ServicesValid(c, env) && AnalysisValid(c, env)
  }

  // ---------------------------------------------------------------------------
  // The checks, in the validator's order

  /** One failed check. The list and section names it carries are those of
      the message it produces. */
  datatype Problem =
    | LogLevelInvalid | LogFormatInvalid | ShutdownTimeoutInvalid | IdentityMissing
    | DbPathMissing | DbPathNotAbsolute | RetentionNegative | KeyNotBase64 | KeyWrongLength
    | IntervalMissing | IntervalInvalid | SourcesEmpty | SourceUnknown(id: string)
    | UrlSourceUnknown(id: string) | UrlEmpty(id: string) | CacheDirMissing | CacheDirNotAbsolute
    | AirgapNotAbsolute
    | BindAddrMissing(section: string) | AuthTokenMissing(section: string)
    | ScannerNameMissing(i: nat) | ScannerPluginMissing(i: nat) | ScheduleMissing(i: nat)
    | ScannerTimeoutInvalid(i: nat) | ScannerBackoffInvalid(i: nat) | ScannerRetryMaxInvalid(i: nat)
    | WindowInvalid | CooldownInvalid | MinScannersTooSmall | DriftTooSmall
    | RuleNameMissing(i: nat) | RuleScannerMissing(i: nat) | RuleMetricMissing(i: nat)
    | RuleOperatorInvalid(i: nat)
    | DedupWindowInvalid | AlertBackoffInvalid | AlertRetryMaxNegative | ChannelTypeMissing(i: nat)
    | ExpectedHashMissing

  /** "scanners[3]" and the like. */
  function Indexed(list: string, i: nat): string {
    list + "[" + IntToString(i) + "]"
  }

  /** The text the validator reports for a problem. */
  function Message(p: Problem): string {
    match p
    case LogLevelInvalid => "daemon.log_level must be one of: debug, info, warn, error"
    case LogFormatInvalid => "daemon.log_format must be one of: json, text"
    case ShutdownTimeoutInvalid => "daemon.shutdown_timeout must be a valid duration (e.g. 10s)"
    case IdentityMissing => "daemon.user and daemon.group are required when drop_privileges is true"
    case DbPathMissing => "storage.db_path is required"
    case DbPathNotAbsolute => "storage.db_path must be an absolute path"
    case RetentionNegative => "storage.retention_days must be >= 0"
    case KeyNotBase64 => "storage.encryption_key_base64 must be valid base64"
    case KeyWrongLength => "storage.encryption_key_base64 must decode to 32 bytes"
    case IntervalMissing => "signatures.update_interval is required when enabled"
    case IntervalInvalid => "signatures.update_interval must be a valid duration (e.g. 24h)"
    case SourcesEmpty => "signatures.sources must include at least one source when enabled"
    case SourceUnknown(id) => "signatures.sources contains unknown source: " + id
    case UrlSourceUnknown(id) => "signatures.source_urls contains unknown source: " + id
    case UrlEmpty(id) => "signatures.source_urls contains empty URL for " + id
    case CacheDirMissing => "signatures.cache_dir is required when enabled"
    case CacheDirNotAbsolute => "signatures.cache_dir must be an absolute path"
    case AirgapNotAbsolute => "signatures.airgap_import_path must be an absolute path if set"
    case BindAddrMissing(section) => section + ".bind_addr is required when enabled"
    case AuthTokenMissing(section) => section + ".auth_token is required when enabled"
    case ScannerNameMissing(i) => Indexed("scanners", i) + ".name is required"
    case ScannerPluginMissing(i) => Indexed("scanners", i) + ".plugin is required"
    case ScheduleMissing(i) => Indexed("scanners", i) + ".schedule is required when enabled"
    case ScannerTimeoutInvalid(i) => Indexed("scanners", i) + ".timeout must be a valid duration"
    case ScannerBackoffInvalid(i) => Indexed("scanners", i) + ".retry_backoff must be a valid duration"
    case ScannerRetryMaxInvalid(i) => Indexed("scanners", i) + ".retry_max must be a valid duration"
    case WindowInvalid => "detection.correlation_window must be a valid duration"
    case CooldownInvalid => "detection.correlation_cooldown must be a valid duration"
    case MinScannersTooSmall => "detection.correlation_min_scanners must be >= 1"
    case DriftTooSmall => "detection.drift_consecutive must be >= 1"
    case RuleNameMissing(i) => Indexed("detection.rules", i) + ".name is required"
    case RuleScannerMissing(i) => Indexed("detection.rules", i) + ".scanner is required"
    case RuleMetricMissing(i) => Indexed("detection.rules", i) + ".metric is required"
    case RuleOperatorInvalid(i) => Indexed("detection.rules", i) + ".operator must be one of gt,gte,lt,lte,eq"
    case DedupWindowInvalid => "alerting.dedup_window must be a valid duration"
    case AlertBackoffInvalid => "alerting.retry_backoff must be a valid duration"
    case AlertRetryMaxNegative => "alerting.retry_max must be >= 0"
    case ChannelTypeMissing(i) => Indexed("alerting.channels", i) + ".type is required"
    case ExpectedHashMissing => "security.expected_sha256 is required when self_integrity is enabled"
  }

  function Messages(ps: seq<Problem>): (msgs: seq<string>)
    ensures |msgs| == |ps|
    ensures forall k :: 0 <= k < |ps| ==> msgs[k] == Message(ps[k])
  {
    if ps == [] then [] else [Message(ps[0])] + Messages(ps[1..])
  }

  /** One problem when `bad` holds. */
  function Check(bad: bool, p: Problem): (r: seq<Problem>)
    ensures r == [] <==> !bad
    ensures bad ==> r == [p]
  {
    if bad then [p] else []
  }

  /** The validator's loops over a list: the checks of the first `n`
      items in order, `check(x, i)` being those of item `x` at index `i`. */
  function EachProblems<T>(xs: seq<T>, n: nat, check: (T, nat) -> seq<Problem>, ok: T -> bool): (r: seq<Problem>)
    requires n <= |xs|
    requires forall i :: 0 <= i < n ==> (check(xs[i], i) == [] <==> ok(xs[i]))
    ensures r == [] <==> forall i :: 0 <= i < n ==> ok(xs[i])
  {
    if n == 0 then []
    else
      var prev, last := EachProblems(xs, n - 1, check, ok), check(xs[n - 1], n - 1);
      assert |prev + last| == |prev| + |last|;
      prev + last
  }

  function DaemonProblems(d: DaemonConfig, env: Env): (r: seq<Problem>)
    ensures r == [] <==> DaemonValid(d, env)
  {
    Check(ToLower(d.logLevel) !in LogLevels, LogLevelInvalid)
    + Check(ToLower(d.logFormat) !in LogFormats, LogFormatInvalid)
    + Check(!DurationOk(env, d.shutdownTimeout), ShutdownTimeoutInvalid)
    + Check(d.dropPrivileges && env.euid == 0 && (d.user == "" || d.group == ""), IdentityMissing)
  }

  function StorageProblems(s: StorageConfig, env: Env): (r: seq<Problem>)
    ensures r == [] <==> StorageValid(s, env)
  {
    (if s.dbPath == "" then [DbPathMissing] else Check(!IsAbs(s.dbPath), DbPathNotAbsolute))
    + Check(s.retentionDays < 0, RetentionNegative)
    + (if s.encryptionKeyBase64 == "" then []
       else match env.decodedLen(s.encryptionKeyBase64)
         case None => [KeyNotBase64]
         case Some(n) => Check(n != 32, KeyWrongLength))
  }

  /** One problem per unaccepted id of `sources`, in order. */
  function SourceListProblems(sources: seq<string>): (r: seq<Problem>)
    ensures r == [] <==> forall i :: 0 <= i < |sources| ==> SourceAccepted(sources[i])
  {
    EachProblems(sources, |sources|, (id, _) => Check(!SourceAccepted(id), SourceUnknown(id)), SourceAccepted)
  }

  /** A `source_urls` entry is fine when its key is an accepted source id
      and its URL is not blank. */
  predicate UrlEntryValid(k: string, url: string) {
    SourceAccepted(k) && Trim(url) != ""
  }

  function UrlEntryProblems(k: string, url: string): (r: seq<Problem>)
    ensures r == [] <==> UrlEntryValid(k, url)
  {
    Check(!SourceAccepted(k), UrlSourceUnknown(k)) + Check(Trim(url) == "", UrlEmpty(k))
  }

  /** The checks on `source_urls`, visiting the keys in `order`. */
  function UrlProblems(urls: map<string, string>, order: seq<string>): (r: seq<Problem>)
    ensures r == [] <==> forall i :: 0 <= i < |order| ==> UrlListed(urls, order[i])
  {
    EachProblems(order, |order|, (k, _) => if k in urls then UrlEntryProblems(k, urls[k]) else [],
                 k => UrlListed(urls, k))
  }

  /** A visited key's entry is fine (a key the map lacks is never visited). */
  predicate UrlListed(urls: map<string, string>, k: string) {
    k in urls ==> UrlEntryValid(k, urls[k])
  }

  /** Visiting every key once, in any order, finds no problem exactly when
      every entry of the map is fine. */
  lemma UrlOrderIrrelevant(urls: map<string, string>, order: seq<string>)
    requires Enumerates(order, urls.Keys)
    ensures UrlProblems(urls, order) == [] <==> UrlsValid(urls)
  {
    if UrlProblems(urls, order) == [] {
      forall k | k in urls ensures UrlEntryValid(k, urls[k]) {
        var i :| 0 <= i < |order| && order[i] == k;
        assert UrlListed(urls, order[i]);
      }
    }
  }

  /** The `source_urls` checks, in the order the map is visited. */
  function UrlMapProblems(urls: map<string, string>, order: seq<string>): (r: seq<Problem>)
    requires Enumerates(order, urls.Keys)
    ensures r == [] <==> UrlsValid(urls)
  {
    UrlOrderIrrelevant(urls, order);
    UrlProblems(urls, order)
  }

  function IntervalProblems(s: SignaturesConfig, env: Env): (r: seq<Problem>)
    ensures r == [] <==> IntervalValid(s, env)
  {
    if s.updateInterval == "" then [IntervalMissing]
    else Check(env.parseDuration(s.updateInterval).None?, IntervalInvalid)
  }

  function SourcesProblems(sources: seq<string>): (r: seq<Problem>)
    ensures r == [] <==> SourcesValid(sources)
  {
    Check(|sources| == 0, SourcesEmpty) + SourceListProblems(sources)
  }

  function CacheDirProblems(dir: string): (r: seq<Problem>)
    ensures r == [] <==> IsAbs(dir)
  {
    if dir == "" then [CacheDirMissing] else Check(!IsAbs(dir), CacheDirNotAbsolute)
  }

  /** The checks made only when updates are enabled. */
  function UpdatesProblems(s: SignaturesConfig, env: Env, urlOrder: seq<string>): (r: seq<Problem>)
    requires Enumerates(urlOrder, s.sourceUrls.GetOr(map[]).Keys)
    ensures r == [] <==> UpdatesValid(s, env)
  {
    IntervalProblems(s, env) + SourcesProblems(s.sources)
    + UrlMapProblems(s.sourceUrls.GetOr(map[]), urlOrder) + CacheDirProblems(s.cacheDir)
  }

  function SignaturesProblems(s: SignaturesConfig, env: Env, urlOrder: seq<string>): (r: seq<Problem>)
    requires Enumerates(urlOrder, s.sourceUrls.GetOr(map[]).Keys)
    ensures r == [] <==> SignaturesValid(s, env)
  {
    (if s.enabled then UpdatesProblems(s, env, urlOrder) else [])
    + Check(s.airgapImportPath != "" && !IsAbs(s.airgapImportPath), AirgapNotAbsolute)
  }

  function ServerProblems(section: string, s: ServerConfig): (r: seq<Problem>)
    ensures r == [] <==> ServerValid(s)
  {
    if !s.enabled then []
    else Check(s.bindAddr == "", BindAddrMissing(section)) + Check(s.authToken == "", AuthTokenMissing(section))
  }

  function ScannerProblems(sc: ScannerConfig, env: Env, i: nat): (r: seq<Problem>)
    ensures r == [] <==> ScannerValid(sc, env)
  {
    Check(sc.name == "", ScannerNameMissing(i))
    + Check(sc.plugin == "", ScannerPluginMissing(i))
    + Check(sc.enabled && sc.schedule == "", ScheduleMissing(i))
    + Check(!DurationOk(env, sc.timeout), ScannerTimeoutInvalid(i))
    + Check(!DurationOk(env, sc.retryBackoff), ScannerBackoffInvalid(i))
    + Check(!DurationOk(env, sc.retryMax), ScannerRetryMaxInvalid(i))
  }

  /** The checks on every scanner, in order. */
  function ScannersProblems(scs: seq<ScannerConfig>, env: Env): (r: seq<Problem>)
    ensures r == [] <==> forall i :: 0 <= i < |scs| ==> ScannerValid(scs[i], env)
  {
    EachProblems(scs, |scs|, (sc, i) => ScannerProblems(sc, env, i), sc => ScannerValid(sc, env))
  }

  function RuleProblems(r: RuleConfig, i: nat): (ps: seq<Problem>)
    ensures ps == [] <==> RuleValid(r)
  {
    Check(r.name == "", RuleNameMissing(i))
    + Check(r.scanner == "", RuleScannerMissing(i))
    + Check(r.metric == "", RuleMetricMissing(i))
    + Check(ToLower(r.operator) !in Operators, RuleOperatorInvalid(i))
  }

  function RulesProblems(rules: seq<RuleConfig>): (r: seq<Problem>)
    ensures r == [] <==> forall i :: 0 <= i < |rules| ==> RuleValid(rules[i])
  {
    EachProblems(rules, |rules|, RuleProblems, RuleValid)
  }

  function DetectionProblems(d: DetectionConfig, env: Env): (r: seq<Problem>)
    ensures r == [] <==> DetectionValid(d, env)
  {
    Check(!DurationOk(env, d.correlationWindow), WindowInvalid)
    + Check(!DurationOk(env, d.correlationCooldown), CooldownInvalid)
    + Check(d.correlationMinScanners < 1, MinScannersTooSmall)
    + Check(d.driftConsecutive < 1, DriftTooSmall)
    + RulesProblems(d.rules)
  }

  function ChannelsProblems(chs: seq<ChannelConfig>): (r: seq<Problem>)
    ensures r == [] <==> forall i :: 0 <= i < |chs| ==> chs[i].kind != ""
  {
    EachProblems(chs, |chs|, (ch: ChannelConfig, i) => Check(ch.kind == "", ChannelTypeMissing(i)),
                 (ch: ChannelConfig) => ch.kind != "")
  }

  function AlertingProblems(a: AlertingConfig, env: Env): (r: seq<Problem>)
    ensures r == [] <==> AlertingValid(a, env)
  {
    Check(!DurationOk(env, a.dedupWindow), DedupWindowInvalid)
    + Check(!DurationOk(env, a.retryBackoff), AlertBackoffInvalid)
    + Check(a.retryMax < 0, AlertRetryMaxNegative)
    + ChannelsProblems(a.channels)
  }

  function HostProblems(c: Config, env: Env, urlOrder: seq<string>): (r: seq<Problem>)
    requires Enumerates(urlOrder, c.signatures.sourceUrls.GetOr(map[]).Keys)
    ensures r == [] <==> HostValid(c, env)
  {
    DaemonProblems(c.daemon, env) + StorageProblems(c.storage, env)
    + SignaturesProblems(c.signatures, env, urlOrder)
  }

  function ServicesProblems(c: Config, env: Env): (r: seq<Problem>)
    ensures r == [] <==> ServicesValid(c, env)
  {
    ServerProblems("web_ui", c.webUi) + ServerProblems("api", c.api) + ScannersProblems(c.scanners, env)
  }

  function AnalysisProblems(c: Config, env: Env): (r: seq<Problem>)
    ensures r == [] <==> AnalysisValid(c, env)
  {
    DetectionProblems(c.detection, env) + AlertingProblems(c.alerting, env)
    + Check(c.security.selfIntegrity && c.security.expectedSha256 == "", ExpectedHashMissing)
  }

  /** Every failed check, in the validator's order. */
  function Problems(c: Config, env: Env, urlOrder: seq<string>): (r: seq<Problem>)
    requires Enumerates(urlOrder, c.signatures.sourceUrls.GetOr(map[]).Keys)
    ensures r == [] <==> Valid(c, env)
  {
    HostProblems(c, env, urlOrder) + ServicesProblems(c, env) + AnalysisProblems(c, env)
  }

  /** `Validate`: no error exactly when every requirement holds; otherwise
      one error holding every failed check's message, joined by "; ". `urlOrder` is the order in which the `source_urls` map is
      visited. */
  function Validate(c: Config, env: Env, urlOrder: seq<string>): (r: Outcome)
    requires Enumerates(urlOrder, c.signatures.sourceUrls.GetOr(map[]).Keys)
    ensures r == Pass <==> Valid(c, env)
    ensures r.Fail? ==> r.error == Join(Messages(Problems(c, env, urlOrder)), "; ")
  {
    var errs := Problems(c, env, urlOrder);
    if errs == [] then Pass else Fail(Join(Messages(errs), "; "))
  }

  /** The facts about Go's duration parser the defaults rely on. */
  predicate ParsesDefaultDurations(env: Env) {
    env.parseDuration("10s").Some? && env.parseDuration("5m").Some? && env.parseDuration("2s").Some?
  }

  /** The defaults pass validation. */
  lemma DefaultValidates(env: Env)
    requires ParsesDefaultDurations(env)
    ensures Validate(Default, env, []) == Pass
  {
    assert ToLower("info") == "info" && ToLower("json") == "json";
    assert Default.alerting.channels[0].kind != "";
  }

  /** An enabled API without a token is reported, after any missing bind
      address, and validation fails. */
  lemma MissingTokenReported(c: Config, env: Env, urlOrder: seq<string>)
    requires Enumerates(urlOrder, c.signatures.sourceUrls.GetOr(map[]).Keys)
    requires c.api.enabled && c.api.authToken == ""
    ensures Validate(c, env, urlOrder).Fail?
    ensures AuthTokenMissing("api") in ServicesProblems(c, env)
    ensures ServerProblems("api", c.api) ==
      (if c.api.bindAddr == "" then [BindAddrMissing("api")] else []) + [AuthTokenMissing("api")]
  {
  }

  /** An enabled scanner without a schedule is reported under its index. */
  lemma MissingScheduleReported(scs: seq<ScannerConfig>, env: Env, i: nat)
    requires i < |scs| && scs[i].enabled && scs[i].schedule == ""
    ensures ScheduleMissing(i) in ScannersProblems(scs, env)
  {
    ScheduleInScanner(scs[i], env, i);
    EachReports(scs, |scs|, (sc, i) => ScannerProblems(sc, env, i), sc => ScannerValid(sc, env), i, ScheduleMissing(i));
  }

  /** A problem of item `i` is among those of the list. */
  lemma {:induction false} EachReports<T>(xs: seq<T>, n: nat, check: (T, nat) -> seq<Problem>, ok: T -> bool,
                                          i: nat, p: Problem)
    requires i < n <= |xs|
    requires forall j :: 0 <= j < n ==> (check(xs[j], j) == [] <==> ok(xs[j]))
    requires p in check(xs[i], i)
    ensures p in EachProblems(xs, n, check, ok)
  {
    if i < n - 1 {
      EachReports(xs, n - 1, check, ok, i, p);
    }
  }

  lemma ScheduleInScanner(sc: ScannerConfig, env: Env, i: nat)
    requires sc.enabled && sc.schedule == ""
    ensures ScheduleMissing(i) in ScannerProblems(sc, env, i)
  {
    var front := Check(sc.name == "", ScannerNameMissing(i)) + Check(sc.plugin == "", ScannerPluginMissing(i));
    assert ScannerProblems(sc, env, i)[|front|] == ScheduleMissing(i);
  }

  // ---------------------------------------------------------------------------
  // Accessors and copies

  /** A duration field read with a fallback for an empty or unparsable value. */
  function DurationOr(env: Env, s: string, fallback: int): (d: int)
    ensures s != "" && env.parseDuration(s).Some? ==> d == env.parseDuration(s).value
    ensures s == "" || env.parseDuration(s).None? ==> d == fallback
  {
    if s == "" then fallback
    else match env.parseDuration(s)
      case None => fallback
      case Some(v) => v
  }

  const DefaultShutdownTimeout: int := 10 * Second

  function ShutdownTimeout(d: DaemonConfig, env: Env): int {
    DurationOr(env, d.shutdownTimeout, DefaultShutdownTimeout)
  }

  function ScannerTimeout(s: ScannerConfig, env: Env): int { DurationOr(env, s.timeout, 0) }
  function ScannerRetryBackoff(s: ScannerConfig, env: Env): int { DurationOr(env, s.retryBackoff, 0) }
  function ScannerRetryMax(s: ScannerConfig, env: Env): int { DurationOr(env, s.retryMax, 0) }
  function CorrelationWindow(d: DetectionConfig, env: Env): int { DurationOr(env, d.correlationWindow, 0) }
  function CorrelationCooldown(d: DetectionConfig, env: Env): int { DurationOr(env, d.correlationCooldown, 0) }
  function UpdateInterval(s: SignaturesConfig, env: Env): int { DurationOr(env, s.updateInterval, 0) }

  /** On a valid configuration the accessors never fall back for a set
      field: they return what the field says. */
  lemma ValidDurationsRead(c: Config, env: Env)
    requires Valid(c, env)
    ensures c.daemon.shutdownTimeout == "" ==> ShutdownTimeout(c.daemon, env) == 10 * Second
    ensures c.daemon.shutdownTimeout != "" ==>
      ShutdownTimeout(c.daemon, env) == env.parseDuration(c.daemon.shutdownTimeout).value
    ensures c.detection.correlationWindow != "" ==>
      CorrelationWindow(c.detection, env) == env.parseDuration(c.detection.correlationWindow).value
    ensures c.signatures.enabled ==>
      UpdateInterval(c.signatures, env) == env.parseDuration(c.signatures.updateInterval).value
  {
  }

  const Redaction: string := "REDACTED"

  function RedactToken(t: string): (r: string)
    ensures t == "" ==> r == ""
    ensures t != "" ==> r == Redaction
  {
    if t == "" then "" else Redaction
  }

  /** `Redacted`: a copy with both tokens masked (empty ones stay empty) and
      every source URL masked; nothing else differs. */
  function Redacted(c: Config): (r: Config)
    ensures r.webUi == c.webUi.(authToken := RedactToken(c.webUi.authToken))
    ensures r.api == c.api.(authToken := RedactToken(c.api.authToken))
    ensures c.signatures.sourceUrls.None? <==> r.signatures.sourceUrls.None?
    ensures c.signatures.sourceUrls.Some? ==>
      r.signatures.sourceUrls.value.Keys == c.signatures.sourceUrls.value.Keys &&
      forall k :: k in r.signatures.sourceUrls.value ==> r.signatures.sourceUrls.value[k] == Redaction
    ensures r.(webUi := c.webUi, api := c.api, signatures := c.signatures) == c
    ensures r.signatures.(sourceUrls := c.signatures.sourceUrls) == c.signatures
  {
    var urls := match c.signatures.sourceUrls
      case None => None
      case Some(m) => Some(map k | k in m :: Redaction);
    c.(webUi := c.webUi.(authToken := RedactToken(c.webUi.authToken)),
       api := c.api.(authToken := RedactToken(c.api.authToken)),
       signatures := c.signatures.(sourceUrls := urls))
  }

  /** Redacting twice is redacting once. */
  lemma RedactedIdempotent(c: Config)
    ensures Redacted(Redacted(c)) == Redacted(c)
  {
    var r := Redacted(c);
    if c.signatures.sourceUrls.Some? {
      assert Redacted(r).signatures.sourceUrls.value == r.signatures.sourceUrls.value;
    }
  }

  /** `SourceURLOverrides`: a copy of the URL map, empty for a nil map. */
  function SourceUrlOverrides(s: SignaturesConfig): (r: map<string, string>)
    ensures s.sourceUrls.None? ==> r == map[]
    ensures s.sourceUrls.Some? ==> r == s.sourceUrls.value
  {
    match s.sourceUrls
    case None => map[]
    case Some(m) => map k | k in m :: m[k]
  }

  // ---------------------------------------------------------------------------
  // Environment overrides

  /** A boolean override applies only when the variable is set and parses. */
  function EnvBool(current: bool, v: Option<string>): (b: bool)
    ensures v.Some? && ParseBool(v.value).Some? ==> b == ParseBool(v.value).value
    ensures !(v.Some? && ParseBool(v.value).Some?) ==> b == current
  {
    if v.Some? && ParseBool(v.value).Some? then ParseBool(v.value).value else current
  }

  /** A token override applies only when the variable is set and non-empty. */
  function EnvToken(current: string, v: Option<string>): (t: string)
    ensures v.Some? && v.value != "" ==> t == v.value
    ensures !(v.Some? && v.value != "") ==> t == current
  {
    if v.Some? && v.value != "" then v.value else current
  }

  /** `applyEnvOverrides`; `lookup` stands for `os.LookupEnv`. */
  function ApplyEnvOverrides(c: Config, lookup: string -> Option<string>): (r: Config)
    ensures r.webUi == c.webUi.(enabled := EnvBool(c.webUi.enabled, lookup("ARCSENT_WEB_UI_ENABLED")),
                                authToken := EnvToken(c.webUi.authToken, lookup("ARCSENT_WEB_UI_TOKEN")))
    ensures r.api == c.api.(enabled := EnvBool(c.api.enabled, lookup("ARCSENT_API_ENABLED")),
                            authToken := EnvToken(c.api.authToken, lookup("ARCSENT_API_TOKEN")))
    ensures r.signatures == c.signatures.(enabled := EnvBool(c.signatures.enabled, lookup("ARCSENT_SIGNATURES_ENABLED")))
    ensures r.(webUi := c.webUi, api := c.api, signatures := c.signatures) == c
  {
    c.(webUi := c.webUi.(enabled := EnvBool(c.webUi.enabled, lookup("ARCSENT_WEB_UI_ENABLED")),
                         authToken := EnvToken(c.webUi.authToken, lookup("ARCSENT_WEB_UI_TOKEN"))),
       signatures := c.signatures.(enabled := EnvBool(c.signatures.enabled, lookup("ARCSENT_SIGNATURES_ENABLED"))),
       api := c.api.(enabled := EnvBool(c.api.enabled, lookup("ARCSENT_API_ENABLED")),
                     authToken := EnvToken(c.api.authToken, lookup("ARCSENT_API_TOKEN"))))
  }

  /** Applying the overrides a second time changes nothing, and an
      environment without the five variables changes nothing at all. */
  lemma EnvOverridesSettle(c: Config, lookup: string -> Option<string>)
    ensures ApplyEnvOverrides(ApplyEnvOverrides(c, lookup), lookup) == ApplyEnvOverrides(c, lookup)
    ensures (forall v :: lookup(v).None?) ==> ApplyEnvOverrides(c, lookup) == c
  {
  }

  /** A value that `ParseBool` rejects leaves the flag alone. */
  lemma UnparsableFlagIgnored(c: Config, lookup: string -> Option<string>)
    requires lookup("ARCSENT_API_ENABLED") == Some("yes")
    ensures ApplyEnvOverrides(c, lookup).api.enabled == c.api.enabled
  {
  }

  // ---------------------------------------------------------------------------
  // Loading

  /** The last step of `Load`: the configuration if it is valid, the
      validator's error otherwise. */
  function Checked(c: Config, env: Env, order: map<string, string> -> seq<string>): (r: Result<Config>)
    requires forall m :: Enumerates(order(m), m.Keys)
    ensures r.Ok? <==> Valid(c, env)
    ensures r.Ok? ==> r.value == c
    ensures r.Err? ==> r.error == Validate(c, env, order(c.signatures.sourceUrls.GetOr(map[]))).error
  {
    var v := Validate(c, env, order(c.signatures.sourceUrls.GetOr(map[])));
    if v.Pass? then Ok(c) else Err(v.error)
  }

  /** `Load`: read the file (the default path for ""), decode it over the
      defaults, apply the environment and validate. `read` stands for
      `os.ReadFile`, `decode` for `json.Unmarshal` into the defaults, and
      `order` for the order in which Go visits a map's keys. */
  function Load(path: string, read: string -> Result<seq<bv8>>, decode: (Config, seq<bv8>) -> Result<Config>,
                lookup: string -> Option<string>, env: Env, order: map<string, string> -> seq<string>): (r: Result<Config>)
    requires forall m :: Enumerates(order(m), m.Keys)
    ensures read(if path == "" then DefaultConfigPath else path).Err? ==>
      r == Err("read config: " + read(if path == "" then DefaultConfigPath else path).error)
    ensures r.Ok? ==> Valid(r.value, env)
    ensures r.Ok? ==>
      var raw := read(if path == "" then DefaultConfigPath else path).value;
      decode(Default, raw).Ok? && r.value == ApplyEnvOverrides(decode(Default, raw).value, lookup)
    ensures read(if path == "" then DefaultConfigPath else path).Ok? ==>
      var raw := read(if path == "" then DefaultConfigPath else path).value;
      decode(Default, raw).Err? ==> r == Err("parse config: " + decode(Default, raw).error)
    ensures read(if path == "" then DefaultConfigPath else path).Ok? ==>
      var raw := read(if path == "" then DefaultConfigPath else path).value;
      decode(Default, raw).Ok? ==>
        var c := ApplyEnvOverrides(decode(Default, raw).value, lookup);
        r == Checked(c, env, order) &&
        (Valid(c, env) ==> r == Ok(c))
  {
    var file := if path == "" then DefaultConfigPath else path;
    match read(file)
    case Err(e) => Err("read config: " + e)
    case Ok(raw) =>
      match decode(Default, raw)
      case Err(e) => Err("parse config: " + e)
      case Ok(decoded) => Checked(ApplyEnvOverrides(decoded, lookup), env, order)
  }
}

=== FILE: correlation.dfy ===
/** The multi-scanner correlator (internal/detection/correlation.go): it
    remembers which scanners reported findings within a sliding window and
    raises one finding when enough distinct scanners did, at most once per
    cooldown. The clock is a parameter: `now` is the instant of the call. */
module Correlation {
  import opened Wrappers
  import opened ScannerTypes

  datatype Event = Event(at: int, scanner: string)

  datatype Correlator = Correlator(
    window: int,
    minScan: int,
    cooldown: int,
    events: seq<Event>,
    lastTriggered: Time)

  const DefaultWindow: int := 5 * Minute
  const DefaultMinScanners: int := 2

  /** `NewCorrelator`: a window that is not positive becomes five minutes,
      fewer than one scanner becomes two, and a cooldown that is not
      positive becomes the window. */
  function New(window: int, minScanners: int, cooldown: int): (c: Correlator)
    ensures c.window > 0 && c.minScan >= 1 && c.cooldown > 0
    ensures c.window == (if window > 0 then window else DefaultWindow)
    ensures c.minScan == (if minScanners >= 1 then minScanners else DefaultMinScanners)
    ensures c.cooldown == (if cooldown > 0 then cooldown else c.window)
    ensures c.events == [] && c.lastTriggered == Zero
  {
    var w := if window <= 0 then DefaultWindow else window;
    Correlator(w, if minScanners < 1 then DefaultMinScanners else minScanners,
               if cooldown <= 0 then w else cooldown, [], Zero)
  }

  /** `prune`: keep the events strictly after `cutoff`, in order. */
  function Prune(events: seq<Event>, cutoff: int): (r: seq<Event>)
    ensures |r| <= |events|
    ensures forall e :: e in r <==> e in events && e.at > cutoff
  {
    if events == [] then []
    else
      var last := events[|events| - 1];
      var front := Prune(events[..|events| - 1], cutoff);
      assert events == events[..|events| - 1] + [last];
      if last.at > cutoff then front + [last] else front
  }

  /** The distinct scanners of the events. */
  function Scanners(events: seq<Event>): set<string> {
    set e | e in events :: e.scanner
  }

  /** The last emission was less than a cooldown ago. Go's zero time lies
      centuries back, so a correlator that never fired is never cooling. */
  predicate Cooling(c: Correlator, now: int) {
    c.lastTriggered.At? && now - c.lastTriggered.nanos < c.cooldown
  }

  /** The finding an emission carries; `windowText` is the window as Go's
      `Duration.String` renders it. */
  function CorrelationFinding(unique: nat, windowText: string): Finding {
    Finding("correlation_multi_scanner", High, "correlation",
            "Multiple scanners reported findings within correlation window.",
            map["unique_scanners" := VInt(unique), "window" := VString(windowText)],
            "Investigate combined signals for coordinated activity.")
  }

  /** `Add`: a result with findings is recorded and old events are pruned;
      a finding is emitted when enough distinct scanners remain and the
      cooldown has passed. */
  function Add(c: Correlator, res: ScanResult, now: int, durationText: int -> string): (r: (Correlator, seq<Finding>))
    ensures res.findings == [] ==> r == (c, [])
    ensures r.0.window == c.window && r.0.minScan == c.minScan && r.0.cooldown == c.cooldown
    ensures res.findings != [] ==>
      r.0.events == Prune(c.events + [Event(now, res.scannerName)], now - c.window)
    ensures res.findings != [] ==> forall e :: e in r.0.events <==>
      (e in c.events || e == Event(now, res.scannerName)) && e.at > now - c.window
    ensures res.findings != [] && c.window > 0 ==> Event(now, res.scannerName) in r.0.events
    ensures |r.1| <= 1
    ensures r.1 != [] <==>
      (res.findings != [] && |Scanners(r.0.events)| >= c.minScan && !Cooling(c, now))
    ensures r.1 != [] ==>
      r.0.lastTriggered == At(now) &&
      r.1[0] == CorrelationFinding(|Scanners(r.0.events)|, durationText(c.window))
    ensures r.1 == [] ==> r.0.lastTriggered == c.lastTriggered
  {
    if res.findings == [] then (c, [])
    else
      var events := Prune(c.events + [Event(now, res.scannerName)], now - c.window);
      var unique := |Scanners(events)|;
      if unique < c.minScan || Cooling(c, now) then (c.(events := events), [])
      else (c.(events := events, lastTriggered := At(now)), [CorrelationFinding(unique, durationText(c.window))])
  }

  /** One call of `Add`: a result and the instant it arrived. */
  datatype Arrival = Arrival(result: ScanResult, now: int)

  /** The state after a series of arrivals, and the instants at which a
      finding was emitted. */
  function Replay(c: Correlator, arrivals: seq<Arrival>, durationText: int -> string): (r: (Correlator, seq<int>))
    ensures r.0.window == c.window && r.0.minScan == c.minScan && r.0.cooldown == c.cooldown
  {
    if arrivals == [] then (c, [])
    else
      var prev := Replay(c, arrivals[..|arrivals| - 1], durationText);
      var a := arrivals[|arrivals| - 1];
      var step := Add(prev.0, a.result, a.now, durationText);
      (step.0, if step.1 != [] then prev.1 + [a.now] else prev.1)
  }

  /** Emission instants `ts` are at least `cooldown` apart, and the first
      is at least `cooldown` after `start` when there was an earlier one. */
  predicate Spaced(start: Time, ts: seq<int>, cooldown: int) {
    (forall k :: 0 <= k < |ts| - 1 ==> ts[k + 1] - ts[k] >= cooldown) &&
    (|ts| > 0 && start.At? ==> ts[0] - start.nanos >= cooldown)
  }

  /** The instant of the most recent emission, `start` when there was none. */
  function LastEmission(start: Time, ts: seq<int>): Time {
    if ts == [] then start else At(ts[|ts| - 1])
  }

  /** An emission allowed by the cooldown keeps the instants spaced. */
  lemma SpacedAppend(start: Time, ts: seq<int>, t: int, cooldown: int)
    requires Spaced(start, ts, cooldown)
    requires LastEmission(start, ts).At? ==> t - LastEmission(start, ts).nanos >= cooldown
    ensures Spaced(start, ts + [t], cooldown)
  {
    var us := ts + [t];
    forall k | 0 <= k < |us| - 1
      ensures us[k + 1] - us[k] >= cooldown
    {
      if k < |ts| - 1 {
        assert us[k] == ts[k] && us[k + 1] == ts[k + 1];
      }
    }
  }

  /** Emissions are at least a cooldown apart, whatever the arrivals, and
      the first one at least a cooldown after any earlier emission; the
      correlator remembers the most recent. */
  lemma {:induction false} EmissionsSpaced(c: Correlator, arrivals: seq<Arrival>, durationText: int -> string)
    ensures Spaced(c.lastTriggered, Replay(c, arrivals, durationText).1, c.cooldown)
    ensures Replay(c, arrivals, durationText).0.lastTriggered ==
            LastEmission(c.lastTriggered, Replay(c, arrivals, durationText).1)
  {
    if arrivals != [] {
      var prev := Replay(c, arrivals[..|arrivals| - 1], durationText);
      EmissionsSpaced(c, arrivals[..|arrivals| - 1], durationText);
      var a := arrivals[|arrivals| - 1];
      var step := Add(prev.0, a.result, a.now, durationText);
      if step.1 != [] {
        SpacedAppend(c.lastTriggered, prev.1, a.now, c.cooldown);
      }
    }
  }
}

=== FILE: cpu_memory.dfy ===
/** The CPU and memory scanner (internal/plugins/system/cpu_memory.go): its
    settings and its parsers of `/proc/stat` and `/proc/meminfo`. Counters
    are `uint64`, so sums and the kB-to-bytes scaling wrap modulo 2^64. */
module CpuMemory {
  import opened Wrappers
  import opened ScannerTypes
  import Text
  import Decimal
  import PluginConfig

  const Name: string := "system.cpu_memory"
  const DefaultSampleMs: int := 200
  const Uint64Modulus: int := Decimal.MaxUint64 + 1

  datatype Settings = Settings(sampleMs: int, includeSwap: bool)

  /** `Init`: 200 ms with swap included unless configured otherwise. A
      positive `sample_ms` is truncated to whole milliseconds, so one below
      a millisecond is refused. */
  function Init(config: map<string, Value>): (r: Result<Settings>)
    ensures r.Ok? ==> r.value.sampleMs > 0
    ensures r.Err? <==> (var f := PluginConfig.PositiveFloat(config, "sample_ms"); f.Some? && f.value < 1.0)
    ensures r.Err? ==> r.error == "sample_ms must be > 0"
    ensures r.Ok? && PluginConfig.PositiveFloat(config, "sample_ms").None? ==> r.value.sampleMs == DefaultSampleMs
    ensures r.Ok? && PluginConfig.PositiveFloat(config, "sample_ms").Some? ==>
      r.value.sampleMs as real <= config["sample_ms"].f < r.value.sampleMs as real + 1.0
    ensures r.Ok? ==> (!r.value.includeSwap <==> "include_swap" in config && config["include_swap"] == VBool(false))
  {
    var sampleMs := match PluginConfig.PositiveFloat(config, "sample_ms")
      case Some(v) => PluginConfig.Truncate(v)
      case None => DefaultSampleMs;
    var includeSwap := if "include_swap" in config && config["include_swap"].VBool? then config["include_swap"].b else true;
    if sampleMs <= 0 then Err("sample_ms must be > 0") else Ok(Settings(sampleMs, includeSwap))
  }

  // ---------------------------------------------------------------------------
  // /proc/stat

  datatype CpuStat = CpuStat(total: nat, idle: nat)

  function Sum(vs: seq<nat>): nat {
    if vs == [] then 0 else vs[0] + Sum(vs[1..])
  }

  /** The counters of an aggregate line, read as `uint64`: the sum of all
      of them, and idle plus iowait (the fourth and fifth) when present. */
  function StatOf(vs: seq<nat>): (s: CpuStat)
    requires |vs| >= 4
    ensures s.total < Uint64Modulus && s.idle < Uint64Modulus
  {
    CpuStat(Sum(vs) % Uint64Modulus, (vs[3] + (if |vs| > 4 then vs[4] else 0)) % Uint64Modulus)
  }

  /** Each counter as `ParseUint(p, 10, 64)`; the first that does not parse
      is the error. */
  function ParseCounters(parts: seq<string>): (r: Result<seq<nat>>)
    ensures r.Ok? <==> forall i :: 0 <= i < |parts| ==> Decimal.ParseUint64(parts[i]).Some?
    ensures r.Ok? ==> |r.value| == |parts|
    ensures r.Ok? ==> forall i :: 0 <= i < |parts| ==> Decimal.ParseUint64(parts[i]) == Some(r.value[i])
    ensures r.Err? ==>
      exists i :: 0 <= i < |parts| && Decimal.ParseUint64(parts[i]).None?
        && r.error == "parse cpu stat: " + Decimal.ParseUintError(parts[i])
        && forall j :: 0 <= j < i ==> Decimal.ParseUint64(parts[j]).Some?
  {
    if parts == [] then Ok([])
    else
      match Decimal.ParseUint64(parts[0])
      case None => Err("parse cpu stat: " + Decimal.ParseUintError(parts[0]))
      case Some(v) =>
        var rest := ParseCounters(parts[1..]);
        if rest.Err? then
          assert forall i :: 1 <= i < |parts| ==> parts[1..][i - 1] == parts[i];
          rest
        else
          assert forall i :: 1 <= i < |parts| ==> parts[1..][i - 1] == parts[i];
          Ok([v] + rest.value)
  }

  /** The aggregate line: the label and at least four counters. */
  function ParseCpuLine(line: string): (r: Result<CpuStat>)
    ensures |Text.Fields(line)| < 5 ==> r == Err("invalid cpu stat line")
    ensures |Text.Fields(line)| >= 5 ==>
      (r.Ok? <==> forall i :: 1 <= i < |Text.Fields(line)| ==> Decimal.ParseUint64(Text.Fields(line)[i]).Some?)
    ensures r.Ok? ==> r.value == StatOf(ParseCounters(Text.Fields(line)[1..]).value)
  {
    var parts := Text.Fields(line);
    if |parts| < 5 then Err("invalid cpu stat line")
    else
      assert forall i :: 1 <= i < |parts| ==> parts[1..][i - 1] == parts[i];
      match ParseCounters(parts[1..])
      case Err(e) => Err(e)
      case Ok(vs) => Ok(StatOf(vs))
  }

  /** The aggregate line starts "cpu " with a blank; the per-CPU "cpu0",
      "cpu1" lines do not. */
  predicate IsCpuLine(line: string) {
    "cpu " <= line
  }

  /** Line `i` is the first aggregate line. */
  predicate FirstCpuLineAt(lines: seq<string>, i: int) {
    0 <= i < |lines| && IsCpuLine(lines[i]) && forall j :: 0 <= j < i ==> !IsCpuLine(lines[j])
  }

  /** The first aggregate line decides; without one the stat is missing. */
  function ParseCpuLines(lines: seq<string>): (r: Result<CpuStat>)
    ensures (forall i :: 0 <= i < |lines| ==> !IsCpuLine(lines[i])) ==> r == Err("cpu stat line not found")
    ensures forall i :: FirstCpuLineAt(lines, i) ==> r == ParseCpuLine(lines[i])
  {
    if lines == [] then Err("cpu stat line not found")
    else if IsCpuLine(lines[0]) then ParseCpuLine(lines[0])
    else
      var rest := lines[1..];
      assert forall i :: 1 <= i < |lines| ==> rest[i - 1] == lines[i];
      assert forall i :: FirstCpuLineAt(lines, i) ==> FirstCpuLineAt(rest, i - 1) by {
        forall i | FirstCpuLineAt(lines, i)
          ensures FirstCpuLineAt(rest, i - 1)
        {
          forall j | 0 <= j < i - 1
            ensures !IsCpuLine(rest[j])
          {
            assert rest[j] == lines[j + 1];
          }
        }
      }
      ParseCpuLines(rest)
  }

  /** `parseCPUStat`. */
  function ParseCpuStat(raw: string): Result<CpuStat> {
    ParseCpuLines(Text.Split(raw, '\n'))
  }

  /** The decimal renderings of some counters. */
  function Rendered(vs: seq<nat>): (ps: seq<string>)
    ensures |ps| == |vs|
    ensures forall i :: 0 <= i < |vs| ==> ps[i] == Decimal.NatToString(vs[i])
  {
    seq(|vs|, i requires 0 <= i < |vs| => Decimal.NatToString(vs[i]))
  }

  lemma DigitsNoSpace(s: string)
    requires Decimal.AllDigits(s)
    ensures Text.NoSpace(s) && '\n' !in s
  {
    assert forall i :: 0 <= i < |s| ==> Decimal.IsDigit(s[i]);
  }

  /** Words joined by blanks hold no line break. */
  lemma {:induction false} NoBreakInSpaced(words: seq<string>)
    requires forall k :: 0 <= k < |words| ==> '\n' !in words[k]
    ensures '\n' !in Text.Join(words, " ")
  {
    if |words| > 1 {
      NoBreakInSpaced(words[1..]);
    }
  }

  /** Counters rendered in decimal after the label read back as themselves. */
  lemma {:induction false} ParseCountersOfRendered(vs: seq<nat>)
    requires forall i :: 0 <= i < |vs| ==> vs[i] <= Decimal.MaxUint64
    ensures ParseCounters(Rendered(vs)) == Ok(vs)
  {
    if vs != [] {
      Decimal.ParseUintOfNatToString(vs[0]);
      assert Rendered(vs)[1..] == Rendered(vs[1..]);
      ParseCountersOfRendered(vs[1..]);
      assert vs == [vs[0]] + vs[1..];
    }
  }

  /** An aggregate line of decimal counters as the first line of
      `/proc/stat` parses to the sum of the counters and idle plus iowait. */
  lemma ParseCpuStatOfRendered(vs: seq<nat>, rest: string)
    requires |vs| >= 4
    requires forall i :: 0 <= i < |vs| ==> vs[i] <= Decimal.MaxUint64
    ensures ParseCpuStat("cpu " + Text.Join(Rendered(vs), " ") + "\n" + rest) == Ok(StatOf(vs))
  {
    var line := "cpu " + Text.Join(Rendered(vs), " ");
    CpuLineOfRendered(vs);
    var raw := line + "\n" + rest;
    Text.IndexOfFirst(raw, '\n', |line|);
    Text.SplitAt(raw, '\n');
    assert raw[..|line|] == line;
    assert IsCpuLine(line);
  }

  /** The aggregate line itself: one line, whose counters read back. */
  lemma CpuLineOfRendered(vs: seq<nat>)
    requires |vs| >= 4
    requires forall i :: 0 <= i < |vs| ==> vs[i] <= Decimal.MaxUint64
    ensures '\n' !in "cpu " + Text.Join(Rendered(vs), " ")
    ensures ParseCpuLine("cpu " + Text.Join(Rendered(vs), " ")) == Ok(StatOf(vs))
  {
    var ps := Rendered(vs);
    var words := ["cpu"] + ps;
    forall k | 0 <= k < |ps|
      ensures ps[k] != [] && Text.NoSpace(ps[k]) && '\n' !in ps[k]
    {
      DigitsNoSpace(ps[k]);
    }
    var line := "cpu " + Text.Join(ps, " ");
    Text.JoinCons("cpu", ps, " ");
    assert words[1..] == ps;
    assert Text.Join(words, " ") == line;
    Text.FieldsOfSpaced(words);
    assert Text.Fields(line)[1..] == ps;
    ParseCountersOfRendered(vs);
    assert ParseCpuLine(line) == Ok(StatOf(vs));
    NoBreakInSpaced(ps);
  }

  /** Without wrap-around, idle time never exceeds the total, so the usage
      delta that `Run` computes is a true share of the total. */
  lemma IdleWithinTotal(vs: seq<nat>)
    requires |vs| >= 4 && Sum(vs) <= Decimal.MaxUint64
    ensures StatOf(vs).idle <= StatOf(vs).total
  {
    SumAtLeast(vs, 3);
    if |vs| > 4 {
      SumAtLeastTwo(vs, 3, 4);
    }
  }

  lemma {:induction false} SumAtLeast(vs: seq<nat>, i: nat)
    requires i < |vs|
    ensures vs[i] <= Sum(vs)
  {
    if i > 0 {
      SumAtLeast(vs[1..], i - 1);
    }
  }

  lemma {:induction false} SumAtLeastTwo(vs: seq<nat>, i: nat, j: nat)
    requires i < j < |vs|
    ensures vs[i] + vs[j] <= Sum(vs)
  {
    if i > 0 {
      SumAtLeastTwo(vs[1..], i - 1, j - 1);
    } else {
      SumAtLeast(vs[1..], j - 1);
    }
  }

  // ---------------------------------------------------------------------------
  // /proc/meminfo

  datatype Meminfo = Meminfo(memTotal: nat, memAvailable: nat, swapTotal: nat, swapFree: nat)

  /** The key (without its colon) and kB value of a meminfo line; lines with
      fewer than two fields or a value that is not a `uint64` are skipped. */
  function Reading(line: string): Option<(string, nat)> {
    var fields := Text.Fields(line);
    if |fields| < 2 then None
    else
      match Decimal.ParseUint64(fields[1])
      case None => None
      case Some(v) => Some((Text.TrimSuffix(fields[0], ":"), v))
  }

  /** A kB value scaled to bytes in `uint64`. */
  function Bytes(kb: nat): (b: nat)
    ensures b < Uint64Modulus
  {
    (kb * 1024) % Uint64Modulus
  }

  /** One line of `parseMeminfo`'s loop: a recognised key overwrites its
      field; anything else leaves the record alone. */
  function Step(info: Meminfo, line: string): Meminfo {
    match Reading(line)
    case None => info
    case Some((key, v)) =>
      if key == "MemTotal" then info.(memTotal := Bytes(v))
      else if key == "MemAvailable" then info.(memAvailable := Bytes(v))
      else if key == "SwapTotal" then info.(swapTotal := Bytes(v))
      else if key == "SwapFree" then info.(swapFree := Bytes(v))
      else info
  }

  /** The loop over the lines, first to last. */
  function Scan(info: Meminfo, lines: seq<string>): Meminfo
    decreases |lines|
  {
    if lines == [] then info else Scan(Step(info, lines[0]), lines[1..])
  }

  /** The value of the last line that reads as `key`, if any. */
  function LastValue(lines: seq<string>, key: string): (r: Option<nat>)
    ensures r.Some? ==> exists i :: 0 <= i < |lines| && Reading(lines[i]) == Some((key, r.value))
  {
    if lines == [] then None
    else
      var later := LastValue(lines[1..], key);
      if later.Some? then
        assert forall i :: 1 <= i < |lines| ==> lines[1..][i - 1] == lines[i];
        later
      else if Reading(lines[0]).Some? && Reading(lines[0]).value.0 == key then Some(Reading(lines[0]).value.1)
      else None
  }

  /** The bytes a field ends up with: the last reading of its key, or what
      it held before when no line names it. */
  function Final(lines: seq<string>, key: string, before: nat): nat {
    match LastValue(lines, key)
    case Some(v) => Bytes(v)
    case None => before
  }

  predicate IsKey(key: string) {
    key == "MemTotal" || key == "MemAvailable" || key == "SwapTotal" || key == "SwapFree"
  }

  /** The field a recognised key names. */
  function Field(info: Meminfo, key: string): nat
    requires IsKey(key)
  {
    if key == "MemTotal" then info.memTotal
    else if key == "MemAvailable" then info.memAvailable
    else if key == "SwapTotal" then info.swapTotal
    else info.swapFree
  }

  /** A line sets exactly the field its key names. */
  lemma StepField(info: Meminfo, line: string, key: string)
    requires IsKey(key)
    ensures Field(Step(info, line), key) ==
      if Reading(line).Some? && Reading(line).value.0 == key then Bytes(Reading(line).value.1) else Field(info, key)
  {
  }

  /** The loop leaves each recognised field at the last value read for it. */
  lemma {:induction false} ScanKeepsLast(info: Meminfo, lines: seq<string>, key: string)
    requires IsKey(key)
    ensures Field(Scan(info, lines), key) == Final(lines, key, Field(info, key))
    decreases |lines|
  {
    if lines != [] {
      StepField(info, lines[0], key);
      ScanKeepsLast(Step(info, lines[0]), lines[1..], key);
    }
  }

  /** `parseMeminfo`: the four fields as bytes, refused when MemTotal or
      MemAvailable is missing or zero. */
  function ParseMeminfo(raw: string): (r: Result<Meminfo>)
    ensures var lines := Text.Split(raw, '\n');
      var m := Meminfo(Final(lines, "MemTotal", 0), Final(lines, "MemAvailable", 0),
        Final(lines, "SwapTotal", 0), Final(lines, "SwapFree", 0));
      (r.Ok? <==> m.memTotal != 0 && m.memAvailable != 0) && (r.Ok? ==> r.value == m)
    ensures r.Err? ==> r.error == "meminfo missing MemTotal/MemAvailable"
  {
    var lines := Text.Split(raw, '\n');
    var info := Scan(Meminfo(0, 0, 0, 0), lines);
    ScanKeepsLast(Meminfo(0, 0, 0, 0), lines, "MemTotal");
    ScanKeepsLast(Meminfo(0, 0, 0, 0), lines, "MemAvailable");
    ScanKeepsLast(Meminfo(0, 0, 0, 0), lines, "SwapTotal");
    ScanKeepsLast(Meminfo(0, 0, 0, 0), lines, "SwapFree");
    if info.memTotal == 0 || info.memAvailable == 0 then Err("meminfo missing MemTotal/MemAvailable")
    else Ok(info)
  }

  /** A file without a MemAvailable line is refused, whatever else it says. */
  lemma MissingAvailableRefused(raw: string)
    requires forall i :: 0 <= i < |Text.Split(raw, '\n')| ==>
      Reading(Text.Split(raw, '\n')[i]).None? || Reading(Text.Split(raw, '\n')[i]).value.0 != "MemAvailable"
    ensures ParseMeminfo(raw) == Err("meminfo missing MemTotal/MemAvailable")
  {
  }
}

=== FILE: daemon.dfy ===
/** The daemon runner (internal/daemon/runner.go): what it builds from a
    configuration (detection rules, correlator, alert engine, scheduler
    jobs), how a reload replaces those, and how signals drive reloads and
    shutdown. Servers, goroutines and the scan pipeline wiring are not
    modelled; configuration loading, duration parsing and the syslog dial
    are parameters. */
module Daemon {
  import opened Wrappers
  import opened ScannerTypes
  import Configuration
  import Rules
  import Correlation
  import Alerting
  import Scheduler

  // ---------------------------------------------------------------------------
  // Signals

  datatype Signal = Hangup | Interrupt | Terminate | OtherSignal(name: string)

  /** SIGINT and SIGTERM end the loop. */
  predicate Stops(s: Signal) {
    s.Interrupt? || s.Terminate?
  }

  /** The number of SIGHUPs among `sigs`. */
  function Hangups(sigs: seq<Signal>): nat {
    if sigs == [] then 0 else (if sigs[0].Hangup? then 1 else 0) + Hangups(sigs[1..])
  }

  /** `f` applied `n` times. */
  function Iterate<S>(f: S -> S, s: S, n: nat): S {
    if n == 0 then s else Iterate(f, f(s), n - 1)
  }

  /** `handleSignals` over the signals delivered until the channel closes:
      the resulting state, whether `cancel` was called, and how many signals
      were taken. Each SIGHUP reloads; the first SIGINT or SIGTERM cancels
      and ends the loop; anything else is ignored. */
  function HandleSignals<S>(sigs: seq<Signal>, s: S, reload: S -> S): (r: (S, bool, nat))
    ensures r.2 <= |sigs|
    ensures r.1 <==> exists k :: 0 <= k < |sigs| && Stops(sigs[k])
    ensures r.1 ==> r.2 >= 1 && Stops(sigs[r.2 - 1]) && forall j :: 0 <= j < r.2 - 1 ==> !Stops(sigs[j])
    ensures !r.1 ==> r.2 == |sigs|
    ensures r.0 == Iterate(reload, s, Hangups(sigs[..r.2]))
  {
    if sigs == [] then (s, false, 0)
    else if Stops(sigs[0]) then
      assert sigs[..1][1..] == [];
      (s, true, 1)
    else
      var next := if sigs[0].Hangup? then reload(s) else s;
      var t := HandleSignals(sigs[1..], next, reload);
      assert forall k :: 0 < k < |sigs| ==> sigs[k] == sigs[1..][k - 1];
      assert sigs[..t.2 + 1][1..] == sigs[1..][..t.2];
      (t.0, t.1, t.2 + 1)
  }

  /** Once a stop signal has been taken, later signals change nothing. */
  lemma {:induction false} SignalsAfterStopIgnored<S>(a: seq<Signal>, b: seq<Signal>, s: S, reload: S -> S)
    requires exists k :: 0 <= k < |a| && Stops(a[k])
    ensures HandleSignals(a + b, s, reload) == HandleSignals(a, s, reload)
  {
    assert (a + b)[0] == a[0];
    if !Stops(a[0]) {
      var k :| 0 <= k < |a| && Stops(a[k]);
      assert k > 0 && a[1..][k - 1] == a[k];
      var next := if a[0].Hangup? then reload(s) else s;
      SignalsAfterStopIgnored(a[1..], b, next, reload);
      assert (a + b)[1..] == a[1..] + b;
    }
  }

  /** A SIGHUP followed by the channel closing reloads once and returns
      without cancelling. */
  lemma HangupReloadsOnce<S>(s: S, reload: S -> S)
    ensures HandleSignals([Hangup], s, reload) == (reload(s), false, 1)
  {
    assert [Hangup][..1] == [Hangup];
    assert [Hangup][1..] == [];
  }

  /** Reloads and a stop interleave as delivered: two SIGHUPs, an unknown
      signal, SIGTERM and one more SIGHUP reload twice and cancel. */
  lemma TwoReloadsThenStop<S>(s: S, reload: S -> S)
    ensures HandleSignals([Hangup, Hangup, OtherSignal("SIGUSR1"), Terminate, Hangup], s, reload) ==
            (reload(reload(s)), true, 4)
  {
    var sigs := [Hangup, Hangup, OtherSignal("SIGUSR1"), Terminate, Hangup];
    var r := HandleSignals(sigs, s, reload);
    assert Stops(sigs[3]);
    assert r.2 == 4 by {
      assert !Stops(sigs[0]) && !Stops(sigs[1]) && !Stops(sigs[2]);
    }
    assert sigs[..4] == [Hangup, Hangup, OtherSignal("SIGUSR1"), Terminate];
    assert Hangups(sigs[..4]) == 2 by {
      var p := sigs[..4];
      assert p[1..] == [Hangup, OtherSignal("SIGUSR1"), Terminate];
      assert p[1..][1..] == [OtherSignal("SIGUSR1"), Terminate];
      assert p[1..][1..][1..] == [Terminate];
      assert Hangups(p[1..][1..][1..]) == 0;
      assert Hangups(p[1..][1..]) == 0;
      assert Hangups(p[1..]) == 1;
    }
    assert Iterate(reload, s, 2) == Iterate(reload, reload(s), 1) == reload(reload(s));
  }

  // ---------------------------------------------------------------------------
  // What the runner builds from a configuration

  /** `buildRules`: one detection rule per configured rule, in order, with
      the severity name parsed. */
  function BuildRules(rules: seq<Configuration.RuleConfig>): (r: seq<Rules.Rule>)
    ensures |r| == |rules|
    ensures forall k :: 0 <= k < |r| ==>
      r[k].name == rules[k].name && r[k].scanner == rules[k].scanner &&
      r[k].metric == rules[k].metric && r[k].operator == rules[k].operator &&
      r[k].threshold == rules[k].threshold && r[k].description == rules[k].description &&
      r[k].severity == Alerting.ParseSeverity(rules[k].severity)
  {
    seq(|rules|, k requires 0 <= k < |rules| =>
      Rules.Rule(rules[k].name, rules[k].scanner, rules[k].metric, rules[k].operator,
                 rules[k].threshold, Alerting.ParseSeverity(rules[k].severity), rules[k].description))
  }

  /** A rule written with a severity name in capitals is built with that
      severity, and a misspelt one becomes info. */
  lemma BuildRulesSeverity(rc: Configuration.RuleConfig, s: Severity)
    ensures BuildRules([rc.(severity := SeverityName(s))])[0].severity == s
    ensures rc.severity == "urgent" ==> BuildRules([rc])[0].severity == Info
  {
    Alerting.ParseSeverityOfName(s);
    assert Alerting.ParseSeverity("urgent") == Info by {
      Alerting.LowerFixed("urgent");
    }
  }

  /** The scanners with `enabled` set, in order. */
  function EnabledScanners(scs: seq<Configuration.ScannerConfig>): (r: seq<Configuration.ScannerConfig>)
    ensures |r| <= |scs|
    ensures forall sc :: sc in r <==> sc in scs && sc.enabled
  {
    if scs == [] then []
    else if scs[0].enabled then [scs[0]] + EnabledScanners(scs[1..])
    else EnabledScanners(scs[1..])
  }

  /** The scheduler job a scanner section describes. */
  function JobOf(sc: Configuration.ScannerConfig, env: Configuration.Env): Scheduler.JobConfig {
    Scheduler.JobConfig(sc.name, sc.plugin, sc.schedule, Configuration.ScannerTimeout(sc, env), sc.maxRetries,
                        Configuration.ScannerRetryBackoff(sc, env), Configuration.ScannerRetryMax(sc, env),
                        sc.allowOverlap, sc.runOnStart)
  }

  /** The jobs handed to the scheduler, at start (one `AddJob` each) and on
      reload (one `ReplaceJobs`): one per enabled scanner, in order. */
  function Jobs(scs: seq<Configuration.ScannerConfig>, env: Configuration.Env): (r: seq<Scheduler.JobConfig>)
    ensures |r| == |EnabledScanners(scs)|
    ensures forall k :: 0 <= k < |r| ==> r[k] == JobOf(EnabledScanners(scs)[k], env)
  {
    var en := EnabledScanners(scs);
    seq(|en|, k requires 0 <= k < |en| => JobOf(en[k], env))
  }

  /** Every job names an enabled scanner, and every enabled scanner has its
      job: a disabled scanner is never scheduled. */
  lemma JobsAreEnabledScanners(scs: seq<Configuration.ScannerConfig>, env: Configuration.Env)
    ensures forall j :: j in Jobs(scs, env) <==> exists sc :: sc in scs && sc.enabled && j == JobOf(sc, env)
  {
    var en := EnabledScanners(scs);
    var r := Jobs(scs, env);
    forall j | j in r
      ensures exists sc :: sc in scs && sc.enabled && j == JobOf(sc, env)
    {
      var k :| 0 <= k < |r| && r[k] == j;
      assert en[k] in en;
    }
    forall sc | sc in scs && sc.enabled
      ensures JobOf(sc, env) in r
    {
      var k :| 0 <= k < |en| && en[k] == sc;
      assert r[k] == JobOf(sc, env);
    }
  }

  /** The engine with `channels` registered in order after any it had. */
  function RegisterAll(e: Alerting.Engine, channels: seq<Alerting.Channel>): (r: Alerting.Engine)
    ensures r == e.(channels := e.channels + channels)
    decreases |channels|
  {
    if channels == [] then
      assert e.channels + channels == e.channels;
      e
    else
      var next := Alerting.Register(e, channels[0]);
      assert next.channels + channels[1..] == e.channels + channels;
      RegisterAll(next, channels[1..])
  }

  /** The alert engine the runner builds: `alerting.New` with the built
      channels registered, or a single log channel when building failed. */
  function AlertEngine(a: Configuration.AlertingConfig, env: Configuration.Env, dial: (string, string, string) -> bool): (e: Alerting.Engine)
    ensures e == Alerting.New(a, env).(channels := e.channels)
    ensures |e.channels| >= 1
    ensures Alerting.BuildChannels(a.channels, dial).Ok? ==> e.channels == Alerting.BuildChannels(a.channels, dial).value
    ensures Alerting.BuildChannels(a.channels, dial).Err? ==> e.channels == [Alerting.LogChannel]
  {
    var built := Alerting.BuildChannels(a.channels, dial);
    var channels := if built.Ok? then built.value else [Alerting.LogChannel];
    RegisterAll(Alerting.New(a, env), channels)
  }

  /** What the runner keeps between reloads. */
  datatype Runtime = Runtime(
    cfg: Configuration.Config,
    rules: seq<Rules.Rule>,
    correlator: Correlation.Correlator,
    alerts: Alerting.Engine,
    jobs: seq<Scheduler.JobConfig>)

  /** The correlator a detection section describes. */
  function CorrelatorOf(d: Configuration.DetectionConfig, env: Configuration.Env): Correlation.Correlator {
    Correlation.New(Configuration.CorrelationWindow(d, env), d.correlationMinScanners, Configuration.CorrelationCooldown(d, env))
  }

  /** The state `Run` sets up from a configuration. */
  function Boot(cfg: Configuration.Config, env: Configuration.Env, dial: (string, string, string) -> bool): (rt: Runtime)
    ensures rt.cfg == cfg
    ensures rt.rules == BuildRules(cfg.detection.rules)
    ensures rt.correlator.events == [] && rt.correlator.lastTriggered == Zero
    ensures rt.alerts.lastSeen == map[] && rt.alerts.queue == [] && |rt.alerts.channels| >= 1
    ensures rt.jobs == Jobs(cfg.scanners, env)
  {
    Runtime(cfg, BuildRules(cfg.detection.rules), CorrelatorOf(cfg.detection, env),
            AlertEngine(cfg.alerting, env, dial), Jobs(cfg.scanners, env))
  }

  /** The `reload` closure: skipped without a configuration path, a load
      failure keeps everything, and otherwise the configuration, rules,
      correlator, alert engine and job list are all replaced. */
  function Reload(rt: Runtime, configPath: string, load: string -> Result<Configuration.Config>,
                  env: Configuration.Env, dial: (string, string, string) -> bool): (r: Runtime)
    ensures configPath == "" ==> r == rt
    ensures configPath != "" && load(configPath).Err? ==> r == rt
    ensures configPath != "" && load(configPath).Ok? ==> r == Boot(load(configPath).value, env, dial)
  {
    if configPath == "" then rt
    else
      var loaded := load(configPath);
      if loaded.Err? then rt
      else
        var newCfg := loaded.value;
        var engine := RegisterAll(Alerting.New(newCfg.alerting, env),
                                  var built := Alerting.BuildChannels(newCfg.alerting.channels, dial);
                                  if built.Ok? then built.value else [Alerting.LogChannel]);
        Runtime(newCfg, BuildRules(newCfg.detection.rules), CorrelatorOf(newCfg.detection, env),
                engine, Jobs(newCfg.scanners, env))
  }

  /** A successful reload starts over: the correlator forgets its events
      and cooldown, and the new alert engine its de-duplication memory and
      queue. */
  lemma ReloadForgets(rt: Runtime, configPath: string, load: string -> Result<Configuration.Config>,
                      env: Configuration.Env, dial: (string, string, string) -> bool)
    requires configPath != "" && load(configPath).Ok?
    ensures var r := Reload(rt, configPath, load, env, dial);
            r.correlator.events == [] && r.correlator.lastTriggered == Zero &&
            r.alerts.lastSeen == map[] && r.alerts.queue == []
  {
  }

  /** The settings whose change a reload only warns about: the listeners
      and the store stay as they were until a restart. */
  function RestartNeeded(before: Configuration.Config, after: Configuration.Config): (keys: set<string>)
    ensures "api.bind_addr" in keys <==> before.api.bindAddr != after.api.bindAddr
    ensures "web_ui.bind_addr" in keys <==> before.webUi.bindAddr != after.webUi.bindAddr
    ensures "storage.db_path" in keys <==> before.storage.dbPath != after.storage.dbPath
    ensures keys <= {"api.bind_addr", "web_ui.bind_addr", "storage.db_path"}
  {
    (if before.api.bindAddr != after.api.bindAddr then {"api.bind_addr"} else {}) +
    (if before.webUi.bindAddr != after.webUi.bindAddr then {"web_ui.bind_addr"} else {}) +
    (if before.storage.dbPath != after.storage.dbPath then {"storage.db_path"} else {})
  }

  /** Reloading the configuration already running warns about nothing. */
  lemma NoWarningsForSameConfig(c: Configuration.Config)
    ensures RestartNeeded(c, c) == {}
  {
  }

  /** Signals against a running daemon: every SIGHUP before the stop
      signal is a reload with the file at `configPath`. Reloading with a
      loader that fails leaves the runtime untouched however many SIGHUPs
      arrive. */
  lemma {:induction false} FailedReloadsKeepRuntime(rt: Runtime, n: nat, configPath: string,
                                                    load: string -> Result<Configuration.Config>,
                                                    env: Configuration.Env, dial: (string, string, string) -> bool)
    requires configPath == "" || load(configPath).Err?
    ensures Iterate((s: Runtime) => Reload(s, configPath, load, env, dial), rt, n) == rt
  {
    if n > 0 {
      FailedReloadsKeepRuntime(rt, n - 1, configPath, load, env, dial);
    }
  }

  // ---------------------------------------------------------------------------
  // Shutdown

  const DefaultShutdownTimeout: int := 10 * Second

  /** `shutdown`: the timeout used, ten seconds unless a positive one is
      given. */
  function ShutdownTimeout(timeout: int): (t: int)
    ensures t > 0
    ensures timeout > 0 ==> t == timeout
    ensures timeout <= 0 ==> t == DefaultShutdownTimeout
  {
    if timeout <= 0 then DefaultShutdownTimeout else timeout
  }

  /** Whatever the configuration says, the shutdown timeout is positive,
      and it is ten seconds for an empty setting or for "0s". */
  lemma ShutdownTimeoutOfConfig(d: Configuration.DaemonConfig, env: Configuration.Env)
    ensures ShutdownTimeout(Configuration.ShutdownTimeout(d, env)) > 0
    ensures d.shutdownTimeout == "" ==> ShutdownTimeout(Configuration.ShutdownTimeout(d, env)) == 10 * Second
    ensures d.shutdownTimeout != "" && env.parseDuration(d.shutdownTimeout) == Some(0) ==>
      ShutdownTimeout(Configuration.ShutdownTimeout(d, env)) == 10 * Second
  {
  }
}

=== FILE: dashboard.dfy ===
/** The dashboard page of the web interface (web/src/pages/Dashboard.tsx):
    how it reads the metrics document, counts signature sources, formats
    times and keeps the state of its three panels. */
module Dashboard {
  import opened Wrappers
  import opened Text
  import opened Decimal
  import opened Exposition
  import SigStore

  /** What JavaScript's `Number(text)` gives: a finite number, or something
      `Number.isFinite` rejects (NaN, an infinity). */
  datatype NumberValue = Finite(v: real) | NotFinite

  /** The largest integer a JavaScript number holds exactly. */
  const MaxSafeInteger: int := 0x1f_ffff_ffff_ffff

  /** `Number` reads every decimal integer of the safe range exactly. */
  ghost predicate ReadsIntegers(number: string -> NumberValue) {
    forall i :: -MaxSafeInteger <= i <= MaxSafeInteger ==> number(IntToString(i)) == Finite(i as real)
  }

  // ---------------------------------------------------------------------------
  // Reading the metrics document

  /** One line of the document: skipped when blank or a `#` comment, when it
      has fewer than two fields, when the value is not a finite number or the
      name lacks the `arcsent_` prefix; otherwise the name and the value.
      On a trimmed line `split(/\s+/)` gives exactly the fields. */
  function ParseLine(line: string, number: string -> NumberValue): (r: Option<(string, real)>)
    ensures r.Some? ==> Namespace <= r.value.0 && r.value.0 != [] && NoSpace(r.value.0)
    ensures r.Some? ==> |Fields(Trim(line))| >= 2 && r.value.0 == Fields(Trim(line))[0]
    ensures r.Some? ==> number(Fields(Trim(line))[1]) == Finite(r.value.1)
    ensures AllSpace(line) ==> r.None?
    ensures Trim(line) != [] && Trim(line)[0] == '#' ==> r.None?
  {
    var trimmed := Trim(line);
    if trimmed == [] || "#" <= trimmed then None
    else
      var parts := Fields(trimmed);
      if |parts| < 2 then None
      else
        var name := parts[0];
        match number(parts[1])
        case NotFinite => None
        case Finite(v) => if Namespace <= name then Some((name, v)) else None
  }

  /** A line is kept exactly when its trimmed text is neither empty nor a
      comment, has at least two fields, the second reads as a finite number
      and the first carries the `arcsent_` prefix; it then gives that name
      and number. */
  lemma ParseLineKeeps(line: string, number: string -> NumberValue)
    ensures var t := Trim(line);
      ParseLine(line, number).Some? <==>
        t != [] && t[0] != '#' && |Fields(t)| >= 2 &&
        number(Fields(t)[1]).Finite? && Namespace <= Fields(t)[0]
    ensures var t := Trim(line);
      ParseLine(line, number).Some? ==>
        ParseLine(line, number).value == (Fields(t)[0], number(Fields(t)[1]).v)
  {
  }

  /** The metrics map after reading `lines` in order; a later line for the
      same name overwrites an earlier one. */
  function ParseLines(lines: seq<string>, number: string -> NumberValue): (m: map<string, real>)
    ensures forall k :: k in m ==> Namespace <= k && NoSpace(k)
  {
    if lines == [] then map[]
    else
      var m := ParseLines(lines[..|lines| - 1], number);
      match ParseLine(lines[|lines| - 1], number)
      case None => m
      case Some((name, v)) => m[name := v]
  }

  /** Line `line` is kept and sets metric `k`. */
  predicate SetsKey(line: string, number: string -> NumberValue, k: string) {
    ParseLine(line, number).Some? && ParseLine(line, number).value.0 == k
  }

  /** What each line contributes: nothing, or a name and its value. */
  type Contribution = Option<(string, real)>

  /** The map after applying the contributions in order. */
  function Apply(ps: seq<Contribution>): map<string, real> {
    if ps == [] then map[]
    else
      var m := Apply(ps[..|ps| - 1]);
      match ps[|ps| - 1]
      case None => m
      case Some((k, v)) => m[k := v]
  }

  /** Contribution `i` is the last one naming `k`, and gives it `v`. */
  predicate LastIn(ps: seq<Contribution>, i: int, k: string, v: real) {
    0 <= i < |ps| && ps[i] == Some((k, v)) &&
    forall j :: i < j < |ps| ==> ps[j].None? || ps[j].value.0 != k
  }

  lemma {:induction false} ApplyKeys(ps: seq<Contribution>, k: string)
    ensures k in Apply(ps) <==> exists i :: 0 <= i < |ps| && ps[i].Some? && ps[i].value.0 == k
  {
    if ps != [] {
      ApplyKeys(ps[..|ps| - 1], k);
      assert forall i :: 0 <= i < |ps| - 1 ==> ps[..|ps| - 1][i] == ps[i];
    }
  }

  lemma {:induction false} ApplyLast(ps: seq<Contribution>, k: string)
    requires k in Apply(ps)
    ensures exists i :: LastIn(ps, i, k, Apply(ps)[k])
  {
    var n := |ps| - 1;
    var m := Apply(ps);
    if ps[n].Some? && ps[n].value.0 == k {
      assert LastIn(ps, n, k, m[k]);
    } else {
      ApplyLast(ps[..n], k);
      var i :| LastIn(ps[..n], i, k, m[k]);
      assert ps[i] == ps[..n][i];
      forall j | i < j < |ps| ensures ps[j].None? || ps[j].value.0 != k {
        if j < n { assert ps[j] == ps[..n][j]; }
      }
      assert LastIn(ps, i, k, m[k]);
    }
  }

  /** The contributions of the lines. */
  function Contributions(lines: seq<string>, number: string -> NumberValue): seq<Contribution> {
    seq(|lines|, i requires 0 <= i < |lines| => ParseLine(lines[i], number))
  }

  lemma {:induction false} ParseLinesApply(lines: seq<string>, number: string -> NumberValue)
    ensures ParseLines(lines, number) == Apply(Contributions(lines, number))
  {
    if lines != [] {
      var n := |lines| - 1;
      ParseLinesApply(lines[..n], number);
      assert Contributions(lines, number)[..n] == Contributions(lines[..n], number);
    }
  }

  /** A name is in the parsed map exactly when some kept line carries it. */
  lemma ParseLinesKeys(lines: seq<string>, number: string -> NumberValue, k: string)
    ensures k in ParseLines(lines, number) <==> exists i :: 0 <= i < |lines| && SetsKey(lines[i], number, k)
  {
    var ps := Contributions(lines, number);
    ParseLinesApply(lines, number);
    ApplyKeys(ps, k);
    if k in ParseLines(lines, number) {
      var i :| 0 <= i < |ps| && ps[i].Some? && ps[i].value.0 == k;
      assert ps[i] == ParseLine(lines[i], number);
      assert SetsKey(lines[i], number, k);
    } else {
      forall i | 0 <= i < |lines| ensures !SetsKey(lines[i], number, k) {
        assert ps[i] == ParseLine(lines[i], number);
      }
    }
  }

  /** Line `i` is the last kept line that sets `k`, and it sets it to `v`. */
  predicate LastSetter(lines: seq<string>, number: string -> NumberValue, i: int, k: string, v: real) {
    0 <= i < |lines| && ParseLine(lines[i], number) == Some((k, v)) &&
    forall j :: i < j < |lines| ==> !SetsKey(lines[j], number, k)
  }

  /** The value of a parsed name is the one of the last kept line carrying
      it. */
  lemma ParseLinesLastWins(lines: seq<string>, number: string -> NumberValue, k: string)
    requires k in ParseLines(lines, number)
    ensures exists i :: LastSetter(lines, number, i, k, ParseLines(lines, number)[k])
  {
    var ps := Contributions(lines, number);
    ParseLinesApply(lines, number);
    ApplyLast(ps, k);
    var i :| LastIn(ps, i, k, Apply(ps)[k]);
    assert ps[i] == ParseLine(lines[i], number);
    forall j | i < j < |lines| ensures !SetsKey(lines[j], number, k) {
      assert ps[j] == ParseLine(lines[j], number);
    }
    assert LastSetter(lines, number, i, k, ParseLines(lines, number)[k]);
  }

  /** `refreshMetrics`' parse of the fetched text. */
  function ParseMetrics(raw: string, number: string -> NumberValue): (m: map<string, real>)
    ensures forall k :: k in m ==> Namespace <= k && NoSpace(k)
  {
    ParseLines(Split(raw, '\n'), number)
  }

  // ---------------------------------------------------------------------------
  // Reading back what the server wrote

  /** The map a reader should obtain from a list of gauges. */
  function GaugeMap(gs: seq<Gauge>): map<string, real> {
    if gs == [] then map[]
    else GaugeMap(gs[..|gs| - 1])[NameText(gs[|gs| - 1].name) := gs[|gs| - 1].value as real]
  }

  function Lines(gs: seq<Gauge>): (ls: seq<string>)
    ensures |ls| == |gs|
    ensures forall i :: 0 <= i < |gs| ==> ls[i] == Line(gs[i])
  {
    seq(|gs|, i requires 0 <= i < |gs| => Line(gs[i]))
  }

  predicate SafeValues(gs: seq<Gauge>) {
    forall i :: 0 <= i < |gs| ==> -MaxSafeInteger <= gs[i].value <= MaxSafeInteger
  }

  lemma {:induction false} RenderJoin(gs: seq<Gauge>)
    ensures Render(gs) == Join(Lines(gs) + [""], "\n")
  {
    if gs != [] {
      RenderJoin(gs[1..]);
      var rest := Lines(gs[1..]) + [""];
      LinesCons(gs);
      JoinCons(Line(gs[0]), rest, "\n");
      assert Render(gs) == Line(gs[0]) + "\n" + Join(rest, "\n");
    }
  }

  lemma LinesCons(gs: seq<Gauge>)
    requires gs != []
    ensures Lines(gs) + [""] == [Line(gs[0])] + (Lines(gs[1..]) + [""])
  {
    assert Lines(gs) == [Line(gs[0])] + Lines(gs[1..]);
  }

  lemma JoinCons(x: string, rest: seq<string>, sep: string)
    requires rest != []
    ensures Join([x] + rest, sep) == x + sep + Join(rest, sep)
  {
    assert ([x] + rest)[1..] == rest;
  }

  lemma LineShape(g: Gauge)
    ensures Line(g) == Join([NameText(g.name), IntToString(g.value)], " ")
    ensures NoSpace(IntToString(g.value)) && '\n' !in Line(g)
    ensures Trimmed(Line(g))
  {
    NameTextValid(g.name);
    var name, digits := NameText(g.name), IntToString(g.value);
    assert NoSpace(digits) by {
      forall k | 0 <= k < |digits| ensures !IsSpace(digits[k]) {
        if k > 0 { assert IsDigit(digits[k]); }
      }
    }
    assert Line(g)[0] == name[0] && Line(g)[|Line(g)| - 1] == digits[|digits| - 1];
    assert Line(g) == name + " " + digits;
    assert '\n' !in Line(g) by {
      forall k | 0 <= k < |Line(g)| ensures Line(g)[k] != '\n' {
        if k < |name| { assert Line(g)[k] == name[k]; }
        else if k > |name| { assert Line(g)[k] == digits[k - |name| - 1]; }
      }
    }
  }

  /** The dashboard reads one line of the document as the gauge written. */
  lemma ParseLineOfLine(g: Gauge, number: string -> NumberValue)
    requires ReadsIntegers(number)
    requires -MaxSafeInteger <= g.value <= MaxSafeInteger
    ensures ParseLine(Line(g), number) == Some((NameText(g.name), g.value as real))
  {
    LineShape(g);
    NameTextValid(g.name);
    var name, digits := NameText(g.name), IntToString(g.value);
    FieldsOfSpaced([name, digits]);
    assert Trim(Line(g)) == Line(g);
    assert !("#" <= Line(g)) by { assert Line(g)[0] == name[0] == 'a'; }
  }

  lemma {:induction false} ParseLinesOfLines(gs: seq<Gauge>, number: string -> NumberValue)
    requires ReadsIntegers(number) && SafeValues(gs)
    ensures ParseLines(Lines(gs), number) == GaugeMap(gs)
  {
    if gs != [] {
      var init := gs[..|gs| - 1];
      assert Lines(gs)[..|gs| - 1] == Lines(init);
      ParseLinesOfLines(init, number);
      ParseLineOfLine(gs[|gs| - 1], number);
    }
  }

  /** The dashboard recovers exactly the gauges the server rendered. */
  lemma {:induction false} ParseRendered(gs: seq<Gauge>, number: string -> NumberValue)
    requires ReadsIntegers(number) && SafeValues(gs)
    ensures ParseMetrics(Render(gs), number) == GaugeMap(gs)
  {
    RenderJoin(gs);
    var parts := Lines(gs) + [""];
    forall k | 0 <= k < |parts| ensures '\n' !in parts[k] {
      if k < |gs| { LineShape(gs[k]); }
    }
    SplitJoin(parts, '\n');
    assert parts[..|parts| - 1] == Lines(gs);
    ParseLinesOfLines(gs, number);
  }

  /** Reading the map a list of gauges gives is reading the last value of
      each gauge. */
  lemma {:induction false} GaugeMapValue(gs: seq<Gauge>, n: GaugeName)
    ensures NameText(n) in GaugeMap(gs) <==> ValueOf(gs, n).Some?
    ensures NameText(n) in GaugeMap(gs) ==> GaugeMap(gs)[NameText(n)] == ValueOf(gs, n).value as real
  {
    if gs != [] {
      NameTextInjective(gs[|gs| - 1].name, n);
      GaugeMapValue(gs[..|gs| - 1], n);
    }
  }

  /** End to end: the metrics card shows each gauge exactly when the server
      writes it, with the value the server observed. */
  lemma DashboardReadsExposition(o: Observed, n: GaugeName, number: string -> NumberValue)
    requires ReadsIntegers(number) && SafeValues(Gauges(o))
    ensures NameText(n) in ParseMetrics(BuildMetrics(o), number) <==> Present(o, n)
    ensures Present(o, n) ==> ParseMetrics(BuildMetrics(o), number)[NameText(n)] == Val(o, n) as real
  {
    ParseRendered(Gauges(o), number);
    GaugeMapValue(Gauges(o), n);
    GaugesReport(o, n);
  }

  // ---------------------------------------------------------------------------
  // The signatures card

  /** The placeholder shown for a missing value (an em dash). */
  const Placeholder: string := "\U{2014}"

  /** The sources of the displayed status; a missing status or a null map
      counts as empty (`signatureStatus?.sources || {}`). */
  function DisplayedSources(status: Option<SigStore.Status>): map<string, SigStore.SourceStatus> {
    if status.Some? then SigStore.SourcesOf(status.value) else map[]
  }

  /** Sources whose error is non-empty (a truthy `error`). */
  function FailedSources(m: map<string, SigStore.SourceStatus>): (n: nat)
    ensures n <= |m|
  {
    var failed := set k | k in m && m[k].error != "";
    SubsetCard(failed, m.Keys);
    |failed|
  }

  /** The card's "ok" count: all sources less the failed ones. */
  function DisplayedOk(m: map<string, SigStore.SourceStatus>): int {
    |m| - FailedSources(m)
  }

  /** The dashboard's count of healthy sources agrees with the server's
      `arcsent_signatures_sources_ok_total` gauge, which counts sources
      with an empty error directly. */
  lemma SourceCountsAgree(m: map<string, SigStore.SourceStatus>)
    ensures DisplayedOk(m) == OkSources(m)
    ensures OkSources(m) + FailedSources(m) == |m|
  {
    var ok := set k | k in m && m[k].error == "";
    var failed := set k | k in m && m[k].error != "";
    assert ok !! failed;
    assert ok + failed == m.Keys;
    assert |ok + failed| == |ok| + |failed|;
  }

  /** The "Sources" line: `<ok> ok / <failed> failed`, or the placeholder
      when there are no sources. */
  function SourcesLine(status: Option<SigStore.Status>): (line: string)
    ensures DisplayedSources(status) == map[] <==> line == Placeholder
  {
    var m := DisplayedSources(status);
    if |m| > 0 then
      IntToString(DisplayedOk(m)) + " ok / " + IntToString(FailedSources(m)) + " failed"
    else
      Placeholder
  }

  /** The air-gap line: shown only in air-gap mode, naming the import path
      or saying "enabled" when the path is empty. */
  function AirgapLine(status: Option<SigStore.Status>): (line: Option<string>)
    ensures line.Some? <==> status.Some? && status.value.airgapMode
    ensures line.Some? ==> Text.Contains(line.value, if status.value.airgapImportPath == "" then "enabled" else status.value.airgapImportPath)
  {
    if status.Some? && status.value.airgapMode then
      var shown := if status.value.airgapImportPath == "" then "enabled" else status.value.airgapImportPath;
      ContainsSuffix("Air-gapped import: ", shown);
      Some("Air-gapped import: " + shown)
    else
      None
  }

  lemma {:induction false} ContainsSuffix(a: string, b: string)
    ensures Text.Contains(a + b, b)
  {
    if a == [] {
      assert a + b == b;
    } else {
      assert (a + b)[1..] == a[1..] + b;
      ContainsSuffix(a[1..], b);
    }
  }

  /** `formatTime`: the placeholder for a missing or empty value; a value
      `Date` cannot read is shown as it is; a readable one in local form.
      `parse` stands for `new Date(value)` (`None` for an invalid date) and
      `local` for `toLocaleString`. */
  function FormatTime(value: Option<string>, parse: string -> Option<real>, local: real -> string): (shown: string)
    ensures value.None? || value == Some("") ==> shown == Placeholder
    ensures value.Some? && value.value != "" && parse(value.value).None? ==> shown == value.value
    ensures value.Some? && value.value != "" && parse(value.value).Some? ==> shown == local(parse(value.value).value)
  {
    if value.None? || value.value == "" then Placeholder
    else
      match parse(value.value)
      case None => value.value
      case Some(t) => local(t)
  }

  /** A time the dashboard shows is never blank: either the placeholder, the
      raw text or a non-blank local rendering. */
  lemma FormatTimeNeverBlank(value: Option<string>, parse: string -> Option<real>, local: real -> string)
    requires forall t :: local(t) != ""
    ensures FormatTime(value, parse, local) != ""
  {
  }

  // ---------------------------------------------------------------------------
  // Panel state

  /** The state one refresh action drives: the data shown, the error line
      and the spinner. */
  datatype Panel<T> = Panel(data: T, error: string, loading: bool)

  const SignaturesFailed: string := "Failed to load signatures"
  const UpdateFailed: string := "Update failed"
  const MetricsFailed: string := "Failed to load metrics"

  /** A request starts: the spinner turns on, nothing else changes. */
  function Begin<T>(p: Panel<T>): (q: Panel<T>)
    ensures q.loading && q.data == p.data && q.error == p.error
  {
    p.(loading := true)
  }

  /** A request settles: on success the data is replaced and the error
      cleared; on failure the data stays and the error line shows the
      message, or `fallback` when the message is empty; either way the
      spinner turns off. */
  function Settle<T>(p: Panel<T>, outcome: Result<T>, fallback: string): (q: Panel<T>)
    ensures !q.loading
    ensures outcome.Ok? ==> q.data == outcome.value && q.error == ""
    ensures outcome.Err? ==> q.data == p.data
    ensures outcome.Err? && outcome.error != "" ==> q.error == outcome.error
    ensures outcome.Err? && outcome.error == "" ==> q.error == fallback
  {
    match outcome
    case Ok(v) => Panel(v, "", false)
    case Err(msg) => p.(error := if msg == "" then fallback else msg, loading := false)
  }

  /** After any request the panel is idle, and it shows an error exactly when
      the request failed. */
  lemma RefreshSettles<T>(p: Panel<T>, outcome: Result<T>, fallback: string)
    requires fallback != ""
    ensures !Settle(Begin(p), outcome, fallback).loading
    ensures Settle(Begin(p), outcome, fallback).error == "" <==> outcome.Ok?
  {
  }

  /** `refreshMetrics` against a server: the outcome of fetching the metrics
      text, parsed on success. */
  function RefreshMetrics(p: Panel<map<string, real>>, fetched: Result<string>, number: string -> NumberValue): (q: Panel<map<string, real>>)
    ensures fetched.Ok? ==> q.data == ParseMetrics(fetched.value, number) && q.error == ""
    ensures fetched.Err? ==> q.data == p.data && q.error != ""
    ensures !q.loading
  {
    var parsed := match fetched
      case Ok(raw) => Ok(ParseMetrics(raw, number))
      case Err(e) => Err(e);
    Settle(Begin(p), parsed, MetricsFailed)
  }

  /** The metrics card after a successful refresh against a server: it
      holds a counter exactly for the gauges the server writes (the plugin
      count when a plugin manager is attached, the job count with a
      scheduler, result and finding counts with a result cache), each with
      the value the server observed, and no error. */
  lemma MetricsCardAfterRefresh(p: Panel<map<string, real>>, o: Observed, number: string -> NumberValue)
    requires ReadsIntegers(number) && SafeValues(Gauges(o))
    ensures RefreshMetrics(p, Ok(BuildMetrics(o)), number).error == ""
    ensures forall n :: NameText(n) in RefreshMetrics(p, Ok(BuildMetrics(o)), number).data <==> Present(o, n)
    ensures forall n :: Present(o, n) ==> RefreshMetrics(p, Ok(BuildMetrics(o)), number).data[NameText(n)] == Val(o, n) as real
  {
    var m := ParseMetrics(BuildMetrics(o), number);
    assert RefreshMetrics(p, Ok(BuildMetrics(o)), number).data == m;
    forall n
      ensures NameText(n) in m <==> Present(o, n)
      ensures Present(o, n) ==> m[NameText(n)] == Val(o, n) as real
    {
      DashboardReadsExposition(o, n, number);
    }
  }
}

=== FILE: decimal.dfy ===
/** Decimal integers: Go's `%d`/`%v` rendering of an integer and the
    `strconv` parsers the daemon relies on (`Atoi`, `ParseUint(s, 10, 64)`,
    `ParseBool`). */
module Decimal {
  import opened Wrappers
  import Text

  const MinInt64: int := -0x8000_0000_0000_0000
  const MaxInt64: int := 0x7fff_ffff_ffff_ffff
  const MaxUint64: int := 0xffff_ffff_ffff_ffff

  predicate IsDigit(c: char) {
    '0' <= c <= '9'
  }

  predicate AllDigits(s: string) {
    forall i :: 0 <= i < |s| ==> IsDigit(s[i])
  }

  function DigitChar(d: nat): (c: char)
    requires d < 10
    ensures IsDigit(c)
  {
    ('0' as int + d) as char
  }

  /** The value of a string of decimal digits, most significant first. */
  function DigitsValue(s: string): nat
    requires AllDigits(s)
  {
    if s == [] then 0 else DigitsValue(s[..|s| - 1]) * 10 + (s[|s| - 1] as int - '0' as int)
  }

  /** The shortest decimal rendering of `n`. */
  function NatToString(n: nat): (s: string)
    ensures s != [] && AllDigits(s)
    ensures DigitsValue(s) == n
    ensures |s| > 1 ==> s[0] != '0'
  {
    if n < 10 then
      [DigitChar(n)]
    else
      var s := NatToString(n / 10) + [DigitChar(n % 10)];
      assert s[..|s| - 1] == NatToString(n / 10);
      s
  }

  /** Go's `%d` (and `%v`) on an integer. */
  function IntToString(i: int): (s: string)
    ensures s != []
    ensures i < 0 <==> s[0] == '-'
    ensures forall k :: 0 < k < |s| ==> IsDigit(s[k])
    ensures IsDigit(s[|s| - 1])
  {
    if i < 0 then "-" + NatToString(-i) else NatToString(i)
  }

  /** `strconv.Atoi` on a 64-bit platform: an optional sign, then one or more
      decimal digits whose value fits in an `int64`. */
  function Atoi(s: string): (r: Option<int>)
    ensures r.Some? ==> MinInt64 <= r.value <= MaxInt64
    ensures r.Some? ==> s != [] && (IsDigit(s[0]) || s[0] == '-' || s[0] == '+')
  {
    if |s| > 0 && (s[0] == '-' || s[0] == '+') then
      var body := s[1..];
      if body != [] && AllDigits(body) then
        var n: int := DigitsValue(body);
        var v := if s[0] == '-' then -n else n;
        if MinInt64 <= v <= MaxInt64 then Some(v) else None
      else
        None
    else if s != [] && AllDigits(s) then
      var v := DigitsValue(s);
      if v <= MaxInt64 then Some(v) else None
    else
      None
  }

  /** `strconv.ParseUint(s, 10, 64)`: one or more decimal digits, no sign,
      value at most 2^64 - 1. */
  function ParseUint64(s: string): (r: Option<nat>)
    ensures r.Some? ==> r.value <= MaxUint64
    ensures r.Some? <==> s != [] && AllDigits(s) && DigitsValue(s) <= MaxUint64
  {
    if s != [] && AllDigits(s) && DigitsValue(s) <= MaxUint64 then Some(DigitsValue(s)) else None
  }

  /** `strconv.ParseBool`. */
  function ParseBool(s: string): (r: Option<bool>)
    ensures r == Some(true) <==> s in {"1", "t", "T", "TRUE", "true", "True"}
    ensures r == Some(false) <==> s in {"0", "f", "F", "FALSE", "false", "False"}
  {
    if s in {"1", "t", "T", "TRUE", "true", "True"} then Some(true)
    else if s in {"0", "f", "F", "FALSE", "false", "False"} then Some(false)
    else None
  }

  /** `Atoi` reads back every `int64` that `%d` renders. */
  lemma AtoiOfIntToString(i: int)
    requires MinInt64 <= i <= MaxInt64
    ensures Atoi(IntToString(i)) == Some(i)
  {
    var s := IntToString(i);
    if i < 0 {
      assert s[1..] == NatToString(-i);
    } else {
      assert s == NatToString(i);
    }
  }

  /** `ParseUint` reads back every `uint64` that `%d` renders. */
  lemma ParseUintOfNatToString(n: nat)
    requires n <= MaxUint64
    ensures ParseUint64(NatToString(n)) == Some(n)
  {
  }

  /** Distinct integers render differently (the rendering is injective). */
  lemma IntToStringInjective(i: int, j: int)
    requires IntToString(i) == IntToString(j)
    ensures i == j
  {
    var s := IntToString(i);
    if i < 0 {
      assert NatToString(-i) == s[1..] == NatToString(-j);
    } else {
      assert NatToString(i) == s == NatToString(j);
    }
  }

  // ---------------------------------------------------------------------------
  // What the parsers report when they fail

  /** The error a `strconv` parser returns: none, `ErrSyntax` or `ErrRange`. */
  datatype NumErr = NoError | ErrSyntax | ErrRange

  /** The number of digits `s` starts with. */
  function DigitRun(s: string): (n: nat)
    ensures n <= |s| && AllDigits(s[..n])
    ensures n < |s| ==> !IsDigit(s[n])
  {
    if s == [] || !IsDigit(s[0]) then 0
    else
      var n := 1 + DigitRun(s[1..]);
      assert forall k :: 1 <= k < n ==> s[..n][k] == s[1..][..n - 1][k - 1];
      n
  }

  /** The leading digits of `s` already hold a value beyond 2^64 - 1, so a
      digit-by-digit reading overflows before it meets anything else. */
  predicate Overflows(s: string) {
    DigitsValue(s[..DigitRun(s)]) > MaxUint64
  }

  /** `s` without a leading sign. */
  function Unsigned(s: string): string {
    if |s| > 0 && (s[0] == '-' || s[0] == '+') then s[1..] else s
  }

  /** `s` has the shape `Atoi` accepts (an optional sign, then digits),
      whatever its magnitude. */
  predicate Signed(s: string) {
    Unsigned(s) != [] && AllDigits(Unsigned(s)) && (|s| > 0 && (s[0] == '-' || s[0] == '+') ==> |s| > 1)
  }

  /** `Atoi` fails with "value out of range": either the digits after the
      sign overflow 64 bits before anything else is read, or the whole
      string is a signed number beyond the int64 range. */
  predicate AtoiOutOfRange(s: string) {
    Overflows(Unsigned(s)) || (Signed(s) && Atoi(s).None?)
  }

  /** The loop of `strconv.ParseUint(s, 10, 64)` from position `i` on, with
      `n` the value read so far: a non-digit is bad syntax; a value that no
      longer fits (checked against the cutoff before multiplying, then after
      adding the digit) is out of range and reads as 2^64 - 1. */
  function ScanUint(s: string, i: nat, n: nat): (nat, NumErr)
    requires i <= |s|
    decreases |s| - i
  {
    if i == |s| then (n, NoError)
    else if !IsDigit(s[i]) then (0, ErrSyntax)
    else if n >= MaxUint64 / 10 + 1 then (MaxUint64, ErrRange)
    else
      var n1 := n * 10 + (s[i] as int - '0' as int);
      if n1 > MaxUint64 then (MaxUint64, ErrRange)
      else ScanUint(s, i + 1, n1)
  }

  /** `strconv.ParseUint(s, 10, 64)`: the value and error it returns. */
  function ParseUintGo(s: string): (nat, NumErr) {
    if s == [] then (0, ErrSyntax) else ScanUint(s, 0, 0)
  }

  /** `strconv.ParseInt(s, 10, 64)`, which `Atoi` falls back on: strip one
      sign, read the rest with `ParseUint`, pass bad syntax on as 0 and clamp
      a magnitude beyond the int64 range to the bound of the sign. */
  function ParseIntGo(s: string): (int, NumErr) {
    if s == [] then (0, ErrSyntax)
    else
      var neg := s[0] == '-';
      var un := ParseUintGo(Unsigned(s));
      if un.1 == ErrSyntax then (0, ErrSyntax)
      else if !neg && un.0 > MaxInt64 then (MaxInt64, ErrRange)
      else if neg && un.0 > -MinInt64 then (MinInt64, ErrRange)
      else
        var v: int := if neg then -(un.0 as int) else un.0;
        (v, NoError)
  }

  /** The value of a prefix of digits is at most that of the digits. */
  lemma {:induction false} DigitsValuePrefix(t: string, j: nat)
    requires AllDigits(t) && j <= |t|
    ensures AllDigits(t[..j]) && DigitsValue(t[..j]) <= DigitsValue(t)
  {
    assert forall k :: 0 <= k < j ==> t[..j][k] == t[k];
    if j < |t| {
      var u := t[..|t| - 1];
      assert AllDigits(u) by { assert forall k :: 0 <= k < |u| ==> u[k] == t[k]; }
      DigitsValuePrefix(u, j);
      assert u[..j] == t[..j];
      assert DigitsValue(t) == DigitsValue(u) * 10 + (t[|t| - 1] as int - '0' as int);
    } else {
      assert t[..j] == t;
    }
  }

  /** Reading one more digit. */
  lemma DigitsValueSnoc(s: string, i: nat)
    requires i < |s| && AllDigits(s[..i + 1])
    ensures AllDigits(s[..i])
    ensures DigitsValue(s[..i + 1]) == DigitsValue(s[..i]) * 10 + (s[i] as int - '0' as int)
  {
    assert s[..i + 1][..i] == s[..i];
    assert forall k :: 0 <= k < i ==> s[..i][k] == s[..i + 1][k];
  }

  /** The digit run is the first `i` characters when they are digits and
      the next one is not. */
  lemma DigitRunAt(s: string, i: nat)
    requires i <= |s| && AllDigits(s[..i]) && (i < |s| ==> !IsDigit(s[i]))
    ensures DigitRun(s) == i
  {
    var r := DigitRun(s);
    assert forall k :: 0 <= k < i ==> IsDigit(s[k]) by {
      forall k | 0 <= k < i ensures IsDigit(s[k]) { assert s[..i][k] == s[k]; }
    }
    assert forall k :: 0 <= k < r ==> IsDigit(s[k]) by {
      forall k | 0 <= k < r ensures IsDigit(s[k]) { assert s[..r][k] == s[k]; }
    }
  }

  /** The loop from position `i`, with the digits before it read into `n`,
      ends as the leading digits of `s` decide. */
  lemma {:induction false} ScanUintClassifies(s: string, i: nat, n: nat)
    requires i <= |s| && AllDigits(s[..i]) && n == DigitsValue(s[..i]) && n <= MaxUint64
    ensures ScanUint(s, i, n).1 == ErrRange <==> Overflows(s)
    ensures ScanUint(s, i, n).1 == NoError <==> AllDigits(s) && !Overflows(s)
    ensures ScanUint(s, i, n).1 == NoError ==> ScanUint(s, i, n).0 == DigitsValue(s)
    ensures ScanUint(s, i, n).1 == ErrRange ==> ScanUint(s, i, n).0 == MaxUint64
    ensures ScanUint(s, i, n).1 == ErrSyntax ==> ScanUint(s, i, n).0 == 0
    decreases |s| - i
  {
    if i == |s| {
      assert s[..i] == s;
      DigitRunAt(s, i);
    } else if !IsDigit(s[i]) {
      DigitRunAt(s, i);
    } else {
      assert AllDigits(s[..i + 1]) by {
        assert forall k :: 0 <= k < i ==> s[..i + 1][k] == s[..i][k];
      }
      DigitsValueSnoc(s, i);
      var n1 := n * 10 + (s[i] as int - '0' as int);
      var r := DigitRun(s);
      assert r >= i + 1 by {
        assert forall k :: 0 <= k < i + 1 ==> IsDigit(s[k]) by {
          forall k | 0 <= k < i + 1 ensures IsDigit(s[k]) { assert s[..i + 1][k] == s[k]; }
        }
      }
      assert s[..r][..i + 1] == s[..i + 1];
      DigitsValuePrefix(s[..r], i + 1);
      if n1 > MaxUint64 {
        assert !AllDigits(s) || r == |s|;
      } else {
        ScanUintClassifies(s, i + 1, n1);
      }
    }
  }

  /** `ParseUint` fails with "value out of range" exactly when the leading
      digits overflow, succeeds exactly on the digit strings `ParseUint64`
      accepts, and otherwise fails with bad syntax. */
  lemma ParseUintGoAgrees(s: string)
    ensures ParseUintGo(s).1 == ErrRange <==> Overflows(s)
    ensures ParseUintGo(s).1 == NoError <==> ParseUint64(s).Some?
    ensures ParseUint64(s).Some? ==> ParseUintGo(s).0 == ParseUint64(s).value
    ensures ParseUintGo(s).1 == ErrRange ==> ParseUintGo(s).0 == MaxUint64
    ensures ParseUintGo(s).1 == ErrSyntax ==> ParseUintGo(s).0 == 0
  {
    if s == [] {
      assert DigitRun(s) == 0;
    } else {
      ScanUintClassifies(s, 0, 0);
      if AllDigits(s) { DigitRunAt(s, |s|); assert s[..|s|] == s; }
    }
  }

  /** `Atoi` (through `ParseInt`) succeeds exactly where `Atoi` is defined,
      fails with "value out of range" exactly on `AtoiOutOfRange`, returning
      the bound of the sign, and otherwise fails with bad syntax, returning
      0. */
  lemma ParseIntGoAgrees(s: string)
    ensures ParseIntGo(s).1 == NoError <==> Atoi(s).Some?
    ensures Atoi(s).Some? ==> ParseIntGo(s).0 == Atoi(s).value
    ensures ParseIntGo(s).1 == ErrRange <==> AtoiOutOfRange(s)
    ensures ParseIntGo(s).1 == ErrRange ==> ParseIntGo(s).0 == (if s[0] == '-' then MinInt64 else MaxInt64)
    ensures ParseIntGo(s).1 == ErrSyntax ==> ParseIntGo(s).0 == 0
  {
    if s != [] {
      ParseUintGoAgrees(Unsigned(s));
      var u := Unsigned(s);
      if AllDigits(u) {
        DigitRunAt(u, |u|);
        assert u[..|u|] == u;
      }
    } else {
      assert !Overflows(Unsigned(s)) by { assert DigitRun(s) == 0; }
    }
  }

  /** The `*strconv.NumError` text of a failed `Atoi`. */
  function AtoiError(s: string): (e: string)
    ensures e == "strconv.Atoi: parsing " + Text.Quote(s) + ": " +
      (if AtoiOutOfRange(s) then "value out of range" else "invalid syntax")
  {
    ParseIntGoAgrees(s);
    "strconv.Atoi: parsing " + Text.Quote(s) + ": " +
      (if ParseIntGo(s).1 == ErrRange then "value out of range" else "invalid syntax")
  }

  /** The integer `Atoi` returns beside its error: the value itself when it
      parses, the int64 bound of the sign when it is out of range, and 0 on
      bad syntax. */
  function AtoiValue(s: string): (v: int)
    ensures MinInt64 <= v <= MaxInt64
    ensures Atoi(s).Some? ==> v == Atoi(s).value
    ensures Atoi(s).None? && !AtoiOutOfRange(s) ==> v == 0
    ensures AtoiOutOfRange(s) ==> v == (if s[0] == '-' then MinInt64 else MaxInt64)
  {
    ParseIntGoAgrees(s);
    ParseIntGo(s).0
  }

  function Pow10(n: nat): nat {
    if n == 0 then 1 else 10 * Pow10(n - 1)
  }

  lemma Pow10Of19()
    ensures Pow10(19) == 10_000_000_000_000_000_000
  {
    assert Pow10(1) == 10;
    assert Pow10(2) == 100;
    assert Pow10(3) == 1000;
    assert Pow10(4) == 10000;
    assert Pow10(5) == 100000;
    assert Pow10(6) == 1000000;
    assert Pow10(7) == 10000000;
    assert Pow10(8) == 100000000;
    assert Pow10(9) == 1000000000;
    assert Pow10(10) == 10000000000;
    assert Pow10(11) == 100000000000;
    assert Pow10(12) == 1000000000000;
    assert Pow10(13) == 10000000000000;
    assert Pow10(14) == 100000000000000;
    assert Pow10(15) == 1000000000000000;
    assert Pow10(16) == 10000000000000000;
    assert Pow10(17) == 100000000000000000;
    assert Pow10(18) == 1000000000000000000;
    assert Pow10(19) == 10000000000000000000;
  }

  /** A digit string is worth at least its first digit times the place
      value of that digit. */
  lemma {:induction false} DigitsValueLeading(t: string)
    requires AllDigits(t) && t != []
    ensures DigitsValue(t) >= (t[0] as int - '0' as int) * Pow10(|t| - 1)
  {
    if |t| > 1 {
      var u := t[..|t| - 1];
      assert AllDigits(u) by { assert forall k :: 0 <= k < |u| ==> u[k] == t[k]; }
      DigitsValueLeading(u);
      assert u[0] == t[0];
      var d := t[0] as int - '0' as int;
      assert DigitsValue(t) >= DigitsValue(u) * 10;
      assert d * Pow10(|t| - 1) == (d * Pow10(|u| - 1)) * 10;
    } else {
      assert t[..0] == [];
    }
  }

  /** Leading digits beyond 64 bits are out of range whatever follows: a
      twenty-digit run followed by a letter reads as the int64 maximum. */
  lemma OverflowBeforeJunk(s: string)
    requires s == "99999999999999999999x"
    ensures AtoiOutOfRange(s) && AtoiValue(s) == MaxInt64
  {
    RunOverflows(s, 20);
    assert Unsigned(s) == s;
  }

  /** A run of twenty digits, the first a 9, overflows. */
  lemma RunOverflows(s: string, n: nat)
    requires n == 20 && n <= |s| && AllDigits(s[..n]) && s[0] == '9' && (n < |s| ==> !IsDigit(s[n]))
    ensures Overflows(s)
  {
    DigitRunAt(s, n);
    DigitsValueLeading(s[..n]);
    Pow10Of19();
  }

  /** Bad syntax is no number, and its lenient value is 0. */
  lemma MalformedIsZero(s: string)
    requires !Signed(s) && !Overflows(Unsigned(s))
    ensures Atoi(s).None? && !AtoiOutOfRange(s) && AtoiValue(s) == 0
  {
  }

  /** The `*strconv.NumError` text of a failed `ParseUint(s, 10, 64)`. */
  function ParseUintError(s: string): (e: string)
    ensures e == "strconv.ParseUint: parsing " + Text.Quote(s) + ": " +
      (if Overflows(s) then "value out of range" else "invalid syntax")
  {
    ParseUintGoAgrees(s);
    "strconv.ParseUint: parsing " + Text.Quote(s) + ": " +
      (if ParseUintGo(s).1 == ErrRange then "value out of range" else "invalid syntax")
  }
}

=== FILE: disk_usage.dfy ===
/** The disk-usage scanner (internal/plugins/system/disk_usage.go): its
    thresholds, the used percentage of a file system and the one finding it
    may raise. `statfs` is an input; Go's float64 arithmetic is modelled on
    reals, and `%.2f` rendering is the parameter `formatPct`. */
module DiskUsage {
  import opened Wrappers
  import opened ScannerTypes
  import PluginConfig

  const Name: string := "system.disk_usage"
  const DefaultPath: string := "/"
  const DefaultWarnPercent: real := 85.0
  const DefaultCritPercent: real := 95.0

  datatype Settings = Settings(path: string, warnPercent: real, critPercent: real)

  /** A threshold: the positive float setting, else its default. */
  function Threshold(config: map<string, Value>, key: string, default: real): real {
    match PluginConfig.PositiveFloat(config, key)
    case Some(v) => v
    case None => default
  }

  /** `Init`: path "/", warning at 85% and critical at 95% unless
      configured; the warning threshold must stay below the critical one. */
  function Init(config: map<string, Value>): (r: Result<Settings>)
    ensures r.Ok? ==> 0.0 < r.value.warnPercent < r.value.critPercent
    ensures r.Ok? <==> Threshold(config, "warn_percent", DefaultWarnPercent) < Threshold(config, "crit_percent", DefaultCritPercent)
    ensures r.Err? ==> r.error == "warn_percent must be less than crit_percent"
    ensures r.Ok? ==> (r.value.warnPercent == Threshold(config, "warn_percent", DefaultWarnPercent)
      && r.value.critPercent == Threshold(config, "crit_percent", DefaultCritPercent))
    ensures r.Ok? ==> (r.value.path != ""
      && (PluginConfig.NonEmptyString(config, "path").None? ==> r.value.path == DefaultPath)
      && (PluginConfig.NonEmptyString(config, "path").Some? ==> config["path"] == VString(r.value.path)))
  {
    var path := match PluginConfig.NonEmptyString(config, "path") case Some(p) => p case None => DefaultPath;
    var warn := Threshold(config, "warn_percent", DefaultWarnPercent);
    var crit := Threshold(config, "crit_percent", DefaultCritPercent);
    if warn >= crit then Err("warn_percent must be less than crit_percent")
    else Ok(Settings(path, warn, crit))
  }

  /** The fields of `syscall.Statfs_t` the scanner reads. */
  datatype Statfs = Statfs(blocks: nat, bavail: nat, bsize: nat)

  function TotalBytes(st: Statfs): real {
    (st.blocks as real) * (st.bsize as real)
  }

  function UsedBytes(st: Statfs): real {
    TotalBytes(st) - (st.bavail as real) * (st.bsize as real)
  }

  /** The used share of the file system in percent; 0 for an empty one. */
  function UsedPercent(st: Statfs): (p: real)
    ensures TotalBytes(st) == 0.0 ==> p == 0.0
    ensures TotalBytes(st) > 0.0 ==> p * TotalBytes(st) == UsedBytes(st) * 100.0
  {
    var total := TotalBytes(st);
    if total > 0.0 then (UsedBytes(st) / total) * 100.0 else 0.0
  }

  /** When the available blocks are no more than all blocks (as the kernel
      reports them) the percentage lies between 0 and 100. */
  lemma UsedPercentBounded(st: Statfs)
    requires st.bavail <= st.blocks
    ensures 0.0 <= UsedPercent(st) <= 100.0
  {
    var total := TotalBytes(st);
    if total > 0.0 {
      var free := (st.bavail as real) * (st.bsize as real);
      assert 0.0 <= free <= total by {
        assert st.bavail as real <= st.blocks as real;
      }
      var share := (total - free) / total;
      assert share * total == total - free;
      assert 0.0 <= share <= 1.0;
    }
  }

  function Critical(s: Settings, usedPct: real, formatPct: real -> string): Finding {
    Finding("disk_usage_critical", ScannerTypes.Critical, "resource",
      "Disk usage " + formatPct(usedPct) + "% exceeds critical threshold",
      map["path" := VString(s.path), "used_pct" := VFloat64(usedPct)],
      "Free disk space or expand storage.")
  }

  function Warning(s: Settings, usedPct: real, formatPct: real -> string): Finding {
    Finding("disk_usage_warning", Medium, "resource",
      "Disk usage " + formatPct(usedPct) + "% exceeds warning threshold",
      map["path" := VString(s.path), "used_pct" := VFloat64(usedPct)],
      "Investigate disk usage growth.")
  }

  /** At most one finding: critical at or above the critical threshold,
      otherwise a medium warning at or above the warning threshold. */
  function Findings(s: Settings, usedPct: real, formatPct: real -> string): (r: seq<Finding>)
    ensures |r| <= 1
    ensures (|r| == 1 && r[0].severity == ScannerTypes.Critical) <==> usedPct >= s.critPercent
    ensures (|r| == 1 && r[0].severity == Medium) <==> s.warnPercent <= usedPct < s.critPercent
    ensures r == [] <==> usedPct < s.warnPercent && usedPct < s.critPercent
    ensures |r| == 1 ==> r[0].category == "resource" && "used_pct" in r[0].evidence && r[0].evidence["used_pct"] == VFloat64(usedPct)
  {
    if usedPct >= s.critPercent then [Critical(s, usedPct, formatPct)]
    else if usedPct >= s.warnPercent then [Warning(s, usedPct, formatPct)]
    else []
  }

  /** How serious the findings are: none, warning, critical. */
  function Level(fs: seq<Finding>): nat {
    if fs == [] then 0 else if fs[0].severity == ScannerTypes.Critical then 2 else 1
  }

  /** With the thresholds `Init` admits, fuller disks never raise a less
      serious finding. */
  lemma FindingsMonotone(s: Settings, p: real, q: real, formatPct: real -> string)
    requires s.warnPercent < s.critPercent
    requires p <= q
    ensures Level(Findings(s, p, formatPct)) <= Level(Findings(s, q, formatPct))
  {
  }

  /** `Run`: the statfs call's failure is the error; otherwise the sizes,
      the percentage, the thresholds and the findings. */
  function Run(s: Settings, statfs: string -> Result<Statfs>, formatPct: real -> string, stamp: string): (r: Result<ScanResult>)
    ensures statfs(s.path).Err? <==> r.Err?
    ensures r.Err? ==> r.error == "statfs " + s.path + ": " + statfs(s.path).error
    ensures r.Ok? ==> (r.value.scannerName == Name && r.value.status == Success
      && r.value.findings == Findings(s, UsedPercent(statfs(s.path).value), formatPct))
    ensures r.Ok? ==> "used_pct" in r.value.metadata && r.value.metadata["used_pct"] == VFloat64(UsedPercent(statfs(s.path).value))
  {
    match statfs(s.path)
    case Err(e) => Err("statfs " + s.path + ": " + e)
    case Ok(st) =>
      var usedPct := UsedPercent(st);
      Ok(ScanResult(Name, Success, Findings(s, usedPct, formatPct), Zero, Zero, 0, map[
        "path" := VString(s.path),
        "total" := VFloat64(TotalBytes(st)),
        "used" := VFloat64(UsedBytes(st)),
        "used_pct" := VFloat64(usedPct),
        "warn_pct" := VFloat64(s.warnPercent),
        "crit_pct" := VFloat64(s.critPercent),
        "timestamp" := VString(stamp)]))
  }
}

=== FILE: exposition.dfy ===
/** The plain-text metrics document of `/metrics` (internal/api/server.go
    `buildMetrics`): one `name value` line per gauge. */
module Exposition {
  import opened Wrappers
  import opened Text
  import opened ScannerTypes
  import Decimal
  import SigStore

  /** The gauges the document can hold. */
  datatype GaugeName =
    | Up | RunningAsRoot | PluginsTotal | JobsTotal | ResultsTotal | FindingsTotal
    | SourcesTotal | SourcesOkTotal | LastRunSeconds | NextRunSeconds

  const Namespace: string := "arcsent_"

  /** The metric name a gauge is written under. */
  function NameText(n: GaugeName): string {
    match n
    case Up => "arcsent_up"
    case RunningAsRoot => "arcsent_running_as_root"
    case PluginsTotal => "arcsent_plugins_total"
    case JobsTotal => "arcsent_jobs_total"
    case ResultsTotal => "arcsent_results_total"
    case FindingsTotal => "arcsent_findings_total"
    case SourcesTotal => "arcsent_signatures_sources_total"
    case SourcesOkTotal => "arcsent_signatures_sources_ok_total"
    case LastRunSeconds => "arcsent_signatures_last_run_timestamp_seconds"
    case NextRunSeconds => "arcsent_signatures_next_run_timestamp_seconds"
  }

  datatype Gauge = Gauge(name: GaugeName, value: int)

  /** What the server can see when it builds the document. A component is
      `None` when the server was built without it; `signatures` is the
      outcome of `LoadStatus` when a signature store is attached. */
  datatype Observed = Observed(
    runningAsRoot: bool,
    plugins: Option<nat>,
    jobs: Option<nat>,
    history: Option<(nat, nat)>,
    signatures: Option<Result<SigStore.Status>>)

  /** The number of sources whose last update reported no error. */
  function OkSources(m: map<string, SigStore.SourceStatus>): (n: nat)
    ensures n <= |m|
  {
    var ok := set k | k in m && m[k].error == "";
    assert ok <= m.Keys;
    SubsetCard(ok, m.Keys);
    |ok|
  }

  lemma SubsetCard<T>(a: set<T>, b: set<T>)
    requires a <= b
    ensures |a| <= |b|
  {
    if a != {} {
      var x :| x in a;
      SubsetCard(a - {x}, b - {x});
    }
  }

  /** The order in which `buildMetrics` writes the gauges. */
  const Catalogue: seq<GaugeName> := [
    Up, RunningAsRoot, PluginsTotal, JobsTotal, ResultsTotal, FindingsTotal,
    SourcesTotal, SourcesOkTotal, LastRunSeconds, NextRunSeconds]

  function LoadedStatus(o: Observed): Option<SigStore.Status> {
    if o.signatures.Some? && o.signatures.value.Ok? then Some(o.signatures.value.value) else None
  }

  /** Whether `buildMetrics` writes gauge `n`: the process gauges always, the
      others when their component is attached (and, for the signature
      gauges, when its status loaded; for the two times, when they are set). */
  predicate Present(o: Observed, n: GaugeName) {
    match n
    case Up => true
    case RunningAsRoot => true
    case PluginsTotal => o.plugins.Some?
    case JobsTotal => o.jobs.Some?
    case ResultsTotal => o.history.Some?
    case FindingsTotal => o.history.Some?
    case SourcesTotal => LoadedStatus(o).Some?
    case SourcesOkTotal => LoadedStatus(o).Some?
    case LastRunSeconds => LoadedStatus(o).Some? && !LoadedStatus(o).value.lastRun.IsZero()
    case NextRunSeconds => LoadedStatus(o).Some? && !LoadedStatus(o).value.nextRun.IsZero()
  }

  /** The value written for a present gauge. */
  function Val(o: Observed, n: GaugeName): int
    requires Present(o, n)
  {
    match n
    case Up => 1
    case RunningAsRoot => if o.runningAsRoot then 1 else 0
    case PluginsTotal => o.plugins.value
    case JobsTotal => o.jobs.value
    case ResultsTotal => o.history.value.0
    case FindingsTotal => o.history.value.1
    case SourcesTotal => |SigStore.SourcesOf(LoadedStatus(o).value)|
    case SourcesOkTotal => OkSources(SigStore.SourcesOf(LoadedStatus(o).value))
    case LastRunSeconds => UnixSeconds(LoadedStatus(o).value.lastRun.nanos)
    case NextRunSeconds => UnixSeconds(LoadedStatus(o).value.nextRun.nanos)
  }

  /** The present gauges among `names`, in order, with their values. */
  function Select(o: Observed, names: seq<GaugeName>): (gs: seq<Gauge>)
    ensures |gs| <= |names|
    ensures forall i :: 0 <= i < |gs| ==> gs[i].name in names && Present(o, gs[i].name)
  {
    if names == [] then []
    else
      var rest := Select(o, names[1..]);
      if Present(o, names[0]) then [Gauge(names[0], Val(o, names[0]))] + rest else rest
  }

  /** The gauges `buildMetrics` writes, in order. */
  function Gauges(o: Observed): seq<Gauge> {
    Select(o, Catalogue)
  }

  /** The value of the last gauge named `name`. */
  function ValueOf(gs: seq<Gauge>, name: GaugeName): Option<int> {
    if gs == [] then None
    else if gs[|gs| - 1].name == name then Some(gs[|gs| - 1].value)
    else ValueOf(gs[..|gs| - 1], name)
  }

  predicate ValidName(name: string) {
    "arcsent_" <= name && NoSpace(name)
  }

  predicate DistinctNames(gs: seq<Gauge>) {
    forall i, j :: 0 <= i < j < |gs| ==> gs[i].name != gs[j].name
  }

  /** One line of the document. */
  function Line(g: Gauge): string {
    NameText(g.name) + " " + Decimal.IntToString(g.value)
  }

  /** The document: every gauge's line followed by a newline. */
  function Render(gs: seq<Gauge>): (text: string)
    ensures gs == [] <==> text == []
  {
    if gs == [] then [] else Line(gs[0]) + "\n" + Render(gs[1..])
  }

  function BuildMetrics(o: Observed): string {
    Render(Gauges(o))
  }

  /** A character the Prometheus text format allows in a metric name. */
  predicate NameChar(c: char) {
    'a' <= c <= 'z' || 'A' <= c <= 'Z' || '0' <= c <= '9' || c == '_' || c == ':'
  }

  /** The metric-name grammar of the Prometheus text format,
      `[a-zA-Z_:][a-zA-Z0-9_:]*`. */
  predicate MetricName(name: string) {
    name != [] && !('0' <= name[0] <= '9') && forall i :: 0 <= i < |name| ==> NameChar(name[i])
  }

  /** A metric name holds no blank. */
  lemma MetricNameNoSpace(name: string)
    requires MetricName(name)
    ensures NoSpace(name)
  {
  }

  /** Two metric names written one after the other form a metric name. */
  lemma MetricNameConcat(a: string, b: string)
    requires MetricName(a) && MetricName(b)
    ensures MetricName(a + b)
  {
    forall i | 0 <= i < |a + b|
      ensures NameChar((a + b)[i])
    {
      if i >= |a| {
        assert (a + b)[i] == b[i - |a|];
      }
    }
  }

  /** The names of the liveness gauges and the plugin count follow the grammar. */
  lemma StatusNamesValid()
    ensures MetricName(NameText(Up)) && MetricName(NameText(RunningAsRoot))
    ensures MetricName(NameText(PluginsTotal))
  {
  }

  /** The names of the job, result and finding counts follow the grammar. */
  lemma CountNamesValid()
    ensures MetricName(NameText(JobsTotal)) && MetricName(NameText(ResultsTotal))
    ensures MetricName(NameText(FindingsTotal))
  {
  }

  /** The name of the signature-source count follows the grammar. */
  lemma SourcesNameValid()
    ensures MetricName(NameText(SourcesTotal))
  {
  }

  /** The name of the healthy signature-source count follows the grammar. */
  lemma SourcesOkNameValid()
    ensures MetricName(NameText(SourcesOkTotal))
  {
  }

  /** The two halves the timestamp names are split into for the proof. */
  lemma RunPartsValid()
    ensures MetricName("arcsent_signatures_")
    ensures MetricName("last_run_timestamp_seconds") && MetricName("next_run_timestamp_seconds")
  {
  }

  /** The name of the last-run timestamp follows the grammar. */
  lemma LastRunNameValid()
    ensures MetricName(NameText(LastRunSeconds))
  {
    RunPartsValid();
    MetricNameConcat("arcsent_signatures_", "last_run_timestamp_seconds");
    assert "arcsent_signatures_" + "last_run_timestamp_seconds" == NameText(LastRunSeconds);
  }

  /** The name of the next-run timestamp follows the grammar. */
  lemma NextRunNameValid()
    ensures MetricName(NameText(NextRunSeconds))
  {
    RunPartsValid();
    MetricNameConcat("arcsent_signatures_", "next_run_timestamp_seconds");
    assert "arcsent_signatures_" + "next_run_timestamp_seconds" == NameText(NextRunSeconds);
  }

  /** Every gauge name is a well-formed Prometheus metric name in the
      "arcsent_" namespace, and so holds no blank. */
  lemma NameTextValid(n: GaugeName)
    ensures MetricName(NameText(n))
    ensures ValidName(NameText(n))
  {
    match n {
      case Up => StatusNamesValid();
      case RunningAsRoot => StatusNamesValid();
      case PluginsTotal => StatusNamesValid();
      case JobsTotal => CountNamesValid();
      case ResultsTotal => CountNamesValid();
      case FindingsTotal => CountNamesValid();
      case SourcesTotal => SourcesNameValid();
      case SourcesOkTotal => SourcesOkNameValid();
      case LastRunSeconds => LastRunNameValid();
      case NextRunSeconds => NextRunNameValid();
    }
    NameTextInNamespace(n);
    NamespaceValid(NameText(n));
  }

  /** Every gauge name starts with the "arcsent_" namespace. */
  lemma NameTextInNamespace(n: GaugeName)
    ensures Namespace <= NameText(n)
  {
  }

  /** A metric name in the "arcsent_" namespace is a valid gauge name. */
  lemma NamespaceValid(name: string)
    requires MetricName(name) && Namespace <= name
    ensures ValidName(name)
  {
    MetricNameNoSpace(name);
  }

  /** Distinct gauges have distinct names in the document. */
  lemma NameTextInjective(a: GaugeName, b: GaugeName)
    ensures NameText(a) == NameText(b) ==> a == b
  {
    if NameText(a) == NameText(b) {
      var x, y := NameText(a), NameText(b);
      assert |x| == |y| && x[8] == y[8];
      if |x| > 19 {
        assert x[19] == y[19];
      }
    }
  }

  predicate DistinctList(names: seq<GaugeName>) {
    forall i, j :: 0 <= i < j < |names| ==> names[i] != names[j]
  }

  /** Filtering a list without repetitions keeps it without repetitions. */
  lemma {:induction false} SelectDistinct(o: Observed, names: seq<GaugeName>)
    requires DistinctList(names)
    ensures DistinctNames(Select(o, names))
  {
    if names != [] {
      SelectDistinct(o, names[1..]);
      var rest := Select(o, names[1..]);
      assert forall i :: 0 <= i < |rest| ==> rest[i].name != names[0] by {
        forall i | 0 <= i < |rest| ensures rest[i].name != names[0] {
          var j :| 0 <= j < |names[1..]| && names[1..][j] == rest[i].name;
          assert names[j + 1] == rest[i].name;
        }
      }
    }
  }

  /** The value recorded for gauge `n` is the one observed, and it is recorded
      exactly when the gauge is present. */
  lemma {:induction false} SelectValue(o: Observed, names: seq<GaugeName>, n: GaugeName)
    requires DistinctList(names) && n in names
    ensures ValueOf(Select(o, names), n) == if Present(o, n) then Some(Val(o, n)) else None
  {
    var gs := Select(o, names);
    var rest := Select(o, names[1..]);
    if names[0] == n {
      assert n !in names[1..] by {
        forall j | 0 <= j < |names[1..]| ensures names[1..][j] != n {
          assert names[1..][j] == names[j + 1];
        }
      }
      ValueOfMissing(rest, n);
      if Present(o, n) {
        ValueOfAppend([Gauge(n, Val(o, n))], rest);
      }
    } else {
      SelectValue(o, names[1..], n);
      if Present(o, names[0]) {
        var g := Gauge(names[0], Val(o, names[0]));
        ValueOfAppend([g], rest);
        assert ValueOf([g], n) == ValueOf([], n) by {
          assert [g][..0] == [];
        }
      }
    }
  }

  /** No gauge is written twice. */
  lemma GaugesDistinct(o: Observed)
    ensures DistinctNames(Gauges(o))
  {
    SelectDistinct(o, Catalogue);
  }

  /** Each gauge reports what the server observed: present exactly when its
      component is attached (and loaded, and set), with the observed count,
      flag or time. */
  lemma GaugesReport(o: Observed, n: GaugeName)
    ensures ValueOf(Gauges(o), n) == if Present(o, n) then Some(Val(o, n)) else None
  {
    SelectValue(o, Catalogue, n);
  }

  lemma ValueOfMissing(gs: seq<Gauge>, name: GaugeName)
    requires forall i :: 0 <= i < |gs| ==> gs[i].name != name
    ensures ValueOf(gs, name) == None
  {
  }

  /** A gauge appended later wins; otherwise the earlier value stands. */
  lemma {:induction false} ValueOfAppend(a: seq<Gauge>, b: seq<Gauge>)
    ensures forall name :: ValueOf(a + b, name) == if ValueOf(b, name).Some? then ValueOf(b, name) else ValueOf(a, name)
    decreases |b|
  {
    if b == [] {
      assert a + b == a;
    } else {
      assert (a + b)[..|a + b| - 1] == a + b[..|b| - 1];
      ValueOfAppend(a, b[..|b| - 1]);
    }
  }
}

=== FILE: file_integrity.dfy ===
/** The file-integrity scanner (internal/plugins/system/file_integrity.go):
    the roots it walks, and how a walk becomes findings and a path-to-hash
    map. The directory walk with its hashing is an input: for each root,
    the sequence of visits `filepath.WalkDir` makes to the scanner's
    callback, in order. */
module FileIntegrity {
  import opened Wrappers
  import opened ScannerTypes
  import PluginConfig

  const Name: string := "system.file_integrity"
  const DefaultPaths: seq<string> := ["/etc", "/bin"]

  datatype Settings = Settings(paths: seq<string>)

  /** `Init`: /etc and /bin by default. A generic list replaces them with
      its non-empty strings; a non-empty `[]string` replaces them as it is
      (an empty one keeps the defaults). No roots at all is refused. */
  function Init(config: map<string, Value>): (r: Result<Settings>)
    ensures r.Ok? ==> |r.value.paths| > 0
    ensures r.Err? ==> r.error == "paths must not be empty"
    ensures "paths" in config && config["paths"].VList? ==>
      (var listed := PluginConfig.NonEmptyStrings(config["paths"].elems);
       (r.Err? <==> listed == []) && (r.Ok? ==> r.value.paths == listed))
    ensures "paths" in config && config["paths"].VStrings? && |config["paths"].items| > 0 ==>
      r == Ok(Settings(config["paths"].items))
    ensures !("paths" in config && (config["paths"].VList? || (config["paths"].VStrings? && |config["paths"].items| > 0))) ==>
      r == Ok(Settings(DefaultPaths))
  {
    var paths :=
      if "paths" in config && config["paths"].VList? then PluginConfig.NonEmptyStrings(config["paths"].elems)
      else if "paths" in config && config["paths"].VStrings? && |config["paths"].items| > 0 then config["paths"].items
      else DefaultPaths;
    if |paths| == 0 then Err("paths must not be empty") else Ok(Settings(paths))
  }

  /** One call of the walk callback: an entry the walk could not access, a
      directory, or a file with the outcome of hashing it. */
  datatype Visit =
    | AccessError(path: string, message: string)
    | Directory(path: string)
    | File(path: string, hash: Result<string>)

  /** A visit the scanner reports instead of aborting. */
  predicate Failed(v: Visit) {
    v.AccessError? || (v.File? && v.hash.Err?)
  }

  function FindingOf(v: Visit): Finding
    requires Failed(v)
  {
    match v
    case AccessError(path, message) =>
      Finding("file_access_error", Low, "file_integrity", "Failed to access " + path,
        map["path" := VString(path), "error" := VString(message)], "Verify file permissions and integrity.")
    case File(path, hash) =>
      Finding("file_hash_error", Low, "file_integrity", "Failed to hash " + path,
        map["path" := VString(path), "error" := VString(hash.error)], "Verify file readability.")
  }

  /** The findings of a run: one low-severity finding per failed visit, in
      visit order. */
  function Findings(visits: seq<Visit>): (r: seq<Finding>)
    ensures |r| <= |visits|
    ensures forall f :: f in r ==> f.severity == Low && f.category == "file_integrity"
  {
    if visits == [] then []
    else
      var rest := Findings(visits[1..]);
      if Failed(visits[0]) then [FindingOf(visits[0])] + rest else rest
  }

  /** Every failed visit is reported. */
  lemma {:induction false} FindingsComplete(visits: seq<Visit>)
    ensures forall i :: 0 <= i < |visits| && Failed(visits[i]) ==> FindingOf(visits[i]) in Findings(visits)
  {
    if visits != [] {
      FindingsComplete(visits[1..]);
      forall i | 1 <= i < |visits| && Failed(visits[i])
        ensures FindingOf(visits[i]) in Findings(visits)
      {
        assert visits[1..][i - 1] == visits[i];
      }
    }
  }

  /** A file hashed at visit `i`. */
  predicate HashedAt(visits: seq<Visit>, i: int, path: string) {
    0 <= i < |visits| && visits[i].File? && visits[i].path == path && visits[i].hash.Ok?
  }

  /** The hashes of a run: every file that hashed, keyed by path; a path
      visited twice keeps the later hash. */
  function Hashes(visits: seq<Visit>): (r: map<string, string>)
    ensures forall p :: p in r <==> exists i :: HashedAt(visits, i, p)
  {
    if visits == [] then map[]
    else
      var n := |visits| - 1;
      var before := Hashes(visits[..n]);
      assert forall i, p :: 0 <= i < n ==> (HashedAt(visits[..n], i, p) <==> HashedAt(visits, i, p));
      match visits[n]
      case File(path, Ok(h)) =>
        assert HashedAt(visits, n, path);
        before[path := h]
      case _ => before
  }

  /** The hash a path ends up with is that of its last hashed visit. */
  lemma {:induction false} HashesKeepLast(visits: seq<Visit>, i: nat)
    requires i < |visits| && visits[i].File? && visits[i].hash.Ok?
    requires forall j :: i < j < |visits| ==> !HashedAt(visits, j, visits[i].path)
    ensures visits[i].path in Hashes(visits) && Hashes(visits)[visits[i].path] == visits[i].hash.value
  {
    var n := |visits| - 1;
    var path := visits[i].path;
    if i < n {
      var prefix := visits[..n];
      assert prefix[i] == visits[i];
      forall j | i < j < n
        ensures !HashedAt(prefix, j, path)
      {
        assert prefix[j] == visits[j];
        assert !HashedAt(visits, j, path);
      }
      HashesKeepLast(prefix, i);
      assert !HashedAt(visits, n, path);
      if visits[n].File? && visits[n].hash.Ok? {
        assert visits[n].path != path;
        assert Hashes(visits) == Hashes(prefix)[visits[n].path := visits[n].hash.value];
      } else {
        assert Hashes(visits) == Hashes(prefix);
      }
    }
  }

  /** All visits of a run: the walks of the roots one after another. */
  function Visits(roots: seq<string>, walk: string -> seq<Visit>): seq<Visit> {
    if roots == [] then [] else walk(roots[0]) + Visits(roots[1..], walk)
  }

  /** `Run`. The callback never returns an error, so the walk never fails
      and neither does the run: every failure becomes a finding, and the
      files that could be hashed are all in the map. */
  function Run(settings: Settings, walk: string -> seq<Visit>, stamp: string): (r: ScanResult)
    ensures r.scannerName == Name && r.status == Success
    ensures r.findings == Findings(Visits(settings.paths, walk))
    ensures "hashes" in r.metadata && r.metadata["hashes"] == VStringMap(Hashes(Visits(settings.paths, walk)))
  {
    var visits := Visits(settings.paths, walk);
    ScanResult(Name, Success, Findings(visits), Zero, Zero, 0, map[
      "timestamp" := VString(stamp),
      "hashes" := VStringMap(Hashes(visits))])
  }

  /** A failure anywhere in the walk does not stop a file after it from
      being hashed. */
  lemma ErrorsDoNotAbort(before: seq<Visit>, path: string, h: string)
    ensures path in Hashes(before + [File(path, Ok(h))])
    ensures Hashes(before + [File(path, Ok(h))])[path] == h
  {
    var visits := before + [File(path, Ok(h))];
    HashesKeepLast(visits, |before|);
  }
}

=== FILE: kv_store.dfy ===
/** The embedded key-value store (internal/storage): buckets are a naming
    convention over one flat key space, `bucket + "/" + key`. The database is
    a map from full keys to byte strings. */
module KvStore {
  import opened Wrappers

  type Bytes = seq<bv8>
  type Store = map<string, Bytes>

  const RequiredMsg: string := "bucket and key are required"

  /** The text of `ErrNotFound`. */
  const NotFoundMsg: string := "not found"

  /** What `Get` can report. */
  datatype Fetched = Found(value: Bytes) | NotFound | Failed(msg: string)

  function MakeKey(bucket: string, key: string): string {
    bucket + "/" + key
  }

  lemma MakeKeyInjectiveOnKey(bucket: string, k1: string, k2: string)
    ensures MakeKey(bucket, k1) == MakeKey(bucket, k2) ==> k1 == k2
  {
    assert k1 == MakeKey(bucket, k1)[|bucket| + 1..];
    assert k2 == MakeKey(bucket, k2)[|bucket| + 1..];
  }

  /** Opening the store: a path is required; a non-empty encryption key must
      be valid base64 (`decodeKey` gives its decoded length, or the decoder's
      error) of exactly 32 bytes; `badger` is Badger's own outcome, whose
      error is passed on under "open badger: ". */
  function Open(path: string, encryptionKey: string, decodeKey: string -> Result<nat>, badger: Outcome): (r: Outcome)
    ensures path == "" ==> r == Fail("storage path is required")
    ensures path != "" && encryptionKey != "" && decodeKey(encryptionKey).Err? ==>
      r == Fail("decode encryption key: " + decodeKey(encryptionKey).error)
    ensures path != "" && encryptionKey != "" && decodeKey(encryptionKey).Ok? && decodeKey(encryptionKey).value != 32 ==>
      r == Fail("encryption key must be 32 bytes")
    ensures path != "" && (encryptionKey == "" || decodeKey(encryptionKey) == Ok(32)) && badger.Fail? ==>
      r == Fail("open badger: " + badger.error)
    ensures r.Pass? <==>
      (path != "" && badger.Pass? && (encryptionKey == "" || decodeKey(encryptionKey) == Ok(32)))
  {
    if path == "" then Fail("storage path is required")
    else if encryptionKey != "" && decodeKey(encryptionKey).Err? then
      Fail("decode encryption key: " + decodeKey(encryptionKey).error)
    else if encryptionKey != "" && decodeKey(encryptionKey) != Ok(32) then Fail("encryption key must be 32 bytes")
    else if badger.Fail? then Fail("open badger: " + badger.error)
    else Pass
  }

  function Put(st: Store, bucket: string, key: string, value: Bytes): (r: Result<Store>)
    ensures bucket == "" || key == "" <==> r == Err(RequiredMsg)
    ensures r.Ok? ==> r.value.Keys == st.Keys + {MakeKey(bucket, key)}
    ensures r.Ok? ==> r.value[MakeKey(bucket, key)] == value
    ensures r.Ok? ==> forall k :: k in st && k != MakeKey(bucket, key) ==> r.value[k] == st[k]
  {
    if bucket == "" || key == "" then Err(RequiredMsg) else Ok(st[MakeKey(bucket, key) := value])
  }

  /** `Get` returns a copy of the stored bytes, or `NotFound`. */
  function Get(st: Store, bucket: string, key: string): (r: Fetched)
    ensures bucket == "" || key == "" <==> r == Failed(RequiredMsg)
    ensures bucket != "" && key != "" ==>
      (r.NotFound? <==> MakeKey(bucket, key) !in st) &&
      (r.Found? ==> r.value == st[MakeKey(bucket, key)])
  {
    if bucket == "" || key == "" then Failed(RequiredMsg)
    else if MakeKey(bucket, key) in st then Found(st[MakeKey(bucket, key)])
    else NotFound
  }

  function Delete(st: Store, bucket: string, key: string): (r: Result<Store>)
    ensures bucket == "" || key == "" <==> r == Err(RequiredMsg)
    ensures r.Ok? ==> r.value == st - {MakeKey(bucket, key)}
  {
    if bucket == "" || key == "" then Err(RequiredMsg) else Ok(st - {MakeKey(bucket, key)})
  }

  /** The keys of `bucket`, with the bucket prefix removed. */
  function BucketKeys(st: Store, bucket: string): (ks: set<string>)
    ensures forall k :: k in ks <==> MakeKey(bucket, k) in st
  {
    var ks := set full | full in st && bucket + "/" <= full :: full[|bucket| + 1..];
    assert forall k :: MakeKey(bucket, k) in st ==> k in ks by {
      forall k | MakeKey(bucket, k) in st ensures k in ks {
        assert MakeKey(bucket, k)[|bucket| + 1..] == k;
      }
    }
    assert forall k :: k in ks ==> MakeKey(bucket, k) in st by {
      forall k | k in ks ensures MakeKey(bucket, k) in st {
        var full :| full in st && bucket + "/" <= full && k == full[|bucket| + 1..];
        assert full == MakeKey(bucket, k);
      }
    }
    ks
  }

  /** `ForEach`: visit the entries of `bucket` in `order` (Badger's key order),
      calling `fn` on the stripped key and the value, and stop at the first
      error. The second component is how many entries were visited. */
  function ForEach(st: Store, bucket: string, order: seq<string>, fn: (string, Bytes) -> Outcome): (r: (Outcome, nat))
    requires Enumerates(order, BucketKeys(st, bucket))
    ensures bucket == "" ==> r.0 == Fail("bucket is required")
    ensures bucket != "" ==> r.1 <= |order|
    ensures bucket != "" && r.0.Pass? ==>
      (r.1 == |order| && forall i :: 0 <= i < |order| ==> fn(order[i], st[MakeKey(bucket, order[i])]).Pass?)
    ensures bucket != "" && r.0.Fail? ==>
      (r.1 >= 1 && r.0 == fn(order[r.1 - 1], st[MakeKey(bucket, order[r.1 - 1])]) &&
       forall i :: 0 <= i < r.1 - 1 ==> fn(order[i], st[MakeKey(bucket, order[i])]).Pass?)
  {
    if bucket == "" then (Fail("bucket is required"), 0) else Visit(st, bucket, order, fn, 0)
  }

  function Visit(st: Store, bucket: string, order: seq<string>, fn: (string, Bytes) -> Outcome, from: nat): (r: (Outcome, nat))
    requires from <= |order|
    requires forall i :: 0 <= i < |order| ==> MakeKey(bucket, order[i]) in st
    ensures from <= r.1 <= |order|
    ensures r.0.Pass? ==>
      (r.1 == |order| && forall i :: from <= i < |order| ==> fn(order[i], st[MakeKey(bucket, order[i])]).Pass?)
    ensures r.0.Fail? ==>
      (r.1 > from && r.0 == fn(order[r.1 - 1], st[MakeKey(bucket, order[r.1 - 1])]) &&
       forall i :: from <= i < r.1 - 1 ==> fn(order[i], st[MakeKey(bucket, order[i])]).Pass?)
    decreases |order| - from
  {
    if from == |order| then (Pass, from)
    else
      var out := fn(order[from], st[MakeKey(bucket, order[from])]);
      if out.Fail? then (out, from + 1) else Visit(st, bucket, order, fn, from + 1)
  }

  // ---------------------------------------------------------------------------
  // The iteration as written

  /** Badger's key order: byte-wise lexicographic, a proper prefix first. */
  predicate KeyBefore(a: string, b: string) {
    b != [] && (a == [] || a[0] < b[0] || (a[0] == b[0] && KeyBefore(a[1..], b[1..])))
  }

  /** A key that sorts before another does not start with a larger byte. */
  lemma KeyBeforeFirst(a: string, b: string)
    requires KeyBefore(a, b) && a != []
    ensures a[0] <= b[0]
  {
  }

  /** `all` lists every key of the store, in Badger's order. */
  ghost predicate InKeyOrder(all: seq<string>, st: Store) {
    Enumerates(all, st.Keys) && forall i, j :: 0 <= i < j < |all| ==> KeyBefore(all[i], all[j])
  }

  /** How many keys at the front of `all` start with `prefix`. */
  function LeadRun(all: seq<string>, prefix: string): (n: nat)
    ensures n <= |all|
    ensures forall i :: 0 <= i < n ==> prefix <= all[i]
    ensures n < |all| ==> !(prefix <= all[n])
  {
    if all == [] || !(prefix <= all[0]) then 0 else 1 + LeadRun(all[1..], prefix)
  }

  /** The keys `ForEachAsWritten` visits: the leading run of bucket keys of
      `all`, with the bucket prefix removed. */
  function Visited(all: seq<string>, bucket: string): (ks: seq<string>)
    ensures |ks| == LeadRun(all, bucket + "/")
    ensures forall i :: 0 <= i < |ks| ==> all[i] == MakeKey(bucket, ks[i])
  {
    var prefix := bucket + "/";
    var n := LeadRun(all, prefix);
    seq(n, i requires 0 <= i < n => all[i][|prefix|..])
  }

  /** `ForEach` as internal/storage/badger.go:81-83 writes it: the iterator
      has no prefix option, so `Rewind` puts it on the smallest key of the
      whole store, and `ValidForPrefix` ends the walk at the first key
      outside the bucket. Only a bucket whose keys sort first is walked. */
  function ForEachAsWritten(st: Store, bucket: string, all: seq<string>, fn: (string, Bytes) -> Outcome): (r: (Outcome, nat))
    requires InKeyOrder(all, st)
    ensures bucket == "" ==> r.0 == Fail("bucket is required")
    ensures bucket != "" ==> r.1 <= LeadRun(all, bucket + "/")
    ensures bucket != "" && r.0.Pass? ==>
      var ks := Visited(all, bucket);
      r.1 == |ks| && forall i :: 0 <= i < |ks| ==> fn(ks[i], st[all[i]]).Pass?
    ensures bucket != "" && r.0.Fail? ==>
      var ks := Visited(all, bucket);
      r.1 >= 1 && r.0 == fn(ks[r.1 - 1], st[all[r.1 - 1]]) &&
      forall i :: 0 <= i < r.1 - 1 ==> fn(ks[i], st[all[i]]).Pass?
  {
    if bucket == "" then (Fail("bucket is required"), 0)
    else
      var ks := Visited(all, bucket);
      assert forall i :: 0 <= i < |ks| ==> all[i] in st;
      Visit(st, bucket, ks, fn, 0)
  }

  /** The results bucket is never walked once a baseline is stored:
      "baselines/" sorts before "results/", so the walk stops at once. */
  lemma {:induction false} ResultsHiddenByBaseline(st: Store, all: seq<string>, fn: (string, Bytes) -> Outcome)
    requires InKeyOrder(all, st)
    requires exists k :: k in st && "baselines/" <= k
    ensures ForEachAsWritten(st, "results", all, fn) == (Pass, 0)
  {
    var k :| k in st && "baselines/" <= k;
    var j :| 0 <= j < |all| && all[j] == k;
    if all[0] != [] {
      if j > 0 {
        KeyBeforeFirst(all[0], all[j]);
      }
      assert all[0][0] <= 'b';
    }
    assert LeadRun(all, "results/") == 0;
  }

  /** The fix, seeking to the bucket prefix, is `ForEach`: when the bucket's
      keys sort first, the written walk visits them all and agrees with it. */
  lemma AsWrittenAgreesWhenFirst(st: Store, bucket: string, all: seq<string>, fn: (string, Bytes) -> Outcome)
    requires InKeyOrder(all, st) && bucket != ""
    requires forall i, j :: 0 <= i < j < |all| && bucket + "/" <= all[j] ==> bucket + "/" <= all[i]
    ensures Enumerates(Visited(all, bucket), BucketKeys(st, bucket))
    ensures ForEachAsWritten(st, bucket, all, fn) == ForEach(st, bucket, Visited(all, bucket), fn)
  {
    var ks := Visited(all, bucket);
    var n := |ks|;
    forall i, j | 0 <= i < j < n ensures ks[i] != ks[j] {
      assert all[i] != all[j];
    }
    forall k ensures k in BucketKeys(st, bucket) <==> k in ks {
      if k in BucketKeys(st, bucket) {
        var i :| 0 <= i < |all| && all[i] == MakeKey(bucket, k);
        assert bucket + "/" <= all[i];
        assert i < n;
        assert all[i] == MakeKey(bucket, ks[i]);
        MakeKeyInjectiveOnKey(bucket, k, ks[i]);
      }
      if k in ks {
        var i :| 0 <= i < n && ks[i] == k;
        assert all[i] in st;
      }
    }
  }

  /** Reading back what was just written. */
  lemma GetAfterPut(st: Store, bucket: string, key: string, value: Bytes, other: string)
    requires bucket != "" && key != "" && other != ""
    ensures Put(st, bucket, key, value).Ok?
    ensures Get(Put(st, bucket, key, value).value, bucket, key) == Found(value)
    ensures other != key ==> Get(Put(st, bucket, key, value).value, bucket, other) == Get(st, bucket, other)
  {
    MakeKeyInjectiveOnKey(bucket, other, key);
  }

  /** A deleted key reads as not found; deleting twice is the same as once. */
  lemma GetAfterDelete(st: Store, bucket: string, key: string)
    requires bucket != "" && key != ""
    ensures Delete(st, bucket, key).Ok?
    ensures Get(Delete(st, bucket, key).value, bucket, key) == NotFound
    ensures Delete(Delete(st, bucket, key).value, bucket, key) == Delete(st, bucket, key)
  {
    var once := st - {MakeKey(bucket, key)};
    assert once - {MakeKey(bucket, key)} == once;
  }
}

=== FILE: load_avg.dfy ===
/** The load-average scanner's parser of `/proc/loadavg`
    (internal/plugins/system/load_avg.go). `strconv.ParseFloat` is the
    parameter `parseFloat`, which yields a number or the library's error. */
module LoadAvg {
  import opened Wrappers
  import Text
  import Decimal

  const Name: string := "system.load_avg"

  datatype LoadAvg = LoadAvg(load1: real, load5: real, load15: real, runnable: int, totalThreads: int, lastPid: int)

  /** The "runnable/total" field split at its slashes. */
  function Running(fields: seq<string>): seq<string>
    requires |fields| >= 4
  {
    Text.Split(fields[3], '/')
  }

  /** `parseLoadAvg`: three averages, the running/total pair, and a last
      PID that is read leniently (Go's `Atoi` result with its error
      ignored). The checks run in that order and the first failure is the
      error. */
  function ParseLoadAvg(raw: string, parseFloat: string -> Result<real>): (r: Result<LoadAvg>)
    ensures var fs := Text.Fields(raw);
      r.Ok? <==>
        |fs| >= 4 && parseFloat(fs[0]).Ok? && parseFloat(fs[1]).Ok? && parseFloat(fs[2]).Ok?
        && |Running(fs)| == 2 && Decimal.Atoi(Running(fs)[0]).Some? && Decimal.Atoi(Running(fs)[1]).Some?
    ensures var fs := Text.Fields(raw);
      r.Ok? ==> r.value == LoadAvg(parseFloat(fs[0]).value, parseFloat(fs[1]).value, parseFloat(fs[2]).value,
        Decimal.Atoi(Running(fs)[0]).value, Decimal.Atoi(Running(fs)[1]).value,
        if |fs| > 4 then Decimal.AtoiValue(fs[4]) else 0)
    ensures |Text.Fields(raw)| < 4 ==> r == Err("invalid loadavg format")
    ensures var fs := Text.Fields(raw);
      |fs| >= 4 && parseFloat(fs[0]).Err? ==> r == Err("parse load1: " + parseFloat(fs[0]).error)
    ensures var fs := Text.Fields(raw);
      |fs| >= 4 && parseFloat(fs[0]).Ok? && parseFloat(fs[1]).Ok? && parseFloat(fs[2]).Ok? && |Running(fs)| != 2 ==>
        r == Err("invalid loadavg running format")
    ensures var fs := Text.Fields(raw);
      |fs| >= 4 && parseFloat(fs[0]).Ok? && parseFloat(fs[1]).Err? ==> r == Err("parse load5: " + parseFloat(fs[1]).error)
    ensures var fs := Text.Fields(raw);
      |fs| >= 4 && parseFloat(fs[0]).Ok? && parseFloat(fs[1]).Ok? && parseFloat(fs[2]).Err? ==>
        r == Err("parse load15: " + parseFloat(fs[2]).error)
    ensures var fs := Text.Fields(raw);
      |fs| >= 4 && parseFloat(fs[0]).Ok? && parseFloat(fs[1]).Ok? && parseFloat(fs[2]).Ok? && |Running(fs)| == 2 &&
      Decimal.Atoi(Running(fs)[0]).None? ==>
        r == Err("parse runnable: " + Decimal.AtoiError(Running(fs)[0]))
    ensures var fs := Text.Fields(raw);
      |fs| >= 4 && parseFloat(fs[0]).Ok? && parseFloat(fs[1]).Ok? && parseFloat(fs[2]).Ok? && |Running(fs)| == 2 &&
      Decimal.Atoi(Running(fs)[0]).Some? && Decimal.Atoi(Running(fs)[1]).None? ==>
        r == Err("parse total threads: " + Decimal.AtoiError(Running(fs)[1]))
  {
    var fields := Text.Fields(raw);
    if |fields| < 4 then Err("invalid loadavg format")
    else
      match parseFloat(fields[0])
      case Err(e) => Err("parse load1: " + e)
      case Ok(load1) =>
        match parseFloat(fields[1])
        case Err(e) => Err("parse load5: " + e)
        case Ok(load5) =>
          match parseFloat(fields[2])
          case Err(e) => Err("parse load15: " + e)
          case Ok(load15) =>
            var running := Text.Split(fields[3], '/');
            if |running| != 2 then Err("invalid loadavg running format")
            else
              match Decimal.Atoi(running[0])
              case None => Err("parse runnable: " + Decimal.AtoiError(running[0]))
              case Some(runnable) =>
                match Decimal.Atoi(running[1])
                case None => Err("parse total threads: " + Decimal.AtoiError(running[1]))
                case Some(totalThreads) =>
                  var lastPid := if |fields| > 4 then Decimal.AtoiValue(fields[4]) else 0;
                  Ok(LoadAvg(load1, load5, load15, runnable, totalThreads, lastPid))
  }

  /** A rendered integer is one word without a slash. */
  lemma IntToStringPlain(i: int)
    ensures Decimal.IntToString(i) != [] && Text.NoSpace(Decimal.IntToString(i))
    ensures '/' !in Decimal.IntToString(i)
  {
    var s := Decimal.IntToString(i);
    assert forall k :: 0 < k < |s| ==> Decimal.IsDigit(s[k]);
  }

  /** The "runnable/total" field splits back into its two numbers. */
  lemma RunningOfRendered(runnable: int, totalThreads: int)
    requires Decimal.MinInt64 <= runnable <= Decimal.MaxInt64
    requires Decimal.MinInt64 <= totalThreads <= Decimal.MaxInt64
    ensures var field := Decimal.IntToString(runnable) + "/" + Decimal.IntToString(totalThreads);
      field != [] && Text.NoSpace(field)
      && Text.Split(field, '/') == [Decimal.IntToString(runnable), Decimal.IntToString(totalThreads)]
  {
    var x, y := Decimal.IntToString(runnable), Decimal.IntToString(totalThreads);
    IntToStringPlain(runnable);
    IntToStringPlain(totalThreads);
    Text.NoSpaceConcat(x, "/");
    Text.NoSpaceConcat(x + "/", y);
    assert Text.Join([x, y], "/") == x + "/" + y;
    Text.SplitJoin([x, y], '/');
  }

  /** A line in the kernel's layout parses back to the values it shows;
      the fifth field is the last PID. */
  lemma ParseLoadAvgOfRendered(a: string, b: string, c: string, l: LoadAvg, parseFloat: string -> Result<real>)
    requires a != [] && Text.NoSpace(a) && b != [] && Text.NoSpace(b) && c != [] && Text.NoSpace(c)
    requires parseFloat(a) == Ok(l.load1) && parseFloat(b) == Ok(l.load5) && parseFloat(c) == Ok(l.load15)
    requires Decimal.MinInt64 <= l.runnable <= Decimal.MaxInt64
    requires Decimal.MinInt64 <= l.totalThreads <= Decimal.MaxInt64
    requires Decimal.MinInt64 <= l.lastPid <= Decimal.MaxInt64
    ensures ParseLoadAvg(Text.Join([a, b, c, Decimal.IntToString(l.runnable) + "/" + Decimal.IntToString(l.totalThreads),
      Decimal.IntToString(l.lastPid)], " "), parseFloat) == Ok(l)
  {
    var running := Decimal.IntToString(l.runnable) + "/" + Decimal.IntToString(l.totalThreads);
    var words := [a, b, c, running, Decimal.IntToString(l.lastPid)];
    RunningOfRendered(l.runnable, l.totalThreads);
    IntToStringPlain(l.lastPid);
    Text.FieldsOfSpaced(words);
    Decimal.AtoiOfIntToString(l.runnable);
    Decimal.AtoiOfIntToString(l.totalThreads);
    Decimal.AtoiOfIntToString(l.lastPid);
  }

  /** A last-PID field that is not a number, and whose leading digits do
      not overflow 64 bits, reads as 0 instead of failing the parse. */
  lemma BadLastPidIsZero(a: string, b: string, c: string, l: LoadAvg, pid: string, parseFloat: string -> Result<real>)
    requires a != [] && Text.NoSpace(a) && b != [] && Text.NoSpace(b) && c != [] && Text.NoSpace(c)
    requires parseFloat(a) == Ok(l.load1) && parseFloat(b) == Ok(l.load5) && parseFloat(c) == Ok(l.load15)
    requires Decimal.MinInt64 <= l.runnable <= Decimal.MaxInt64
    requires Decimal.MinInt64 <= l.totalThreads <= Decimal.MaxInt64
    requires pid != [] && Text.NoSpace(pid) && !Decimal.Signed(pid) && !Decimal.Overflows(Decimal.Unsigned(pid))
    ensures ParseLoadAvg(Text.Join([a, b, c, Decimal.IntToString(l.runnable) + "/" + Decimal.IntToString(l.totalThreads),
      pid], " "), parseFloat) == Ok(l.(lastPid := 0))
  {
    var running := Decimal.IntToString(l.runnable) + "/" + Decimal.IntToString(l.totalThreads);
    var words := [a, b, c, running, pid];
    RunningOfRendered(l.runnable, l.totalThreads);
    Text.FieldsOfSpaced(words);
    Decimal.AtoiOfIntToString(l.runnable);
    Decimal.AtoiOfIntToString(l.totalThreads);
    Decimal.MalformedIsZero(pid);
  }

  /** A last-PID field beyond the int64 range, or whose leading digits
      overflow 64 bits whatever follows them, reads as the bound of its sign
      instead of failing the parse. */
  lemma OverflowingLastPidIsBound(a: string, b: string, c: string, l: LoadAvg, pid: string, parseFloat: string -> Result<real>)
    requires a != [] && Text.NoSpace(a) && b != [] && Text.NoSpace(b) && c != [] && Text.NoSpace(c)
    requires parseFloat(a) == Ok(l.load1) && parseFloat(b) == Ok(l.load5) && parseFloat(c) == Ok(l.load15)
    requires Decimal.MinInt64 <= l.runnable <= Decimal.MaxInt64
    requires Decimal.MinInt64 <= l.totalThreads <= Decimal.MaxInt64
    requires pid != [] && Text.NoSpace(pid) && Decimal.AtoiOutOfRange(pid)
    ensures ParseLoadAvg(Text.Join([a, b, c, Decimal.IntToString(l.runnable) + "/" + Decimal.IntToString(l.totalThreads),
      pid], " "), parseFloat) == Ok(l.(lastPid := if pid[0] == '-' then Decimal.MinInt64 else Decimal.MaxInt64))
  {
    var running := Decimal.IntToString(l.runnable) + "/" + Decimal.IntToString(l.totalThreads);
    var words := [a, b, c, running, pid];
    RunningOfRendered(l.runnable, l.totalThreads);
    Text.FieldsOfSpaced(words);
    Decimal.AtoiOfIntToString(l.runnable);
    Decimal.AtoiOfIntToString(l.totalThreads);
  }
}

=== FILE: network_listeners.dfy ===
/** The listening-socket scanner (internal/plugins/system/network_listeners.go):
    where it reads the kernel's socket tables, and how it counts the
    listening sockets in them. The file reads and the RFC 3339 timestamp
    are inputs. */
module NetworkListeners {
  import opened Wrappers
  import opened ScannerTypes
  import Text
  import PluginConfig

  const Name: string := "system.network_listeners"
  const DefaultTcpPath: string := "/proc/net/tcp"
  const DefaultUdpPath: string := "/proc/net/udp"

  datatype Settings = Settings(tcpPath: string, udpPath: string)

  /** `Init`: the two tables default to procfs; a non-empty string setting
      replaces each. It never fails. */
  function Init(config: map<string, Value>): (r: Settings)
    ensures r.tcpPath != "" && r.udpPath != ""
    ensures PluginConfig.NonEmptyString(config, "tcp_path").None? ==> r.tcpPath == DefaultTcpPath
    ensures PluginConfig.NonEmptyString(config, "tcp_path").Some? ==> config["tcp_path"] == VString(r.tcpPath)
    ensures PluginConfig.NonEmptyString(config, "udp_path").None? ==> r.udpPath == DefaultUdpPath
    ensures PluginConfig.NonEmptyString(config, "udp_path").Some? ==> config["udp_path"] == VString(r.udpPath)
  {
    var tcp := match PluginConfig.NonEmptyString(config, "tcp_path") case Some(p) => p case None => DefaultTcpPath;
    var udp := match PluginConfig.NonEmptyString(config, "udp_path") case Some(p) => p case None => DefaultUdpPath;
    Settings(tcp, udp)
  }

  /** A socket-table row in a listening state: TCP's 0A (LISTEN) or the 07
      that UDP sockets show, in the fourth column. Rows with fewer than four
      columns never count. */
  predicate Listening(line: string) {
    var fs := Text.Fields(line);
    |fs| >= 4 && (fs[3] == "0A" || fs[3] == "07")
  }

  /** The number of listening rows among `rows`. */
  function Count(rows: seq<string>): (n: nat)
    ensures n <= |rows|
    ensures n == 0 <==> forall i :: 0 <= i < |rows| ==> !Listening(rows[i])
    ensures n == |rows| <==> forall i :: 0 <= i < |rows| ==> Listening(rows[i])
  {
    if rows == [] then 0
    else
      assert forall i :: 1 <= i < |rows| ==> rows[1..][i - 1] == rows[i];
      (if Listening(rows[0]) then 1 else 0) + Count(rows[1..])
  }

  /** `countListeners`: every line but the first (the column header). */
  function CountListeners(data: string): (n: nat)
    ensures n <= |Text.Split(data, '\n')| - 1
  {
    Count(Text.Split(data, '\n')[1..])
  }

  /** Counting distributes over concatenated tables. */
  lemma {:induction false} CountAppend(a: seq<string>, b: seq<string>)
    ensures Count(a + b) == Count(a) + Count(b)
  {
    if a != [] {
      assert (a + b)[1..] == a[1..] + b;
      CountAppend(a[1..], b);
    } else {
      assert a + b == b;
    }
  }

  /** Whatever the header line says, it is not counted. */
  lemma HeaderIgnored(header1: string, header2: string, body: string)
    requires '\n' !in header1 && '\n' !in header2
    ensures CountListeners(header1 + "\n" + body) == CountListeners(header2 + "\n" + body)
  {
    HeaderSplit(header1, body);
    HeaderSplit(header2, body);
  }

  lemma HeaderSplit(header: string, body: string)
    requires '\n' !in header
    ensures Text.Split(header + "\n" + body, '\n')[1..] == Text.Split(body, '\n')
  {
    var s := header + "\n" + body;
    Text.IndexOfFirst(s, '\n', |header|);
    Text.SplitAt(s, '\n');
    assert s[|header| + 1..] == body;
  }

  /** `Run`: both tables must be readable (the TCP table is read first);
      the result carries the two counts and no findings. `read` is the
      file system. */
  function Run(settings: Settings, read: string -> Result<string>, stamp: string): (r: Result<ScanResult>)
    ensures var tcp, udp := read(settings.tcpPath), read(settings.udpPath);
      (r.Ok? <==> tcp.Ok? && udp.Ok?)
      && (tcp.Err? ==> r == Err("read tcp: " + tcp.error))
      && (tcp.Ok? && udp.Err? ==> r == Err("read udp: " + udp.error))
    ensures r.Ok? ==> r.value.scannerName == Name && r.value.status == Success && r.value.findings == []
    ensures r.Ok? ==> ("tcp_count" in r.value.metadata
      && r.value.metadata["tcp_count"] == VInt(CountListeners(read(settings.tcpPath).value)))
    ensures r.Ok? ==> ("udp_count" in r.value.metadata
      && r.value.metadata["udp_count"] == VInt(CountListeners(read(settings.udpPath).value)))
  {
    match read(settings.tcpPath)
    case Err(e) => Err("read tcp: " + e)
    case Ok(tcpData) =>
      match read(settings.udpPath)
      case Err(e) => Err("read udp: " + e)
      case Ok(udpData) =>
        Ok(ScanResult(Name, Success, [], Zero, Zero, 0, map[
          "timestamp" := VString(stamp),
          "tcp_count" := VInt(CountListeners(tcpData)),
          "udp_count" := VInt(CountListeners(udpData))]))
  }
}

=== FILE: plugin_config.dfy ===
/** How the system plugins read their settings out of the decoded
    configuration map (`map[string]interface{}`) their `Init` receives: a Go
    type assertion succeeds only on a value of exactly that dynamic type. */
module PluginConfig {
  import opened Wrappers
  import opened ScannerTypes

  /** `config[key].(float64)` with `v > 0`: a positive float setting. */
  function PositiveFloat(config: map<string, Value>, key: string): (r: Option<real>)
    ensures r.Some? <==> key in config && config[key].VFloat64? && config[key].f > 0.0
    ensures r.Some? ==> r.value > 0.0 && config[key] == VFloat64(r.value)
  {
    if key in config && config[key].VFloat64? && config[key].f > 0.0 then Some(config[key].f) else None
  }

  /** `config[key].(string)` with `v != ""`: a non-empty string setting. */
  function NonEmptyString(config: map<string, Value>, key: string): (r: Option<string>)
    ensures r.Some? <==> key in config && config[key].VString? && config[key].s != ""
    ensures r.Some? ==> r.value != "" && config[key] == VString(r.value)
  {
    if key in config && config[key].VString? && config[key].s != "" then Some(config[key].s) else None
  }

  /** Go's `int(v)` on a positive float: the fraction is dropped. */
  function Truncate(v: real): (n: int)
    requires v > 0.0
    ensures 0 <= n && n as real <= v < n as real + 1.0
  {
    v.Floor
  }

  /** The non-empty strings of a generic list (`[]interface{}`), in order;
      elements of any other type and empty strings are skipped. */
  function NonEmptyStrings(elems: seq<Value>): (r: seq<string>)
    ensures |r| <= |elems|
    ensures forall s :: s in r <==> s != "" && VString(s) in elems
    ensures forall k :: 0 <= k < |r| ==> r[k] != ""
  {
    if elems == [] then []
    else
      var rest := NonEmptyStrings(elems[1..]);
      assert elems == [elems[0]] + elems[1..];
      if elems[0].VString? && elems[0].s != "" then [elems[0].s] + rest else rest
  }

  /** A list holding only non-empty strings reads back as those strings. */
  lemma {:induction false} NonEmptyStringsOfStrings(elems: seq<Value>, ss: seq<string>)
    requires |elems| == |ss|
    requires forall i :: 0 <= i < |ss| ==> ss[i] != "" && elems[i] == VString(ss[i])
    ensures NonEmptyStrings(elems) == ss
  {
    if ss != [] {
      assert forall i :: 0 <= i < |ss| - 1 ==> ss[1..][i] == ss[i + 1] && elems[1..][i] == elems[i + 1];
      NonEmptyStringsOfStrings(elems[1..], ss[1..]);
      assert elems[0] == VString(ss[0]);
      assert ss == [ss[0]] + ss[1..];
    }
  }
}

=== FILE: plugin_manager.dfy ===
/** The plugin registry (internal/scanner/manager.go): plugins keyed by
    their name. A plugin is any value of type `P` whose name `nameOf`
    reports; a nil plugin is `None`. */
module PluginManager {
  import opened Wrappers
  import Text

  type Registry<P> = map<string, P>

  /** `Register`: a nil plugin, an empty name or a name already taken is
      refused; otherwise the plugin is added under its name. */
  function Register<P>(m: Registry<P>, p: Option<P>, nameOf: P -> string): (r: Result<Registry<P>>)
    ensures p.None? ==> r == Err("plugin is nil")
    ensures p.Some? && nameOf(p.value) == "" ==> r == Err("plugin name is required")
    ensures p.Some? && nameOf(p.value) != "" && nameOf(p.value) in m ==>
      r == Err("plugin " + Text.Quote(nameOf(p.value)) + " already registered")
    ensures r.Ok? <==> p.Some? && nameOf(p.value) != "" && nameOf(p.value) !in m
    ensures r.Ok? ==> r.value.Keys == m.Keys + {nameOf(p.value)}
    ensures r.Ok? ==> forall n :: n in m ==> r.value[n] == m[n]
  {
    match p
    case None => Err("plugin is nil")
    case Some(plugin) =>
      var name := nameOf(plugin);
      if name == "" then Err("plugin name is required")
      else if name in m then Err("plugin " + Text.Quote(name) + " already registered")
      else Ok(m[name := plugin])
  }

  /** `Get`: the plugin registered under `name`. */
  function Get<P>(m: Registry<P>, name: string): (r: Result<P>)
    ensures r.Ok? <==> name in m
    ensures r.Ok? ==> r.value == m[name]
    ensures r.Err? ==> r.error == "plugin " + Text.Quote(name) + " not found"
  {
    if name in m then Ok(m[name]) else Err("plugin " + Text.Quote(name) + " not found")
  }

  /** A registered plugin is found under its name, and registering it
      leaves every other lookup as it was. */
  lemma GetAfterRegister<P>(m: Registry<P>, p: P, nameOf: P -> string, other: string)
    requires Register(m, Some(p), nameOf).Ok?
    ensures Get(Register(m, Some(p), nameOf).value, nameOf(p)) == Ok(p)
    ensures other != nameOf(p) ==> Get(Register(m, Some(p), nameOf).value, other) == Get(m, other)
  {
  }

  /** `List`: every registered name once, in the map's iteration order,
      which Go leaves open (each pick below is any remaining name). */
  method List<P>(m: Registry<P>) returns (names: seq<string>)
    ensures Enumerates(names, m.Keys)
    ensures |names| == |m.Keys|
  {
    names := [];
    var rest := m.Keys;
    while rest != {}
      invariant rest <= m.Keys
      invariant forall n :: n in m.Keys <==> n in names || n in rest
      invariant forall i :: 0 <= i < |names| ==> names[i] !in rest
      invariant forall i, j :: 0 <= i < j < |names| ==> names[i] != names[j]
      invariant |names| + |rest| == |m.Keys|
      decreases |rest|
    {
      var n :| n in rest;
      names := names + [n];
      rest := rest - {n};
    }
  }
}

=== FILE: privileges.dfy ===
/** Dropping root privileges (internal/daemon/privileges.go): user and group
    settings are numeric IDs or names looked up in passwd/group-format files.
    The files, the effective uid and the setuid/setgid system calls are
    parameters. */
module Privileges {
  import opened Wrappers
  import Text
  import Decimal

  /** A passwd- or group-format file as the lookup sees it: whether it
      opened, the lines read, and the error that stopped reading early, if
      any. */
  datatype Listing = Listing(status: Outcome, lines: seq<string>, readError: Option<string>)

  /** A line that names `name` in its first ':'-separated field, skipping
      blank lines, comments and lines with fewer than three fields. */
  predicate Names(line: string, name: string) {
    line != "" && !(|line| > 0 && line[0] == '#') &&
    var parts := Text.Split(line, ':');
    |parts| >= 3 && parts[0] == name
  }

  /** What the first line naming the entry decides: the ID in its third
      field, or an error when that is not a non-negative integer. */
  function IdOfLine(kind: string, name: string, path: string, line: string): (r: Result<int>)
    requires Names(line, name)
    ensures r.Ok? ==> r.value >= 0 && Decimal.Atoi(Text.Split(line, ':')[2]) == Some(r.value)
    ensures r.Err? <==> Decimal.Atoi(Text.Split(line, ':')[2]).None? || Decimal.Atoi(Text.Split(line, ':')[2]).value < 0
    ensures r.Err? ==> r.error == "invalid " + kind + " id for " + name + " in " + path
  {
    var id := Decimal.Atoi(Text.Split(line, ':')[2]);
    if id.None? || id.value < 0 then Err("invalid " + kind + " id for " + name + " in " + path)
    else Ok(id.value)
  }

  /** The scan over the lines: `None` when no line names the entry. */
  function Scan(kind: string, name: string, path: string, lines: seq<string>): (r: Option<Result<int>>)
    ensures r.None? <==> forall k :: 0 <= k < |lines| ==> !Names(lines[k], name)
    ensures r.Some? ==>
      exists k ::
        0 <= k < |lines| && Names(lines[k], name) &&
        (forall j :: 0 <= j < k ==> !Names(lines[j], name)) &&
        r.value == IdOfLine(kind, name, path, lines[k])
  {
    if lines == [] then None
    else if Names(lines[0], name) then Some(IdOfLine(kind, name, path, lines[0]))
    else
      var r := Scan(kind, name, path, lines[1..]);
      assert forall k :: 0 < k < |lines| ==> lines[k] == lines[1..][k - 1];
      if r.Some? then
        var k :| 0 <= k < |lines| - 1 && Names(lines[1..][k], name) &&
          (forall j :: 0 <= j < k ==> !Names(lines[1..][j], name)) &&
          r.value == IdOfLine(kind, name, path, lines[1..][k]);
        assert Names(lines[k + 1], name) && forall j :: 0 <= j < k + 1 ==> !Names(lines[j], name);
        r
      else r
  }

  /** `lookupName`: the first line naming the entry decides; a file that
      does not open, a read error before any such line, or no such line at
      all are errors. */
  function LookupName(kind: string, name: string, path: string, file: Listing): (r: Result<int>)
    ensures file.status.Fail? ==> r == Err("open " + path + ": " + file.status.error)
    ensures file.status.Pass? && Scan(kind, name, path, file.lines).Some? ==>
      r == Scan(kind, name, path, file.lines).value
    ensures file.status.Pass? && Scan(kind, name, path, file.lines).None? ==>
      r == (if file.readError.Some? then Err("read " + path + ": " + file.readError.value)
            else Err("unknown " + kind + " " + Text.Quote(name)))
    ensures r.Ok? ==> r.value >= 0
  {
    if file.status.Fail? then Err("open " + path + ": " + file.status.error)
    else
      match Scan(kind, name, path, file.lines)
      case Some(decided) => decided
      case None =>
        if file.readError.Some? then Err("read " + path + ": " + file.readError.value)
        else Err("unknown " + kind + " " + Text.Quote(name))
  }

  const PasswdPath: string := "/etc/passwd"
  const GroupPath: string := "/etc/group"

  /** `resolveID`: unset is -1, a non-negative integer is itself, anything
      else is looked up by name. */
  function ResolveId(kind: string, value: string, path: string, file: Listing): (r: Result<int>)
    ensures value == "" ==> r == Ok(-1)
    ensures value != "" && Decimal.Atoi(value).Some? && Decimal.Atoi(value).value >= 0 ==>
      r == Ok(Decimal.Atoi(value).value)
    ensures value != "" && (Decimal.Atoi(value).None? || Decimal.Atoi(value).value < 0) ==>
      r == LookupName(kind, value, path, file)
    ensures r.Ok? ==> r.value >= -1 && (r.value == -1 <==> value == "")
  {
    if value == "" then Ok(-1)
    else
      var parsed := Decimal.Atoi(value);
      if parsed.None? || parsed.value < 0 then LookupName(kind, value, path, file)
      else Ok(parsed.value)
  }

  /** A numeric setting never consults the file, and every ID `%d` renders
      reads back as itself. */
  lemma NumericIdsSkipLookup(kind: string, id: nat, path: string, file: Listing)
    requires id <= Decimal.MaxInt64
    ensures ResolveId(kind, Decimal.IntToString(id), path, file) == Ok(id)
  {
    Decimal.AtoiOfIntToString(id);
  }

  /** A field without ':' followed by ':' is the first piece. */
  lemma SplitFirst(a: string, rest: string)
    requires ':' !in a
    ensures Text.Split(a + ":" + rest, ':') == [a] + Text.Split(rest, ':')
  {
    var s := a + ":" + rest;
    assert s[|a|] == ':' && s[..|a|] == a && s[|a| + 1..] == rest;
    Text.IndexOfFirst(s, ':', |a|);
    Text.SplitAt(s, ':');
  }

  /** The first three fields of a line that starts with them. */
  lemma ThreeFields(a: string, b: string, c: string, tail: string)
    requires ':' !in a && ':' !in b && ':' !in c
    ensures var parts := Text.Split(a + ":" + (b + ":" + (c + ":" + tail)), ':');
            |parts| >= 3 && parts[0] == a && parts[2] == c
  {
    var r2 := c + ":" + tail;
    var r1 := b + ":" + r2;
    var s := a + ":" + r1;
    SplitFirst(c, tail);
    SplitFirst(b, r2);
    SplitFirst(a, r1);
  }

  /** A one-line file whose line names the entry with ID "1234". */
  lemma OneLineLookup(kind: string, name: string, path: string, line: string)
    requires name != "" && Decimal.Atoi(name).None?
    requires Names(line, name) && Text.Split(line, ':')[2] == "1234"
    ensures ResolveId(kind, name, path, Listing(Pass, [line], None)) == Ok(1234)
  {
    AtoiOf1234();
    assert Scan(kind, name, path, [line]) == Some(Ok(1234));
  }

  /** The lookup of a one-line file whose line starts "daemon:x:1234:". */
  lemma DaemonLine(kind: string, path: string, tail: string)
    ensures ResolveId(kind, "daemon", path, Listing(Pass, ["daemon:x:1234:" + tail], None)) == Ok(1234)
  {
    assert Decimal.Atoi("daemon").None? by { assert !Decimal.IsDigit('d'); }
    var line := "daemon:x:1234:" + tail;
    assert line == "daemon" + ":" + ("x" + ":" + ("1234" + ":" + tail));
    ThreeFields("daemon", "x", "1234", tail);
    OneLineLookup(kind, "daemon", path, line);
  }

  /** A passwd entry and a group entry for "daemon" resolve to 1234. */
  lemma ResolvesByName(path: string)
    ensures ResolveId("user", "daemon", path,
              Listing(Pass, ["daemon:x:1234:" + "1234::/nonexistent:/bin/false"], None)) == Ok(1234)
    ensures ResolveId("group", "daemon", path, Listing(Pass, ["daemon:x:1234:" + ""], None)) == Ok(1234)
  {
    DaemonLine("user", path, "1234::/nonexistent:/bin/false");
    DaemonLine("group", path, "");
  }

  lemma AtoiOf1234()
    ensures Decimal.Atoi("1234") == Some(1234)
  {
    Decimal.AtoiOfIntToString(1234);
    assert Decimal.IntToString(1234) == "1234" by {
      assert Decimal.NatToString(1) == "1";
      assert Decimal.NatToString(12) == "12";
      assert Decimal.NatToString(123) == "123";
    }
  }

  /** A name no line carries is an unknown user. */
  lemma UnknownName(name: string, file: Listing)
    requires name != "" && Decimal.Atoi(name).None?
    requires file.status.Pass? && file.readError.None?
    requires forall k :: 0 <= k < |file.lines| ==> !Names(file.lines[k], name)
    ensures ResolveId("user", name, PasswdPath, file) == Err("unknown user " + Text.Quote(name))
  {
  }

  /** A system call the drop makes, in the order made. */
  datatype Call = SetGid(gid: int) | SetUid(uid: int)

  /** `DropPrivileges`: nothing when neither is set; both settings are
      resolved before any call; the group is changed before the user, each
      only when set, and a failed change stops the drop. */
  function DropPrivileges(user: string, group: string, passwd: Listing, groups: Listing,
                          setgid: int -> Outcome, setuid: int -> Outcome): (r: (Outcome, seq<Call>))
    ensures user == "" && group == "" ==> r == (Pass, [])
    ensures ResolveId("user", user, PasswdPath, passwd).Err? && (user != "" || group != "") ==>
      r == (Fail(ResolveId("user", user, PasswdPath, passwd).error), [])
    ensures ResolveId("user", user, PasswdPath, passwd).Ok? && ResolveId("group", group, GroupPath, groups).Err? &&
            (user != "" || group != "") ==>
      r == (Fail(ResolveId("group", group, GroupPath, groups).error), [])
    ensures forall k :: 0 <= k < |r.1| ==> (r.1[k].SetGid? ==> k == 0 && r.1[k].gid >= 0)
    ensures forall k :: 0 <= k < |r.1| ==> (r.1[k].SetUid? ==> r.1[k].uid >= 0)
    ensures |r.1| <= 2 && (|r.1| == 2 ==> r.1[0].SetGid? && r.1[1].SetUid?)
    ensures r.0.Pass? && user != "" ==> SetUid(ResolveId("user", user, PasswdPath, passwd).value) in r.1
    ensures r.0.Pass? && group != "" ==> SetGid(ResolveId("group", group, GroupPath, groups).value) in r.1
  {
    if user == "" && group == "" then (Pass, [])
    else
      var uid := ResolveId("user", user, PasswdPath, passwd);
      if uid.Err? then (Fail(uid.error), [])
      else
        var gid := ResolveId("group", group, GroupPath, groups);
        if gid.Err? then (Fail(gid.error), [])
        else
          var g := if gid.value >= 0 then [SetGid(gid.value)] else [];
          if gid.value >= 0 && setgid(gid.value).Fail? then (Fail("setgid: " + setgid(gid.value).error), g)
          else if uid.value >= 0 then
            if setuid(uid.value).Fail? then (Fail("setuid: " + setuid(uid.value).error), g + [SetUid(uid.value)])
            else (Pass, g + [SetUid(uid.value)])
          else (Pass, g)
  }

  /** A failed group change means the user is never changed. */
  lemma NoSetUidAfterFailedSetGid(user: string, group: string, passwd: Listing, groups: Listing,
                                  setgid: int -> Outcome, setuid: int -> Outcome)
    requires group != "" && ResolveId("user", user, PasswdPath, passwd).Ok?
    requires ResolveId("group", group, GroupPath, groups).Ok?
    requires setgid(ResolveId("group", group, GroupPath, groups).value).Fail?
    ensures var r := DropPrivileges(user, group, passwd, groups, setgid, setuid);
            r.0.Fail? && forall k :: 0 <= k < |r.1| ==> !r.1[k].SetUid?
  {
  }

  const UserRequired: string := "daemon.user must be set when running as root"
  const GroupRequired: string := "daemon.group must be set when running as root"

  /** `RequirePrivilegeDrop`: only root must name both a user and a group;
      a missing user is reported before a missing group. */
  function RequirePrivilegeDrop(euid: int, user: string, group: string): (r: Outcome)
    ensures r.Pass? <==> euid != 0 || (user != "" && group != "")
    ensures euid == 0 && user == "" ==> r == Fail(UserRequired)
    ensures euid == 0 && user != "" && group == "" ==> r == Fail(GroupRequired)
  {
    if euid != 0 then Pass
    else if user == "" then Fail(UserRequired)
    else if group == "" then Fail(GroupRequired)
    else Pass
  }

  /** When root passes the requirement, the drop is never a no-op: both
      settings are resolved and at least the user is changed on success. */
  lemma RootDropChangesUser(user: string, group: string, passwd: Listing, groups: Listing,
                            setgid: int -> Outcome, setuid: int -> Outcome)
    requires RequirePrivilegeDrop(0, user, group).Pass?
    requires DropPrivileges(user, group, passwd, groups, setgid, setuid).0.Pass?
    ensures exists k ::
      0 <= k < |DropPrivileges(user, group, passwd, groups, setgid, setuid).1| &&
      DropPrivileges(user, group, passwd, groups, setgid, setuid).1[k].SetUid?
  {
    var r := DropPrivileges(user, group, passwd, groups, setgid, setuid);
    var u := SetUid(ResolveId("user", user, PasswdPath, passwd).value);
    assert u in r.1;
    var k :| 0 <= k < |r.1| && r.1[k] == u;
  }
}

=== FILE: process_monitor.dfy ===
/** The process scanner (internal/plugins/system/process_monitor.go): its
    executable-path whitelist, and the count and findings of a pass over
    the entries of `/proc`. Listing `/proc` and resolving each process's
    `exe` link are inputs. */
module ProcessMonitor {
  import opened Wrappers
  import opened ScannerTypes
  import Text
  import Decimal
  import PluginConfig

  const Name: string := "system.process_monitor"

  datatype Settings = Settings(whitelistPrefixes: seq<string>)

  /** `Init`: no whitelist by default; a generic list contributes its
      non-empty strings, a `[]string` is taken as it is. It never fails. */
  function Init(config: map<string, Value>): (r: Settings)
    ensures "whitelist_prefixes" !in config ==> r.whitelistPrefixes == []
    ensures "whitelist_prefixes" in config && config["whitelist_prefixes"].VList? ==>
      r.whitelistPrefixes == PluginConfig.NonEmptyStrings(config["whitelist_prefixes"].elems)
    ensures "whitelist_prefixes" in config && config["whitelist_prefixes"].VStrings? ==>
      r.whitelistPrefixes == config["whitelist_prefixes"].items
    ensures "whitelist_prefixes" in config && !config["whitelist_prefixes"].VList? && !config["whitelist_prefixes"].VStrings? ==>
      r.whitelistPrefixes == []
  {
    if "whitelist_prefixes" !in config then Settings([])
    else
      match config["whitelist_prefixes"]
      case VList(elems) => Settings(PluginConfig.NonEmptyStrings(elems))
      case VStrings(items) => Settings(items)
      case _ => Settings([])
  }

  /** `hasPrefix`: some whitelist entry starts `value`. */
  function HasPrefix(value: string, prefixes: seq<string>): (b: bool)
    ensures b <==> exists i :: 0 <= i < |prefixes| && prefixes[i] <= value
  {
    if prefixes == [] then false
    else if prefixes[0] <= value then true
    else
      assert forall i :: 1 <= i < |prefixes| ==> prefixes[1..][i - 1] == prefixes[i];
      HasPrefix(value, prefixes[1..])
  }

  /** An entry of `/proc`: its name and whether it is a directory. */
  datatype Entry = Entry(name: string, isDir: bool)

  /** A process directory: a directory named by a positive integer. */
  predicate IsProcess(e: Entry) {
    e.isDir && Decimal.Atoi(e.name).Some? && Decimal.Atoi(e.name).value > 0
  }

  function ExePath(e: Entry): string {
    "/proc/" + e.name + "/exe"
  }

  /** The number of processes among the entries. */
  function ProcessCount(entries: seq<Entry>): (n: nat)
    ensures n <= |entries|
    ensures n == 0 <==> forall i :: 0 <= i < |entries| ==> !IsProcess(entries[i])
  {
    if entries == [] then 0
    else
      assert forall i :: 1 <= i < |entries| ==> entries[1..][i - 1] == entries[i];
      (if IsProcess(entries[0]) then 1 else 0) + ProcessCount(entries[1..])
  }

  function NotWhitelisted(pid: int, exe: string): Finding {
    Finding("process_not_whitelisted", Medium, "process", "Process executable not in whitelist",
      map["pid" := VInt(pid), "exe" := VString(exe)],
      "Verify the process is expected or update the whitelist.")
  }

  /** The process behind an entry runs an executable outside the whitelist:
      its link resolves and no prefix starts the target. */
  predicate Flagged(e: Entry, prefixes: seq<string>, readlink: string -> Result<string>) {
    IsProcess(e) && readlink(ExePath(e)).Ok? && !HasPrefix(readlink(ExePath(e)).value, prefixes)
  }

  function FindingOf(e: Entry, readlink: string -> Result<string>): Finding
    requires IsProcess(e) && readlink(ExePath(e)).Ok?
  {
    NotWhitelisted(Decimal.Atoi(e.name).value, readlink(ExePath(e)).value)
  }

  /** The loop's findings: with an empty whitelist none; otherwise one per
      process whose executable is not whitelisted, in directory order.
      Processes whose link cannot be read are counted but not judged. */
  function Findings(entries: seq<Entry>, prefixes: seq<string>, readlink: string -> Result<string>): (r: seq<Finding>)
    ensures prefixes == [] ==> r == []
    ensures |r| <= ProcessCount(entries)
    ensures forall f :: f in r ==>
      "exe" in f.evidence && f.evidence["exe"].VString? && !HasPrefix(f.evidence["exe"].s, prefixes)
  {
    if entries == [] || prefixes == [] then []
    else
      var rest := Findings(entries[1..], prefixes, readlink);
      if Flagged(entries[0], prefixes, readlink) then [FindingOf(entries[0], readlink)] + rest else rest
  }

  /** With a whitelist, every flagged process has its finding. */
  lemma {:induction false} FindingsComplete(entries: seq<Entry>, prefixes: seq<string>, readlink: string -> Result<string>)
    requires prefixes != []
    ensures forall i :: 0 <= i < |entries| && Flagged(entries[i], prefixes, readlink) ==>
      FindingOf(entries[i], readlink) in Findings(entries, prefixes, readlink)
  {
    if entries != [] {
      FindingsComplete(entries[1..], prefixes, readlink);
      forall i | 1 <= i < |entries| && Flagged(entries[i], prefixes, readlink)
        ensures FindingOf(entries[i], readlink) in Findings(entries, prefixes, readlink)
      {
        assert entries[1..][i - 1] == entries[i];
      }
    }
  }

  /** Every finding is that of a flagged process. */
  lemma {:induction false} FindingsSound(entries: seq<Entry>, prefixes: seq<string>, readlink: string -> Result<string>)
    ensures forall f :: f in Findings(entries, prefixes, readlink) ==>
      exists i :: 0 <= i < |entries| && Flagged(entries[i], prefixes, readlink) && f == FindingOf(entries[i], readlink)
  {
    if entries != [] && prefixes != [] {
      FindingsSound(entries[1..], prefixes, readlink);
      forall f | f in Findings(entries[1..], prefixes, readlink)
        ensures exists i :: 0 <= i < |entries| && Flagged(entries[i], prefixes, readlink) && f == FindingOf(entries[i], readlink)
      {
        var j :| 0 <= j < |entries| - 1 && Flagged(entries[1..][j], prefixes, readlink) && f == FindingOf(entries[1..][j], readlink);
        assert entries[1..][j] == entries[j + 1];
      }
    }
  }

  /** `Run`: a listing failure is the error; otherwise the process count,
      the whitelist joined by commas and the findings. */
  function Run(settings: Settings, listing: Result<seq<Entry>>, readlink: string -> Result<string>, stamp: string): (r: Result<ScanResult>)
    ensures r.Err? <==> listing.Err?
    ensures r.Err? ==> r.error == "read /proc: " + listing.error
    ensures r.Ok? ==> (r.value.findings == Findings(listing.value, settings.whitelistPrefixes, readlink)
      && "processes" in r.value.metadata && r.value.metadata["processes"] == VInt(ProcessCount(listing.value)))
  {
    match listing
    case Err(e) => Err("read /proc: " + e)
    case Ok(entries) =>
      Ok(ScanResult(Name, Success, Findings(entries, settings.whitelistPrefixes, readlink), Zero, Zero, 0, map[
        "timestamp" := VString(stamp),
        "processes" := VInt(ProcessCount(entries)),
        "whitelist_prefixes" := VString(Text.Join(settings.whitelistPrefixes, ","))]))
  }
}

=== FILE: result_cache.dfy ===
/** The in-memory cache of scan results the API serves
    (internal/state/results.go): the latest result per scanner and a
    bounded history in arrival order. */
module ResultCache {
  import opened Wrappers
  import opened ScannerTypes
  import opened Seqs

  /** What the API shows of a result: the finding count instead of the
      findings, and only the string-valued metadata. */
  datatype Summary = Summary(
    scannerName: string,
    status: Status,
    findings: nat,
    startedAt: Time,
    finishedAt: Time,
    duration: int,
    metadata: map<string, string>)

  /** One finding as the findings page lists it. */
  datatype FindingSummary = FindingSummary(
    scannerName: string,
    severity: Severity,
    category: string,
    description: string,
    occurredAt: Time,
    evidence: map<string, string>)

  datatype Cache = Cache(latest: map<string, ScanResult>, history: seq<ScanResult>, limit: int)

  const DefaultLimit: int := 50

  /** What every cache built by `New` and `Add` satisfies: a positive
      limit the history stays within, and each latest entry filed under
      its own scanner's name. */
  predicate Valid(c: Cache) {
    c.limit > 0 && |c.history| <= c.limit &&
    forall n :: n in c.latest ==> c.latest[n].scannerName == n
  }

  /** `NewResultCache`: an empty cache; a limit that is not positive
      becomes 50. */
  function New(limit: int): (c: Cache)
    ensures Valid(c) && c.latest == map[] && c.history == []
    ensures c.limit == (if limit > 0 then limit else DefaultLimit)
  {
    Cache(map[], [], if limit <= 0 then DefaultLimit else limit)
  }

  /** `Add`: the result becomes its scanner's latest, and joins the
      history, whose oldest entries are dropped beyond the limit. */
  function Add(c: Cache, res: ScanResult): (r: Cache)
    requires c.limit > 0
    ensures r.limit == c.limit
    ensures res.scannerName in r.latest && r.latest[res.scannerName] == res
    ensures r.latest.Keys == c.latest.Keys + {res.scannerName}
    ensures forall n :: n in c.latest && n != res.scannerName ==> r.latest[n] == c.latest[n]
    ensures r.history == Last(c.history + [res], c.limit)
    ensures Valid(c) ==> Valid(r)
  {
    var all := c.history + [res];
    var kept := if |all| > c.limit then all[|all| - c.limit..] else all;
    Cache(c.latest[res.scannerName := res], kept, c.limit)
  }

  /** The results of several `Add`s, in order. */
  function AddAll(c: Cache, rs: seq<ScanResult>): (r: Cache)
    requires c.limit > 0
    ensures r.limit == c.limit
  {
    if rs == [] then c else Add(AddAll(c, rs[..|rs| - 1]), rs[|rs| - 1])
  }

  /** However many results arrive, the history holds the most recent
      `limit` of everything added, oldest first. */
  lemma {:induction false} HistoryKeepsMostRecent(c: Cache, rs: seq<ScanResult>)
    requires Valid(c)
    ensures Valid(AddAll(c, rs))
    ensures AddAll(c, rs).history == Last(c.history + rs, c.limit)
  {
    if rs == [] {
      assert c.history + rs == c.history;
    } else {
      var front := rs[..|rs| - 1];
      var x := rs[|rs| - 1];
      HistoryKeepsMostRecent(c, front);
      LastAppend(c.history + front, x, c.limit);
      assert c.history + rs == (c.history + front) + [x];
    }
  }

  /** The string-valued entries of a dynamic map. */
  function StringEntries(m: map<string, Value>): (r: map<string, string>)
    ensures forall k :: k in r <==> k in m && m[k].VString?
    ensures forall k :: k in r ==> r[k] == m[k].s
  {
    map k | k in m && m[k].VString? :: m[k].s
  }

  /** `summarize`. */
  function Summarize(res: ScanResult): (s: Summary)
    ensures s.findings == |res.findings|
    ensures s.scannerName == res.scannerName && s.status == res.status
    ensures s.startedAt == res.startedAt && s.finishedAt == res.finishedAt && s.duration == res.duration
    ensures s.metadata == StringEntries(res.metadata)
  {
    Summary(res.scannerName, res.status, |res.findings|, res.startedAt, res.finishedAt,
            res.duration, StringEntries(res.metadata))
  }

  /** `Latest`: one summary per scanner, in the map's iteration order
      `order`, which Go leaves open. */
  function Latest(c: Cache, order: seq<string>): (r: seq<Summary>)
    requires Enumerates(order, c.latest.Keys)
    ensures |r| == |order| == |c.latest.Keys|
    ensures forall i :: 0 <= i < |r| ==> r[i] == Summarize(c.latest[order[i]])
    ensures Valid(c) ==> forall i, j :: 0 <= i < j < |r| ==> r[i].scannerName != r[j].scannerName
  {
    DistinctCard(order, c.latest.Keys);
    seq(|order|, i requires 0 <= i < |order| => Summarize(c.latest[order[i]]))
  }

  /** `History`: one summary per retained result, oldest first. */
  function History(c: Cache): (r: seq<Summary>)
    ensures |r| == |c.history|
    ensures forall i :: 0 <= i < |r| ==> r[i] == Summarize(c.history[i])
  {
    seq(|c.history|, i requires 0 <= i < |c.history| => Summarize(c.history[i]))
  }

  /** A finding of a result, as listed: it occurred when the result
      finished, and keeps only string-valued evidence. */
  function FindingRow(res: ScanResult, f: Finding): FindingSummary {
    FindingSummary(res.scannerName, f.severity, f.category, f.description, res.finishedAt,
                   StringEntries(f.evidence))
  }

  function FindingRows(res: ScanResult): (r: seq<FindingSummary>)
    ensures |r| == |res.findings|
    ensures forall j :: 0 <= j < |r| ==> r[j] == FindingRow(res, res.findings[j])
  {
    seq(|res.findings|, j requires 0 <= j < |res.findings| => FindingRow(res, res.findings[j]))
  }

  /** The number of findings across `hs`. */
  function TotalFindings(hs: seq<ScanResult>): nat {
    if hs == [] then 0 else TotalFindings(hs[..|hs| - 1]) + |hs[|hs| - 1].findings|
  }

  /** `FindingsHistory` over a history. */
  function Flatten(hs: seq<ScanResult>): (r: seq<FindingSummary>)
    ensures |r| == TotalFindings(hs)
  {
    if hs == [] then [] else Flatten(hs[..|hs| - 1]) + FindingRows(hs[|hs| - 1])
  }

  /** `FindingsHistory`: every finding of every retained result. */
  function FindingsHistory(c: Cache): (r: seq<FindingSummary>)
    ensures |r| == TotalFindings(c.history)
  {
    Flatten(c.history)
  }

  /** Finding `j` of result `i` sits after all findings of earlier
      results, so the list keeps the history's order and each result's
      own order. */
  lemma {:induction false} FindingPosition(hs: seq<ScanResult>, i: nat, j: nat)
    requires i < |hs| && j < |hs[i].findings|
    ensures TotalFindings(hs[..i]) + j < |Flatten(hs)|
    ensures Flatten(hs)[TotalFindings(hs[..i]) + j] == FindingRow(hs[i], hs[i].findings[j])
  {
    var front := hs[..|hs| - 1];
    if i == |hs| - 1 {
      assert hs[..i] == front;
    } else {
      assert front[..i] == hs[..i];
      FindingPosition(front, i, j);
    }
  }
}

=== FILE: results_store.dfy ===
/** Scan-result persistence (internal/storage/results.go): results live in
    the "results" bucket under keys `<unix-nanos>-<scanner>-<suffix>`. */
module ResultsStore {
  import opened Wrappers
  import opened ScannerTypes
  import opened KvStore
  import Decimal

  const Bucket: string := "results"

  /** The JSON codec for results: `encode` fails with `json.Marshal`'s
      error on values it rejects; `decode` fails with `json.Unmarshal`'s
      error on malformed bytes. */
  datatype Codec = Codec(encode: ScanResult -> Result<Bytes>, decode: Bytes -> Result<ScanResult>)

  /** Decoding what was encoded gives the result back. */
  ghost predicate Faithful(c: Codec) {
    forall r :: c.encode(r).Ok? ==> c.decode(c.encode(r).value) == Ok(r)
  }

  function HexDigit(n: nat): (c: char)
    requires n < 16
  {
    if n < 10 then ('0' as int + n) as char else ('a' as int + n - 10) as char
  }

  function HexEncode(bs: seq<bv8>): (s: string)
    ensures |s| == 2 * |bs|
    ensures forall i :: 0 <= i < |s| ==> ('0' <= s[i] <= '9' || 'a' <= s[i] <= 'f')
  {
    if bs == [] then []
    else [HexDigit(bs[0] as nat / 16), HexDigit(bs[0] as nat % 16)] + HexEncode(bs[1..])
  }

  /** `randSuffix`: four random bytes in hex, or "0000" when the random
      source fails (`random` is `None`). */
  function RandSuffix(random: Option<seq<bv8>>): (s: string)
    requires random.Some? ==> |random.value| == 4
    ensures random.None? ==> s == "0000"
    ensures random.Some? ==> |s| == 8 && s == HexEncode(random.value)
    ensures s != [] && '-' !in s
  {
    match random
    case None => "0000"
    case Some(bs) =>
      var s := HexEncode(bs);
      assert s[0] != '-';
      s
  }

  function ResultKey(nowNanos: int, scanner: string, suffix: string): string {
    Decimal.IntToString(nowNanos) + "-" + scanner + "-" + suffix
  }

  /** `Save`: store the encoded result under a fresh time-based key. */
  function Save(st: Store, c: Codec, result: ScanResult, nowNanos: int, suffix: string): (r: Result<Store>)
    ensures c.encode(result).Err? ==> r == Err("encode result: " + c.encode(result).error)
    ensures c.encode(result).Ok? ==> r.Ok?
    ensures r.Ok? ==> r.value == st[MakeKey(Bucket, ResultKey(nowNanos, result.scannerName, suffix)) := c.encode(result).value]
  {
    match c.encode(result)
    case Err(e) => Err("encode result: " + e)
    case Ok(raw) => Put(st, Bucket, ResultKey(nowNanos, result.scannerName, suffix), raw)
  }

  /** The value stored under each key of `order`, decoded. */
  function DecodeAll(st: Store, order: seq<string>, decode: Bytes -> Result<ScanResult>): (rs: seq<ScanResult>)
    requires forall i :: 0 <= i < |order| ==> MakeKey(Bucket, order[i]) in st
    requires forall i :: 0 <= i < |order| ==> decode(st[MakeKey(Bucket, order[i])]).Ok?
    ensures |rs| == |order|
    ensures forall i :: 0 <= i < |order| ==> Ok(rs[i]) == decode(st[MakeKey(Bucket, order[i])])
  {
    if order == [] then []
    else [decode(st[MakeKey(Bucket, order[0])]).value] + DecodeAll(st, order[1..], decode)
  }

  function DecodeCheck(decode: Bytes -> Result<ScanResult>): (string, Bytes) -> Outcome {
    (k: string, v: Bytes) => if decode(v).Ok? then Pass else Fail("decode result: " + decode(v).error)
  }

  /** `List`: every stored result in iteration order; one undecodable entry
      fails the whole listing. */
  function List(st: Store, order: seq<string>, decode: Bytes -> Result<ScanResult>): (r: Result<seq<ScanResult>>)
    requires Enumerates(order, BucketKeys(st, Bucket))
    ensures r.Ok? <==> forall i :: 0 <= i < |order| ==> decode(st[MakeKey(Bucket, order[i])]).Ok?
    ensures r.Ok? ==> |r.value| == |order|
    ensures r.Ok? ==> forall i :: 0 <= i < |order| ==> Ok(r.value[i]) == decode(st[MakeKey(Bucket, order[i])])
    ensures r.Err? ==>
      exists i :: 0 <= i < |order| && decode(st[MakeKey(Bucket, order[i])]).Err? &&
        (forall j :: 0 <= j < i ==> decode(st[MakeKey(Bucket, order[j])]).Ok?) &&
        r.error == "decode result: " + decode(st[MakeKey(Bucket, order[i])]).error
  {
    var (out, n) := ForEach(st, Bucket, order, DecodeCheck(decode));
    if out.Fail? then
      assert decode(st[MakeKey(Bucket, order[n - 1])]).Err?;
      Err(out.error)
    else Ok(DecodeAll(st, order, decode))
  }

  /** A stored result is expired when it has a finish time before `cutoff`. */
  predicate Expired(res: ScanResult, cutoff: int) {
    !res.finishedAt.IsZero() && res.finishedAt.nanos < cutoff
  }

  /** The full keys `PruneOlderThan` removes: decodable, expired entries. */
  ghost function Doomed(st: Store, keys: set<string>, decode: Bytes -> Result<ScanResult>, cutoff: int): set<string>
    requires forall k :: k in keys ==> MakeKey(Bucket, k) in st
  {
    set k | k in keys && decode(st[MakeKey(Bucket, k)]).Ok? && Expired(decode(st[MakeKey(Bucket, k)]).value, cutoff) ::
      MakeKey(Bucket, k)
  }

  /** `PruneOlderThan`: delete every decodable result that finished before
      `cutoff`; undecodable entries and results without a finish time stay.
      Iteration reads a snapshot while deletions go to the live store, so
      the outcome does not depend on the order. */
  function PruneOlderThan(st: Store, order: seq<string>, decode: Bytes -> Result<ScanResult>, cutoff: int): (r: Result<Store>)
    requires Enumerates(order, BucketKeys(st, Bucket))
    ensures "" !in BucketKeys(st, Bucket) ==> r == Ok(st - Doomed(st, BucketKeys(st, Bucket), decode, cutoff))
    ensures r.Err? ==> r.error == RequiredMsg
  {
    assert (set k | k in order) == BucketKeys(st, Bucket);
    PruneGuarded(st, st, order, decode, cutoff)
  }

  /** The walk of `PruneOlderThan` from `order` on: `snapshot` is what the
      iteration reads, `live` what the deletions change. Deleting an entry
      with an empty key fails and the error stops the walk. */
  function PruneGuarded(snapshot: Store, live: Store, order: seq<string>, decode: Bytes -> Result<ScanResult>, cutoff: int): (r: Result<Store>)
    requires forall i :: 0 <= i < |order| ==> MakeKey(Bucket, order[i]) in snapshot
    ensures "" !in order ==> r == Ok(live - Doomed(snapshot, (set k | k in order), decode, cutoff))
    ensures r.Err? ==> r.error == RequiredMsg
  {
    if order == [] then
      assert Doomed(snapshot, (set k | k in order), decode, cutoff) == {};
      assert live - {} == live;
      Ok(live)
    else
      var k := order[0];
      var value := snapshot[MakeKey(Bucket, k)];
      var doomed := decode(value).Ok? && Expired(decode(value).value, cutoff);
      DoomedCons(snapshot, order, decode, cutoff);
      if doomed then
        match Delete(live, Bucket, k)
        case Err(e) => Err(e)
        case Ok(next) =>
          assert next - Doomed(snapshot, (set x | x in order[1..]), decode, cutoff)
              == live - Doomed(snapshot, (set x | x in order), decode, cutoff);
          PruneGuarded(snapshot, next, order[1..], decode, cutoff)
      else
        assert Doomed(snapshot, (set x | x in order[1..]), decode, cutoff)
            == Doomed(snapshot, (set x | x in order), decode, cutoff);
        PruneGuarded(snapshot, live, order[1..], decode, cutoff)
  }

  lemma DoomedCons(snapshot: Store, order: seq<string>, decode: Bytes -> Result<ScanResult>, cutoff: int)
    requires order != []
    requires forall i :: 0 <= i < |order| ==> MakeKey(Bucket, order[i]) in snapshot
    ensures var value := snapshot[MakeKey(Bucket, order[0])];
      Doomed(snapshot, (set x | x in order), decode, cutoff) ==
        (if decode(value).Ok? && Expired(decode(value).value, cutoff) then {MakeKey(Bucket, order[0])} else {}) +
        Doomed(snapshot, (set x | x in order[1..]), decode, cutoff)
  {
    assert (set x | x in order) == {order[0]} + (set x | x in order[1..]);
  }

  // ---------------------------------------------------------------------------
  // Listing and pruning over the iteration as written

  /** `List` over `KvStore.ForEachAsWritten`: `all` is every key of the
      store in Badger's order, and only its leading run of result keys is
      decoded. */
  function ListAsWritten(st: Store, all: seq<string>, decode: Bytes -> Result<ScanResult>): (r: Result<seq<ScanResult>>)
    requires InKeyOrder(all, st)
    ensures r.Ok? ==>
      var ks := Visited(all, Bucket);
      |r.value| == |ks| && forall i :: 0 <= i < |ks| ==> Ok(r.value[i]) == decode(st[MakeKey(Bucket, ks[i])])
    ensures r.Err? ==>
      var ks := Visited(all, Bucket);
      exists i :: 0 <= i < |ks| && decode(st[MakeKey(Bucket, ks[i])]).Err? &&
        r.error == "decode result: " + decode(st[MakeKey(Bucket, ks[i])]).error
  {
    var ks := Visited(all, Bucket);
    VisitedStored(st, all);
    var (out, n) := ForEachAsWritten(st, Bucket, all, DecodeCheck(decode));
    if out.Fail? then
      assert decode(st[MakeKey(Bucket, ks[n - 1])]).Err?;
      Err(out.error)
    else
      Ok(DecodeAll(st, ks, decode))
  }

  lemma VisitedStored(st: Store, all: seq<string>)
    requires InKeyOrder(all, st)
    ensures forall i :: 0 <= i < |Visited(all, Bucket)| ==> MakeKey(Bucket, Visited(all, Bucket)[i]) in st
  {
    var ks := Visited(all, Bucket);
    forall i | 0 <= i < |ks| ensures MakeKey(Bucket, ks[i]) in st {
      assert all[i] in st;
    }
  }

  /** `PruneOlderThan` over the iteration as written: only the leading run
      of result keys is examined. */
  function PruneOlderThanAsWritten(st: Store, all: seq<string>, decode: Bytes -> Result<ScanResult>, cutoff: int): (r: Result<Store>)
    requires InKeyOrder(all, st)
    ensures "" !in Visited(all, Bucket) ==>
      r == Ok(st - Doomed(st, (set k | k in Visited(all, Bucket)), decode, cutoff))
    ensures r.Err? ==> r.error == RequiredMsg
  {
    VisitedStored(st, all);
    PruneGuarded(st, st, Visited(all, Bucket), decode, cutoff)
  }

  /** Once a baseline is stored in the same database, the listing as
      written is empty, whatever results are stored. */
  lemma ListHiddenByBaseline(st: Store, all: seq<string>, decode: Bytes -> Result<ScanResult>)
    requires InKeyOrder(all, st)
    requires exists k :: k in st && "baselines/" <= k
    ensures ListAsWritten(st, all, decode) == Ok([])
  {
    ResultsHiddenByBaseline(st, all, DecodeCheck(decode));
  }

  /** Once a baseline is stored, pruning as written deletes nothing. */
  lemma PruneHiddenByBaseline(st: Store, all: seq<string>, decode: Bytes -> Result<ScanResult>, cutoff: int)
    requires InKeyOrder(all, st)
    requires exists k :: k in st && "baselines/" <= k
    ensures PruneOlderThanAsWritten(st, all, decode, cutoff) == Ok(st)
  {
    ResultsHiddenByBaseline(st, all, (k: string, v: Bytes) => Pass);
    assert Visited(all, Bucket) == [];
    assert Doomed(st, {}, decode, cutoff) == {};
  }

  /** As written, a result saved next to a stored baseline is not listed. */
  lemma SavedResultUnlistedAsWritten(st: Store, c: Codec, result: ScanResult, nowNanos: int, suffix: string, all: seq<string>)
    requires Save(st, c, result, nowNanos, suffix).Ok?
    requires InKeyOrder(all, Save(st, c, result, nowNanos, suffix).value)
    requires exists k :: k in st && "baselines/" <= k
    ensures ListAsWritten(Save(st, c, result, nowNanos, suffix).value, all, c.decode) == Ok([])
  {
    var st' := Save(st, c, result, nowNanos, suffix).value;
    var k :| k in st && "baselines/" <= k;
    assert k in st';
    ListHiddenByBaseline(st', all, c.decode);
  }

  /** A saved result is listed: with a faithful codec, `List` after `Save`
      (whatever the iteration order) includes the saved result. */
  lemma ListAfterSave(st: Store, c: Codec, result: ScanResult, nowNanos: int, suffix: string, after: seq<string>)
    requires Faithful(c)
    requires c.encode(result).Ok?
    requires Save(st, c, result, nowNanos, suffix).Ok?
    requires Enumerates(after, BucketKeys(Save(st, c, result, nowNanos, suffix).value, Bucket))
    ensures List(Save(st, c, result, nowNanos, suffix).value, after, c.decode).Ok? ==>
      result in List(Save(st, c, result, nowNanos, suffix).value, after, c.decode).value
  {
    var key := ResultKey(nowNanos, result.scannerName, suffix);
    var st' := Save(st, c, result, nowNanos, suffix).value;
    assert key in BucketKeys(st', Bucket);
    var i :| 0 <= i < |after| && after[i] == key;
    var listed := List(st', after, c.decode);
    if listed.Ok? {
      assert Ok(listed.value[i]) == c.decode(st'[MakeKey(Bucket, key)]) == Ok(result);
    }
  }
}

=== FILE: rules.dfy ===
/** The threshold rule engine (internal/detection/rules.go): each rule
    compares one numeric metadata value of a scan result with a threshold
    and yields a finding when the comparison holds. Metric values are reals;
    floating-point rounding and NaN are not modelled. */
module Rules {
  import opened Wrappers
  import opened ScannerTypes
  import Text

  datatype Rule = Rule(
    name: string,
    scanner: string,
    metric: string,
    operator: string,
    threshold: real,
    severity: Severity,
    description: string)

  /** The scanner name a rule uses to apply to every scanner. */
  const Wildcard: string := "*"

  const Remediation: string := "Review rule configuration and system state."

  /** `compare`: the operator is matched without regard to case; an
      operator it does not know never holds. */
  function Compare(value: real, op: string, threshold: real): (b: bool)
    ensures b ==> Text.ToLower(op) in {"gt", "gte", "lt", "lte", "eq"}
    ensures Text.ToLower(op) == "gt" ==> (b <==> value > threshold)
    ensures Text.ToLower(op) == "gte" ==> (b <==> value >= threshold)
    ensures Text.ToLower(op) == "lt" ==> (b <==> value < threshold)
    ensures Text.ToLower(op) == "lte" ==> (b <==> value <= threshold)
    ensures Text.ToLower(op) == "eq" ==> (b <==> value == threshold)
  {
    var o := Text.ToLower(op);
    if o == "gt" then value > threshold
    else if o == "gte" then value >= threshold
    else if o == "lt" then value < threshold
    else if o == "lte" then value <= threshold
    else if o == "eq" then value == threshold
    else false
  }

  /** Case does not matter: "GTE" compares as "gte". */
  lemma CompareIgnoresCase(value: real, op: string, threshold: real)
    ensures Compare(value, Text.ToLower(op), threshold) == Compare(value, op, threshold)
  {
    Text.ToLowerIdempotent(op);
  }

  /** On reals the operators split as expected: "gte" is "gt" or "eq",
      and "lt" holds exactly when "gte" does not. */
  lemma OperatorsRelate(value: real, threshold: real)
    ensures Compare(value, "gte", threshold) == (Compare(value, "gt", threshold) || Compare(value, "eq", threshold))
    ensures Compare(value, "lt", threshold) == !Compare(value, "gte", threshold)
    ensures Compare(value, "lte", threshold) == !Compare(value, "gt", threshold)
  {
    assert Text.ToLower("gte") == "gte" && Text.ToLower("gt") == "gt" && Text.ToLower("eq") == "eq";
    assert Text.ToLower("lt") == "lt" && Text.ToLower("lte") == "lte";
  }

  /** The rule is for this result's scanner, or for every scanner. */
  predicate Applies(rule: Rule, res: ScanResult) {
    rule.scanner == res.scannerName || rule.scanner == Wildcard
  }

  /** The rule's metric in the result's metadata, when present and numeric. */
  function MetricValue(rule: Rule, res: ScanResult): (v: Option<real>)
    ensures v.Some? <==> rule.metric in res.metadata && IsNumeric(res.metadata[rule.metric])
  {
    if rule.metric in res.metadata then ToFloat(res.metadata[rule.metric]) else None
  }

  /** The rule yields a finding for the result. */
  predicate Fires(rule: Rule, res: ScanResult) {
    Applies(rule, res) && MetricValue(rule, res).Some? &&
    Compare(MetricValue(rule, res).value, rule.operator, rule.threshold)
  }

  /** The description of a rule's finding: its own, or one naming the rule
      and the metric. */
  function DescriptionOf(rule: Rule): (d: string)
    ensures rule.description != "" ==> d == rule.description
    ensures rule.description == "" ==> d == "Rule " + rule.name + " triggered for " + rule.metric
  {
    if rule.description == "" then "Rule " + rule.name + " triggered for " + rule.metric else rule.description
  }

  /** The finding a rule yields for the observed value. */
  function RuleFinding(rule: Rule, value: real): (f: Finding)
    ensures f.id == "rule_" + Text.ToLower(rule.name)
    ensures f.category == "rule" && f.severity == rule.severity && f.description == DescriptionOf(rule)
    ensures f.evidence.Keys == {"metric", "value", "threshold", "operator"}
  {
    Finding("rule_" + Text.ToLower(rule.name), rule.severity, "rule", DescriptionOf(rule),
            map["metric" := VString(rule.metric), "value" := VFloat64(value),
                "threshold" := VFloat64(rule.threshold), "operator" := VString(rule.operator)],
            Remediation)
  }

  /** What one rule contributes: its finding or nothing. */
  function Contribution(rule: Rule, res: ScanResult): (fs: seq<Finding>)
    ensures |fs| <= 1
    ensures fs != [] <==> Fires(rule, res)
    ensures fs != [] ==> fs[0] == RuleFinding(rule, MetricValue(rule, res).value)
  {
    if Fires(rule, res) then [RuleFinding(rule, MetricValue(rule, res).value)] else []
  }

  /** `Evaluate`: the findings of the rules in rule order. */
  function Evaluate(rules: seq<Rule>, res: ScanResult): (fs: seq<Finding>)
    ensures |fs| <= |rules|
    ensures forall k :: 0 <= k < |fs| ==> fs[k].category == "rule"
    ensures forall i :: 0 <= i < |rules| && Fires(rules[i], res) ==>
      RuleFinding(rules[i], MetricValue(rules[i], res).value) in fs
    ensures forall f :: f in fs ==>
      exists i :: 0 <= i < |rules| && Fires(rules[i], res) && f == RuleFinding(rules[i], MetricValue(rules[i], res).value)
  {
    if rules == [] then []
    else
      var front := rules[..|rules| - 1];
      var last := rules[|rules| - 1];
      var prev := Evaluate(front, res);
      var r := prev + Contribution(last, res);
      assert forall i :: 0 <= i < |front| ==> front[i] == rules[i];
      r
  }

  /** Evaluating a rule list in two parts is evaluating it whole: each
      rule contributes independently and in its place. */
  lemma {:induction false} EvaluateSplit(a: seq<Rule>, b: seq<Rule>, res: ScanResult)
    ensures Evaluate(a + b, res) == Evaluate(a, res) + Evaluate(b, res)
  {
    if b != [] {
      var front := b[..|b| - 1];
      assert (a + b)[..|a + b| - 1] == a + front;
      EvaluateSplit(a, front, res);
    } else {
      assert a + b == a;
    }
  }

  /** A rule for the disk-usage scanner with threshold 90 and "gte" yields
      exactly one finding on a result reporting 95. */
  lemma DiskRuleFires(res: ScanResult)
    requires res.scannerName == "system.disk_usage"
    requires "used_pct" in res.metadata && res.metadata["used_pct"] == VFloat64(95.0)
    ensures |Evaluate([Rule("disk", "system.disk_usage", "used_pct", "gte", 90.0, High, "")], res)| == 1
  {
    var rule := Rule("disk", "system.disk_usage", "used_pct", "gte", 90.0, High, "");
    assert Text.ToLower("gte") == "gte";
    assert Fires(rule, res);
    assert [rule][..0] == [];
  }
}

=== FILE: scanner_types.dfy ===
/** The records every scanner plugin, the scheduler, detection and alerting
    exchange (internal/scanner/types.go). */
module ScannerTypes {
  import opened Wrappers

  datatype Severity = Info | Low | Medium | High | Critical

  function SeverityName(s: Severity): string {
    match s
    case Info => "info"
    case Low => "low"
    case Medium => "medium"
    case High => "high"
    case Critical => "critical"
  }

  datatype Status = Success | Failed | Partial

  function StatusName(s: Status): string {
    match s
    case Success => "success"
    case Failed => "failed"
    case Partial => "partial"
  }

  /** A `time.Time`: Go's zero value, or an instant in nanoseconds since the
      Unix epoch. */
  datatype Time = Zero | At(nanos: int) {
    predicate IsZero() {
      Zero?
    }
  }

  const Nanosecond: int := 1
  const Millisecond: int := 1_000_000
  const Second: int := 1_000_000_000
  const Minute: int := 60 * Second

  /** `time.Time.Unix`: whole seconds, rounded toward the past. */
  function UnixSeconds(nanos: int): int {
    nanos / Second
  }

  /** A decoded dynamic value (`interface{}`) as found in metadata, evidence
      and plugin configuration maps. Floating-point values are reals. */
  datatype Value =
    | VFloat64(f: real)
    | VFloat32(f: real)
    | VInt(i: int)
    | VInt64(i: int)
    | VUint64(n: nat)
    | VUint(n: nat)
    | VString(s: string)
    | VBool(b: bool)
    | VStrings(items: seq<string>)
    | VList(elems: seq<Value>)
    | VStringMap(entries: map<string, string>)
    | VOther

  predicate IsNumeric(v: Value) {
    v.VFloat64? || v.VFloat32? || v.VInt? || v.VInt64? || v.VUint64? || v.VUint?
  }

  datatype Finding = Finding(
    id: string,
    severity: Severity,
    category: string,
    description: string,
    evidence: map<string, Value>,
    remediation: string)

  datatype ScanResult = ScanResult(
    scannerName: string,
    status: Status,
    findings: seq<Finding>,
    startedAt: Time,
    finishedAt: Time,
    duration: int,
    metadata: map<string, Value>)

  /** `toFloat`: a number of any of the six numeric kinds as a float;
      anything else is not a number. */
  function ToFloat(v: Value): (r: Option<real>)
    ensures r.Some? <==> IsNumeric(v)
    ensures v.VFloat64? || v.VFloat32? ==> r == Some(v.f)
    ensures v.VInt? || v.VInt64? ==> r == Some(v.i as real)
    ensures v.VUint64? || v.VUint? ==> r == Some(v.n as real)
  {
    match v
    case VFloat64(f) => Some(f)
    case VFloat32(f) => Some(f)
    case VInt(i) => Some(i as real)
    case VInt64(i) => Some(i as real)
    case VUint64(n) => Some(n as real)
    case VUint(n) => Some(n as real)
    case _ => None
  }
}

=== FILE: scheduler.dfy ===
/** The job scheduler (internal/scheduler/scheduler.go): schedule parsing,
    the job table, the retry loop with exponential backoff, and the
    per-job state kept between runs. Timers, goroutines and the clock are
    not modelled: every instant is a parameter, and each run of a plugin
    is an `Attempt` supplied by the caller. */
module Scheduler {
  import opened Wrappers
  import opened ScannerTypes
  import Text
  import Decimal
  import PluginManager

  // ---------------------------------------------------------------------------
  // Schedules

  /** The library parsers a schedule goes through: `time.ParseDuration`,
      the five-field cron parser (a parsed cron schedule is a handle) and
      that schedule's `Next`. */
  datatype Lib = Lib(
    parseDuration: string -> Option<int>,
    parseCron: string -> Option<nat>,
    cronNext: (nat, int) -> Time)

  datatype Spec = Interval(interval: int, raw: string) | Cron(cron: nat, raw: string)

  const EveryPrefix: string := "@every "

  /** The text a schedule is parsed from: trimmed, without "@every ". */
  function ScheduleBody(expr: string): string {
    Text.TrimPrefix(Text.Trim(expr), EveryPrefix)
  }

  /** `parseSchedule`: a positive duration is an interval; text that is no
      duration at all is tried as a cron expression. */
  function ParseSchedule(expr: string, lib: Lib): (r: Result<Spec>)
    ensures Text.Trim(expr) == [] <==> r == Err("schedule is required")
    ensures r.Ok? ==> r.value.raw == ScheduleBody(expr)
    ensures r.Ok? && r.value.Interval? <==>
      Text.Trim(expr) != [] && lib.parseDuration(ScheduleBody(expr)).Some? &&
      lib.parseDuration(ScheduleBody(expr)).value > 0
    ensures r.Ok? && r.value.Interval? ==>
      r.value.interval > 0 && lib.parseDuration(ScheduleBody(expr)) == Some(r.value.interval)
    ensures r.Ok? && r.value.Cron? ==>
      lib.parseDuration(ScheduleBody(expr)).None? && lib.parseCron(ScheduleBody(expr)) == Some(r.value.cron)
    ensures (Text.Trim(expr) != [] && lib.parseDuration(ScheduleBody(expr)).Some? &&
             lib.parseDuration(ScheduleBody(expr)).value <= 0) ==>
      r == Err("schedule interval must be positive")
    ensures (Text.Trim(expr) != [] && lib.parseDuration(ScheduleBody(expr)).None? &&
             lib.parseCron(ScheduleBody(expr)).None?) ==>
      r == Err("unsupported schedule " + Text.Quote(ScheduleBody(expr)) + " (use duration or cron)")
  {
    if Text.Trim(expr) == [] then Err("schedule is required")
    else
      var body := ScheduleBody(expr);
      match lib.parseDuration(body)
      case None =>
        (match lib.parseCron(body)
         case None => Err("unsupported schedule " + Text.Quote(body) + " (use duration or cron)")
         case Some(c) => Ok(Cron(c, body)))
      case Some(d) =>
        if d <= 0 then Err("schedule interval must be positive") else Ok(Interval(d, body))
  }

  /** "@every " in front of a schedule changes nothing: "@every 1s" and
      "1s" parse alike. */
  lemma EveryPrefixIrrelevant(s: string, lib: Lib)
    requires s != [] && Text.Trimmed(s) && !(EveryPrefix <= s)
    ensures ParseSchedule(EveryPrefix + s, lib) == ParseSchedule(s, lib)
  {
    EveryBody(s);
    PlainBody(s);
    SameBodySameSchedule(EveryPrefix + s, s, lib);
  }

  /** A trimmed schedule behind "@every " is its own body. */
  lemma EveryBody(s: string)
    requires s != [] && Text.Trimmed(s)
    ensures Text.Trim(EveryPrefix + s) != [] && ScheduleBody(EveryPrefix + s) == s
  {
    var e := EveryPrefix + s;
    assert Text.Trimmed(e) by {
      assert e[0] == '@' && e[|e| - 1] == s[|s| - 1];
    }
    assert Text.Trim(e) == e;
    assert EveryPrefix <= e;
    assert e[|EveryPrefix|..] == s;
  }

  /** A trimmed schedule without "@every " is its own body. */
  lemma PlainBody(s: string)
    requires s != [] && Text.Trimmed(s) && !(EveryPrefix <= s)
    ensures Text.Trim(s) != [] && ScheduleBody(s) == s
  {
    assert Text.Trim(s) == s;
  }

  /** Two non-blank schedules with the same body parse alike. */
  lemma SameBodySameSchedule(a: string, b: string, lib: Lib)
    requires Text.Trim(a) != [] && Text.Trim(b) != [] && ScheduleBody(a) == ScheduleBody(b)
    ensures ParseSchedule(a, lib) == ParseSchedule(b, lib)
  {
  }

  /** The next instant of a schedule after `from`. */
  function SpecNext(spec: Spec, from: int, lib: Lib): Time {
    match spec
    case Interval(d, _) => At(from + d)
    case Cron(c, _) => lib.cronNext(c, from)
  }

  // ---------------------------------------------------------------------------
  // Jobs

  datatype JobConfig = JobConfig(
    name: string,
    plugin: string,
    schedule: string,
    timeout: int,
    maxRetries: int,
    retryBackoff: int,
    retryMax: int,
    allowOverlap: bool,
    runOnStart: bool)

  /** What is remembered about a job's runs; `lastStatus` is `None` before
      the first run. */
  datatype JobState = JobState(
    lastRun: Time,
    lastSuccess: Time,
    lastError: Time,
    lastStatus: Option<Status>,
    lastErrorMessage: string,
    consecutiveFailures: int)

  const NoState: JobState := JobState(Zero, Zero, Zero, None, "", 0)

  /** A job of the table: `running` is the overlap flag, `started` whether
      its timer loop was launched. */
  datatype Job = Job(cfg: JobConfig, spec: Spec, running: bool, started: bool, state: JobState, nextRun: Time)

  type Jobs = map<string, Job>

  const DefaultTimeout: int := 2 * Minute
  const DefaultRetryBackoff: int := 2 * Second
  const DefaultRetryMax: int := 30 * Second

  /** The defaults `AddJob` fills in: a non-positive timeout, backoff or
      cap takes its default and negative retries become none. */
  function WithDefaults(cfg: JobConfig): (r: JobConfig)
    ensures r.timeout > 0 && r.maxRetries >= 0 && r.retryBackoff > 0 && r.retryMax > 0
    ensures r.timeout == (if cfg.timeout > 0 then cfg.timeout else DefaultTimeout)
    ensures r.maxRetries == (if cfg.maxRetries >= 0 then cfg.maxRetries else 0)
    ensures r.retryBackoff == (if cfg.retryBackoff > 0 then cfg.retryBackoff else DefaultRetryBackoff)
    ensures r.retryMax == (if cfg.retryMax > 0 then cfg.retryMax else DefaultRetryMax)
    ensures r.(timeout := cfg.timeout, maxRetries := cfg.maxRetries,
               retryBackoff := cfg.retryBackoff, retryMax := cfg.retryMax) == cfg
  {
    cfg.(timeout := if cfg.timeout <= 0 then DefaultTimeout else cfg.timeout,
         maxRetries := if cfg.maxRetries < 0 then 0 else cfg.maxRetries,
         retryBackoff := if cfg.retryBackoff <= 0 then DefaultRetryBackoff else cfg.retryBackoff,
         retryMax := if cfg.retryMax <= 0 then DefaultRetryMax else cfg.retryMax)
  }

  /** Filling in defaults twice is filling them in once. */
  lemma DefaultsIdempotent(cfg: JobConfig)
    ensures WithDefaults(WithDefaults(cfg)) == WithDefaults(cfg)
  {
  }

  /** `computeNextRun`: an interval job that ran before waits one interval
      from its last run, unless that moment has passed; otherwise the
      schedule's next instant after `now`. */
  function ComputeNextRun(spec: Spec, st: JobState, now: int, lib: Lib): (r: Time)
    ensures spec.Interval? && spec.interval > 0 ==> r.At? && r.nanos > now
    ensures spec.Interval? && spec.interval > 0 && st.lastRun.At? ==>
      r.At? && r.nanos >= st.lastRun.nanos + spec.interval
    ensures spec.Interval? && st.lastRun.At? ==>
      r.At? && r.nanos <= (if st.lastRun.nanos > now then st.lastRun.nanos else now) + spec.interval
    ensures st.lastRun.Zero? || spec.Cron? ==> r == SpecNext(spec, now, lib)
  {
    if st.lastRun.At? && spec.Interval? && st.lastRun.nanos + spec.interval > now then
      At(st.lastRun.nanos + spec.interval)
    else
      SpecNext(spec, now, lib)
  }

  /** A job that last ran 30 seconds ago on a two-minute interval is next
      due more than a minute from now. */
  lemma NextRunRespectsInterval(now: int, lib: Lib)
    ensures ComputeNextRun(Interval(2 * Minute, "2m"), NoState.(lastRun := At(now - 30 * Second)), now, lib).nanos
      >= now + Minute
  {
  }

  /** A configuration `AddJob` accepts, whatever the table holds. */
  predicate Admissible(cfg: JobConfig, lib: Lib) {
    cfg.name != "" && cfg.plugin != "" && ParseSchedule(cfg.schedule, lib).Ok?
  }

  /** The job `AddJob` creates: defaults filled in, the stored state
      loaded (`stored` is what the state store decodes, `None` when there is
      no store, no entry or no valid entry), and its first run scheduled. */
  function NewJob(cfg: JobConfig, spec: Spec, stored: Option<JobState>, now: int, lib: Lib): Job {
    var st := stored.GetOr(NoState);
    Job(WithDefaults(cfg), spec, false, false, st, ComputeNextRun(spec, st, now, lib))
  }

  /** `AddJob`: the name, plugin and schedule are checked before the table
      is; a refused job leaves the table as it was. */
  function AddJob(jobs: Jobs, cfg: JobConfig, lib: Lib, stored: Option<JobState>, now: int): (r: Result<Jobs>)
    ensures r.Ok? <==> Admissible(cfg, lib) && cfg.name !in jobs
    ensures cfg.name == "" ==> r == Err("job name is required")
    ensures cfg.name != "" && cfg.plugin == "" ==> r == Err("job plugin is required")
    ensures cfg.name != "" && cfg.plugin != "" && ParseSchedule(cfg.schedule, lib).Err? ==>
      r == Err(ParseSchedule(cfg.schedule, lib).error)
    ensures Admissible(cfg, lib) && cfg.name in jobs ==>
      r == Err("job " + Text.Quote(cfg.name) + " already exists")
    ensures r.Ok? ==> r.value.Keys == jobs.Keys + {cfg.name}
    ensures r.Ok? ==> forall n :: n in jobs ==> r.value[n] == jobs[n]
    ensures r.Ok? ==>
      r.value[cfg.name].cfg == WithDefaults(cfg) &&
      r.value[cfg.name].spec == ParseSchedule(cfg.schedule, lib).value &&
      r.value[cfg.name].state == stored.GetOr(NoState) &&
      !r.value[cfg.name].started && !r.value[cfg.name].running
  {
    if cfg.name == "" then Err("job name is required")
    else if cfg.plugin == "" then Err("job plugin is required")
    else
      var parsed := ParseSchedule(cfg.schedule, lib);
      if parsed.Err? then Err(parsed.error)
      else if cfg.name in jobs then Err("job " + Text.Quote(cfg.name) + " already exists")
      else Ok(jobs[cfg.name := NewJob(cfg, parsed.value, stored, now, lib)])
  }

  /** `Start`: every job's loop is launched. */
  function StartAll(jobs: Jobs): (r: Jobs)
    ensures r.Keys == jobs.Keys
    ensures forall n :: n in r ==> r[n] == jobs[n].(started := true)
  {
    map n | n in jobs :: jobs[n].(started := true)
  }

  /** `Stop`: every job's loop is stopped. */
  function StopAll(jobs: Jobs): (r: Jobs)
    ensures r.Keys == jobs.Keys
    ensures forall n :: n in r ==> r[n] == jobs[n].(started := false)
  {
    map n | n in jobs :: jobs[n].(started := false)
  }

  /** The names of `configs[from..]`. */
  function NamesFrom(configs: seq<JobConfig>, from: nat): set<string>
    requires from <= |configs|
  {
    set j | from <= j < |configs| :: configs[j].name
  }

  /** The names of `configs[from..to]`. */
  function NamesBetween(configs: seq<JobConfig>, from: nat, to: nat): set<string>
    requires from <= to <= |configs|
  {
    set j | from <= j < to :: configs[j].name
  }

  /** Every configuration from `configs[i]` on is admissible, none is
      named in `acc`, and no two share a name. */
  predicate AcceptableFrom(acc: Jobs, configs: seq<JobConfig>, i: nat, lib: Lib)
    requires i <= |configs|
  {
    (forall j :: i <= j < |configs| ==> Admissible(configs[j], lib) && configs[j].name !in acc) &&
    (forall j, k :: i <= j < k < |configs| ==> configs[j].name != configs[k].name)
  }

  /** The `AddJob` loop of `ReplaceJobs` from `configs[i]` on; it stops at
      the first refusal, keeping what was added before it. */
  function AddFrom(acc: Jobs, configs: seq<JobConfig>, i: nat, lib: Lib,
                   stored: string -> Option<JobState>, now: int): (r: (Jobs, Outcome))
    requires i <= |configs|
    decreases |configs| - i
  {
    if i == |configs| then (acc, Pass)
    else
      var cfg := configs[i];
      var added := AddJob(acc, cfg, lib, stored(cfg.name), now);
      if added.Err? then (acc, Fail(added.error))
      else AddFrom(added.value, configs, i + 1, lib, stored, now)
  }

  /** The loop adds only the names it is given, and gets through them all
      exactly when every one is acceptable. */
  lemma {:induction false} AddFromSpec(acc: Jobs, configs: seq<JobConfig>, i: nat, lib: Lib,
                                       stored: string -> Option<JobState>, now: int)
    requires i <= |configs|
    ensures AddFrom(acc, configs, i, lib, stored, now).0.Keys <= acc.Keys + NamesFrom(configs, i)
    ensures AddFrom(acc, configs, i, lib, stored, now).1.Pass? <==> AcceptableFrom(acc, configs, i, lib)
    ensures AddFrom(acc, configs, i, lib, stored, now).1.Pass? ==>
      AddFrom(acc, configs, i, lib, stored, now).0.Keys == acc.Keys + NamesFrom(configs, i)
    decreases |configs| - i
  {
    if i < |configs| {
      var cfg := configs[i];
      var added := AddJob(acc, cfg, lib, stored(cfg.name), now);
      assert NamesFrom(configs, i) == {cfg.name} + NamesFrom(configs, i + 1);
      if added.Ok? {
        AddFromSpec(added.value, configs, i + 1, lib, stored, now);
        AcceptableStep(acc, added.value, configs, i, lib);
      } else {
        assert !AcceptableFrom(acc, configs, i, lib) by {
          assert !(Admissible(cfg, lib) && cfg.name !in acc);
        }
      }
    }
  }

  /** The configurations `configs[i..f]` were all admissible and added to
      `acc`, giving the table `tbl`. */
  predicate PrefixAdded(acc: Jobs, configs: seq<JobConfig>, i: nat, f: nat, lib: Lib, tbl: Jobs)
    requires i <= f <= |configs|
  {
    (forall j :: i <= j < f ==> Admissible(configs[j], lib)) &&
    tbl.Keys == acc.Keys + NamesBetween(configs, i, f)
  }

  /** `AddJob` refuses `cfg` on the table `tbl`, and `out` is its error. */
  predicate RefusedWith(tbl: Jobs, cfg: JobConfig, lib: Lib, stored: string -> Option<JobState>, now: int, out: Outcome) {
    AddJob(tbl, cfg, lib, stored(cfg.name), now).Err? &&
    out == Fail(AddJob(tbl, cfg, lib, stored(cfg.name), now).error)
  }

  /** The loop stopped at `configs[f]`: every configuration before it from
      `i` on was added to `acc`, and `AddJob` refused `configs[f]` on the
      table so built, with the error returned. */
  predicate StoppedAt(acc: Jobs, configs: seq<JobConfig>, i: nat, f: nat, lib: Lib,
                      stored: string -> Option<JobState>, now: int, r: (Jobs, Outcome))
    requires i <= f < |configs|
  {
    PrefixAdded(acc, configs, i, f, lib, r.0) && RefusedWith(r.0, configs[f], lib, stored, now, r.1)
  }

  /** The loop never starts a job. */
  lemma {:induction false} AddFromUnstarted(acc: Jobs, configs: seq<JobConfig>, i: nat, lib: Lib,
                                            stored: string -> Option<JobState>, now: int)
    requires i <= |configs|
    ensures var r := AddFrom(acc, configs, i, lib, stored, now);
      forall n :: n in r.0 ==> (n in acc && r.0[n] == acc[n]) || !r.0[n].started
    decreases |configs| - i
  {
    if i < |configs| {
      var cfg := configs[i];
      var added := AddJob(acc, cfg, lib, stored(cfg.name), now);
      if added.Ok? {
        AddFromUnstarted(added.value, configs, i + 1, lib, stored, now);
        var r := AddFrom(added.value, configs, i + 1, lib, stored, now);
        assert r == AddFrom(acc, configs, i, lib, stored, now);
        forall n | n in r.0 && !(n in acc && r.0[n] == acc[n]) ensures !r.0[n].started {
          if n in added.value && r.0[n] == added.value[n] {
            assert n == cfg.name;
          }
        }
      }
    }
  }

  /** A failed loop stopped at the first configuration `AddJob` refused. */
  lemma {:induction false} AddFromStops(acc: Jobs, configs: seq<JobConfig>, i: nat, lib: Lib,
                                        stored: string -> Option<JobState>, now: int)
    requires i <= |configs|
    ensures var r := AddFrom(acc, configs, i, lib, stored, now);
      r.1.Fail? ==> exists f :: i <= f < |configs| && StoppedAt(acc, configs, i, f, lib, stored, now, r)
    decreases |configs| - i
  {
    if i < |configs| {
      var cfg := configs[i];
      var added := AddJob(acc, cfg, lib, stored(cfg.name), now);
      var r := AddFrom(acc, configs, i, lib, stored, now);
      if added.Ok? {
        AddFromStops(added.value, configs, i + 1, lib, stored, now);
        assert r == AddFrom(added.value, configs, i + 1, lib, stored, now);
        if r.1.Fail? {
          var f :| i + 1 <= f < |configs| && StoppedAt(added.value, configs, i + 1, f, lib, stored, now, r);
          PrefixAddedStep(acc, added.value, configs, i, f, lib, r.0);
          assert StoppedAt(acc, configs, i, f, lib, stored, now, r);
        }
      } else {
        assert r == (acc, Fail(added.error));
        assert NamesBetween(configs, i, i) == {};
        assert PrefixAdded(acc, configs, i, i, lib, r.0);
        assert RefusedWith(r.0, configs[i], lib, stored, now, r.1);
        assert StoppedAt(acc, configs, i, i, lib, stored, now, r);
      }
    }
  }

  /** Adding one configuration in front extends the added prefix. */
  lemma PrefixAddedStep(acc: Jobs, added: Jobs, configs: seq<JobConfig>, i: nat, f: nat, lib: Lib, tbl: Jobs)
    requires i < f <= |configs|
    requires Admissible(configs[i], lib) && added.Keys == acc.Keys + {configs[i].name}
    requires PrefixAdded(added, configs, i + 1, f, lib, tbl)
    ensures PrefixAdded(acc, configs, i, f, lib, tbl)
  {
    NamesBetweenCons(configs, i, f);
    AdmissibleStep(configs, i, f, lib);
  }

  lemma AdmissibleStep(configs: seq<JobConfig>, i: nat, f: nat, lib: Lib)
    requires i < f <= |configs|
    requires Admissible(configs[i], lib)
    requires forall j :: i + 1 <= j < f ==> Admissible(configs[j], lib)
    ensures forall j :: i <= j < f ==> Admissible(configs[j], lib)
  {
  }

  lemma NamesBetweenCons(configs: seq<JobConfig>, i: nat, f: nat)
    requires i < f <= |configs|
    ensures NamesBetween(configs, i, f) == {configs[i].name} + NamesBetween(configs, i + 1, f)
  {
    forall x | x in NamesBetween(configs, i, f) ensures x in {configs[i].name} + NamesBetween(configs, i + 1, f) {
      var j :| i <= j < f && configs[j].name == x;
      if j > i {
        assert x in NamesBetween(configs, i + 1, f);
      }
    }
  }

  /** Acceptability from `i` splits into the first configuration and the
      rest, checked against the table with the first one added. */
  lemma AcceptableStep(acc: Jobs, added: Jobs, configs: seq<JobConfig>, i: nat, lib: Lib)
    requires i < |configs| && Admissible(configs[i], lib) && configs[i].name !in acc
    requires added.Keys == acc.Keys + {configs[i].name}
    ensures AcceptableFrom(acc, configs, i, lib) <==> AcceptableFrom(added, configs, i + 1, lib)
  {
  }

  /** `ReplaceJobs`: the old table is emptied first, the new jobs are added
      in order and, when all were accepted, started. On a refusal the jobs
      added before it stay in the table, none of them started, and the
      refusal is the error. */
  function ReplaceJobs(jobs: Jobs, configs: seq<JobConfig>, lib: Lib,
                       stored: string -> Option<JobState>, now: int): (r: (Jobs, Outcome))
    ensures r.0.Keys <= NamesFrom(configs, 0)
    ensures r.1.Pass? <==>
      (forall j :: 0 <= j < |configs| ==> Admissible(configs[j], lib)) &&
      (forall j, k :: 0 <= j < k < |configs| ==> configs[j].name != configs[k].name)
    ensures r.1.Pass? ==> r.0.Keys == NamesFrom(configs, 0) && forall n :: n in r.0 ==> r.0[n].started
    ensures r.1.Fail? ==> forall n :: n in r.0 ==> !r.0[n].started
    ensures r.1.Fail? ==> exists f :: 0 <= f < |configs| && StoppedAt(map[], configs, 0, f, lib, stored, now, r)
  {
    var added := AddFrom(map[], configs, 0, lib, stored, now);
    AddFromSpec(map[], configs, 0, lib, stored, now);
    if added.1.Pass? then (StartAll(added.0), Pass)
    else
      AddFromUnstarted(map[], configs, 0, lib, stored, now);
      AddFromStops(map[], configs, 0, lib, stored, now);
      added
  }

  // ---------------------------------------------------------------------------
  // Running a job

  /** A result stamped with the instants its run started and finished. */
  function Stamp(res: ScanResult, started: int, finished: int): ScanResult {
    res.(startedAt := At(started), finishedAt := At(finished), duration := finished - started)
  }

  /** The timeout of a one-off run: two minutes unless a positive one is
      given. */
  function RunTimeout(timeout: int): (t: int)
    ensures t > 0
    ensures timeout > 0 ==> t == timeout
  {
    if timeout <= 0 then DefaultTimeout else timeout
  }

  /** What a plugin's `Run` did: return a result (nil is `None`) or an
      error, or panic. */
  datatype PluginRun = Returned(out: Result<Option<ScanResult>>) | Panicked

  /** `RunOnce`: look the plugin up, run it once with the timeout (what the
      run does is the parameter `run`) and stamp its result; a nil result is
      an error. A panic is recovered and the call returns no result and no
      error, which is `Ok(None)`. */
  function RunOnce<P>(plugins: PluginManager.Registry<P>, name: string, timeout: int,
                      run: (P, int) -> PluginRun, started: int, finished: int): (r: Result<Option<ScanResult>>)
    ensures name !in plugins ==> r == Err(PluginManager.Get(plugins, name).error)
    ensures name in plugins && run(plugins[name], RunTimeout(timeout)).Panicked? ==> r == Ok(None)
    ensures name in plugins && run(plugins[name], RunTimeout(timeout)) == Returned(Ok(None)) ==>
      r == Err("plugin returned nil result")
    ensures name in plugins && run(plugins[name], RunTimeout(timeout)).Returned? &&
            run(plugins[name], RunTimeout(timeout)).out.Err? ==>
      r == Err(run(plugins[name], RunTimeout(timeout)).out.error)
    ensures (r.Ok? && r.value.Some?) <==>
      (name in plugins && run(plugins[name], RunTimeout(timeout)).Returned? &&
       run(plugins[name], RunTimeout(timeout)).out.Ok? && run(plugins[name], RunTimeout(timeout)).out.value.Some?)
    ensures r.Ok? && r.value.Some? ==>
      r.value.value == Stamp(run(plugins[name], RunTimeout(timeout)).out.value.value, started, finished)
  {
    match PluginManager.Get(plugins, name)
    case Err(e) => Err(e)
    case Ok(p) =>
      match run(p, RunTimeout(timeout))
      case Panicked => Ok(None)
      case Returned(Err(e)) => Err(e)
      case Returned(Ok(out)) =>
        if out.None? then Err("plugin returned nil result") else Ok(Some(Stamp(out.value, started, finished)))
  }

  /** One run of a job's plugin: a result with the instants around it, or
      an error (`None` when the plugin returned neither). */
  datatype Attempt = Completed(result: ScanResult, started: int, finished: int) | Errored(err: Option<string>)

  function Pow2(k: nat): (p: nat)
    ensures p >= 1
  {
    if k == 0 then 1 else 2 * Pow2(k - 1)
  }

  /** The wait after failed attempt `k`: the backoff doubled `k` times,
      capped at `cap`. */
  function Backoff(base: int, cap: int, k: nat): int {
    var b := base * Pow2(k);
    if b > cap then cap else b
  }

  /** With positive settings every wait is positive, never above the cap,
      and the waits never shrink. */
  lemma BackoffBounds(base: int, cap: int, k: nat)
    requires base > 0 && cap > 0
    ensures 0 < Backoff(base, cap, k) <= cap
    ensures Backoff(base, cap, k) <= Backoff(base, cap, k + 1)
  {
    assert base * Pow2(k + 1) == 2 * (base * Pow2(k));
  }

  /** How many attempts the retry loop makes from attempt `k` on: it stops
      at the first completed attempt or after attempt `maxRetries`. */
  function TriesFrom(maxRetries: nat, attempt: nat -> Attempt, k: nat): (n: nat)
    requires k <= maxRetries
    ensures k < n <= maxRetries + 1
    ensures forall j :: k <= j < n - 1 ==> attempt(j).Errored?
    ensures n <= maxRetries ==> attempt(n - 1).Completed?
    decreases maxRetries - k
  {
    if attempt(k).Completed? || k == maxRetries then k + 1 else TriesFrom(maxRetries, attempt, k + 1)
  }

  function Tries(maxRetries: nat, attempt: nat -> Attempt): nat {
    TriesFrom(maxRetries, attempt, 0)
  }

  /** `executeWithRetry`: attempt `k` is `attempt(k)`; `waits` are the
      sleeps between attempts. The first completed attempt's result is
      returned, stamped; after `maxRetries + 1` failures the last error is,
      or "job failed" when that attempt gave none. */
  method ExecuteWithRetry(cfg: JobConfig, attempt: nat -> Attempt) returns (r: Result<ScanResult>, waits: seq<int>)
    requires cfg.maxRetries >= 0
    ensures Tries(cfg.maxRetries, attempt) <= cfg.maxRetries + 1
    ensures |waits| == Tries(cfg.maxRetries, attempt) - 1
    ensures forall k :: 0 <= k < |waits| ==> waits[k] == Backoff(cfg.retryBackoff, cfg.retryMax, k)
    ensures r.Ok? <==> attempt(Tries(cfg.maxRetries, attempt) - 1).Completed?
    ensures r.Ok? ==>
      var a := attempt(Tries(cfg.maxRetries, attempt) - 1);
      r.value == Stamp(a.result, a.started, a.finished)
    ensures r.Err? ==>
      Tries(cfg.maxRetries, attempt) == cfg.maxRetries + 1 &&
      r.error == attempt(cfg.maxRetries).err.GetOr("job failed")
  {
    var lastErr: Option<string> := None;
    waits := [];
    var k: nat := 0;
    while k <= cfg.maxRetries
      invariant k <= cfg.maxRetries + 1
      invariant forall j :: 0 <= j < k ==> attempt(j).Errored?
      invariant |waits| == (if k <= cfg.maxRetries then k else cfg.maxRetries)
      invariant forall j :: 0 <= j < |waits| ==> waits[j] == Backoff(cfg.retryBackoff, cfg.retryMax, j)
      invariant k > 0 ==> lastErr == attempt(k - 1).err
      decreases cfg.maxRetries + 1 - k
    {
      var a := attempt(k);
      if a.Completed? {
        r := Ok(Stamp(a.result, a.started, a.finished));
        return;
      }
      lastErr := a.err;
      if k < cfg.maxRetries {
        waits := waits + [Backoff(cfg.retryBackoff, cfg.retryMax, k)];
      }
      k := k + 1;
    }
    r := Err(lastErr.GetOr("job failed"));
  }

  // ---------------------------------------------------------------------------
  // The backoff as written: `RetryBackoff * time.Duration(1<<attempt)` is
  // int64 arithmetic, which wraps.

  const Two64: int := 0x1_0000_0000_0000_0000

  /** Two's-complement wrap-around of an integer into `int64`. */
  function Wrap64(x: int): (r: int)
    ensures Decimal.MinInt64 <= r <= Decimal.MaxInt64
    ensures Decimal.MinInt64 <= x <= Decimal.MaxInt64 ==> r == x
  {
    (x - Decimal.MinInt64) % Two64 + Decimal.MinInt64
  }

  /** `time.Duration(1) << k` on `int64`: zero once every bit is shifted
      out. */
  function Shift64(k: nat): int {
    if k >= 64 then 0 else Wrap64(Pow2(k))
  }

  /** The wait after failed attempt `k` as the loop computes it. */
  function BackoffAsWritten(base: int, cap: int, k: nat): int {
    var b := Wrap64(base * Shift64(k));
    if b > cap then cap else b
  }

  /** While the product fits in `int64` the loop computes the intended wait. */
  lemma BackoffAsWrittenAgrees(base: int, cap: int, k: nat)
    requires 0 < base && k < 63 && base * Pow2(k) <= Decimal.MaxInt64
    ensures BackoffAsWritten(base, cap, k) == Backoff(base, cap, k)
  {
    Pow2Below(k);
  }

  lemma {:induction false} Pow2Add(a: nat, b: nat)
    ensures Pow2(a + b) == Pow2(a) * Pow2(b)
  {
    if b > 0 {
      Pow2Add(a, b - 1);
    }
  }

  lemma Pow2Of33()
    ensures Pow2(33) == 0x2_0000_0000
  {
    assert Pow2(4) == 16;
    Pow2Add(4, 4);
    Pow2Add(8, 8);
    Pow2Add(16, 16);
    Pow2Add(32, 1);
  }

  lemma {:induction false} Pow2Below(k: nat)
    requires k <= 62
    ensures Pow2(k) <= 0x4000_0000_0000_0000
    decreases 62 - k
  {
    if k < 62 {
      Pow2Below(k + 1);
      assert Pow2(k + 1) == 2 * Pow2(k);
    } else {
      Pow2Of33();
      Pow2Add(33, 29);
      assert Pow2(29) == 0x2000_0000 by {
        assert Pow2(4) == 16 && Pow2(5) == 32;
        Pow2Add(4, 4);
        Pow2Add(8, 5);
        Pow2Add(16, 13);
      }
    }
  }

  /** With the default two-second backoff and thirty-second cap, the wait
      after attempt 33 wraps to a negative duration, so the retry follows at
      once instead of after the cap. */
  lemma BackoffAsWrittenWraps()
    ensures BackoffAsWritten(DefaultRetryBackoff, DefaultRetryMax, 33) < 0
    ensures Backoff(DefaultRetryBackoff, DefaultRetryMax, 33) == DefaultRetryMax
  {
    Pow2Of33();
  }

  // ---------------------------------------------------------------------------
  // Job state

  /** `updateState`: a run is recorded at `now`; a failure extends the
      failure streak and keeps its message, a success ends the streak. */
  function UpdateState(st: JobState, status: Status, err: Option<string>, now: int): (r: JobState)
    ensures r.lastRun == At(now) && r.lastStatus == Some(status)
    ensures err.Some? ==>
      r.consecutiveFailures == st.consecutiveFailures + 1 && r.lastErrorMessage == err.value &&
      r.lastError == At(now) && r.lastSuccess == st.lastSuccess
    ensures err.None? ==>
      r.consecutiveFailures == 0 && r.lastErrorMessage == "" &&
      r.lastSuccess == At(now) && r.lastError == st.lastError
  {
    match err
    case Some(e) =>
      st.(lastRun := At(now), lastStatus := Some(status), lastError := At(now),
          lastErrorMessage := e, consecutiveFailures := st.consecutiveFailures + 1)
    case None =>
      st.(lastRun := At(now), lastStatus := Some(status), lastSuccess := At(now),
          lastErrorMessage := "", consecutiveFailures := 0)
  }

  /** A finished run as `updateState` sees it. */
  datatype Run = Run(status: Status, err: Option<string>, now: int)

  function UpdateAll(st: JobState, runs: seq<Run>): JobState {
    if runs == [] then st
    else
      var last := runs[|runs| - 1];
      UpdateState(UpdateAll(st, runs[..|runs| - 1]), last.status, last.err, last.now)
  }

  /** How many runs at the end of `runs` failed. */
  function TrailingFailures(runs: seq<Run>): (n: nat)
    ensures n <= |runs|
  {
    if runs == [] || runs[|runs| - 1].err.None? then 0 else TrailingFailures(runs[..|runs| - 1]) + 1
  }

  /** The failure streak after a series of runs is the number of failed
      runs since the last success, added to the old streak when none
      succeeded. */
  lemma {:induction false} StreakCountsTrailingFailures(st: JobState, runs: seq<Run>)
    ensures UpdateAll(st, runs).consecutiveFailures ==
      TrailingFailures(runs) + (if TrailingFailures(runs) == |runs| then st.consecutiveFailures else 0)
  {
    if runs != [] {
      StreakCountsTrailingFailures(st, runs[..|runs| - 1]);
    }
  }

  /** `executeJob`: a job that forbids overlap and is already running is
      skipped; otherwise the outcome of `executeWithRetry` is recorded and a
      result is handed on (the second component). */
  function ExecuteJob(j: Job, outcome: Result<ScanResult>, now: int): (r: (Job, Option<ScanResult>))
    ensures !j.cfg.allowOverlap && j.running ==> r == (j, None)
    ensures j.cfg.allowOverlap || !j.running ==>
      r.0 == j.(state := r.0.state) && r.0.state.lastRun == At(now)
    ensures (j.cfg.allowOverlap || !j.running) && outcome.Err? ==>
      r.1 == None && r.0.state == UpdateState(j.state, Failed, Some(outcome.error), now)
    ensures (j.cfg.allowOverlap || !j.running) && outcome.Ok? ==>
      r.1 == Some(outcome.value) && r.0.state == UpdateState(j.state, outcome.value.status, None, now)
  {
    if !j.cfg.allowOverlap && j.running then (j, None)
    else if outcome.Err? then (j.(state := UpdateState(j.state, Failed, Some(outcome.error), now)), None)
    else (j.(state := UpdateState(j.state, outcome.value.status, None, now)), Some(outcome.value))
  }
}

=== FILE: seqs.dfy ===
/** Sequence helpers shared by the bounded buffers of the daemon: the
    result history, the baseline samples and the tail of a log file. */
module Seqs {

  function Min(a: int, b: int): int {
    if a < b then a else b
  }

  /** The last `n` elements of `xs` (all of them when it is shorter). */
  function Last<T>(xs: seq<T>, n: nat): (r: seq<T>)
    ensures |r| == Min(|xs|, n)
  {
    xs[|xs| - Min(|xs|, n)..]
  }

  /** Keeping the last `n` before appending loses nothing the final
      trimming would keep. */
  lemma LastAppend<T>(xs: seq<T>, x: T, n: nat)
    requires n > 0
    ensures Last(Last(xs, n) + [x], n) == Last(xs + [x], n)
  {
    var k := Min(|xs|, n);
    assert Last(xs, n) + [x] == (xs + [x])[|xs| - k..];
  }
}

=== FILE: sig_registry.dfy ===
/** The registry of built-in signature sources
    (internal/signatures/registry.go). */
module SigRegistry {

  const MitreAttack: string := "mitre_attack"
  const MitreCapec: string := "mitre_capec"
  const MitreCwe: string := "mitre_cwe"
  const Nvd: string := "nvd"
  const Osv: string := "osv"
  const CisaKev: string := "cisa_kev"
  const ExploitDb: string := "exploit_db"
  const Epss: string := "epss"
  const Ghsa: string := "ghsa"

  const KnownSources: set<string> := {MitreAttack, MitreCapec, MitreCwe, Nvd, Osv, CisaKev, ExploitDb, Epss, Ghsa}

  /** The public sources offered by default, in this order. */
  const DefaultSources: seq<string> := [MitreAttack, Nvd, Osv, CisaKev, ExploitDb]

  predicate IsKnownSource(id: string) {
    id in KnownSources
  }

  /** Every default source is a known one, and none is listed twice. */
  lemma DefaultsKnownAndDistinct()
    ensures |DefaultSources| == 5
    ensures forall i :: 0 <= i < |DefaultSources| ==> IsKnownSource(DefaultSources[i])
    ensures forall i, j :: 0 <= i < j < |DefaultSources| ==> DefaultSources[i] != DefaultSources[j]
  {
  }

  /** Exactly nine distinct ids are known. */
  lemma NineKnownSources()
    ensures |KnownSources| == 9
  {
    var s := {MitreAttack, MitreCapec, MitreCwe, Nvd, Osv, CisaKev, ExploitDb, Epss, Ghsa};
    assert |{MitreAttack}| == 1;
    assert |{MitreAttack, MitreCapec}| == 2;
    assert |{MitreAttack, MitreCapec, MitreCwe}| == 3;
    assert |{MitreAttack, MitreCapec, MitreCwe, Nvd}| == 4;
    assert |{MitreAttack, MitreCapec, MitreCwe, Nvd, Osv}| == 5;
    assert |{MitreAttack, MitreCapec, MitreCwe, Nvd, Osv, CisaKev}| == 6;
    assert |{MitreAttack, MitreCapec, MitreCwe, Nvd, Osv, CisaKev, ExploitDb}| == 7;
    assert |{MitreAttack, MitreCapec, MitreCwe, Nvd, Osv, CisaKev, ExploitDb, Epss}| == 8;
  }

  const CustomPrefix: string := "custom:"

  /** No `custom:` id is a built-in one, which is why configuration accepts
      such ids separately. */
  lemma CustomNeverKnown(id: string)
    requires CustomPrefix <= id
    ensures !IsKnownSource(id)
  {
    assert id[1] == 'u';
  }
}

=== FILE: sig_store.dfy ===
/** Persistence of the signature-update status (internal/signatures/store.go):
    one JSON document in bucket "signatures" under key "status". */
module SigStore {
  import opened Wrappers
  import opened ScannerTypes
  import opened KvStore

  const Bucket: string := "signatures"
  const StatusKey: string := "status"

  /** What one source's last update did; `error` is "" on success. */
  datatype SourceStatus = SourceStatus(
    source: string,
    url: string,
    path: string,
    bytes: int,
    updatedAt: Time,
    duration: string,
    error: string)

  /** The status document. `sources` is `None` for Go's nil map. */
  datatype Status = Status(
    lastRun: Time,
    nextRun: Time,
    airgapMode: bool,
    airgapImportPath: string,
    sources: Option<map<string, SourceStatus>>)

  /** The JSON codec for the status: each direction either succeeds or
      fails with the encoder's or decoder's own error message. */
  datatype Codec = Codec(encode: Status -> Result<Bytes>, decode: Bytes -> Result<Status>)

  ghost predicate Faithful(c: Codec) {
    forall s :: c.encode(s).Ok? ==> c.decode(c.encode(s).value) == Ok(s)
  }

  /** The status reported when nothing was ever saved. */
  const Empty: Status := Status(Zero, Zero, false, "", Some(map[]))

  /** A status whose nil source map is replaced by an empty one. */
  function Normalize(s: Status): (r: Status)
    ensures r.sources.Some?
    ensures r.sources.value == s.sources.GetOr(map[])
    ensures r.(sources := s.sources) == s
  {
    if s.sources.None? then s.(sources := Some(map[])) else s
  }

  /** The sources of a loaded status (always present after `Normalize`). */
  function SourcesOf(s: Status): map<string, SourceStatus> {
    s.sources.GetOr(map[])
  }

  function SaveStatus(st: Store, c: Codec, s: Status): (r: Result<Store>)
    ensures c.encode(s).Err? ==> r == Err("encode signatures status: " + c.encode(s).error)
    ensures c.encode(s).Ok? ==> r.Ok?
    ensures r.Ok? ==> r.value == st[MakeKey(Bucket, StatusKey) := c.encode(s).value]
  {
    match c.encode(s)
    case Err(e) => Err("encode signatures status: " + e)
    case Ok(raw) => Put(st, Bucket, StatusKey, raw)
  }

  /** `LoadStatus` on whatever the store's `Get` reported: a missing document
      is the empty status, a store error is passed on, a document that does
      not decode is an error, and a decoded one has its nil map replaced. */
  function LoadStatusFrom(got: Fetched, c: Codec): (r: Result<Status>)
    ensures got.NotFound? ==> r == Ok(Empty)
    ensures got.Failed? ==> r == Err(got.msg)
    ensures got.Found? && c.decode(got.value).Err? ==> r == Err("decode signatures status: " + c.decode(got.value).error)
    ensures got.Found? && c.decode(got.value).Ok? ==> r == Ok(Normalize(c.decode(got.value).value))
    ensures r.Ok? ==> r.value.sources.Some?
  {
    match got
    case NotFound => Ok(Empty)
    case Failed(msg) => Err(msg)
    case Found(raw) =>
      match c.decode(raw)
      case Err(e) => Err("decode signatures status: " + e)
      case Ok(s) => Ok(Normalize(s))
  }

  function LoadStatus(st: Store, c: Codec): Result<Status> {
    LoadStatusFrom(Get(st, Bucket, StatusKey), c)
  }

  /** Saving then loading gives the saved status back, with a nil source map
      read back as an empty one. */
  lemma LoadAfterSave(st: Store, c: Codec, s: Status)
    requires Faithful(c)
    requires c.encode(s).Ok?
    ensures SaveStatus(st, c, s).Ok?
    ensures LoadStatus(SaveStatus(st, c, s).value, c) == Ok(Normalize(s))
  {
  }

  /** A store that never held a status loads as the empty status. */
  lemma LoadFresh(st: Store, c: Codec)
    requires MakeKey(Bucket, StatusKey) !in st
    ensures LoadStatus(st, c) == Ok(Empty)
  {
  }
}

=== FILE: sig_updater.dfy ===
/** The signature updater (internal/signatures/updater.go): it downloads
    each configured source into the cache directory, or imports an air-gap
    bundle instead, and records what happened as a status document. The
    downloads, the import and the clock are parameters; `filepath.Clean` is
    an uninterpreted function. */
module SigUpdater {
  import opened Wrappers
  import opened ScannerTypes
  import opened Text
  import opened SigRegistry
  import SigStore
  import KvStore

  datatype Config = Config(
    enabled: bool,
    updateInterval: int,
    sources: seq<string>,
    cacheDir: string,
    airgapImportPath: string,
    sourceUrls: map<string, string>)

  datatype HttpSource = HttpSource(id: string, url: string)

  const MitreAttackUrl: string := "https://raw.githubusercontent.com/mitre/cti/master/enterprise-attack/enterprise-attack.json"
  const NvdUrl: string := "https://nvd.nist.gov/feeds/json/cve/2.0/nvdcve-2.0-recent.json.gz"
  const CisaKevUrl: string := "https://www.cisa.gov/sites/default/files/feeds/known_exploited_vulnerabilities.json"
  const ExploitDbUrl: string := "https://gitlab.com/exploit-database/exploitdb/-/raw/main/files_exploits.csv"

  /** `defaultSourceURLs`: every known source, the optional ones without a
      URL until an override gives one. */
  function DefaultSourceUrls(): (m: map<string, string>)
    ensures m.Keys == KnownSources
  {
    map[MitreAttack := MitreAttackUrl, Nvd := NvdUrl, CisaKev := CisaKevUrl, ExploitDb := ExploitDbUrl,
        Osv := "", MitreCapec := "", MitreCwe := "", Epss := "", Ghsa := ""]
  }

  /** `builtInSources`: one HTTP source per known or overridden id; an
      override replaces the default URL. */
  function BuiltInSources(overrides: map<string, string>): (m: map<string, HttpSource>)
    ensures m.Keys == KnownSources + overrides.Keys
    ensures forall id :: id in m ==> m[id].id == id
    ensures forall id :: id in overrides ==> m[id].url == overrides[id]
    ensures forall id :: id in m && id !in overrides ==> m[id].url == DefaultSourceUrls()[id]
  {
    var urls := DefaultSourceUrls() + overrides;
    map id | id in urls :: HttpSource(id, urls[id])
  }

  /** The text before the first '?'. */
  function BeforeQuery(s: string): (r: string)
    ensures r <= s && '?' !in r
    ensures |r| < |s| ==> s[|r|] == '?'
  {
    if s == [] || s[0] == '?' then [] else [s[0]] + BeforeQuery(s[1..])
  }

  function StripTrailingSlashes(s: string): (r: string)
    ensures r <= s && (r == [] || r[|r| - 1] != '/')
    ensures forall i :: |r| <= i < |s| ==> s[i] == '/'
  {
    if s == [] || s[|s| - 1] != '/' then s else StripTrailingSlashes(s[..|s| - 1])
  }

  /** The text after the last '/'. */
  function AfterLastSlash(s: string): (r: string)
    ensures '/' !in r
    ensures |r| <= |s| && r == s[|s| - |r|..]
    ensures |r| < |s| ==> s[|s| - |r| - 1] == '/'
  {
    if s == [] || s[|s| - 1] == '/' then [] else AfterLastSlash(s[..|s| - 1]) + [s[|s| - 1]]
  }

  /** Go's `path.Base`: "." for the empty path, "/" for a path of slashes,
      else the last element once trailing slashes are removed. */
  function PathBase(p: string): (r: string)
    ensures p == "" ==> r == "."
    ensures r != "/" ==> '/' !in r
    ensures r != []
    ensures '?' !in p ==> '?' !in r
  {
    if p == "" then "."
    else
      var stripped := StripTrailingSlashes(p);
      var last := AfterLastSlash(stripped);
      assert forall c :: c in last ==> c in p by {
        forall c | c in last ensures c in p {
          var i :| 0 <= i < |last| && last[i] == c;
          assert stripped[|stripped| - |last| + i] == c;
          assert p[|stripped| - |last| + i] == c;
        }
      }
      if last == "" then "/" else last
  }

  /** `filenameForURL`: the trimmed last path element of the URL without its
      query, or "" when that is ".", "/" or empty. */
  function FilenameForUrl(raw: string): (name: string)
    ensures name != "" ==> '/' !in name && '?' !in name && name != "." && Trimmed(name)
  {
    var b := PathBase(BeforeQuery(raw));
    var base := Trim(b);
    TrimWithin(b);
    if base == "." || base == "/" || base == "" then ""
    else
      assert b != "/" by {
        if b == "/" { assert Trimmed(b); }
      }
      base
  }

  /** The file name read off a URL whose query-less last element is a
      plain name. */
  lemma FilenameOfBase(raw: string, name: string)
    requires PathBase(BeforeQuery(raw)) == name
    requires name != "" && name != "." && '/' !in name && Trimmed(name)
    ensures FilenameForUrl(raw) == name
  {
    assert name != "/" by { assert "/"[0] == '/'; }
  }

  /** The file a download is saved as. */
  function DownloadName(url: string): (name: string)
    ensures name != ""
    ensures FilenameForUrl(url) != "" ==> name == FilenameForUrl(url)
    ensures FilenameForUrl(url) == "" ==> name == "latest.data"
  {
    var f := FilenameForUrl(url);
    if f == "" then "latest.data" else f
  }

  /** A URL ending in a plain file name, with or without a query, is saved
      under that name. */
  lemma FilenameOfPlainUrl(prefix: string, name: string, query: string)
    requires name != "" && name != "." && '/' !in name && '?' !in name && Trimmed(name)
    requires '?' !in prefix
    ensures FilenameForUrl(prefix + "/" + name) == name
    ensures FilenameForUrl(prefix + "/" + name + "?" + query) == name
  {
    var url := prefix + "/" + name;
    assert '?' !in url by {
      assert forall i :: 0 <= i < |url| ==> url[i] == (if i < |prefix| then prefix[i] else if i == |prefix| then '/' else name[i - |prefix| - 1]);
    }
    BeforeQueryWhole(url);
    BeforeQueryOf(url, query);
    AfterLastSlashOf(prefix, name);
    BaseOfPlain(prefix, name);
    FilenameOfBase(url, name);
    FilenameOfBase(url + "?" + query, name);
  }

  lemma {:induction false} BeforeQueryWhole(s: string)
    requires '?' !in s
    ensures BeforeQuery(s) == s
  {
    if s != [] {
      assert s[1..] == s[1..];
      assert forall c :: c in s[1..] ==> c in s;
      BeforeQueryWhole(s[1..]);
    }
  }

  lemma {:induction false} BeforeQueryOf(s: string, query: string)
    requires '?' !in s
    ensures BeforeQuery(s + "?" + query) == s
  {
    if s != [] {
      assert (s + "?" + query)[1..] == s[1..] + "?" + query;
      assert forall c :: c in s[1..] ==> c in s;
      BeforeQueryOf(s[1..], query);
      assert s == [s[0]] + s[1..];
    } else {
      assert (s + "?" + query)[0] == '?';
    }
  }

  lemma BaseOfPlain(prefix: string, name: string)
    requires name != "" && '/' !in name
    requires AfterLastSlash(prefix + "/" + name) == name
    ensures PathBase(prefix + "/" + name) == name
  {
    var p := prefix + "/" + name;
    assert p[|p| - 1] == name[|name| - 1];
    assert name[|name| - 1] in name;
  }

  lemma {:induction false} AfterLastSlashOf(prefix: string, name: string)
    requires '/' !in name
    ensures AfterLastSlash(prefix + "/" + name) == name
    decreases |name|
  {
    var p := prefix + "/" + name;
    if name != [] {
      var front := name[..|name| - 1];
      assert p[..|p| - 1] == prefix + "/" + front;
      assert name[|name| - 1] in name;
      assert forall c :: c in front ==> c in name;
      AfterLastSlashOf(prefix, front);
      assert front + [name[|name| - 1]] == name;
    } else {
      assert p == prefix + "/";
    }
  }

  /** Every source is filed under its own id, as `builtInSources` files
      them. */
  predicate Keyed(sources: map<string, HttpSource>) {
    forall id :: id in sources ==> sources[id].id == id
  }

  lemma BuiltInKeyed(overrides: map<string, string>)
    ensures Keyed(BuiltInSources(overrides))
  {
  }

  /** What a download of one source ended in: the bytes written, when it
      finished and how long it took, or the error. */
  datatype Download = Downloaded(bytes: int, updatedAt: Time, duration: string) | DownloadFailed(msg: string)

  /** `HTTPSource.Update`: the status always names the source and its URL;
      a source without a URL fails before any download. `join` is
      `filepath.Join`. */
  function SourceUpdate(src: HttpSource, destDir: string, join: (string, string) -> string, dl: Download)
    : (r: (SigStore.SourceStatus, Outcome))
    ensures r.0.source == src.id && r.0.url == src.url && r.0.error == ""
    ensures src.url == "" ==> r.1 == Fail("no URL configured for source " + src.id) && r.0.path == ""
    ensures src.url != "" && dl.DownloadFailed? ==> r.1 == Fail(dl.msg) && r.0.path == ""
    ensures src.url != "" && dl.Downloaded? ==>
      r.1 == Pass && r.0.path == join(destDir, DownloadName(src.url)) && r.0.bytes == dl.bytes
  {
    var status := SigStore.SourceStatus(src.id, src.url, "", 0, Zero, "", "");
    if src.url == "" then (status, Fail("no URL configured for source " + src.id))
    else
      match dl
      case DownloadFailed(msg) => (status, Fail(msg))
      case Downloaded(bytes, at, took) =>
        (status.(path := join(destDir, DownloadName(src.url)), bytes := bytes, updatedAt := at, duration := took), Pass)
  }

  /** What the run needs from the outside world: the time it started, the
      outcome and completion time of an air-gap import, and the download
      outcome for the source at each position of the configured list. */
  datatype World = World(now: int, imported: Outcome, importedAt: int, downloads: nat -> Download)

  const NotRegistered: string := "source not registered"

  /** The entry the per-source loop records for position `i`. */
  function Entry(cfg: Config, sources: map<string, HttpSource>, join: (string, string) -> string, w: World, i: nat)
    : (e: SigStore.SourceStatus)
    requires Keyed(sources) && i < |cfg.sources|
    ensures e.source == cfg.sources[i]
    ensures cfg.sources[i] !in sources ==> e == SigStore.SourceStatus(cfg.sources[i], "", "", 0, Zero, "", NotRegistered)
  {
    var id := cfg.sources[i];
    if id !in sources then SigStore.SourceStatus(id, "", "", 0, Zero, "", NotRegistered)
    else
      var (st, out) := SourceUpdate(sources[id], join(cfg.cacheDir, id), join, w.downloads(i));
      if out.Fail? then st.(error := out.error) else st
  }

  /** The map a loop builds by recording `vals[j]` under `ids[j]` for each
      position in turn, so that a later position overwrites an earlier one. */
  function Record<V>(ids: seq<string>, vals: seq<V>): (m: map<string, V>)
    requires |ids| == |vals|
    ensures forall id :: id in m <==> id in ids
    ensures forall id :: id in m ==> exists j :: 0 <= j < |ids| && ids[j] == id && m[id] == vals[j]
  {
    if ids == [] then map[]
    else
      var n := |ids| - 1;
      var prev := Record(ids[..n], vals[..n]);
      assert ids == ids[..n] + [ids[n]];
      assert forall j :: 0 <= j < n ==> ids[..n][j] == ids[j] && vals[..n][j] == vals[j];
      prev[ids[n] := vals[n]]
  }

  /** An id keeps the value of its last position. */
  lemma {:induction false} RecordKeepsLast<V>(ids: seq<string>, vals: seq<V>, i: nat)
    requires |ids| == |vals| && i < |ids|
    requires forall j :: i < j < |ids| ==> ids[j] != ids[i]
    ensures ids[i] in Record(ids, vals) && Record(ids, vals)[ids[i]] == vals[i]
  {
    var n := |ids| - 1;
    if i < n {
      assert ids[..n][i] == ids[i] && vals[..n][i] == vals[i];
      forall j | i < j < n
        ensures ids[..n][j] != ids[..n][i]
      {
        assert ids[..n][j] == ids[j];
      }
      RecordKeepsLast(ids[..n], vals[..n], i);
    }
  }

  /** The entries the per-source loop records for the first `n` positions. */
  function EntryList(cfg: Config, sources: map<string, HttpSource>, join: (string, string) -> string, w: World, n: nat)
    : (es: seq<SigStore.SourceStatus>)
    requires Keyed(sources) && n <= |cfg.sources|
    ensures |es| == n && forall j :: 0 <= j < n ==> es[j] == Entry(cfg, sources, join, w, j)
  {
    seq(n, j requires 0 <= j < n => Entry(cfg, sources, join, w, j))
  }

  /** The per-source entries for the first `n` configured ids; a repeated
      id keeps its last entry. */
  function Entries(cfg: Config, sources: map<string, HttpSource>, join: (string, string) -> string, w: World, n: nat)
    : (m: map<string, SigStore.SourceStatus>)
    requires Keyed(sources) && n <= |cfg.sources|
    ensures forall id :: id in m <==> id in cfg.sources[..n]
    ensures forall id :: id in m ==> m[id].source == id
    ensures forall id :: id in m && id !in sources ==> m[id].error == NotRegistered
  {
    var ids := cfg.sources[..n];
    var es := EntryList(cfg, sources, join, w, n);
    var m := Record(ids, es);
    assert forall id :: id in m ==> m[id].source == id && (id !in sources ==> m[id].error == NotRegistered) by {
      forall id | id in m
        ensures m[id].source == id && (id !in sources ==> m[id].error == NotRegistered)
      {
        var j :| 0 <= j < n && ids[j] == id && m[id] == es[j];
        assert ids[j] == cfg.sources[j];
      }
    }
    m
  }

  /** The entry of an id is the one its last position in the list
      produced. */
  lemma EntriesKeepLast(cfg: Config, sources: map<string, HttpSource>, join: (string, string) -> string,
                        w: World, n: nat, i: nat)
    requires Keyed(sources) && i < n <= |cfg.sources|
    requires forall j :: i < j < n ==> cfg.sources[j] != cfg.sources[i]
    ensures cfg.sources[i] in Entries(cfg, sources, join, w, n)
    ensures Entries(cfg, sources, join, w, n)[cfg.sources[i]] == Entry(cfg, sources, join, w, i)
  {
    var ids := cfg.sources[..n];
    forall j | i < j < n
      ensures ids[j] != ids[i]
    {
      assert ids[j] == cfg.sources[j];
    }
    RecordKeepsLast(ids, EntryList(cfg, sources, join, w, n), i);
  }

  const AirgapKey: string := "airgap"

  /** `runOnce`: the status of one update run. The store, when there is one,
      receives the status; a failed save is ignored. */
  function RunOnce(cfg: Config, sources: map<string, HttpSource>, join: (string, string) -> string, w: World)
    : (s: SigStore.Status)
    requires Keyed(sources)
    ensures s.lastRun == At(w.now)
    ensures s.nextRun == (if cfg.updateInterval > 0 then At(w.now + cfg.updateInterval) else Zero)
    ensures s.airgapMode <==> cfg.airgapImportPath != ""
    ensures s.airgapImportPath == cfg.airgapImportPath
    ensures s.sources.Some?
    ensures cfg.airgapImportPath != "" ==> (
      s.sources.value.Keys == {AirgapKey} &&
      s.sources.value[AirgapKey].source == AirgapKey &&
      (w.imported.Fail? ==> s.sources.value[AirgapKey].error == w.imported.error && s.sources.value[AirgapKey].path == "") &&
      (w.imported.Pass? ==> s.sources.value[AirgapKey].error == "" && s.sources.value[AirgapKey].path == cfg.cacheDir))
    ensures cfg.airgapImportPath == "" ==> (
      (forall id :: id in s.sources.value <==> id in cfg.sources) &&
      (forall id :: id in s.sources.value && id !in sources ==> s.sources.value[id].error == NotRegistered))
  {
    var base := SigStore.Status(At(w.now), if cfg.updateInterval > 0 then At(w.now + cfg.updateInterval) else Zero,
                                cfg.airgapImportPath != "", cfg.airgapImportPath, Some(map[]));
    if cfg.airgapImportPath != "" then
      var entry := if w.imported.Fail? then SigStore.SourceStatus(AirgapKey, "", "", 0, Zero, "", w.imported.error)
                   else SigStore.SourceStatus(AirgapKey, "", cfg.cacheDir, 0, At(w.importedAt), "", "");
      base.(sources := Some(map[AirgapKey := entry]))
    else
      var m := Entries(cfg, sources, join, w, |cfg.sources|);
      assert cfg.sources[..|cfg.sources|] == cfg.sources;
      base.(sources := Some(m))
  }

  /** A run with an id that has no source records "source not registered"
      for it, and a source whose download failed records the failure. */
  lemma RunOnceRecordsFailures(cfg: Config, sources: map<string, HttpSource>, join: (string, string) -> string, w: World, i: nat)
    requires Keyed(sources) && cfg.airgapImportPath == "" && i < |cfg.sources|
    requires forall j :: i < j < |cfg.sources| ==> cfg.sources[j] != cfg.sources[i]
    requires cfg.sources[i] in sources && sources[cfg.sources[i]].url != "" && w.downloads(i).DownloadFailed?
    ensures RunOnce(cfg, sources, join, w).sources.value[cfg.sources[i]].error == w.downloads(i).msg
  {
    EntriesKeepLast(cfg, sources, join, w, |cfg.sources|, i);
  }

  /** `Trigger`: a run on demand, refused while updates are disabled. */
  function Trigger(cfg: Config, sources: map<string, HttpSource>, join: (string, string) -> string, w: World)
    : (r: Result<SigStore.Status>)
    requires Keyed(sources)
    ensures !cfg.enabled <==> r == Err("signatures updates are disabled")
    ensures r.Ok? ==> r.value == RunOnce(cfg, sources, join, w)
  {
    if !cfg.enabled then Err("signatures updates are disabled") else Ok(RunOnce(cfg, sources, join, w))
  }

  /** The store after a run: the status is saved when there is a store, and
      a failed save leaves it as it was. */
  function SaveRun(store: Option<KvStore.Store>, c: SigStore.Codec, s: SigStore.Status): (r: Option<KvStore.Store>)
    ensures store.None? <==> r.None?
    ensures store.Some? && SigStore.SaveStatus(store.value, c, s).Err? ==> r == store
  {
    match store
    case None => None
    case Some(st) =>
      match SigStore.SaveStatus(st, c, s)
      case Ok(st') => Some(st')
      case Err(_) => Some(st)
  }

  /** With a faithful codec, the status a run saved is what the status
      endpoint loads afterwards. */
  lemma StatusAfterRun(st: KvStore.Store, c: SigStore.Codec, cfg: Config, sources: map<string, HttpSource>,
                       join: (string, string) -> string, w: World)
    requires Keyed(sources) && SigStore.Faithful(c)
    requires c.encode(RunOnce(cfg, sources, join, w)).Ok?
    ensures var saved := SaveRun(Some(st), c, RunOnce(cfg, sources, join, w));
      saved.Some? && SigStore.LoadStatus(saved.value, c) == Ok(RunOnce(cfg, sources, join, w))
  {
    SigStore.LoadAfterSave(st, c, RunOnce(cfg, sources, join, w));
  }

  /** `Status`: the empty document (with no source map) without a store,
      else whatever the store holds. */
  function CurrentStatus(store: Option<KvStore.Store>, c: SigStore.Codec): (r: Result<SigStore.Status>)
    ensures store.None? ==> r == Ok(SigStore.Status(Zero, Zero, false, "", None))
    ensures store.Some? ==> r == SigStore.LoadStatus(store.value, c)
  {
    if store.None? then Ok(SigStore.Status(Zero, Zero, false, "", None)) else SigStore.LoadStatus(store.value, c)
  }

  /** `safeExtractPath`: the target an archive entry `name` is extracted to
      under `dest`, with `clean` as `filepath.Clean` and joining as Clean of
      the two parts separated by '/'. Entries that climb out of `dest` are
      refused. */
  function SafeExtractPath(dest: string, name: string, clean: string -> string): (r: Result<string>)
    ensures var cleaned := clean(name);
      (".." <= cleaned || Contains(cleaned, "../")) <==> r == Err("invalid path traversal: " + name)
    ensures r.Ok? <==>
      !(".." <= clean(name)) && !Contains(clean(name), "../") &&
      (clean(clean(dest) + "/" + clean(name)) == clean(dest) || clean(dest) + "/" <= clean(clean(dest) + "/" + clean(name)))
    ensures r.Ok? ==> r.value == clean(clean(dest) + "/" + clean(name))
    ensures r.Ok? ==> r.value == clean(dest) || clean(dest) + "/" <= r.value
  {
    var cleaned := clean(name);
    if ".." <= cleaned || Contains(cleaned, "../") then Err("invalid path traversal: " + name)
    else
      var cleanDest := clean(dest);
      var target := clean(cleanDest + "/" + cleaned);
      if target != cleanDest && !(cleanDest + "/" <= target) then
        assert ("invalid extract target: " + target)[8] != ("invalid path traversal: " + name)[8];
        Err("invalid extract target: " + target)
      else Ok(target)
  }
}

=== FILE: text.dfy ===
/** String operations of Go's `strings` package and their JavaScript
    counterparts, on `seq<char>`. White space is the ASCII set that Go's
    `unicode.IsSpace` and JavaScript's `\s` agree on. */
module Text {

  predicate IsSpace(c: char) {
    c == ' ' || c == '\t' || c == '\n' || c == '\r' || c == '\U{B}' || c == '\U{C}'
  }

  predicate AllSpace(s: string) {
    forall i :: 0 <= i < |s| ==> IsSpace(s[i])
  }

  predicate NoSpace(s: string) {
    forall i :: 0 <= i < |s| ==> !IsSpace(s[i])
  }

  lemma NoSpaceConcat(a: string, b: string)
    requires NoSpace(a) && NoSpace(b)
    ensures NoSpace(a + b)
  {
  }

  /** Neither end of `s` is white space. */
  predicate Trimmed(s: string) {
    s == [] || (!IsSpace(s[0]) && !IsSpace(s[|s| - 1]))
  }

  // ---------------------------------------------------------------------------
  // Trimming

  /** The number of white-space characters `s` starts with. */
  function LeadingSpace(s: string): (n: nat)
    ensures n <= |s| && AllSpace(s[..n])
    ensures n == |s| || !IsSpace(s[n])
  {
    if |s| > 0 && IsSpace(s[0]) then
      var m := LeadingSpace(s[1..]);
      var lead := s[..m + 1];
      assert AllSpace(lead) by {
        forall i | 0 <= i < |lead| ensures IsSpace(lead[i]) {
          if i > 0 {
            assert lead[i] == s[1..][..m][i - 1];
          }
        }
      }
      m + 1
    else
      0
  }

  function TrimLeft(s: string): (r: string)
    ensures |r| <= |s| && r == s[|s| - |r|..]
    ensures r == [] || !IsSpace(r[0])
    ensures AllSpace(s[..|s| - |r|])
  {
    s[LeadingSpace(s)..]
  }

  function TrimRight(s: string): (r: string)
    ensures |r| <= |s| && r == s[..|r|]
    ensures r == [] || !IsSpace(r[|r| - 1])
    ensures AllSpace(s[|r|..])
  {
    if |s| > 0 && IsSpace(s[|s| - 1]) then
      var r := TrimRight(s[..|s| - 1]);
      assert s[..|s| - 1][..|r|] == s[..|r|];
      assert s[|r|..] == s[..|s| - 1][|r|..] + [s[|s| - 1]];
      r
    else
      s
  }

  /** `strings.TrimSpace` in Go, `String.prototype.trim` in JavaScript. */
  function Trim(s: string): (r: string)
    ensures Trimmed(r)
    ensures r == [] <==> AllSpace(s)
    ensures Trimmed(s) ==> r == s
  {
    var l := TrimLeft(s);
    var r := TrimRight(l);
    assert r == [] ==> AllSpace(s) by {
      if r == [] {
        assert l[|r|..] == l;
        assert s[..|s|] == s;
      }
    }
    assert r != [] ==> !AllSpace(s) by {
      if r != [] {
        assert l[0] == r[0];
        assert s[|s| - |l|] == l[0];
      }
    }
    r
  }

  /** Trimming only removes characters. */
  lemma TrimWithin(s: string)
    ensures forall c :: c in Trim(s) ==> c in s
  {
    var l := TrimLeft(s);
    var r := TrimRight(l);
    forall c | c in r ensures c in s {
      var i :| 0 <= i < |r| && r[i] == c;
      assert l[i] == c;
      assert s[|s| - |l| + i] == c;
    }
  }

  /** `strings.TrimRight(s, string(c))`: drops every trailing `c`. */
  function TrimRightChar(s: string, c: char): (r: string)
    ensures |r| <= |s| && r == s[..|r|]
    ensures r == [] || r[|r| - 1] != c
    ensures forall i :: |r| <= i < |s| ==> s[i] == c
  {
    if |s| > 0 && s[|s| - 1] == c then
      var r := TrimRightChar(s[..|s| - 1], c);
      assert s[..|s| - 1][..|r|] == s[..|r|];
      r
    else
      s
  }

  /** `strings.TrimPrefix`. */
  function TrimPrefix(s: string, p: string): (r: string)
    ensures p <= s ==> p + r == s
    ensures !(p <= s) ==> r == s
  {
    if p <= s then s[|p|..] else s
  }

  /** `strings.HasSuffix`. */
  predicate HasSuffix(s: string, suffix: string) {
    |suffix| <= |s| && s[|s| - |suffix|..] == suffix
  }

  /** `strings.TrimSuffix`. */
  function TrimSuffix(s: string, suffix: string): (r: string)
    ensures HasSuffix(s, suffix) ==> r + suffix == s
    ensures !HasSuffix(s, suffix) ==> r == s
  {
    if HasSuffix(s, suffix) then s[..|s| - |suffix|] else s
  }

  /** Go's `%q` of a string holding no quote, backslash or control
      character: the string between double quotes. */
  function Quote(s: string): (r: string)
    ensures |r| == |s| + 2 && r[0] == '"' && r[|r| - 1] == '"'
    ensures r[1..|r| - 1] == s
  {
    "\"" + s + "\""
  }

  /** `strings.Contains`. */
  predicate Contains(s: string, sub: string) {
    sub <= s || (|s| > 0 && Contains(s[1..], sub))
  }

  /** ASCII case folding of `strings.ToLower`. */
  function LowerChar(c: char): char {
    if 'A' <= c <= 'Z' then (c as int + 32) as char else c
  }

  function ToLower(s: string): (r: string)
    ensures |r| == |s|
    ensures forall i :: 0 <= i < |s| ==> r[i] == LowerChar(s[i])
  {
    if s == [] then [] else [LowerChar(s[0])] + ToLower(s[1..])
  }

  /** Lower-casing twice is lower-casing once. */
  lemma ToLowerIdempotent(s: string)
    ensures ToLower(ToLower(s)) == ToLower(s)
  {
    var once := ToLower(s);
    assert forall i :: 0 <= i < |s| ==> LowerChar(once[i]) == once[i];
  }

  // ---------------------------------------------------------------------------
  // Fields: `strings.Fields`

  /** The longest prefix of `s` holding no white space. */
  function Word(s: string): (w: string)
    ensures w <= s && NoSpace(w)
    ensures |w| == |s| || IsSpace(s[|w|])
  {
    if s == [] || IsSpace(s[0]) then [] else [s[0]] + Word(s[1..])
  }

  /** The maximal runs of non-space characters of `s`, in order. */
  function Fields(s: string): (r: seq<string>)
    ensures forall k :: 0 <= k < |r| ==> r[k] != [] && NoSpace(r[k])
    decreases |s|
  {
    var t := TrimLeft(s);
    if t == [] then
      []
    else
      var w := Word(t);
      assert w != [] by { assert !IsSpace(t[0]); }
      [w] + Fields(t[|w|..])
  }

  lemma WordOfWordThenSpace(w: string, s: string)
    requires NoSpace(w)
    requires s == [] || IsSpace(s[0])
    ensures Word(w + s) == w
  {
    if w == [] {
      assert w + s == s;
    } else {
      assert (w + s)[1..] == w[1..] + s;
      WordOfWordThenSpace(w[1..], s);
    }
  }

  lemma {:induction false} LeadingSpaceOfSpace(sp: string, s: string)
    requires AllSpace(sp)
    ensures LeadingSpace(sp + s) == |sp| + LeadingSpace(s)
  {
    if sp != [] {
      assert (sp + s)[1..] == sp[1..] + s;
      LeadingSpaceOfSpace(sp[1..], s);
    } else {
      assert sp + s == s;
    }
  }

  lemma FieldsOfLeadingSpace(sp: string, s: string)
    requires AllSpace(sp)
    ensures Fields(sp + s) == Fields(s)
  {
    LeadingSpaceOfSpace(sp, s);
    assert TrimLeft(sp + s) == TrimLeft(s) by {
      assert (sp + s)[|sp| + LeadingSpace(s)..] == s[LeadingSpace(s)..];
    }
  }

  /** A word followed by white space (or nothing) is the first field. */
  lemma FieldsCons(w: string, s: string)
    requires w != [] && NoSpace(w)
    requires s == [] || IsSpace(s[0])
    ensures Fields(w + s) == [w] + Fields(s)
  {
    assert TrimLeft(w + s) == w + s by { assert (w + s)[0] == w[0]; }
    WordOfWordThenSpace(w, s);
    assert (w + s)[|w|..] == s;
  }

  /** A word, one blank, then text whose fields are known. */
  lemma FieldsOfWordThenSpaced(w: string, rest: string)
    requires w != [] && NoSpace(w)
    ensures Fields(w + (" " + rest)) == [w] + Fields(rest)
  {
    FieldsOfLeadingSpace(" ", rest);
    FieldsCons(w, " " + rest);
  }

  /** A single word is its only field. */
  lemma FieldsOfWord(w: string)
    requires w != [] && NoSpace(w)
    ensures Fields(w) == [w]
  {
    FieldsCons(w, "");
    assert w + "" == w;
    assert TrimLeft("") == "";
  }

  /** The inductive step of `FieldsOfSpaced`. */
  lemma FieldsOfSpacedStep(words: seq<string>)
    requires |words| > 1 && words[0] != [] && NoSpace(words[0])
    requires Fields(Join(words[1..], " ")) == words[1..]
    ensures Fields(Join(words, " ")) == words
  {
    var w, rest := words[0], Join(words[1..], " ");
    assert Join(words, " ") == w + (" " + rest);
    FieldsOfWordThenSpaced(w, rest);
    assert words == [w] + words[1..];
  }

  /** `strings.Fields` recovers the words that a single blank joined. */
  lemma {:induction false} FieldsOfSpaced(words: seq<string>)
    requires forall k :: 0 <= k < |words| ==> words[k] != [] && NoSpace(words[k])
    ensures Fields(Join(words, " ")) == words
  {
    if words == [] {
      assert TrimLeft([]) == [];
    } else if |words| == 1 {
      FieldsOfWord(words[0]);
    } else {
      FieldsOfSpaced(words[1..]);
      FieldsOfSpacedStep(words);
    }
  }

  // ---------------------------------------------------------------------------
  // Split and Join

  /** `strings.Join`. */
  function Join(parts: seq<string>, sep: string): string {
    if parts == [] then []
    else if |parts| == 1 then parts[0]
    else parts[0] + sep + Join(parts[1..], sep)
  }

  function IndexOf(s: string, c: char): (i: nat)
    requires c in s
    ensures i < |s| && s[i] == c && c !in s[..i]
  {
    if s[0] == c then 0 else 1 + IndexOf(s[1..], c)
  }

  /** `strings.Split(s, string(c))` (and JavaScript's `split` with a
      one-character separator): the pieces between occurrences of `c`. */
  function Split(s: string, c: char): (r: seq<string>)
    ensures |r| >= 1
    ensures forall k :: 0 <= k < |r| ==> c !in r[k]
    ensures c !in s ==> r == [s]
    decreases |s|
  {
    if c !in s then [s]
    else
      var i := IndexOf(s, c);
      [s[..i]] + Split(s[i + 1..], c)
  }

  /** Joining a first part to at least one more. */
  lemma JoinCons(head: string, tail: seq<string>, sep: string)
    requires |tail| >= 1
    ensures Join([head] + tail, sep) == head + sep + Join(tail, sep)
  {
    assert ([head] + tail)[1..] == tail;
  }

  lemma SplitAt(s: string, c: char)
    requires c in s
    ensures Split(s, c) == [s[..IndexOf(s, c)]] + Split(s[IndexOf(s, c) + 1..], c)
  {
  }

  lemma Around(s: string, i: nat)
    requires i < |s|
    ensures s == s[..i] + [s[i]] + s[i + 1..]
  {
  }

  /** Joining the pieces with the separator gives back the input. */
  lemma {:induction false} JoinSplit(s: string, c: char)
    ensures Join(Split(s, c), [c]) == s
    decreases |s|
  {
    if c in s {
      var i := IndexOf(s, c);
      SplitAt(s, c);
      JoinSplit(s[i + 1..], c);
      JoinCons(s[..i], Split(s[i + 1..], c), [c]);
      Around(s, i);
    }
  }

  /** `IndexOf` finds the first occurrence. */
  lemma {:induction false} IndexOfFirst(s: string, c: char, p: nat)
    requires p < |s| && s[p] == c && c !in s[..p]
    ensures IndexOf(s, c) == p
  {
    if p > 0 {
      assert s[0] in s[..p];
      assert s[1..][..p - 1] == s[1..p];
      assert c !in s[1..p] by { assert s[1..p] <= s[..p][1..]; }
      IndexOfFirst(s[1..], c, p - 1);
    }
  }

  /** The first piece of a split is everything before the first separator. */
  lemma SplitFirst(head: string, c: char, tail: string)
    requires c !in head
    ensures Split(head + [c] + tail, c)[0] == head
  {
    var s := head + [c] + tail;
    assert s[..|head|] == head;
    IndexOfFirst(s, c, |head|);
    SplitAt(s, c);
  }

  /** Splitting pieces joined by a separator none of them holds gives the pieces. */
  lemma {:induction false} SplitJoin(parts: seq<string>, c: char)
    requires |parts| >= 1
    requires forall k :: 0 <= k < |parts| ==> c !in parts[k]
    ensures Split(Join(parts, [c]), c) == parts
  {
    if |parts| > 1 {
      var p := |parts[0]|;
      var rest := Join(parts[1..], [c]);
      var s := parts[0] + [c] + rest;
      assert Join(parts, [c]) == s;
      assert s[p] == c;
      assert s[..p] == parts[0];
      IndexOfFirst(s, c, p);
      assert s[p + 1..] == rest;
      SplitJoin(parts[1..], c);
      assert parts == [parts[0]] + parts[1..];
    }
  }
}

=== FILE: uptime.dfy ===
/** The uptime scanner's parser of `/proc/uptime`
    (internal/plugins/system/uptime.go). `strconv.ParseFloat` is the
    parameter `parseFloat`. */
module Uptime {
  import opened Wrappers
  import Text

  const Name: string := "system.uptime"

  datatype UptimeInfo = UptimeInfo(uptimeSeconds: real, idleSeconds: real)

  /** `parseUptime`: the first two fields are the uptime and the idle time;
      fewer fields, or either one not a number, is an error, checked in
      that order. */
  function ParseUptime(raw: string, parseFloat: string -> Result<real>): (r: Result<UptimeInfo>)
    ensures var fs := Text.Fields(raw);
      r.Ok? <==> |fs| >= 2 && parseFloat(fs[0]).Ok? && parseFloat(fs[1]).Ok?
    ensures var fs := Text.Fields(raw);
      r.Ok? ==> r.value == UptimeInfo(parseFloat(fs[0]).value, parseFloat(fs[1]).value)
    ensures |Text.Fields(raw)| < 2 ==> r == Err("invalid uptime format")
    ensures var fs := Text.Fields(raw);
      |fs| >= 2 && parseFloat(fs[0]).Err? ==> r == Err("parse uptime: " + parseFloat(fs[0]).error)
    ensures var fs := Text.Fields(raw);
      |fs| >= 2 && parseFloat(fs[0]).Ok? && parseFloat(fs[1]).Err? ==> r == Err("parse idle: " + parseFloat(fs[1]).error)
  {
    var fields := Text.Fields(raw);
    if |fields| < 2 then Err("invalid uptime format")
    else
      match parseFloat(fields[0])
      case Err(e) => Err("parse uptime: " + e)
      case Ok(uptime) =>
        match parseFloat(fields[1])
        case Err(e) => Err("parse idle: " + e)
        case Ok(idle) => Ok(UptimeInfo(uptime, idle))
  }

  /** Two numbers, then anything more, read back as the two numbers: the
      extra fields are ignored. */
  lemma ParseUptimeOfRendered(a: string, b: string, extra: seq<string>, u: UptimeInfo, parseFloat: string -> Result<real>)
    requires a != [] && Text.NoSpace(a) && b != [] && Text.NoSpace(b)
    requires forall k :: 0 <= k < |extra| ==> extra[k] != [] && Text.NoSpace(extra[k])
    requires parseFloat(a) == Ok(u.uptimeSeconds) && parseFloat(b) == Ok(u.idleSeconds)
    ensures ParseUptime(Text.Join([a, b] + extra, " "), parseFloat) == Ok(u)
  {
    var words := [a, b] + extra;
    forall k | 0 <= k < |words|
      ensures words[k] != [] && Text.NoSpace(words[k])
    {
      if k >= 2 {
        assert words[k] == extra[k - 2];
      }
    }
    Text.FieldsOfSpaced(words);
    var fs := Text.Fields(Text.Join(words, " "));
    assert fs[0] == a && fs[1] == b;
  }
}

=== FILE: web_client.dfy ===
/** The dashboard's API client (web/src/lib/api.ts) and the scanners page's
    trigger buttons (web/src/pages/Scanners.tsx). The browser's `fetch`, its
    JSON decoder and `localStorage` are parameters. */
module WebClient {
  import opened Wrappers
  import ApiServer
  import SigStore

  // ---------------------------------------------------------------------------
  // The stored token

  /** The `localStorage` key holding the API token. */
  const TokenKey: string := "arcsent_token"

  type Storage = map<string, string>

  /** `getToken`: the stored token, `None` for `null`. */
  function GetToken(st: Storage): (t: Option<string>)
    ensures t.Some? <==> TokenKey in st
  {
    if TokenKey in st then Some(st[TokenKey]) else None
  }

  /** `setToken`: store `token` under the token key. */
  function SetToken(st: Storage, token: string): (r: Storage)
    ensures r.Keys == st.Keys + {TokenKey}
    ensures forall k :: k in st && k != TokenKey ==> r[k] == st[k]
  {
    st[TokenKey := token]
  }

  /** A stored token is the one read back, and nothing else in storage moves. */
  lemma TokenRoundTrip(st: Storage, token: string)
    ensures GetToken(SetToken(st, token)) == Some(token)
    ensures forall k :: k != TokenKey ==> (k in SetToken(st, token) <==> k in st)
  {
  }

  // ---------------------------------------------------------------------------
  // Requests

  type Headers = map<string, string>

  const Authorization: string := "Authorization"
  const ContentType: string := "Content-Type"

  /** The headers of a request: the token (or "" when none is stored) and
      the content type, then the caller's headers spread over them. */
  function RequestHeaders(token: Option<string>, contentType: string, caller: Headers): (h: Headers)
    ensures h.Keys == caller.Keys + {Authorization, ContentType}
    ensures forall k :: k in caller ==> h[k] == caller[k]
    ensures Authorization !in caller ==> h[Authorization] == token.GetOr("")
    ensures ContentType !in caller ==> h[ContentType] == contentType
  {
    map[Authorization := token.GetOr(""), ContentType := contentType] + caller
  }

  /** What a caller passes to `api.fetch`: an optional method and headers. */
  datatype Options = Options(httpMethod: Option<string>, headers: Headers)

  const NoOptions: Options := Options(None, map[])

  datatype Request = Request(httpMethod: string, url: string, headers: Headers)

  datatype Response = Response(status: int, statusText: string, body: string)

  /** `Response.ok`. */
  predicate Succeeded(resp: Response) {
    200 <= resp.status <= 299
  }

  /** The message of the error a failed response throws. */
  function FailureMessage(resp: Response): (msg: string)
    ensures resp.status == 401 ==> msg == "Unauthorized"
    ensures resp.status != 401 ==> msg == "Request failed: " + resp.statusText
  {
    if resp.status == 401 then "Unauthorized" else "Request failed: " + resp.statusText
  }

  /** The request `api.fetch(path, options)` sends: to "/api" + path, with
      the caller's method (`fetch`'s default GET otherwise). */
  function FetchRequest(st: Storage, path: string, options: Options): (req: Request)
    ensures req.url == ApiServer.ApiPrefix + path
    ensures req.httpMethod == options.httpMethod.GetOr("GET")
    ensures req.headers == RequestHeaders(GetToken(st), "application/json", options.headers)
  {
    Request(options.httpMethod.GetOr("GET"), ApiServer.ApiPrefix + path,
            RequestHeaders(GetToken(st), "application/json", options.headers))
  }

  /** The outcome of a request given the browser's answer: a network error
      passes through, a failed status becomes its message, and a successful
      body is decoded. */
  function Receive<T>(answer: Result<Response>, decode: string -> Result<T>): (r: Result<T>)
    ensures answer.Err? ==> r == Err(answer.error)
    ensures answer.Ok? && !Succeeded(answer.value) ==> r == Err(FailureMessage(answer.value))
    ensures answer.Ok? && Succeeded(answer.value) ==> r == decode(answer.value.body)
  {
    match answer
    case Err(e) => Err(e)
    case Ok(resp) => if Succeeded(resp) then decode(resp.body) else Err(FailureMessage(resp))
  }

  /** `api.fetch`. */
  function Fetch<T>(st: Storage, path: string, options: Options,
                    send: Request -> Result<Response>, decode: string -> Result<T>): Result<T> {
    Receive(send(FetchRequest(st, path, options)), decode)
  }

  /** The request `getMetricsText` sends: fixed headers, no caller's. */
  function MetricsRequest(st: Storage): (req: Request)
    ensures req.httpMethod == "GET" && req.url == ApiServer.ApiPrefix + "/metrics"
    ensures req.headers.Keys == {Authorization, ContentType}
    ensures req.headers[Authorization] == GetToken(st).GetOr("")
    ensures req.headers[ContentType] == "text/plain"
  {
    Request("GET", ApiServer.ApiPrefix + "/metrics", RequestHeaders(GetToken(st), "text/plain", map[]))
  }

  /** `getMetricsText`: the raw body, not decoded. */
  function GetMetricsText(st: Storage, send: Request -> Result<Response>): (r: Result<string>)
    ensures send(MetricsRequest(st)).Ok? && Succeeded(send(MetricsRequest(st)).value) ==>
      r == Ok(send(MetricsRequest(st)).value.body)
    ensures send(MetricsRequest(st)).Ok? && !Succeeded(send(MetricsRequest(st)).value) ==>
      r == Err(FailureMessage(send(MetricsRequest(st)).value))
    ensures send(MetricsRequest(st)).Err? ==> r == Err(send(MetricsRequest(st)).error)
  {
    Receive(send(MetricsRequest(st)), (body: string) => Ok(body))
  }

  /** An unauthorised answer is told apart from every other failure: no
      other status produces the message "Unauthorized". */
  lemma UnauthorizedIsDistinct(resp: Response)
    requires !Succeeded(resp)
    ensures FailureMessage(resp) == "Unauthorized" <==> resp.status == 401
  {
    if resp.status != 401 {
      assert FailureMessage(resp)[0] == 'R';
    }
  }

  // ---------------------------------------------------------------------------
  // The endpoint table

  /** The client's calls. */
  datatype Call =
    | GetStatus | GetScanners | GetFindings | GetBaselines | GetLatestResults
    | TriggerScan(plugin: string) | GetSignaturesStatus | TriggerSignaturesUpdate
    | GetMetrics

  function CallPath(c: Call): string {
    match c
    case GetStatus => "/status"
    case GetScanners => "/scanners"
    case GetFindings => "/findings"
    case GetBaselines => "/baselines"
    case GetLatestResults => "/results/latest"
    case TriggerScan(p) => "/scanners/trigger/" + p
    case GetSignaturesStatus => "/signatures/status"
    case TriggerSignaturesUpdate => "/signatures/update"
    case GetMetrics => "/metrics"
  }

  function CallMethod(c: Call): string {
    if c.TriggerScan? || c.TriggerSignaturesUpdate? then "POST" else "GET"
  }

  /** The server endpoint each call is meant for. */
  function Intended(c: Call): ApiServer.Endpoint {
    match c
    case GetStatus => ApiServer.SystemStatus
    case GetScanners => ApiServer.Scanners
    case GetFindings => ApiServer.Findings
    case GetBaselines => ApiServer.Baselines
    case GetLatestResults => ApiServer.ResultsLatest
    case TriggerScan(_) => ApiServer.Trigger
    case GetSignaturesStatus => ApiServer.SignaturesStatus
    case TriggerSignaturesUpdate => ApiServer.SignaturesUpdate
    case GetMetrics => ApiServer.Metrics
  }

  /** Every call of the client reaches the endpoint it is meant for in the
      server's mux, through the `/api` alias it is sent on. */
  lemma CallsReachServer(c: Call)
    ensures ApiServer.Route(ApiServer.ApiPrefix + CallPath(c)) == Some(Intended(c))
  {
    CallPathIsPathFor(c);
    ApiServer.RoutePathFor(Intended(c), CallName(c));
  }

  /** The plugin a call names, "" for the others. */
  function CallName(c: Call): string {
    if c.TriggerScan? then c.plugin else ""
  }

  /** The client's path for a call is the server's path for its endpoint. */
  lemma CallPathIsPathFor(c: Call)
    ensures CallPath(c) == ApiServer.PathFor(Intended(c), CallName(c))
  {
  }

  /** The signature update is sent with the one method its handler accepts. */
  lemma UpdateUsesPost(updater: Option<Result<SigStore.Status>>)
    ensures ApiServer.HandleSignaturesUpdate(CallMethod(TriggerSignaturesUpdate), updater).code != 405
  {
  }

  // ---------------------------------------------------------------------------
  // The scanners page

  /** The plugin list shown: `data.plugins`, or none when it is absent. */
  function PluginList(plugins: Option<seq<string>>): (shown: seq<string>)
    ensures plugins.Some? ==> shown == plugins.value
    ensures plugins.None? ==> shown == []
  {
    plugins.GetOr([])
  }

  /** The per-plugin spinner flags. */
  type Loading = map<string, bool>

  /** `loading[p]`: an absent entry reads as not loading. */
  predicate Spinning(l: Loading, p: string) {
    p in l && l[p]
  }

  /** The two state updates of `handleTrigger`: before the request and in
      its `finally`. The request's outcome is caught and only logged, so it
      does not appear. */
  datatype Event = Started(plugin: string) | Settled(plugin: string)

  function Apply(l: Loading, e: Event): (r: Loading)
    ensures Spinning(r, e.plugin) <==> e.Started?
    ensures forall p :: p != e.plugin ==> (Spinning(r, p) <==> Spinning(l, p))
  {
    match e
    case Started(p) => l[p := true]
    case Settled(p) => l[p := false]
  }

  function ApplyAll(l: Loading, es: seq<Event>): Loading {
    if es == [] then l else Apply(ApplyAll(l, es[..|es| - 1]), es[|es| - 1])
  }

  /** Whether the last event for `p` in `es` started a request; `None` when
      `es` has no event for `p`. */
  function LastFor(es: seq<Event>, p: string): Option<bool> {
    if es == [] then None
    else if es[|es| - 1].plugin == p then Some(es[|es| - 1].Started?)
    else LastFor(es[..|es| - 1], p)
  }

  /** However the triggers of several plugins interleave, a plugin spins
      exactly when its latest event started a request (or, with no event,
      as it did before). */
  lemma {:induction false} SpinningAfter(l: Loading, es: seq<Event>, p: string)
    ensures Spinning(ApplyAll(l, es), p) <==>
      (if LastFor(es, p).Some? then LastFor(es, p).value else Spinning(l, p))
  {
    if es != [] {
      SpinningAfter(l, es[..|es| - 1], p);
    }
  }

  /** `handleTrigger(p)` on its own: the spinner of `p` is on while the
      request runs and off afterwards whatever the request did; other
      plugins' spinners are left alone. */
  function HandleTrigger(l: Loading, p: string, outcome: Result<()>): (r: (Loading, Loading))
    ensures Spinning(r.0, p) && !Spinning(r.1, p)
    ensures forall q :: q != p ==> (Spinning(r.1, q) <==> Spinning(l, q))
  {
    var during := Apply(l, Started(p));
    (during, Apply(during, Settled(p)))
  }

  /** A failed trigger leaves the page as a successful one does. */
  lemma TriggerFailureSwallowed(l: Loading, p: string, e: string)
    ensures HandleTrigger(l, p, Err(e)) == HandleTrigger(l, p, Ok(()))
  {
  }
}

=== FILE: webui.dfy ===
/** The web-interface server (internal/webui/server.go): `/api/` requests
    pass the token gate and are forwarded unchanged to the API; every other
    path is a file of the built bundle or, failing that, the bundle's
    `index.html`. */
module WebUi {
  import opened Wrappers
  import opened Text
  import AuthGate
  import ApiServer

  const ApiSubtree: string := "/api/"

  /** What the server does with a request. */
  datatype Action =
    | Redirect(location: string)   // the mux's redirect from "/api" to "/api/"
    | Status(code: nat)            // an empty reply with this status
    | Forward(path: string)        // handed to the reverse proxy
    | ServeFile(name: string)      // a file of the bundle
    | ServeIndex                   // the bundle's index.html
    | ErrorText(code: nat, text: string)

  /** The proxy's target: present when an API address is configured and
      `http://` + address parses as a URL (`parses` stands for `url.Parse`). */
  function ApiTarget(apiAddr: string, parses: string -> bool): (target: Option<string>)
    ensures target.Some? <==> apiAddr != "" && parses("http://" + apiAddr)
  {
    if apiAddr != "" && parses("http://" + apiAddr) then Some("http://" + apiAddr) else None
  }

  /** `proxyAPI`: 503 when there is no target, otherwise the request goes to
      the API with its path as it is. */
  function Proxy(target: Option<string>, path: string): (a: Action)
    ensures target.None? <==> a == Status(503)
    ensures target.Some? ==> a == Forward(path)
  {
    if target.None? then Status(503) else Forward(path)
  }

  /** The single-page-application handler: `bundle` is the set of names the
      embedded file system opens, `hasIndex` whether it holds `index.html`. */
  function Spa(bundle: set<string>, hasIndex: bool, path: string): (a: Action)
    ensures TrimPrefix(path, "/") != "" && TrimPrefix(path, "/") in bundle ==> a == ServeFile(TrimPrefix(path, "/"))
    ensures !(TrimPrefix(path, "/") != "" && TrimPrefix(path, "/") in bundle) ==>
      a == (if hasIndex then ServeIndex else ErrorText(500, "Web UI not built"))
  {
    var name := TrimPrefix(path, "/");
    if name != "" && name in bundle then ServeFile(name)
    else if hasIndex then ServeIndex
    else ErrorText(500, "Web UI not built")
  }

  /** The mux: the `/api/` subtree (with the redirect for its bare root) goes
      through the gate to the proxy; everything else to the SPA handler. */
  function Handle(token: string, target: Option<string>, bundle: set<string>, hasIndex: bool,
                  path: string, header: string, query: string): (a: Action)
    ensures ApiSubtree <= path ==>
      a == (match AuthGate.WithAuth(token, header, query, Proxy(target, path))
            case Unauthorized => Status(401)
            case Passed(next) => next)
    ensures path == "/api" ==> a == Redirect(ApiSubtree)
    ensures !(ApiSubtree <= path) && path != "/api" ==> a == Spa(bundle, hasIndex, path)
  {
    if ApiSubtree <= path then
      match AuthGate.WithAuth(token, header, query, Proxy(target, path))
      case Unauthorized => Status(401)
      case Passed(next) => next
    else if path == "/api" then Redirect(ApiSubtree)
    else Spa(bundle, hasIndex, path)
  }

  /** Only the `/api/` subtree is guarded: no other path is refused for a
      missing or wrong token. */
  lemma OnlyApiGuarded(token: string, target: Option<string>, bundle: set<string>, hasIndex: bool,
                       path: string, header: string, query: string)
    requires !(ApiSubtree <= path)
    ensures Handle(token, target, bundle, hasIndex, path, header, query) != Status(401)
  {
  }

  /** The landing page is served without a token once the bundle is built. */
  lemma LandingNeedsNoToken(token: string, target: Option<string>, bundle: set<string>, header: string, query: string)
    ensures Handle(token, target, bundle, true, "/", header, query) == ServeIndex
  {
    assert !(ApiSubtree <= "/");
    assert TrimPrefix("/", "/") == "";
  }

  /** The proxy's gate applies the API's rule, `AuthGate.Admits`, with the
      web interface's own token (`web_ui.auth_token`): an `/api/` request is
      refused exactly when that rule refuses it. */
  lemma ProxyGateRule(webToken: string, target: Option<string>, bundle: set<string>, hasIndex: bool,
                      path: string, header: string, query: string)
    requires ApiSubtree <= path
    ensures Handle(webToken, target, bundle, hasIndex, path, header, query) == Status(401) <==>
      !AuthGate.Admits(webToken, header, query)
  {
  }

  /** The proxy and the API are configured with separate tokens, and the
      proxy forwards the request's credentials unchanged: a request through
      the proxy reaches an API handler exactly when both gates admit it. */
  lemma ProxiedRequestReachesApi(webToken: string, apiToken: string, target: string, bundle: set<string>,
                                 hasIndex: bool, path: string, header: string, query: string)
    requires ApiSubtree <= path
    ensures (Handle(webToken, Some(target), bundle, hasIndex, path, header, query) == Forward(path) &&
             AuthGate.WithAuth(apiToken, header, query, ()).Passed?) <==>
      AuthGate.Admits(webToken, header, query) && AuthGate.Admits(apiToken, header, query)
  {
  }

  /** With different tokens neither gate stands for the other: the web
      token passes the proxy and is refused by the API, and the API token is
      refused by the proxy although the API would admit it. */
  lemma SeparateTokensDisagree(target: string, bundle: set<string>, hasIndex: bool, path: string)
    requires ApiSubtree <= path
    ensures Handle("a", Some(target), bundle, hasIndex, path, "a", "") == Forward(path)
    ensures AuthGate.WithAuth("b", "a", "", ()) == AuthGate.Unauthorized
    ensures Handle("a", Some(target), bundle, hasIndex, path, "b", "") == Status(401)
    ensures AuthGate.WithAuth("b", "b", "", ()) == AuthGate.Passed(())
  {
  }

  /** A configured token and no credential at all: 401. */
  lemma NoCredentialRefused(token: string, target: Option<string>, bundle: set<string>, hasIndex: bool, path: string)
    requires ApiSubtree <= path && token != ""
    ensures Handle(token, target, bundle, hasIndex, path, "", "") == Status(401)
  {
  }

  /** A file of the bundle is served as it is; any other non-API path gets
      the index, so client-side routes reload. */
  lemma SpaFallback(bundle: set<string>, name: string)
    requires name != [] && name !in bundle && name[0] != '/'
    ensures Spa(bundle, true, "/" + name) == ServeIndex
    ensures Spa(bundle + {name}, true, "/" + name) == ServeFile(name)
  {
    assert ("/" + name)[1..] == name;
    assert TrimPrefix("/" + name, "/") == name;
  }

  /** With a target and the right token, an `/api/` request is forwarded
      with its path unchanged. */
  lemma ForwardedUnchanged(token: string, target: string, bundle: set<string>, hasIndex: bool, path: string)
    requires ApiSubtree <= path
    ensures Handle(token, Some(target), bundle, hasIndex, path, token, "") == Forward(path)
  {
  }

  /** The dashboard's trigger request travels through the proxy unchanged
      and reaches the trigger endpoint, whose corrected handler reads the
      plugin's name; the handler as written reads the whole path instead. */
  lemma DashboardTriggerPath(token: string, target: string, bundle: set<string>, hasIndex: bool, plugin: string)
    requires plugin != ""
    ensures Handle(token, Some(target), bundle, hasIndex, ApiServer.ApiPrefix + ApiServer.TriggerPrefix + plugin, token, "")
      == Forward(ApiServer.ApiPrefix + ApiServer.TriggerPrefix + plugin)
    ensures ApiServer.Route(ApiServer.ApiPrefix + ApiServer.TriggerPrefix + plugin) == Some(ApiServer.Trigger)
    ensures ApiServer.TriggerName(ApiServer.ApiPrefix + ApiServer.TriggerPrefix + plugin) == plugin
    ensures ApiServer.TriggerNameAsWritten(ApiServer.ApiPrefix + ApiServer.TriggerPrefix + plugin) != plugin
  {
    var path := ApiServer.ApiPrefix + ApiServer.TriggerPrefix + plugin;
    assert ApiSubtree <= path by { assert path[..5] == ApiSubtree; }
    ForwardedUnchanged(token, target, bundle, hasIndex, path);
    ApiServer.TriggerOnAlias(plugin);
  }
}

=== FILE: wrappers.dfy ===
/** The wrappers shared by every module.
    A Go `(T, error)` pair becomes a `Result<T>` whose error is the error's text;
    a nil-able pointer or an optional JSON field becomes an `Option<T>`. */
module Wrappers {

  datatype Option<+T> = None | Some(value: T) {
    function GetOr(default: T): T {
      match this
      case Some(v) => v
      case None => default
    }
  }

  /** The outcome of a Go call returning a value and an error. */
  datatype Result<+T> = Ok(value: T) | Err(error: string)

  /** The outcome of a Go call returning only an error: `Pass` is a nil error. */
  datatype Outcome = Pass | Fail(error: string)

  /** `order` lists every key of a set exactly once: the order in which an
      iteration over a Go map visits them, which the runtime leaves open. */
  ghost predicate Enumerates<K(!new)>(order: seq<K>, keys: set<K>) {
    (forall i, j :: 0 <= i < j < |order| ==> order[i] != order[j]) &&
    (forall k :: k in keys <==> k in order)
  }

  /** A sequence of distinct elements enumerating a set is as long as the
      set is large. */
  lemma {:induction false} DistinctCard<K(!new)>(order: seq<K>, keys: set<K>)
    requires Enumerates(order, keys)
    ensures |order| == |keys|
  {
    if order != [] {
      var last := order[|order| - 1];
      var front := order[..|order| - 1];
      assert Enumerates(front, keys - {last}) by {
        forall k ensures k in keys - {last} <==> k in front {
          if k in keys - {last} {
            assert k in order;
            var i :| 0 <= i < |order| && order[i] == k;
            assert i != |order| - 1;
            assert front[i] == k;
          }
        }
      }
      DistinctCard(front, keys - {last});
    }
  }
}
